=== FILE: README.md ===
# eyeblink in Dafny

A model of the signal-processing core of eyeblink, a C/C++ toolkit that
removes eye-blink artefacts from EEG recordings. The pipeline it models:

- **Matrices** (`matrix.dfy`, `matrix_file.dfy`): the column-major `Matrix`
  struct, the BLAS/LAPACK macros it is used through, and the file routines
  of `matrix.c`.
- **Convolution and wavelets** (`convolution.dfy`, `wavelets.dfy`,
  `convolution_fixtures.dfy`): the mirrored down- and up-sampling
  convolutions, `wavedec`, `wrcoef`, `idwt` and the level arithmetic.
- **Blink detection** (`blink_aux.dfy`, `blink_candidates.dfy`,
  `envelope.dfy`, `moving_average.dfy`, `blink_detect.dfy`): the eyeblink
  template, candidate search per channel, fusion across channels, the
  blink-source row of the ICA sources and its peaks.
- **Blink removal** (`blink_remove.dfy`): `blinkRemove` and `blinkFlatten`.
- **ICA** (`ica_aux.dfy`, `contrast.dfy`, `fastica.dfy`, `jade.dfy`,
  `ica_session.dfy`): centring and whitening, the FastICA contrast
  updates and iteration control, JADE's sizes and sweep control, and the
  `ica_init`/`ica_shutdown`/`ica` session.
- **XLTEK and EDF files** (`uuid.dfy`, `erd_common.dfy`, `erd.dfy`,
  `s5.dfy`, `s9.dfy`, `edf_layout.dfy`, `edf.dfy`, `bytes.dfy`): uuids,
  the ERD reader's schema dispatch, sample conversion and delta decoder,
  and the EDF header layout, conversion and channel differences.

`NUMTYPE` is modelled as `real`. Floating-point rounding, NaN and infinity
are not modelled, except where the program's behaviour hinges on a NaN or
an infinity: `maxCorrelate` on a constant signal, `correlate` on a
constant window (whose candidate `findPossibleBlinks` keeps, since NaN is
never below t_cor), `blinksInSource` with no blinks, and `edf_convert`'s
`INFINITY` start values. A NaN is `None`. Where the C code differs from what its comments or its
callers evidently intend, the model keeps the code as written and adds
the corrected definition next to it (see "## Findings"). Where the
specification text and the code disagree, the code is followed: ica.h
documents a default of 1000 FastICA iterations, but `ica` starts with
`DEF_MAX_ITER`, 400 (`IcaSession.DefaultParams`).

File I/O, clocks, threads, the GPU paths and foreign numerical routines
(`sqrt`, `tanh`, `exp`, `atof`, the eigensolver) enter as parameters or
predicates; "## Left out" lists each.

## Model

| member | source | states |
|---|---|---|
| Matrices.Offset | c_files/include/matrix.h:39-45 | element (r, c) of a column-major matrix lives at c * ld + r, and that slot decodes back to row r and column c |
| Matrices.OffsetInjective | c_files/include/matrix.h:39-45 | two (row, column) pairs with rows below ld share a slot exactly when they are equal |
| Matrices.PutAt | c_files/include/matrix.h:39-45 | writing element (r, c) changes that element and no other slot of the storage |
| Matrices.GemmAt | c_files/include/matrix.h:397-423 | every element of the GEMM result inside op(A) * op(B) is alpha times the dot product of row r of op(A) with column c of op(B) |
| Matrices.GemmOutside | c_files/include/matrix.h:397-423 | storage of C outside the product's rows and columns is left as it was |
| Matrices.DotTranspose | c_files/include/matrix.h:407-423 | the dot product of row r of op(A) and column c of op(B) equals that of row c of op(B)' and column r of op(A)', so GEMM_NT and GEMM_TN compute transposed products |
| Matrices.CovarianceSymmetric | c_files/include/matrix.h:436-445 | COVARIANCE(C, Z) = Z Z' / (cols - 1) is symmetric |
| Matrices.RowDotIsDot | c_files/include/matrix.h:427-432 | GEMV's entry r is the dot product of row r with x, the same as GEMM against x as a one-column matrix |
| Matrices.DotIdentity | c_files/include/matrix.h:397-404 | multiplying by the identity leaves every element of op(B) unchanged |
| Matrices.SetIdentity | c_files/src/ica/jade/jade.c:132-135 | zeroing the first n * n elements and then storing 1.0 at i n + i leaves exactly the identity's elements there and every later element as it was |
| MatrixFile.NewFromFile | c_files/src/matrix.c:12-87 | 0 with a NULL, 0 x 0 matrix when the file cannot be opened; otherwise 1 and rows = tokens of the first line, cols = lines, ld = rows, storage padded with zero columns up to lag |
| MatrixFile.ReadValues | c_files/src/matrix.c:33-58 | the values are stored one line after the other, so line c becomes column c |
| MatrixFile.ColPadLeast | c_files/src/matrix.c:63-72 | lag = cols + col_diff is the least multiple of 256 at or above cols |
| MatrixFile.LoadedSize | c_files/src/matrix.c:60-80 | the loaded matrix has the file's dimensions, ld == rows, a lag that is the least multiple of 256 at or above cols, and rows * lag elements of storage |
| MatrixFile.LoadedAt | c_files/src/matrix.c:33-58 | element (r, c) of the loaded matrix is value r of line c |
| MatrixFile.LoadedPadding | c_files/src/matrix.c:70-72 | every slot past rows * cols is 0 |
| MatrixFile.Free | c_files/src/matrix.c:90-98 | with storage, freeing drops it and zeroes rows and cols; without storage nothing changes; ld and lag are never touched |
| MatrixFile.FreeIdempotent | c_files/src/matrix.c:90-98 | freeing twice is freeing once |
| MatrixFile.Similar | c_files/src/matrix.c:102-119 | 1 exactly when the dimensions agree and each of the first rows * cols stored values is within epsilon of its counterpart, 0 otherwise |
| MatrixFile.CloseIsElementwise | c_files/src/matrix.c:112-116 | for compact matrices (ld == rows) the flat comparison is the element-by-element comparison, in both directions |
| MatrixFile.CloseSymmetric | c_files/src/matrix.c:112-116 | the tolerance test is symmetric in the two matrices |
| MatrixFile.PrintToFile | c_files/src/matrix.c:123-157 | 0 and no lines when the file cannot be opened; otherwise 1 and one line per column (COL_MAJOR) or per row (ROW_MAJOR) |
| MatrixFile.PrintColumns | c_files/src/matrix.c:135-142 | line c holds column c read through ld, top to bottom |
| MatrixFile.PrintRows | c_files/src/matrix.c:143-154 | line r holds row r read through ld, left to right |
| MatrixFile.ShortLinesFit | c_files/src/matrix.c:8 | a line of at most 45 values, each at most 21 characters of %.14g text, always fits the 1000-byte fgets buffer |
| MatrixFile.LongLineOverflows | c_files/src/matrix.c:8 | 46 values of the widest text do not fit, so fgets would split the line |
| MatrixFile.ColMajorRoundTrip | c_files/src/matrix.c:12-87 | a COL_MAJOR print whose lines fit the buffer reads back with the same dimensions, ld == rows and every element equal |
| MatrixFile.RowMajorRoundTrip | c_files/src/matrix.c:12-87 | a ROW_MAJOR print whose lines fit the buffer reads back as the transpose |
| Convolution.MirrorDown | c_files/src/convolution.c:11-56 | the (N + M - 1) / 2 outputs, for N samples and M taps, are the full convolution of the whole-sample symmetric extension of x with h, taken at the odd positions 1, 3, 5, ... |
| Convolution.DownLeftOutput | c_files/src/convolution.c:18-29 | a left-edge output (odd i below M - 1) is the convolution sum at i over the mirrored input |
| Convolution.DownInteriorOutput | c_files/src/convolution.c:31-40 | an interior output is the plain convolution sum at i |
| Convolution.DownRightOutput | c_files/src/convolution.c:42-55 | a right-edge output is the convolution sum at i over the mirrored input, the sample at the right end counted once |
| Convolution.MirrorUp | c_files/src/convolution.c:60-154 | the 2 N + M - 1 outputs, for N samples and M taps, are the convolution of the symmetrically extended input, up-sampled by two, with h: odd outputs take the even taps, even outputs the odd taps |
| Convolution.UpFirstOutput | c_files/src/convolution.c:67-71 | output 0 is the odd-tap sum of the window before the first sample |
| Convolution.UpLeftPair | c_files/src/convolution.c:73-95 | a left-edge pair of outputs are the even- and odd-tap sums of window i, including the extra tap of an odd-length filter |
| Convolution.UpInteriorPair | c_files/src/convolution.c:97-115 | an interior pair of outputs are the even- and odd-tap sums of window i |
| Convolution.UpRightPair | c_files/src/convolution.c:117-141 | a right-edge pair of outputs are the even- and odd-tap sums of window i over the mirrored input |
| Convolution.UpLastOutput | c_files/src/convolution.c:143-153 | an odd-length filter adds one last even-tap output |
| Convolution.UpAtAdd | c_files/src/convolution.c:60-154 | the up-sampling convolution is linear: the output for a sum of inputs is the sum of the outputs |
| Convolution.UpAtZeros | c_files/src/convolution.c:60-154 | an all-zero input gives all-zero outputs |
| ConvolutionFixtures.MirrorDownFixture1 | c_files/src/test/convolution.c:18-21 | conv_mirrorDown on the first test vector gives exactly the eight expected values |
| ConvolutionFixtures.MirrorDownFixture2 | c_files/src/test/convolution.c:27-33 | conv_mirrorDown on the second test vector gives exactly the fifteen expected values |
| ConvolutionFixtures.MirrorUpFixture1 | c_files/src/test/convolution.c:76-80 | conv_mirrorUp with the even-length filter gives exactly the thirteen expected values |
| ConvolutionFixtures.MirrorUpFixture2 | c_files/src/test/convolution.c:86-91 | conv_mirrorUp with the odd-length filter gives exactly the twenty-two expected values |
| ConvolutionFixtures.MirrorUpFixture3 | c_files/src/test/convolution.c:97-105 | conv_mirrorUp with the nine-tap filter gives exactly the forty-two expected values |
| Wavelets.FloorLog2 | c_files/src/wavelet/wavelets.c:22-31 | -1 exactly for 0, and otherwise a value below 32 |
| Wavelets.FloorLog2Bracket | c_files/src/wavelet/wavelets.c:22-31 | for a positive num, 2^r <= num < 2^(r+1): r is floor(log2 num) |
| Wavelets.MaxLevel | c_files/src/wavelet/wavelets.c:43-52 | a signal shorter than the filter gets floorLog2(0) = -1 read as unsigned, 2^32 - 1; otherwise the level is below 32 |
| Wavelets.MaxLevelBracket | c_files/src/wavelet/wavelets.c:43-52 | when the filter fits, M 2^r <= n < M 2^(r+1) for the level r returned |
| Wavelets.LevelFits | c_files/src/wavelet/wavelets.c:46-51 | a level is at most the maximum exactly when the filter fits 2^level times in the signal |
| Wavelets.MaxLevelFixtures | c_files/src/test/wavelets.c:19-33 | the six expected maximum levels of the test: 8, 9, 6, 7, 5, 6 |
| Wavelets.ClampLevel | c_files/src/wavelet/wavelets.c:62-66 | the requested level when it is at most the maximum, the maximum otherwise |
| Wavelets.WavedecResultLength | c_files/src/wavelet/wavelets.c:56-97 | the coefficient count is the sum of the per-level lengths of the clamped decomposition with the last one counted twice |
| Wavelets.CoefTotalIsLengthSum | c_files/src/wavelet/wavelets.c:56-97 | that count is the sum of the length vector wavedec fills in |
| Wavelets.CoefTotalFixture1 | c_files/src/test/wavelets.c:37-52 | the first expected result length of the test, 5113 |
| Wavelets.CoefTotalFixture2 | c_files/src/test/wavelets.c:37-52 | the second expected result length, 5130 |
| Wavelets.CoefTotalFixture3 | c_files/src/test/wavelets.c:37-52 | the third expected result length, 2401 |
| Wavelets.CoefTotalFixture4 | c_files/src/test/wavelets.c:37-52 | the fourth expected result length, 2417 |
| Wavelets.CoefTotalFixture5 | c_files/src/test/wavelets.c:37-52 | the fifth expected result length, 2752 |
| Wavelets.CoefTotalFixture6 | c_files/src/test/wavelets.c:37-52 | the sixth expected result length, 2791 |
| Wavelets.WavedecLengths | c_files/src/wavelet/wavelets.c:121-169 | lengths[0] is the last approximation length and lengths[j] the detail length of level L + 1 - j |
| Wavelets.WavedecLevelFits | c_files/src/wavelet/wavelets.c:112-116 | for a signal at least twice the filter, the clamped level is at least 1 and every level down to it can be computed |
| Wavelets.DecLevel | c_files/src/wavelet/wavelets.c:133-140 | one level splits its input into the low-pass and high-pass down-sampled convolutions |
| Wavelets.DecomposeLevels | c_files/src/wavelet/wavelets.c:145-164 | after the level loop, the scratch buffer holds the level-L approximation and the details of every level are stored, deepest first |
| Wavelets.Wavedec | c_files/src/wavelet/wavelets.c:101-174 | coefs is the level-L approximation followed by the details of levels L down to 1, and lengths their lengths, for the clamped L |
| Wavelets.WavedecFeedsWrcoef | c_files/src/wavelet/wavelets.c:101-272 | what wavedec returns is an input wrcoef can read in full: a layout wrcoef accepts, whose lengths add up to the coefficient count |
| Wavelets.WavedecBlocks | c_files/src/wavelet/wavelets.c:101-272 | the detail block wrcoef reads for level i is the detail vector wavedec computed for level i |
| Wavelets.IdwtResultLengthFixtures | c_files/src/test/wavelets.c:113-127 | the six expected reconstruction lengths of the test |
| Wavelets.IdwtResultLengthAfterDown | c_files/src/wavelet/wavelets.c:35-39 | reconstructing a level of n samples gives n + 1 samples when n + M - 1 is even and n otherwise |
| Wavelets.Idwt | c_files/src/wavelet/wavelets.c:276-311 | the result is the sum of the up-sampled low-pass convolution of cA and high-pass convolution of cD, with the first M - 1 values dropped, 2 N - M + 2 values long for N coefficients |
| Wavelets.IdwtAdd | c_files/src/wavelet/wavelets.c:276-311 | idwt is linear in the two coefficient vectors together |
| Wavelets.IdwtSplit | c_files/src/wavelet/wavelets.c:276-311 | idwt of (cA, cD) is idwt of (cA, 0) plus idwt of (0, cD) |
| Wavelets.IdwtZeros | c_files/src/wavelet/wavelets.c:276-311 | idwt of zero coefficients is zero |
| Wavelets.WrcoefLevel | c_files/src/wavelet/wavelets.c:188-193 | the level kept is the requested one exactly when it is at most the maximum and it is not a detail request for level 0; otherwise the maximum or 1 |
| Wavelets.Wrcoef | c_files/src/wavelet/wavelets.c:178-272 | approximations: the stored approximation rebuilt with the details of every level above the requested one, then with zero details; details: the stored details of that level alone rebuilt with zero approximations; 2 lengths[max] - M + 2 values |
| Wavelets.ApproxBranch | c_files/src/wavelet/wavelets.c:200-225 | the approximation branch followed by the zero-detail loop is ApproxRec |
| Wavelets.DetailBranch | c_files/src/wavelet/wavelets.c:226-268 | the detail branch followed by the zero-detail loop is DetailRec |
| Wavelets.WrcoefApproxSplit | c_files/src/wavelet/wavelets.c:178-272 | rebuilding the approximations of level l is rebuilding those of level l + 1 plus the details of level l + 1: the two branches add up |
| Wavelets.DetailRecIsRebuild | c_files/src/wavelet/wavelets.c:226-268 | the detail branch is the general rebuild with zero approximations and only level l's details |
| Wavelets.WrcoefLengthAsWritten | c_files/src/wavelet/wavelets.c:35-39 | wrcoef after wavedec rebuilds n + 1 values for a channel of n samples when n + M - 1 is even, and n otherwise |
| Wavelets.WrcoefOverrunExample | c_files/src/wavelet/wavelets.c:35-39 | a channel of 2305 samples passes the seven-level guard and wrcoef writes 2306 values |
| Wavelets.WrcoefCoversChannel | c_files/src/wavelet/wavelets.c:35-39 | the rebuilt signal is never shorter than the channel and at most one longer |
| Wavelets.WrcoefChannel | c_files/src/wavelet/wavelets.c:178-272 | wrcoef into a channel-sized buffer fills it with the first n values of the reconstruction |
| Wavelets.MaxLevelWrapPassesGuard | c_files/src/wavelet/wavelets.c:43-52 | a 10-sample channel gets the wrapped level 2^32 - 1, which passes a "level < 7" guard although the filter fits not even once |
| Wavelets.MaxLevelChecked | c_files/src/wavelet/wavelets.c:43-52 | the level with the -1 caught: always below 32 |
| Wavelets.MaxLevelCheckedIff | c_files/src/wavelet/wavelets.c:43-52 | a positive k is at most the checked level exactly when the filter fits 2^k times in the signal |
| BlinkAux.GetTemplate | c_files/src/blink/aux.c:11-43 | the template has 2 s1 + s2 - 1 samples and sample i lies on the line of the segment it belongs to: falling from 0 over s1 samples, rising from -1 over s1, then from -0.4 over s2 - 1 |
| BlinkAux.TemplateCorners | c_files/src/blink/aux.c:24-40 | the template starts at 0, holds -1 at samples s1 - 1 and s1, reaches -0.4 at the end of the second segment and ends at -0.2 |
| BlinkAux.TemplateShape | c_files/src/blink/aux.c:24-40 | the template falls strictly over its first s1 samples, rises strictly from sample s1 on, and never goes below -1 |
| BlinkAux.NextRise | c_files/src/blink/aux.c:111 | the first index from p where the detail sum crosses above the threshold, or none, and no crossing before it |
| BlinkAux.NextFall | c_files/src/blink/aux.c:116 | the first index from p where it crosses back below, or none, and no crossing before it |
| BlinkAux.Runs | c_files/src/blink/aux.c:108-134 | the runs above the threshold: each starts at a rising crossing and stops at a falling one, and the runs are disjoint and in order |
| BlinkAux.FirstMin | c_files/src/blink/aux.c:128-133 | the first index of the least value in [lo, hi): no value below it, and every earlier value strictly above |
| BlinkAux.ScanMinima | c_files/src/blink/aux.c:108-134 | the scan records, for every closed run above the threshold, the first index of the approximation's minimum over it; the indices are increasing and lie in [1, n) |
| BlinkAux.RunPicksIncrease | c_files/src/blink/aux.c:108-134 | one index picked inside each run gives increasing indices inside the channel |
| BlinkAux.CorWindow | c_files/src/blink/aux.c:148-158 | the clipped window keeps template sample s1 on the candidate, stays inside the template and, for a template no longer than the channel, inside the channel; it is cut only at the channel's ends |
| BlinkAux.RemoveUncorrelated | c_files/src/blink/aux.c:160-181 | the blinks kept are the candidates whose correlation is not below t_cor (a NaN correlation included), in order, and num_blinks is their count |
| BlinkAux.MarkUncorrelated | c_files/src/blink/aux.c:162-166 | a candidate whose correlation is below t_cor is marked -1 and every other, NaN included, keeps its index; the count left is the number of correlations not below t_cor |
| BlinkAux.CopyMarked | c_files/src/blink/aux.c:173-180 | copying the positive marks gives exactly the candidates whose correlation reaches t_cor, in order |
| BlinkAux.KeepCorrelatedSound | c_files/src/blink/aux.c:160-181 | every kept blink is a candidate whose correlation is not below t_cor (or is NaN), and increasing candidates give increasing blinks |
| BlinkAux.Score | c_files/src/blink/aux.c:284-336 | row j's score is none (NaN) when the row or the signal is constant, and otherwise a non-negative number |
| BlinkAux.MaxIndex | c_files/src/blink/aux.c:334-342 | the loop picks 0 when no value exceeds 0 (NaN never does), and otherwise the first value that exceeds 0 and that nothing beats |
| BlinkAux.PickedUnique | c_files/src/blink/aux.c:334-342 | the pick is unique: the loop's result is determined by the scores |
| BlinkAux.MaxCorrelate | c_files/src/blink/aux.c:284-349 | maxCorrelate as written picks from abs(cov / (var_row var_signal)), the lowest row on ties and row 0 when no score exceeds 0 |
| BlinkAux.MaxCorrelateFixed | c_files/src/blink/aux.c:284-349 | the same selection over the squared Pearson correlations, which order rows as the absolute correlations do |
| BlinkAux.SquareOrder | c_files/src/blink/aux.c:336 | for non-negative values, a < b exactly when a^2 < b^2, so squared correlations pick the row absolute correlations pick |
| BlinkAux.ConstantNoCovariance | c_files/src/blink/aux.c:322-329 | a row or signal whose sum of squared deviations is 0 has covariance 0 with anything, so its score is 0 / 0 |
| BlinkAux.ZerosNoScore | c_files/src/blink/aux.c:284-349 | against an all-zero signal every row's score is NaN, so maxCorrelate returns row 0 |
| BlinkAux.CoSumDot | c_files/src/blink/aux.c:322-329 | the covariance sum is the dot product of the two deviation vectors |
| BlinkAux.MaxCorrelateAmplitudeExample | c_files/src/blink/aux.c:336 | two rows that correlate perfectly with the signal get different scores, 0.25 and 0.5, because the score divides by variances instead of standard deviations |
| Envelope.AbsTurning | c_files/src/blink/aux.c:203-218 | the first loop leaves the absolute values and collects 0 followed by every turning point (a rise followed by no rise) in order |
| Envelope.TurningPoints | c_files/src/blink/aux.c:203-218 | 0 followed by exactly the turning points (a rise followed by no rise) below the bound, strictly increasing: each listed index turns and every index that turns is listed |
| Envelope.FillLine | c_files/src/blink/aux.c:235-237 | the samples from p up to stop lie on the line through knots p and q and no other sample changes |
| Envelope.Interpolate | c_files/src/blink/aux.c:230-248 | every sample from one knot up to the next lies on the line through them, and the last sample on the last line |
| Envelope.Envelope | c_files/src/blink/aux.c:195-252 | the result is the envelope: absolute values when there is no turning point, the piecewise line through the knots otherwise |
| Envelope.EnvelopeUnique | c_files/src/blink/aux.c:195-252 | the envelope specification has exactly one solution, EnvelopeOf |
| Envelope.EnvelopeAtKnots | c_files/src/blink/aux.c:230-248 | at every knot the envelope equals the absolute value of the signal |
| MovingAverage.LeftOutput | c_files/src/blink/aux.c:363-374 | a left-edge output is the mean of the mirrored 512-sample window around i |
| MovingAverage.InteriorOutput | c_files/src/blink/aux.c:376-383 | an interior output is the mean of the 512 samples from i - 256 |
| MovingAverage.RightOutputAsWritten | c_files/src/blink/aux.c:385-397 | a right-edge output as written is the mean of the mirrored window minus one sample, x[2n - 257 - i] / 512 |
| MovingAverage.RightOutput | c_files/src/blink/aux.c:385-397 | the corrected right-edge output is the mean of the mirrored window |
| MovingAverage.MovingAverageAsWritten | c_files/src/blink/aux.c:353-398 | as written, outputs up to n - 256 are window means and each later one falls short by one mirrored sample over 512 |
| MovingAverage.MovingAverage | c_files/src/blink/aux.c:353-398 | every output is the mean of the 512-sample mirrored window around it |
| MovingAverage.ConstantAverage | c_files/src/blink/aux.c:353-398 | the moving average of a constant signal is that constant |
| MovingAverage.MovingAverageEdgeExample | c_files/src/blink/aux.c:385-397 | on 513 ones the last output as written is 511/512 instead of 1 |
| BlinkCandidates.ProcessableIff | c_files/src/blink/aux.c:64-69 | the seven-level guard admits exactly the channels of at least 2304 samples |
| BlinkCandidates.GuardAgrees | c_files/src/blink/aux.c:64-69 | from 18 samples on, the guard on the wrapped maximum level and the checked guard decide alike |
| BlinkCandidates.FirstGuess | c_files/src/blink/aux.c:75-134 | chan_a is the level-3 approximation and the candidates the minima of chan_a in the runs of the enveloped 5-7 details above their moving average plus t_1 |
| BlinkCandidates.SumDetails | c_files/src/blink/aux.c:88-96 | chan_d is the sum of the envelopes of the rebuilt details of levels 5, 6 and 7 |
| BlinkCandidates.Threshold | c_files/src/blink/aux.c:102-104 | thresh is the moving average of chan_d plus t_1 at every sample |
| BlinkCandidates.CorrelateCandidates | c_files/src/blink/aux.c:147-161 | cors[i] is the correlation of candidate i's clipped window of chan_a with the matching template slice |
| BlinkCandidates.CandidatesInChannel | c_files/src/blink/aux.c:108-134 | the candidates are increasing indices in [1, n) |
| BlinkCandidates.FindPossibleBlinks | c_files/src/blink/aux.c:47-191 | the blinks are nothing for a channel the guard rejects and otherwise the candidates whose window correlation reaches t_cor or is NaN; num_blinks is their count |
| BlinkCandidates.PossibleBlinksSound | c_files/src/blink/aux.c:47-191 | every blink reported is a candidate whose window correlation reached t_cor or is NaN, and the blinks are increasing indices in [1, n) |
| BlinkCandidates.PossibleBlinksInside | c_files/src/blink/aux.c:47-191 | every candidate blink reported for a channel is one of its samples |
| BlinkCandidates.PossibleBlinksComplete | c_files/src/blink/aux.c:160-181 | every candidate whose window correlation reaches t_cor or is NaN is reported |
| BlinkCandidates.KeptIffCorrelate | c_files/src/blink/aux.c:147-181 | with correlate as cor, every candidate is reported exactly when correlate of its window reaches t_cor or is NaN (a constant window) |
| BlinkCandidates.Correlate | c_files/src/blink/aux.c:256-280 | correlate is NaN exactly for an empty window or a zero product of standard deviations, and otherwise the covariance over that product |
| BlinkCandidates.DegenerateIsNaN | c_files/src/blink/aux.c:256-280 | with a root that is 0 only at 0, a zero product of standard deviations comes with a zero covariance, so the division is 0/0 |
| BlinkCandidates.CorrelateSymmetric | c_files/src/blink/aux.c:256-280 | correlate, NaN included, does not depend on the order of its arguments |
| BlinkCandidates.CorrelateSelf | c_files/src/blink/aux.c:256-280 | a non-constant window correlates with itself to exactly 1 |
| BlinkDetect.CountMatches | c_files/src/blink/detect.c:63-70 | the inner loop moves the cursor on by the number of candidates within the window from the cursor to the end, and finds a match exactly when that number is positive |
| BlinkDetect.MatchCountPositive | c_files/src/blink/detect.c:63-70 | the match count is positive exactly when some candidate from the cursor on lies within the window |
| BlinkDetect.ConfirmIff | c_files/src/blink/detect.c:61-80 | the channel loop accepts a candidate exactly when every later channel has a match from its cursor on |
| BlinkDetect.Compact | c_files/src/blink/detect.c:85-98 | the copy keeps exactly the entries not marked -1, in order |
| BlinkDetect.FuseAsWritten | c_files/src/blink/detect.c:56-98 | the fused blinks are what the cursor-carrying confirmation gives, num_blinks is their count, and nothing is fused when a channel has no candidate |
| BlinkDetect.FusionSubseq | c_files/src/blink/detect.c:56-98 | the fused blinks are channel 0's candidates in order with some left out |
| BlinkDetect.FusionConfirmed | c_files/src/blink/detect.c:56-98 | every fused blink has a candidate within the window in every other channel |
| BlinkDetect.FuseConsume | c_files/src/blink/detect.c:56-98 | the corrected fusion: each channel's cursor moves past the first match only, and num_blinks is the count |
| BlinkDetect.ConfirmConsumeIff | c_files/src/blink/detect.c:61-80 | the corrected confirmation accepts a candidate exactly when every later channel has a first match from its cursor on |
| BlinkDetect.ConsumedOnce | c_files/src/blink/detect.c:65-67 | in the corrected fusion a later candidate's match lies strictly after the match an accepted candidate consumed: no channel candidate confirms two blinks |
| BlinkDetect.ReuseExample | c_files/src/blink/detect.c:63-70 | one channel-1 candidate, 105, confirms both channel-0 candidates 100 and 110 as written, and only 100 once matches are consumed |
| BlinkDetect.ChannelCandidates | c_files/src/blink/detect.c:26-30 | there is one candidate list per channel, each the possible blinks of that channel |
| BlinkDetect.DetectChannels | c_files/src/blink/detect.c:26-30 | the loop computes the possible blinks of every channel |
| BlinkDetect.BlinkDetect | c_files/src/blink/detect.c:12-111 | the blinks are the fusion, as written, of every channel's possible blinks, and num_blinks is their count |
| BlinkDetect.BlinkDetectConsume | c_files/src/blink/detect.c:12-111 | the same with the corrected fusion |
| BlinkDetect.PlaceOne | c_files/src/blink/detect.c:129-146 | a template copy overwrites the clipped template span around the blink with the template's matching samples and leaves every other sample as it was |
| BlinkDetect.SyntheticAt | c_files/src/blink/detect.c:128-147 | each sample of the synthetic signal is the template sample of the last blink whose span covers it, or 0 when none does |
| BlinkDetect.LastCover | c_files/src/blink/detect.c:128-147 | the blink found covers the sample, and when none is found no blink's span covers it |
| BlinkDetect.Place | c_files/src/blink/detect.c:129-146 | one loop step copies the clipped template span |
| BlinkDetect.SyntheticSignal | c_files/src/blink/detect.c:121-147 | the loop over the blinks builds the synthetic blink signal from zeros |
| BlinkDetect.BlinkSource | c_files/src/blink/detect.c:115-158 | the source returned is the row that maxCorrelate picks against the synthetic signal |
| BlinkDetect.BlinkSourceFixed | c_files/src/blink/detect.c:115-158 | the same with the corrected correlation score |
| BlinkDetect.NoBlinksRowZero | c_files/src/blink/detect.c:121-152 | without blinks the synthetic signal is all zeros, no row scores, and row 0 is returned |
| BlinkDetect.SourceThreshold | c_files/src/blink/detect.c:173 | the threshold 10 / len_blinks is positive |
| BlinkDetect.SourceRow | c_files/src/blink/detect.c:179-183 | the source is row blink_source of S read along its columns |
| BlinkDetect.PeakScanAsWritten | c_files/src/blink/detect.c:191-217 | the loop computes the as-written peak indices of the magnitudes |
| BlinkDetect.PeakStepFound | c_files/src/blink/detect.c:194-207 | a step records max_index exactly at a falling edge |
| BlinkDetect.PeakIndicesFacts | c_files/src/blink/detect.c:191-217 | the scan records one index per falling edge, each before its edge and either 0 or a sample above the threshold; index 0 is recorded exactly when the first edge falls |
| BlinkDetect.PeakIndicesInside | c_files/src/blink/detect.c:191-217 | every recorded index is a sample of the source |
| BlinkDetect.IndexZeroExample | c_files/src/blink/detect.c:199-207 | on magnitudes 1, 0 with threshold 0.5 the scan records index 0, a sample never above the threshold after a rise, while the guarded scan finds no run |
| BlinkDetect.PeakScanGuarded | c_files/src/blink/detect.c:191-217 | the corrected scan gives the first maximum of the magnitudes in every run above the threshold |
| BlinkDetect.MatchLoop | c_files/src/blink/detect.c:234-272 | the confirmation and copy keep exactly the peaks that take an EEG blink, num_blinks is their count |
| BlinkDetect.MatchPeaksPaired | c_files/src/blink/detect.c:236-257 | each kept peak is paired with its own EEG blink within the window, the paired positions strictly increase, and the kept peaks are the peaks in order with some left out |
| BlinkDetect.MatchNothing | c_files/src/blink/detect.c:238-257 | with no EEG blinks no peak is kept |
| BlinkDetect.BlinksInSource | c_files/src/blink/detect.c:162-279 | the result is the as-written peak indices of the source row's magnitudes against 10 / len_blinks, confirmed by the EEG blinks, and nothing without EEG blinks |
| BlinkDetect.BlinksInSourceGuarded | c_files/src/blink/detect.c:162-279 | the same with the guarded peak scan |
| BlinkRemove.PatchOf | c_files/src/blink/remove.cpp:213-231 | the stretch a blink overwrites lies inside the row, its end before the last column |
| BlinkRemove.FlattenOne | c_files/src/blink/remove.cpp:212-235 | one blink near the start takes the value at b + w on [0, b + w), near the end the value at b - w on [b - w, n - 1), elsewhere the mean of the two on [b - w, b + w); every other column keeps its value |
| BlinkRemove.FlattenKeepsLast | c_files/src/blink/remove.cpp:221-226 | whatever the blinks, the last column is never overwritten |
| BlinkRemove.FlattenOutside | c_files/src/blink/remove.cpp:233-235 | a column outside every blink's stretch keeps its value |
| BlinkRemove.FlattenedConstant | c_files/src/blink/remove.cpp:233-235 | one blink's flattened stretch holds a single value |
| BlinkRemove.OverlapExample | c_files/src/blink/remove.cpp:212-236 | with overlapping windows the second blink's mean reads a column the first blink already overwrote |
| BlinkRemove.Store | c_files/src/blink/remove.cpp:234 | one store changes one element of the row and nothing outside the row |
| BlinkRemove.FlattenBlink | c_files/src/blink/remove.cpp:213-235 | one pass of the blink loop flattens the row for that blink and leaves the other rows alone |
| BlinkRemove.BlinkFlatten | c_files/src/blink/remove.cpp:204-237 | the row is flattened around every blink in list order, each reading the row as the earlier ones left it, and every other row is unchanged |
| BlinkRemove.FindKeep | c_files/src/blink/remove.cpp:179-182 | row j is restored exactly when it is listed in keep |
| BlinkRemove.RestoreColumn | c_files/src/blink/remove.cpp:177-189 | one column of every row gets X's element for a kept row and the rebuilt element plus the row mean otherwise; the other columns are unchanged |
| BlinkRemove.Restore | c_files/src/blink/remove.cpp:176-190 | every element of a kept row is X's and every other element is the rebuilt one plus its row's mean; storage outside the block is untouched |
| BlinkRemove.LocatePeaks | c_files/src/blink/remove.cpp:156-161 | the source row is the one maxCorrelate picks against the synthetic blink signal, its peaks are what blinksInSource returns, and every peak is a column of S |
| BlinkRemove.Rebuild | c_files/src/blink/remove.cpp:167-190 | R is A times the sources with the blink row flattened around the peaks, plus the mixing of the source means, with kept rows equal to X |
| BlinkRemove.RemoveDetected | c_files/src/blink/remove.cpp:156-190 | from the detected blinks, R is rebuilt from the blink source chosen and its confirmed peaks |
| BlinkRemove.Detect | c_files/src/blink/remove.cpp:151 | the blinks are blinkDetect's on the first four channels, each a column of X |
| BlinkRemove.BlinkRemove | c_files/src/blink/remove.cpp:100-200 | the routine returns 0, and R is X rebuilt with the blink source flattened around the peaks confirmed by the blinks detected on the first four channels, kept rows equal to X |
| IcaAux.RowMeans | c_files/src/ica/aux.c:14-23 | the loops compute the mean of every row of X |
| IcaAux.Remmean | c_files/src/ica/aux.c:9-32 | the means are the row means, every element of Z in X's block is X's element minus its row's mean, and storage outside the block is untouched |
| IcaAux.RemmeanTranspose | c_files/src/ica/aux.c:36-60 | the same with Z holding the transpose: Z's element (c, r) is X's element (r, c) minus row r's mean |
| IcaAux.CenteredRowsSumToZero | c_files/src/ica/aux.c:9-32 | every row of the centred data sums to zero |
| IcaAux.WhiteningAt | c_files/src/ica/aux.c:111-120 | element (c, r) of the whitening matrix is E's element (r, c) over the root of eigenvalue c |
| IcaAux.DewhiteningAt | c_files/src/ica/aux.c:111-120 | element (r, c) of the dewhitening matrix is E's element (r, c) times the root of eigenvalue c |
| IcaAux.WhitenInvertsDewhiten | c_files/src/ica/aux.c:98-100 | with orthonormal eigenvectors and non-zero roots, the whitening matrix times the dewhitening matrix is the identity |
| IcaAux.ComputeWhiten | c_files/src/ica/aux.c:79-123 | W is D^(-1/2) E', Dw is E D^(1/2), and W times Dw is the identity when the eigenvalues are positive |
| IcaAux.Whiten | c_files/src/ica/aux.c:64-75 | the whitened data is W times Z, or W times Z' when transposed |
| IcaAux.RootsNeedNonNegative | c_files/src/ica/aux.c:112-113 | real square roots of the raw eigenvalues exist only when none is negative |
| IcaAux.ComputeWhitenMagnitudes | c_files/src/ica/aux.c:79-123 | the corrected whitening takes roots of the eigenvalue magnitudes, which always exist, and W times Dw is the identity for every non-zero eigenvalue |
| Contrast.MapRange | c_files/src/ica/fastica/contrast.c:305-318 | a thread's loop replaces every slot of its block by f of itself and leaves every other slot alone |
| Contrast.StartIsProduct | c_files/src/ica/fastica/contrast.c:56-61 | thread i's block starts at i times the block length |
| Contrast.BlocksPartition | c_files/src/ica/fastica/contrast.c:56-70 | the workers' blocks and the caller's tail cover every slot exactly once |
| Contrast.Threaded | c_files/src/ica/fastica/contrast.c:47-80 | the threaded pass leaves f of every slot, as the unthreaded loop does |
| Contrast.SumRowsIntoFirst | c_files/src/ica/fastica/contrast.c:107-112 | slot r of column 0 ends up holding row r's total, every other slot unchanged |
| Contrast.AddColumn | c_files/src/ica/fastica/contrast.c:109-111 | one pass of the row-sum loop adds column col into column 0 |
| Contrast.Combine | c_files/src/ica/fastica/contrast.c:114-121 | slot (r, c) of the new guess becomes G[r, c] minus the row sum r times W[r, c], over the number of observations |
| Contrast.ElementStage | c_files/src/ica/fastica/contrast.c:44-105 | the elementwise passes leave g(y) where GEMM_NT reads and g'(y) where the row sums read, for tanh, cube and gauss alike |
| Contrast.NegEntropy | c_files/src/ica/fastica/contrast.c:34-300 | every entry of the result is the learning rule: the mean of z g(w_r' z) minus the mean of g'(w_r' z) times W[r, c] |
| Contrast.FedDot | c_files/src/ica/fastica/contrast.c:82 | G's entry is the sum of g(w_r' z_t) z_t[c] over the observations |
| Contrast.SummedRow | c_files/src/ica/fastica/contrast.c:107-112 | the row total is the sum of g'(w_r' z_t) over the observations |
| FastIca.ContrastFor | c_files/src/ica/fastica/fastica.c:34-45 | cube is chosen exactly for NONLIN_CUBE, gauss exactly for NONLIN_GAUSS, and tanh for every other value |
| FastIca.ToInt | c_files/src/ica/fastica/fastica.c:32 | storing an unsigned int into an int keeps values below 2^31 and wraps larger ones to negatives, congruent modulo 2^32 |
| FastIca.InitialGuess | c_files/src/ica/fastica/fastica.c:128-133 | the first n^2 elements of the guess at W are those of the n x n identity and the rest are kept; with leading dimension n, W is the identity |
| FastIca.FastIcaInit | c_files/src/ica/fastica/fastica.c:24-68 | the kept settings are the parameters' epsilon, contrast and sizes, and the iteration limit, which turns negative from 2^31 on |
| FastIca.ConvergenceMin | c_files/src/ica/fastica/fastica.c:190-196 | the measure is at most 1, no more than the magnitude of any diagonal cosine, and equal to 1 or to one of them |
| FastIca.ConvergedIff | c_files/src/ica/fastica/fastica.c:200 | the loop stops on convergence exactly when every cosine is within epsilon of +1 or -1 |
| FastIca.Parity | c_files/src/ica/fastica/fastica.c:144-145 | (k + 1) & 1 and k & 1 name different buffers |
| FastIca.Iterate | c_files/src/ica/fastica/fastica.c:138-216 | the do-while runs at least once and at most maxIter times otherwise, continues only while unconverged, stops converged or at the limit, each iteration reads the guess the previous one wrote, and buffer 1 holds the newest guess at the end |
| FastIca.InverseRoots | c_files/src/ica/fastica/fastica.c:160-169 | each factor is positive and its square times the eigenvalue's magnitude is 1 |
| FastIca.ScaledTransposeIsTranspose | c_files/src/ica/fastica/fastica.c:171-177 | D^(-1/2) E' is the transpose of E with its columns scaled by the factors |
| Jade.JadeInit | c_files/src/ica/jade/jade.c:53-61 | the sizes kept are the number of variables, the cumulant count half of n (n + 1) taken modulo 2^32, the element count n^2 modulo 2^32, and eight bytes per element; the scale times T is 1 and the threshold times 100 sqrt(T) is 1 for T observations, each infinite (None) exactly when its divisor is 0 |
| Jade.RotationStart | c_files/src/ica/jade/jade.c:132-135 | the rotation V starts as the n x n identity |
| Jade.JadeInitCounts | c_files/src/ica/jade/jade.c:53-55 | up to 65535 variables nothing wraps: one cumulant matrix per pair j <= i < n, and n^2 elements in each |
| Jade.JadeInitWraps | c_files/src/ica/jade/jade.c:54-55 | at 65536 variables the product wraps: 32768 cumulant matrices instead of 2147516416, and 0 elements |
| Jade.TriClosed | c_files/src/ica/jade/jade.c:54 | the triangular number is n (n + 1) / 2 |
| Jade.CumulantBlock | c_files/src/ica/jade/jade.c:158-209 | variable i contributes i + 1 matrices |
| Jade.CumulantOrderLength | c_files/src/ica/jade/jade.c:158-210 | the loops form one matrix per pair j <= i < n |
| Jade.CumulantOrderAt | c_files/src/ica/jade/jade.c:158-210 | the matrix of every pair j <= i < n is stored at its position |
| Jade.CumulantOrderPairs | c_files/src/ica/jade/jade.c:158-210 | every stored matrix belongs to exactly one pair j <= i < n, the one whose position it occupies |
| Jade.SubtractGaussian | c_files/src/ica/jade/jade.c:175-206 | each cumulant matrix has the fourth moment of a white Gaussian subtracted at every entry: 3 at (i, i) and 1 on the rest of the diagonal for Q_iikl, 1 at (i, j) and (j, i) for Q_ijkl |
| Jade.SweepPairsFromFacts | c_files/src/ica/jade/jade.c:225-226 | a sweep visits exactly the pairs p < q < n, each once, in lexicographic order, and nothing without variables |
| Jade.SweepPairsBounded | c_files/src/ica/jade/jade.c:225-226 | every pair a sweep visits from p on has p <= first < second < n |
| Jade.SweepPairsSorted | c_files/src/ica/jade/jade.c:225-226 | the visited pairs come in strictly increasing lexicographic order, so none repeats |
| Jade.SweepPairsCover | c_files/src/ica/jade/jade.c:225-226 | with the bound n - 1, every pair p <= x < y < n is visited |
| Jade.TouchedFacts | c_files/src/ica/jade/jade.c:270-325 | a rotation updates exactly the 2n - 1 upper-triangle entries in the rows and columns of p and q, each once |
| Jade.RotateKeepsNorm | c_files/src/ica/jade/jade.c:289-338 | a rotation of a pair of entries keeps their sum of squares |
| Jade.RotateBlockKeepsTrace | c_files/src/ica/jade/jade.c:276-285 | the update of (p, p), (q, q) and (p, q) keeps the trace of the 2 x 2 block |
| Jade.Sweeps | c_files/src/ica/jade/jade.c:216-220 | the count returned lies between 1 and 100, every sweep before the last rotated, and the last did not unless the limit was reached |
| Jade.SweepsUnique | c_files/src/ica/jade/jade.c:216-220 | those conditions determine the count |
| IcaSession.DefaultParams | c_files/src/ica/ica.cpp:113-124 | the defaults are sized for X and do not use the GPU |
| IcaSession.Startup | c_files/src/ica/ica.cpp:38-65 | JADE starts exactly for ICA_JADE and FastICA for every other value, each sized from the parameters |
| IcaSession.Fresh | c_files/src/ica/ica.cpp:12-13 | the zeroed statics form a well-formed, uninitialised session, consistent for any sqrt |
| IcaSession.Shutdown | c_files/src/ica/ica.cpp:70-101 | the session is uninitialised afterwards, the kept parameters stay, and shutting down an uninitialised session changes nothing |
| IcaSession.Init | c_files/src/ica/ica.cpp:17-66 | the same parameters as the running implementation change nothing and return 1; otherwise the parameters are kept and the session is initialised, returning 1, exactly when no GPU is asked for |
| IcaSession.InitIdempotent | c_files/src/ica/ica.cpp:22-24 | initialising twice with the same parameters is initialising once |
| IcaSession.InitAfterShutdown | c_files/src/ica/ica.cpp:17-101 | after a shutdown, initialising gives what a first initialisation gives |
| IcaSession.Prepare | c_files/src/ica/ica.cpp:110-135 | the session is started with the defaults when nothing was initialised and re-initialised when the kept sizes differ from X's; the result is sized for X |
| IcaSession.Ica | c_files/src/ica/ica.cpp:105-163 | nothing runs, and 0 is returned, exactly when a GPU is asked for; otherwise JADE runs for ICA_JADE and FastICA otherwise, sized for X, and the count is its sweeps or iterations; an uninitialised session runs FastICA with 400 iterations |
| EdfLayout.BaseValues | c_files/src/xltek/edf.c:35-71 | the fields start at 0, 16, 96, 104, 112, 120, 128, 136, 216 and 224 characters per signal, and the block ends at 256 |
| EdfLayout.TimesIsProduct | c_files/src/xltek/edf.c:62-71 | the repeated sum used for field offsets is the product |
| EdfLayout.FieldStart | c_files/src/xltek/edf.c:62-71 | field k of signal i starts at i times the field's width plus num_signals times the widths before it |
| EdfLayout.FieldInside | c_files/src/xltek/edf.c:45-71 | every field of every signal lies within its field's stretch of the block, and so within the block |
| EdfLayout.ReadBottom | c_files/src/xltek/edf.c:60-72 | the reader's field pointers give, for every field and signal, the slice of the block of that field's width at its start |
| EdfLayout.WriteBottom | c_files/src/xltek/edf.c:120-135 | the writer emits each field for all signals, field after field, Times(n, Base(k)) characters for the first k fields |
| EdfLayout.BottomRoundTrip | c_files/src/xltek/edf.c:60-72 | writing the fields read from a block gives the block back |
| EdfLayout.Index | c_files/src/xltek/edf.c:81-93 | sample j of signal i lives at i * ns + j in row major and j * nsig + i in column major, inside the array |
| EdfLayout.IndexDecode | c_files/src/xltek/edf.c:81-93 | every memory position is the position of the signal and sample stored there |
| EdfLayout.IndexEncode | c_files/src/xltek/edf.c:81-93 | the signal and sample stored at the position of (i, j) are i and j |
| EdfLayout.ReadSamples | c_files/src/xltek/edf.c:77-93 | the sample the file holds for (i, j) ends up at the position of (i, j) in the requested order |
| EdfLayout.SaveSamples | c_files/src/xltek/edf.c:139-152 | the writer emits nsig * ns samples |
| EdfLayout.SamplesRoundTrip | c_files/src/xltek/edf.c:77-152 | saving the samples read gives back the record read, in either order |
| EdfLayout.SamplesRoundTripBack | c_files/src/xltek/edf.c:77-152 | reading back the samples saved gives the samples in memory |
| EdfLayout.Decimal | c_files/src/xltek/edf.c:32 | the decimal form of a count is non-empty and all digits |
| EdfLayout.DigitsOfDecimal | c_files/src/xltek/edf.c:32 | the digit fold reads the decimal form of v back as v |
| EdfLayout.AtoiOfDecimal | c_files/src/xltek/edf.c:32 | atoi of a decimal count followed by padding that is not a digit is the count |
| EdfLayout.AtoiOfNegative | c_files/src/xltek/edf.c:289-290 | atoi of a minus sign, a decimal count and padding is the negated count |
| EdfLayout.AtoiOfDigits | c_files/src/xltek/edf.c:74 | atoi of digits followed by padding that is not a digit is their value |
| Edf.ReadFile | c_files/src/xltek/edf.c:10-99 | nothing is returned exactly when the file cannot be opened; otherwise the header, the counts read with atoi, the field slices, the first record's samples in the requested order, and no physical samples |
| Edf.SaveFile | c_files/src/xltek/edf.c:103-158 | 0 and nothing written when the file cannot be created; otherwise 1, the fixed header followed by each field for all signals, and nsig * ns samples |
| Edf.SaveAfterRead | c_files/src/xltek/edf.c:10-158 | saving a file just read writes back its header and the samples of the record read, whatever the storage order |
| Edf.RunMin | c_files/src/xltek/edf.c:257-274 | the running minimum is +INFINITY exactly when no sample was seen, and never -INFINITY |
| Edf.RunMax | c_files/src/xltek/edf.c:257-274 | the running maximum is -INFINITY exactly when no sample was seen, and never +INFINITY |
| Edf.RunRange | c_files/src/xltek/edf.c:257-274 | with samples, the running minimum and maximum are finite, bound every sample seen and are attained by one |
| Edf.ToPhysical | c_files/src/xltek/edf.c:299-302 | the digital-to-physical map sends the digital minimum and maximum to the physical ones |
| Edf.ToDigital | c_files/src/xltek/edf.c:304-321 | the physical-to-digital map sends the physical minimum and maximum to the digital ones |
| Edf.DigitalPhysicalInverse | c_files/src/xltek/edf.c:298-322 | with the same header values the two maps undo each other |
| Edf.Trunc | c_files/src/xltek/edf.c:344 | (short) of a double truncates toward zero |
| Edf.Rerange | c_files/src/xltek/edf.c:255-283 | each signal's physical minimum and maximum fields get the printed extremes of its samples, and nothing else changes |
| Edf.Convert | c_files/src/xltek/edf.c:191-350 | nothing changes for an invalid type, missing source samples or equal types; otherwise only the target array is replaced, each sample mapped through its signal's line and cast to the target type, after the ranges are recomputed when converting from a physical type |
| Edf.ConvertHitsRange | c_files/src/xltek/edf.c:298-346 | converting shorts to doubles sends a signal's digital minimum and maximum to its physical minimum and maximum |
| Edf.FindFrom | c_files/src/xltek/edf.c:375-385 | the channels the search returns are -1 or indices of labels |
| Edf.FindChannels | c_files/src/xltek/edf.c:375-396 | both channels are found exactly when some label starts with left and some other label starts with right but not left; each found channel matches, and the two differ |
| Edf.Wrap16 | c_files/src/xltek/edf.c:416 | an int stored into a short keeps its value modulo 2^16, as a signed 16-bit number |
| Edf.Ready | c_files/src/xltek/edf.c:398-403 | float or double samples exist afterwards when asked for, the shorts and header are unchanged, and a file that already holds the samples asked for is left as it is |
| Edf.DiffOf | c_files/src/xltek/edf.c:406-423 | each difference is left minus right at that sample: wrapped for shorts, rounded for floats, exact for doubles; nothing for a type outside the enum |
| Edf.DiffChannels | c_files/src/xltek/edf.c:354-426 | 0, and nothing written, exactly when a name is empty or longer than 8 or a channel is not found; otherwise 1 and the difference of two different channels over the file converted for the type, which is the file itself when no conversion is needed |
| Uuid.UuidEqual | c_files/src/xltek/xltek.c:90-99 | 1 exactly when the two 16-byte GUIDs are equal, else 0 |
| Uuid.EqualFrom | c_files/src/xltek/xltek.c:92-98 | the loop from byte i returns 1 exactly when the GUIDs agree from byte i on |
| Uuid.HexDigit | c_files/src/xltek/xltek.c:79-80 | a %x digit is a lower-case hexadecimal digit whose value is the number printed |
| Uuid.Hex2 | c_files/src/xltek/xltek.c:79-80 | %02x prints two hexadecimal digits whose value is the byte |
| Uuid.PrintedTwice | c_files/src/xltek/xltek.c:81-85 | the print order of the bytes (3 2 1 0, 5 4, 7 6, then 8 to 15) is its own inverse |
| Uuid.ColumnOfColumn | c_files/src/xltek/xltek.c:79-80 | the two characters printed for the j-th byte printed are not dashes and map back to j |
| Uuid.UuidToString | c_files/src/xltek/xltek.c:77-87 | 36 characters, dashes at 8, 13, 18 and 23 and hexadecimal digits elsewhere, the j-th pair printing byte Printed(j) |
| Uuid.UuidRoundTrip | c_files/src/xltek/xltek.c:77-87 | parsing the printed GUID gives the GUID back |
| Uuid.UuidToStringInjective | c_files/src/xltek/xltek.c:77-87 | different GUIDs print differently |
| Bytes.Int8 | c_files/src/xltek/erd/s9.c:241-242 | a byte read through a signed char lies in -128..127 and is the byte modulo 256 |
| Bytes.Int16 | c_files/src/xltek/erd/s9.c:231-235 | two bytes read through a little-endian short lie in -32768..32767 and are the unsigned value modulo 2^16 |
| Bytes.Int32 | c_files/src/xltek/erd/s9.c:250 | four bytes read through a little-endian int lie in the int range and are the little-endian unsigned value modulo 2^32 |
| Bytes.Wrap32 | c_files/src/xltek/erd/s9.c:235 | an int sum lands in the int range, congruent to the exact sum modulo 2^32, and equals it when it fits |
| ErdCommon.TwoPower | c_files/src/xltek/erd/erd.c:188 | pow(2.0, discard_bits) over the int count is positive, and at least 1 exactly when the count is not negative |
| ErdCommon.TwoPowerStep | c_files/src/xltek/erd/erd.c:188 | one more discarded bit doubles the power, for every int count including across 0 |
| ErdCommon.TwoPowerInverse | c_files/src/xltek/erd/erd.c:188 | the powers of d and -d multiply to 1 |
| ErdCommon.UnsignedFieldsExample | c_files/src/xltek/erd/erd.c:176-188 | the unsigned value 2^32 - 1 arrives as channel -1, which headbox 9 converts with the 8711 factor (not the 2^-6 one its unsigned value would select), and as discard count -1, a power of 0.5 |
| ErdCommon.ConvertSample | c_files/src/xltek/erd/erd.c:176-317 | with headbox type, channel and discard count as ints: 0.0 for a headbox type without a case; for a known headbox the result has the sign of the raw sample |
| ErdCommon.FactorPositive | c_files/src/xltek/erd/erd.c:179-314 | the factor the switch picks is positive exactly for the fourteen known headbox types, and 0.0 otherwise |
| ErdCommon.ConvertAdditive | c_files/src/xltek/erd/erd.c:176-317 | the conversion is additive in the raw sample |
| ErdCommon.ConvertInjective | c_files/src/xltek/erd/erd.c:176-317 | for a known headbox, different raw samples convert to different values |
| ErdCommon.UniformHeadboxes | c_files/src/xltek/erd/erd.c:192-276 | EEG32, EEG128 and EEG32U use the 8711 factor on every channel |
| ErdCommon.HyppoVersionSplit | c_files/src/xltek/erd/erd.c:212-215 | HYPPO channels 32 to 39 use the 1e8 factor below version 3.4 and the 2e8 factor from it on |
| ErdCommon.LabelBytes | c_files/src/xltek/erd/s9.c:130 | a buffer of n pointers holds every store labels[i] with i below n |
| ErdCommon.LabelsFrom | c_files/src/xltek/erd/s9.c:134-151 | the lookup succeeds exactly when every physical channel is inside the table, and then label i is entry phys_chan[i] |
| Erd.OpenErdFile | c_files/src/xltek/erd/erd.c:30-65 | nothing for an unreadable file, a GUID other than the raw-data one or a schema outside 5..9; otherwise the file the schema's reader opens |
| Erd.AsInt | c_files/src/xltek/erd/erd.c:117-129 | an unsigned count returned as an int lies in the int range and is the count modulo 2^32 |
| Erd.GetErdNumChannels | c_files/src/xltek/erd/erd.c:117-134 | 0 for a NULL file or a schema outside 5..9; otherwise the header's channel count, modulo 2^32 |
| Erd.GetErdSampleFreq | c_files/src/xltek/erd/erd.c:138-155 | 0.0 for a NULL file or a schema outside 5..9; otherwise the header's sample frequency |
| Erd.GetErdLabels | c_files/src/xltek/erd/erd.c:96-113 | nothing for a NULL file or a schema outside 5..9; otherwise what the schema's label reader returns |
| Erd.GetNextSamples | c_files/src/xltek/erd/erd.c:159-172 | 0 and nothing changes except for schema 9 files, whose packets the schema 9 decoder reads |
| ErdS5.OpenS5 | c_files/src/xltek/erd/s5.c:60-94 | a file exactly when the header can be read, has the raw-data GUID and schema 5; the frequency flag, shorted count and running samples are left as allocated |
| ErdS5.TableS5 | c_files/src/xltek/erd/s5.c:132-146 | schema 5 has a table exactly for headbox types 1, 3, 4, 5, 6, 8 and 9 |
| ErdS5.LookupS5 | c_files/src/xltek/erd/s5.c:103-148 | nothing for another schema; no labels for no channels; otherwise success exactly when the headbox type is known and every physical channel is inside its table, label i being entry phys_chan[i] |
| ErdS5.LabelsS5AsWritten | c_files/src/xltek/erd/s5.c:98-151 | the labels looked up, in a buffer of n bytes |
| ErdS5.S5LabelsOverrun | c_files/src/xltek/erd/s5.c:110-122 | with a channel, the last pointer stored ends at byte 8 n of the n-byte buffer, so the labels do not fit |
| ErdS5.S5OverrunExample | c_files/src/xltek/erd/s5.c:110-122 | one EEG32 channel on physical channel 0 gets a one-byte buffer for an eight-byte pointer |
| ErdS5.LabelsS5 | c_files/src/xltek/erd/s5.c:98-151 | the same labels, in a buffer that holds all n pointers |
| ErdS9.OpenS9 | c_files/src/xltek/erd/s9.c:60-114 | a file exactly when the header can be read, has the raw-data GUID and schema 9; freq_factor is 1 exactly when some channel's frequency factor is not 0x7FFF, and num_shorted counts the shorted channels |
| ErdS9.ScanChannels | c_files/src/xltek/erd/s9.c:97-107 | the loop sets the flag exactly when some channel has another rate, and counts the channels whose shorted flag is set |
| ErdS9.LabelsS9 | c_files/src/xltek/erd/s9.c:118-178 | nothing for another schema; otherwise success exactly when the headbox type is one of the fourteen and every physical channel is inside its table, label i being entry phys_chan[i], in a buffer that holds them all |
| ErdS9.ChannelFacts | c_files/src/xltek/erd/s9.c:219-243 | the mask bit of channel i decides a 16-bit or an 8-bit delta, a 16-bit 0xFFFF is the escape and never an 8-bit one, and the next delta follows |
| ErdS9.ApplyDelta | c_files/src/xltek/erd/s9.c:229-243 | one channel's delta is added to its 32-bit running sample, wrapping modulo 2^32, unless it is the escape; a sum inside the int range is the plain sum; reading moves past the delta |
| ErdS9.ApplyDeltas | c_files/src/xltek/erd/s9.c:200-244 | after the head and the delta loop, each running sample has its delta added as a 32-bit int unless escaped, and reading stands after the last delta |
| ErdS9.ReadAbsolute | c_files/src/xltek/erd/s9.c:249-251 | an escaped channel takes the 32-bit value at the position, any other keeps its updated value |
| ErdS9.ReadAbsolutes | c_files/src/xltek/erd/s9.c:248-252 | the escaped channels' absolute values are read in channel order, and reading stands at the end of the packet |
| ErdS9.ChannelSample | c_files/src/xltek/erd/s9.c:255-261 | the conversion receives the unsigned headbox type, physical channel and discard count converted to int; for fields below 2^31 that is the conversion of the fields themselves |
| ErdS9.NextSamplesS9 | c_files/src/xltek/erd/s9.c:182-267 | 0 for another schema; 0 and all-zero samples at the end of the file; otherwise 1, the packet consumed, only the running samples changed, each to its delta-updated (wrapped to 32 bits) or absolute value, every one inside the int range, and each sample the running sample converted with the header fields as the ints C passes |

## Left out

- Floating point: `NUMTYPE`, `float` and `double` are `real`, so rounding is not modelled. NaN and infinity appear only where the code depends on them: `maxCorrelate`'s and `correlate`'s 0/0 as `None`, and `edf_convert`'s `INFINITY` start values.
- `sqrt`, `tanh`, `exp`, `pow`, `atan2`, `sin`, `cos`, `round`, `atof`, `snprintf("%f")` and the float cast have no bodies. Each enters as a parameter (`root`, `tanh`, `exp`, `atof`, `printf8`, `toFloat`), or as a value together with the facts its callers rely on.
- BLAS and LAPACK: GEMM, GEMV and the covariance are functions over exact reals. SYEV is modelled only through its result: orthonormal eigenvectors and the eigenvalue equation.
- Threads: the pthread runs of `blinkRemove` and of the ICA main thread are modelled as sequential composition. The MULTITHREAD_CONTRAST workers are modelled through the index ranges they are given.
- GPU paths: they are compiled only with ENABLE_GPU. `ica` with `use_gpu` set is modelled as the non-GPU build, which runs nothing and returns 0.
- File I/O: fopen, fread, fwrite, fgets and strtok are replaced by their results. A file that cannot be opened is `None` or a `canOpen`/`writable` flag, a read is a byte or token sequence, a write is the sequence written, and a short read in the middle of a packet is not modelled.
- Freeing memory: `mat_freeMatrix` is modelled on its fields. `edf_freeFile` and `xltek_closeErdFile` only release memory and close files, so they have no member.
- Printing, CLI parsing, the GUI, the test drivers and `blinkRemoveFromEDF` are glue around the modelled routines.
- The channel label tables (channel_labels.c) and headbox names are modelled by their sizes: a label is a table and an index. guids.c is not part of this model, so the raw-data GUID is the parameter `erdGuid`.
- ERD schemas 6, 7 and 8: their readers are not part of this model, and what they return enters as the parameters `openOther` and `labelsOther`.
- The products of `fastica` and `jade` (A = dewhiten V, W = V' whiten, S, mu_S = W mu_X), the cumulant GEMMs, the Givens angle from atan2, and the eigen-decomposition inside `fastica`'s symmetric orthogonalisation are left out. The model covers their index and control logic: sizes, cumulant order, pairs and updated entries, kept norms and traces, iteration and sweep counts, and buffer alternation.
- Convolution.MirrorUp: requires a filter of at least two taps. With one tap, conv_mirrorUp reads filter[2] in its last odd step.
- Wavelets.Wavedec: requires `1 <= level` and a signal of at least two filter lengths. Otherwise `lengths[level - 1]` is computed from a wrapped unsigned level.
- IcaAux.ComputeWhiten: requires positive eigenvalues, which W * Dw = I needs. The as-written square root of a non-positive eigenvalue is the Findings row for `RootsNeedNonNegative`.
- IcaAux.Means: requires at least one column; with none, C divides by zero.
- IcaAux.Remmean: requires at least one column, for the same reason as `Means`.
- BlinkCandidates.Admissible: requires a channel no shorter than the template, at least two samples per template part, and a length that fits an unsigned int. Otherwise C reads outside the channel or divides by steps - 1 = 0.
- BlinkCandidates.FindPossibleBlinks: uses the checked level guard `MaxLevelChecked`, which gives a channel shorter than one coif3 filter (18 samples) level 0 and so no candidates. As written, the wrapped level passes the guard and `wavedec` runs on a wrapped level, which the model does not follow. From 18 samples on the two guards agree (`GuardAgrees`), and the wrap itself is the Findings row for `MaxLevelWrapPassesGuard`.
- BlinkRemove.BlinkRemove: requires 2 * flatten window <= cols and a template shorter than a row. Otherwise blinkSource's and blinkFlatten's reads leave the row. The flatten is applied only to peaks that `Flattenable` admits. That excludes the read at b + w when b < w and b + w >= cols, which C makes past the row.
- BlinkRemove.BlinkRemove: composes the as-written detector, `maxCorrelate` and peak scan. The corrected pipeline is not assembled into one entry point; its parts are `FuseConsume`, `MaxCorrelateFixed` and `PeakScanGuarded`.
- MatrixFile.WellFormed: the file is rectangular with at least one value. For a ragged file, C writes past its rows * cols buffer.
- MatrixFile.NewFromFile: takes the file as lines of values, so the fgets limit of 999 characters per line is not modelled in the reader. `ColMajorRoundTrip` and `RowMajorRoundTrip` therefore require every printed line to fit (`Fits`). `ShortLinesFit` and `LongLineOverflows` state where that holds.
- MatrixFile.PrintToFile: the %.14g text is modelled as the value it reads back as. Rounding to 14 significant digits is not modelled, so the round trip is exact only for values that survive %.14g.
- Edf.ReadFile: requires at least one signal, a non-negative sample count, and a file that holds the whole header and one record. With no signals C reads signal 0's sample count out of bounds, and a short file leaves fread's buffer partly unset.
- Edf.Convert: requires `Nondegenerate` (digital and physical minimum differ from their maximum), since the linear map divides by their difference.
- Edf.DiffChannels: requires `Nondegenerate` only when both channels are found and the float or double samples asked for are missing, the one path that runs edf_convert. It inherits that requirement from `Edf.Convert`.
- ErdS9.ChannelSample: C leaves the conversion of an unsigned value from 2^31 up to int implementation-defined. The model takes the two's-complement wrap (`Wrap32`) that the supported compilers give, as `FastIca.ToInt` and `Erd.AsInt` do.
- ErdS9.ApplyDelta: C leaves a signed int overflow of `prev_samples[i] += delta` undefined. The model wraps it modulo 2^32, as two's-complement targets do (`Wrap32`), and states the plain sum only when it fits an int.
- Edf.Rerange: the printed text of the new extremes is the parameter `printf8`, so snprintf's digits are not modelled.
- Erd.GetNextSamples: requires that either no byte is left or a whole packet is. Mid-packet end of file, whose reads C ignores, is not modelled.
- Jade.RotationStart: takes V's storage as n * n elements. From 65536 variables jade_init's n^2 wraps (`Jade.JadeInitWraps`), so the C malloc and memset cover fewer elements than the diagonal loop writes; the model does not follow those writes.
- FastIca.InitialGuess: requires a square W, since fastica copies W into its own num_var x num_var buffers (fastica.c:214). For a W with more rows than columns, the C diagonal loop writes outside the rows * cols elements it zeroed.

## Findings

| source | as written | input that shows it | evidently intended | confidence | as-written member | corrected member |
|---|---|---|---|---|---|---|
| c_files/src/wavelet/wavelets.c:43-52 | wavedecMaxLevel returns floorLog2(0) = -1 as an unsigned int when the signal is shorter than the filter, so the `< 7` guard of findPossibleBlinks (c_files/src/blink/aux.c:64-65) passes | a 10-sample channel with the 18-tap coif3 filter: level 4294967295 | a channel too short for one level has level 0 and is rejected | not executed | Wavelets.MaxLevelWrapPassesGuard | Wavelets.MaxLevelChecked |
| c_files/src/wavelet/wavelets.c:213-268 | wrcoef's final output has 2 lengths[max] - M + 2 values, one more than the n-value buffer findPossibleBlinks allocates (c_files/src/blink/aux.c:77-79) when n + M - 1 is even | a 2305-sample channel at level 7 gives 2306 values | the reconstruction writes exactly n values | not executed | Wavelets.WrcoefOverrunExample | Wavelets.WrcoefChannel |
| c_files/src/blink/detect.c:63-69 | blinkDetect moves a channel's cursor forward by the number of matches, not past the match, so one candidate of a channel confirms several channel-0 candidates | candidates [100, 110] and [50, 105], window 10: both 100 and 110 are confirmed by 105 | each channel candidate confirms at most one blink, as blinksInSource does at detect.c:241-248 | not executed | BlinkDetect.ReuseExample | BlinkDetect.FuseConsume |
| c_files/src/blink/detect.c:194-207 | a falling edge is recorded without checking that the scan was above the threshold, so a source that starts above it records index 0 | source [1.0, 0.0], threshold 0.5: peaks [0] with no run above the threshold | only runs that rose above the threshold record a peak | not executed | BlinkDetect.IndexZeroExample | BlinkDetect.PeakScanGuarded |
| c_files/src/blink/aux.c:334-342 | maxCorrelate scores a row by abs(cov / (ss_row * ss_signal)) with sums of squares instead of standard deviations, so the score depends on the row's amplitude | rows [2, -2] and [1, -1] against [1, -1] score 0.25 and 0.5, so row 1 wins though both correlate perfectly | the row with the largest absolute Pearson correlation, the lowest index on a tie | not executed | BlinkAux.MaxCorrelateAmplitudeExample | BlinkAux.MaxCorrelateFixed |
| c_files/src/ica/aux.c:111-113 | computeWhiten takes the square root of the raw eigenvalues, unlike fastica.c:160-169, which takes the magnitude first | an eigenvalue rounded to a small negative number has no real square root (NaN in C) | the roots of the eigenvalue magnitudes | not executed | IcaAux.RootsNeedNonNegative | IcaAux.ComputeWhitenMagnitudes |
| c_files/src/blink/aux.c:385-397 | each of movingAverage's last 255 outputs sums only 511 mirrored samples but still divides by 512 | 513 ones: the last output is 511/512 | every output is the mean of 512 mirrored samples | not executed | MovingAverage.MovingAverageEdgeExample | MovingAverage.MovingAverage |
| c_files/src/xltek/erd/s5.c:110 | the label array is allocated with sizeof(char) per channel, one byte per eight-byte pointer | one EEG32 channel on physical channel 0: a one-byte buffer receives an eight-byte pointer | sizeof(char*) per channel, as s9.c:130 allocates | not executed | ErdS5.S5OverrunExample | ErdS5.LabelsS5 |

=== FILE: blink_aux.dfy ===
/** The index-level helpers of src/blink/aux.c: the eyeblink template, the
    threshold-crossing scan of findPossibleBlinks, the clipping of the
    correlation window, the removal of weakly correlated candidates and the
    row selection of maxCorrelate.

    Sample counts derived from the sampling frequency enter as integers:
    s1 = round(0.08 f_s) and s2 = round(0.06 f_s). */
module BlinkAux {
  import opened Options
  import opened Matrices
  import opened Signals

  // ---------------------------------------------------------------------------
  // getTemplate
  // ---------------------------------------------------------------------------

  /** Number of samples in the eyeblink template. */
  function TemplateLength(s1: nat, s2: nat): nat
    requires 1 <= s2
  {
    2 * s1 + s2 - 1
  }

  /** The value slope * i + intercept that each of getTemplate's loops writes. */
  function LineAt(slope: real, intercept: real, i: int): real
  {
    slope * i as real + intercept
  }

  /** Sample i of the template: three straight segments, the first two over
      s1 samples each and the last over s2 - 1 samples. */
  function TemplateAt(s1: nat, s2: nat, i: nat): real
    requires 2 <= s1 && 2 <= s2 && i < TemplateLength(s1, s2)
  {
    if i < s1 then LineAt(-1.0 / (s1 - 1) as real, 0.0, i)
    else if i < 2 * s1 then LineAt(0.6 / (s1 - 1) as real, -1.0, i - s1)
    else LineAt(0.2 / (s2 - 1) as real, -0.4, i - 2 * s1 + 1)
  }

  /** getTemplate: the three loops fill the template front to back. */
  method GetTemplate(s1: nat, s2: nat) returns (t: seq<real>)
    requires 2 <= s1 && 2 <= s2
    ensures |t| == TemplateLength(s1, s2)
    ensures forall i :: 0 <= i < |t| ==> t[i] == TemplateAt(s1, s2, i)
  {
    t := [];
    var slope := -1.0 / (s1 - 1) as real;
    var intercept := 0.0;
    var i := 0;
    while i < s1
      invariant 0 <= i <= s1 && |t| == i
      invariant forall j :: 0 <= j < |t| ==> t[j] == TemplateAt(s1, s2, j)
    {
      t := t + [slope * i as real + intercept];
      i := i + 1;
    }
    slope := 0.6 / (s1 - 1) as real;
    intercept := -1.0;
    i := 0;
    while i < s1
      invariant 0 <= i <= s1 && |t| == s1 + i
      invariant forall j :: 0 <= j < |t| ==> t[j] == TemplateAt(s1, s2, j)
    {
      t := t + [slope * i as real + intercept];
      i := i + 1;
    }
    slope := 0.2 / (s2 - 1) as real;
    intercept := -0.4;
    i := 1;
    while i < s2
      invariant 1 <= i <= s2 && |t| == i - 1 + 2 * s1
      invariant forall j :: 0 <= j < |t| ==> t[j] == TemplateAt(s1, s2, j)
    {
      t := t + [slope * i as real + intercept];
      i := i + 1;
    }
  }

  lemma LineStep(slope: real, intercept: real, i: int)
    ensures LineAt(slope, intercept, i + 1) == LineAt(slope, intercept, i) + slope
  {
  }

  /** A line through 0 that reaches `end` after d steps. */
  lemma LineReaches(end: real, d: nat)
    requires 0 < d
    ensures LineAt(end / d as real, 0.0, d) == end
  {
  }

  /** The segments join: 0 falls to -1 over the first s1 samples, the second
      part starts again at -1 (sample s1, where the blink sits) and rises to
      -0.4, and the last part rises on to -0.2. */
  lemma TemplateCorners(s1: nat, s2: nat)
    requires 2 <= s1 && 2 <= s2
    ensures TemplateAt(s1, s2, 0) == 0.0
    ensures TemplateAt(s1, s2, s1 - 1) == -1.0 && TemplateAt(s1, s2, s1) == -1.0
    ensures TemplateAt(s1, s2, 2 * s1 - 1) == -0.4
    ensures TemplateAt(s1, s2, TemplateLength(s1, s2) - 1) == -0.2
  {
    LineReaches(-1.0, s1 - 1);
    LineReaches(0.6, s1 - 1);
    LineReaches(0.2, s2 - 1);
    assert TemplateAt(s1, s2, 2 * s1 - 1) == LineAt(0.6 / (s1 - 1) as real, 0.0, s1 - 1) - 1.0;
    assert TemplateAt(s1, s2, TemplateLength(s1, s2) - 1) == LineAt(0.2 / (s2 - 1) as real, 0.0, s2 - 1) - 0.4;
  }

  /** The template falls strictly over its first s1 samples and rises
      strictly from sample s1 to its end, so sample s1 - 1 and sample s1
      hold its minimum -1. */
  lemma TemplateShape(s1: nat, s2: nat, i: nat)
    requires 2 <= s1 && 2 <= s2 && 0 < i < TemplateLength(s1, s2)
    ensures i < s1 ==> TemplateAt(s1, s2, i) < TemplateAt(s1, s2, i - 1)
    ensures s1 < i ==> TemplateAt(s1, s2, i - 1) < TemplateAt(s1, s2, i)
    ensures TemplateAt(s1, s2, i) >= -1.0
  {
    if i < s1 {
      TemplateFalls(s1, s2, i);
    } else if i < 2 * s1 {
      TemplateRises(s1, s2, i);
    } else {
      TemplateTail(s1, s2, i);
    }
  }

  lemma TemplateFalls(s1: nat, s2: nat, i: nat)
    requires 2 <= s1 && 2 <= s2 && 0 < i < s1
    ensures TemplateAt(s1, s2, i) < TemplateAt(s1, s2, i - 1) && TemplateAt(s1, s2, i) >= -1.0
  {
    var d1 := (s1 - 1) as real;
    LineStep(-1.0 / d1, 0.0, i - 1);
    assert TemplateAt(s1, s2, i) >= -1.0 by {
      assert TemplateAt(s1, s2, i) == -(i as real / d1);
      assert i as real <= d1;
    }
  }

  lemma TemplateRises(s1: nat, s2: nat, i: nat)
    requires 2 <= s1 && 2 <= s2 && s1 <= i < 2 * s1
    ensures s1 < i ==> TemplateAt(s1, s2, i - 1) < TemplateAt(s1, s2, i)
    ensures TemplateAt(s1, s2, i) >= -1.0
  {
    var d1 := (s1 - 1) as real;
    if s1 < i {
      LineStep(0.6 / d1, -1.0, i - s1 - 1);
    }
    assert (0.6 / d1) * (i - s1) as real >= 0.0;
  }

  lemma TemplateTail(s1: nat, s2: nat, i: nat)
    requires 2 <= s1 && 2 <= s2 && 2 * s1 <= i < TemplateLength(s1, s2)
    ensures TemplateAt(s1, s2, i - 1) < TemplateAt(s1, s2, i) && TemplateAt(s1, s2, i) >= -1.0
  {
    var d2 := (s2 - 1) as real;
    if i == 2 * s1 {
      TemplateCorners(s1, s2);
      assert TemplateAt(s1, s2, i) == 0.2 / d2 - 0.4;
    } else {
      LineStep(0.2 / d2, -0.4, i - 2 * s1);
    }
    assert (0.2 / d2) * (i - 2 * s1 + 1) as real >= 0.0;
  }

  // ---------------------------------------------------------------------------
  // Threshold crossings
  // ---------------------------------------------------------------------------

  /** x rises above the threshold t at i. */
  predicate Rise(x: seq<real>, t: seq<real>, i: nat)
    requires |x| == |t| && 1 <= i < |x|
  {
    x[i] > t[i] && x[i - 1] <= t[i - 1]
  }

  /** x falls below the threshold t at i. */
  predicate Fall(x: seq<real>, t: seq<real>, i: nat)
    requires |x| == |t| && 1 <= i < |x|
  {
    x[i] < t[i] && x[i - 1] >= t[i - 1]
  }

  /** The first rising edge at or after p. */
  function NextRise(x: seq<real>, t: seq<real>, p: nat): (r: Option<nat>)
    requires |x| == |t| && 1 <= p
    ensures r.Some? ==> p <= r.value < |x| && Rise(x, t, r.value)
    ensures forall i :: p <= i < |x| && (r.None? || i < r.value) ==> !Rise(x, t, i)
    decreases |x| - p
  {
    if p >= |x| then None else if Rise(x, t, p) then Some(p) else NextRise(x, t, p + 1)
  }

  /** The first falling edge at or after p. */
  function NextFall(x: seq<real>, t: seq<real>, p: nat): (r: Option<nat>)
    requires |x| == |t| && 1 <= p
    ensures r.Some? ==> p <= r.value < |x| && Fall(x, t, r.value)
    ensures forall i :: p <= i < |x| && (r.None? || i < r.value) ==> !Fall(x, t, i)
    decreases |x| - p
  {
    if p >= |x| then None else if Fall(x, t, p) then Some(p) else NextFall(x, t, p + 1)
  }

  /** A stretch from a rising edge `start` to the falling edge `stop` that
      ends it. */
  datatype Run = Run(start: nat, stop: nat)

  /** The complete runs from p on: the first rising edge, then the first
      falling edge after it; the search for the next rise resumes after the
      fall. A rise that is never followed by a fall ends nothing. */
  function Runs(x: seq<real>, t: seq<real>, p: nat): (r: seq<Run>)
    requires |x| == |t| && 1 <= p
    ensures forall k :: 0 <= k < |r| ==>
      p <= r[k].start < r[k].stop < |x| && Rise(x, t, r[k].start) && Fall(x, t, r[k].stop)
    ensures forall k :: 0 < k < |r| ==> r[k - 1].stop < r[k].start
    decreases |x| - p
  {
    match NextRise(x, t, p)
    case None => []
    case Some(s) =>
      match NextFall(x, t, s + 1)
      case None => []
      case Some(e) => [Run(s, e)] + Runs(x, t, e + 1)
  }

  lemma RunsUnfold(x: seq<real>, t: seq<real>, p: nat, r: nat, e: nat)
    requires |x| == |t| && 1 <= p
    requires NextRise(x, t, p) == Some(r) && NextFall(x, t, r + 1) == Some(e)
    ensures Runs(x, t, p) == [Run(r, e)] + Runs(x, t, e + 1)
  {
  }

  lemma RunsEmpty(x: seq<real>, t: seq<real>, p: nat)
    requires |x| == |t| && 1 <= p
    requires NextRise(x, t, p).None? || NextFall(x, t, NextRise(x, t, p).value + 1).None?
    ensures Runs(x, t, p) == []
  {
  }

  /** The first index in [lo, hi) where `a` takes its least value. */
  function FirstMin(a: seq<real>, lo: nat, hi: nat): (r: nat)
    requires lo < hi <= |a|
    ensures lo <= r < hi
    ensures forall j :: lo <= j < hi ==> a[r] <= a[j]
    ensures forall j :: lo <= j < r ==> a[r] < a[j]
    decreases hi
  {
    if hi == lo + 1 then lo
    else
      var m := FirstMin(a, lo, hi - 1);
      if a[hi - 1] < a[m] then hi - 1 else m
  }

  /** The first index in [lo, hi) where `a` takes its greatest value. */
  function FirstMax(a: seq<real>, lo: nat, hi: nat): (r: nat)
    requires lo < hi <= |a|
    ensures lo <= r < hi
    ensures forall j :: lo <= j < hi ==> a[j] <= a[r]
    ensures forall j :: lo <= j < r ==> a[j] < a[r]
    decreases hi
  {
    if hi == lo + 1 then lo
    else
      var m := FirstMax(a, lo, hi - 1);
      if a[m] < a[hi - 1] then hi - 1 else m
  }

  /** Runs lie inside a signal of length n. */
  predicate RunsWithin(runs: seq<Run>, n: nat)
  {
    forall k :: 0 <= k < |runs| ==> runs[k].start < runs[k].stop <= n
  }

  /** For every run, the first index of a's minimum over [start, stop). */
  function Minima(a: seq<real>, runs: seq<Run>): (r: seq<nat>)
    requires RunsWithin(runs, |a|)
    ensures |r| == |runs|
    ensures forall k :: 0 <= k < |r| ==> r[k] == FirstMin(a, runs[k].start, runs[k].stop)
  {
    if |runs| == 0 then [] else [FirstMin(a, runs[0].start, runs[0].stop)] + Minima(a, runs[1..])
  }

  /** For every run, the first index of a's maximum over [start, stop). */
  function Maxima(a: seq<real>, runs: seq<Run>): (r: seq<nat>)
    requires RunsWithin(runs, |a|)
    ensures |r| == |runs|
    ensures forall k :: 0 <= k < |r| ==> r[k] == FirstMax(a, runs[k].start, runs[k].stop)
  {
    if |runs| == 0 then [] else [FirstMax(a, runs[0].start, runs[0].stop)] + Maxima(a, runs[1..])
  }

  /** One index per run, taken inside the run: strictly increasing, in [1, |x|). */
  lemma RunPicksIncrease(x: seq<real>, t: seq<real>, picks: seq<nat>)
    requires |x| == |t|
    requires |picks| == |Runs(x, t, 1)|
    requires forall k :: 0 <= k < |picks| ==> Runs(x, t, 1)[k].start <= picks[k] < Runs(x, t, 1)[k].stop
    ensures forall k :: 0 <= k < |picks| ==> 1 <= picks[k] < |x|
    ensures forall k :: 0 < k < |picks| ==> picks[k - 1] < picks[k]
  {
    var runs := Runs(x, t, 1);
    forall k | 0 < k < |picks|
      ensures picks[k - 1] < picks[k]
    {
      assert runs[k - 1].stop < runs[k].start;
    }
  }

  // ---------------------------------------------------------------------------
  // The scan of findPossibleBlinks
  // ---------------------------------------------------------------------------

  /** The scan's variables: `above`, the running minimum (None while it is
      INFINITY), its index and the indices recorded so far. */
  datatype MinScan = MinScan(above: bool, min: Option<real>, minIndex: nat, found: seq<nat>)

  /** One iteration of the scan at sample i: a rise is only taken below the
      threshold and a fall only above it; above the threshold a strictly
      smaller sample of `a` becomes the running minimum. */
  function MinStep(x: seq<real>, t: seq<real>, a: seq<real>, s: MinScan, i: nat): MinScan
    requires |x| == |t| == |a| && 1 <= i < |x|
  {
    var s1 :=
      if !s.above && Rise(x, t, i) then s.(above := true, min := None)
      else if s.above && Fall(x, t, i) then s.(above := false, found := s.found + [s.minIndex])
      else s;
    if s1.above && (s1.min.None? || s1.min.value > a[i]) then s1.(min := Some(a[i]), minIndex := i) else s1
  }

  /** The scan run over samples i, i + 1, ..., |x| - 1. */
  function MinScanFrom(x: seq<real>, t: seq<real>, a: seq<real>, s: MinScan, i: nat): MinScan
    requires |x| == |t| == |a| && 1 <= i
    decreases |x| - i
  {
    if i >= |x| then s else MinScanFrom(x, t, a, MinStep(x, t, a, s, i), i + 1)
  }

  /** The state inside a run that began at `start`, before sample i. */
  function Tracking(a: seq<real>, start: nat, i: nat, found: seq<nat>): MinScan
    requires start < i <= |a|
  {
    var m := FirstMin(a, start, i);
    MinScan(true, Some(a[m]), m, found)
  }

  /** Below the threshold and without a rise, nothing changes. */
  lemma {:induction false} MinIdle(x: seq<real>, t: seq<real>, a: seq<real>, s: MinScan, i: nat, q: nat)
    requires |x| == |t| == |a| && 1 <= i <= q <= |x| && !s.above
    requires forall j :: i <= j < q ==> !Rise(x, t, j)
    ensures MinScanFrom(x, t, a, s, i) == MinScanFrom(x, t, a, s, q)
    decreases q - i
  {
    if i < q {
      assert MinStep(x, t, a, s, i) == s;
      MinIdle(x, t, a, s, i + 1, q);
    }
  }

  /** Above the threshold and without a fall, the running minimum is the
      first minimum of the run so far. */
  lemma {:induction false} MinTrack(x: seq<real>, t: seq<real>, a: seq<real>, start: nat, i: nat, q: nat, found: seq<nat>)
    requires |x| == |t| == |a| && 1 <= start < i <= q <= |x|
    requires forall j :: i <= j < q ==> !Fall(x, t, j)
    ensures MinScanFrom(x, t, a, Tracking(a, start, i, found), i)
         == MinScanFrom(x, t, a, Tracking(a, start, q, found), q)
    decreases q - i
  {
    if i < q {
      assert MinStep(x, t, a, Tracking(a, start, i, found), i) == Tracking(a, start, i + 1, found);
      MinTrack(x, t, a, start, i + 1, q, found);
    }
  }

  /** A complete run [r, e) found from p: the scan arrives after the fall
      below the threshold, with the run's first minimum recorded. */
  lemma MinScanRun(x: seq<real>, t: seq<real>, a: seq<real>, s: MinScan, p: nat, r: nat, e: nat)
    requires |x| == |t| == |a| && 1 <= p && !s.above
    requires NextRise(x, t, p) == Some(r) && NextFall(x, t, r + 1) == Some(e)
    ensures var m := FirstMin(a, r, e);
      MinScanFrom(x, t, a, s, p) == MinScanFrom(x, t, a, MinScan(false, Some(a[m]), m, s.found + [m]), e + 1)
  {
    MinIdle(x, t, a, s, p, r);
    assert MinStep(x, t, a, s, r) == Tracking(a, r, r + 1, s.found);
    MinTrack(x, t, a, r, r + 1, e, s.found);
    var m := FirstMin(a, r, e);
    assert MinStep(x, t, a, Tracking(a, r, e, s.found), e) == MinScan(false, Some(a[m]), m, s.found + [m]);
  }

  /** A rise that no fall follows: the scan ends above the threshold with
      nothing more recorded. */
  lemma MinScanOpen(x: seq<real>, t: seq<real>, a: seq<real>, s: MinScan, p: nat, r: nat)
    requires |x| == |t| == |a| && 1 <= p && !s.above
    requires NextRise(x, t, p) == Some(r) && NextFall(x, t, r + 1) == None
    ensures MinScanFrom(x, t, a, s, p).found == s.found
  {
    MinIdle(x, t, a, s, p, r);
    assert MinStep(x, t, a, s, r) == Tracking(a, r, r + 1, s.found);
    MinTrack(x, t, a, r, r + 1, |x|, s.found);
  }

  /** From below the threshold, the scan appends the minima of the runs. */
  lemma {:induction false} MinScanRuns(x: seq<real>, t: seq<real>, a: seq<real>, s: MinScan, p: nat)
    requires |x| == |t| == |a| && 1 <= p && !s.above
    ensures MinScanFrom(x, t, a, s, p).found == s.found + Minima(a, Runs(x, t, p))
    decreases |x| - p
  {
    if p >= |x| || NextRise(x, t, p).None? || NextFall(x, t, NextRise(x, t, p).value + 1).None? {
      MinScanNoRun(x, t, a, s, p);
    } else {
      var r := NextRise(x, t, p).value;
      var e := NextFall(x, t, r + 1).value;
      assert p <= r < e < |a|;
      var m := FirstMin(a, r, e);
      var s2 := MinScan(false, Some(a[m]), m, s.found + [m]);
      MinScanRuns(x, t, a, s2, e + 1);
      MinScanRunsJoin(x, t, a, s, p, r, e, m, s2);
    }
  }

  /** With no complete run left, the scan records nothing more. */
  lemma MinScanNoRun(x: seq<real>, t: seq<real>, a: seq<real>, s: MinScan, p: nat)
    requires |x| == |t| == |a| && 1 <= p && !s.above
    requires p >= |x| || NextRise(x, t, p).None? || NextFall(x, t, NextRise(x, t, p).value + 1).None?
    ensures MinScanFrom(x, t, a, s, p).found == s.found + Minima(a, Runs(x, t, p))
  {
    if p >= |x| {
      RunsEmpty(x, t, p);
    } else if NextRise(x, t, p).None? {
      MinIdle(x, t, a, s, p, |x|);
      RunsEmpty(x, t, p);
    } else {
      MinScanOpen(x, t, a, s, p, NextRise(x, t, p).value);
      RunsEmpty(x, t, p);
    }
    assert s.found + [] == s.found;
  }

  /** One completed run joined to the scan of the rest. */
  lemma MinScanRunsJoin(x: seq<real>, t: seq<real>, a: seq<real>, s: MinScan, p: nat, r: nat, e: nat, m: nat, s2: MinScan)
    requires |x| == |t| == |a| && 1 <= p && !s.above
    requires NextRise(x, t, p) == Some(r) && NextFall(x, t, r + 1) == Some(e)
    requires m == FirstMin(a, r, e) && s2 == MinScan(false, Some(a[m]), m, s.found + [m])
    requires MinScanFrom(x, t, a, s2, e + 1).found == s2.found + Minima(a, Runs(x, t, e + 1))
    ensures MinScanFrom(x, t, a, s, p).found == s.found + Minima(a, Runs(x, t, p))
  {
    MinScanRun(x, t, a, s, p, r, e);
    RunsUnfold(x, t, p, r, e);
    var rest := Minima(a, Runs(x, t, e + 1));
    assert Minima(a, Runs(x, t, p)) == [m] + rest;
    Signals.ConcatAssoc(s.found, [m], rest);
  }

  /** The scan from the start state records the run minima, each in
      [1, |x|) and in increasing order. */
  lemma MinScanResult(x: seq<real>, t: seq<real>, a: seq<real>)
    requires |x| == |t| == |a|
    ensures var f := MinScanFrom(x, t, a, MinScan(false, None, 0, []), 1).found;
      f == Minima(a, Runs(x, t, 1))
      && (forall k :: 0 <= k < |f| ==> 1 <= f[k] < |x|)
      && (forall k :: 0 < k < |f| ==> f[k - 1] < f[k])
  {
    MinScanRuns(x, t, a, MinScan(false, None, 0, []), 1);
    RunPicksIncrease(x, t, Minima(a, Runs(x, t, 1)));
  }

  /** The crossing scan of findPossibleBlinks: for every run of `x` above
      the threshold `t` (the summed detail envelopes against their moving
      average plus t_1), the first index of the minimum of `a` (the rebuilt
      approximation) over the run. A run still open at the end records
      nothing. */
  method ScanMinima(x: seq<real>, t: seq<real>, a: seq<real>) returns (indices: seq<nat>)
    requires |x| == |t| == |a|
    ensures indices == Minima(a, Runs(x, t, 1))
    ensures forall k :: 0 <= k < |indices| ==> 1 <= indices[k] < |x|
    ensures forall k :: 0 < k < |indices| ==> indices[k - 1] < indices[k]
  {
    var above := false;
    var min: Option<real> := None;
    var minIndex: nat := 0;
    indices := [];
    var i := 1;
    ghost var goal := MinScanFrom(x, t, a, MinScan(false, None, 0, []), 1);
    while i < |x|
      invariant 1 <= i
      invariant MinScanFrom(x, t, a, MinScan(above, min, minIndex, indices), i) == goal
      decreases |x| - i
    {
      ghost var before := MinScan(above, min, minIndex, indices);
      if !above && x[i] > t[i] && x[i - 1] <= t[i - 1] {
        above := true;
        min := None;
      } else if above && x[i] < t[i] && x[i - 1] >= t[i - 1] {
        above := false;
        indices := indices + [minIndex];
      }
      if above {
        if min.None? || min.value > a[i] {
          min := Some(a[i]);
          minIndex := i;
        }
      }
      assert MinScan(above, min, minIndex, indices) == MinStep(x, t, a, before, i);
      i := i + 1;
    }
    MinScanResult(x, t, a);
  }

  // ---------------------------------------------------------------------------
  // Correlation window and candidate removal
  // ---------------------------------------------------------------------------

  /** The slices findPossibleBlinks correlates: `length` samples of the
      approximation from `index` against the template from `tempStart`. */
  datatype Window = Window(index: nat, tempStart: nat, length: nat)

  /** Clipping of the window that puts template sample s1 on the candidate. */
  function CorWindow(blink: nat, s1: nat, lenTemplate: nat, n: nat): (w: Window)
    requires blink < n && s1 <= lenTemplate
    ensures w.index - w.tempStart == blink - s1
    ensures w.tempStart + w.length <= lenTemplate
    ensures lenTemplate <= n ==> w.index + w.length <= n
    ensures w.index + w.length < n ==> w.tempStart + w.length == lenTemplate
    ensures w.tempStart > 0 ==> w.index == 0
  {
    var index := blink - s1;
    if index < 0 then Window(0, -index, lenTemplate + index)
    else if index + lenTemplate >= n then Window(index, 0, lenTemplate - (index + lenTemplate - n))
    else Window(index, 0, lenTemplate)
  }

  /** The test `cors[i] < t_cor` of findPossibleBlinks. A NaN correlation
      (None) compares false, so its candidate is kept. */
  predicate Below(c: Option<real>, tCor: real)
  {
    c.Some? && c.value < tCor
  }

  /** Number of correlations not below the threshold. */
  function Kept(cors: seq<Option<real>>, tCor: real): (r: nat)
    ensures r <= |cors|
  {
    if |cors| == 0 then 0 else Kept(cors[..|cors| - 1], tCor) + (if Below(cors[|cors| - 1], tCor) then 0 else 1)
  }

  predicate Increasing(s: seq<nat>)
  {
    forall k :: 0 < k < |s| ==> s[k - 1] < s[k]
  }

  /** The candidates whose correlation reaches t_cor, in their order. */
  function KeepCorrelated(indices: seq<nat>, cors: seq<Option<real>>, tCor: real): (r: seq<nat>)
    requires |cors| == |indices|
    ensures |r| == Kept(cors, tCor)
    decreases |indices|
  {
    if |indices| == 0 then []
    else
      var n := |indices| - 1;
      var front := KeepCorrelated(indices[..n], cors[..n], tCor);
      assert cors[..n] == cors[..|cors| - 1];
      if Below(cors[n], tCor) then front else front + [indices[n]]
  }

  /** `v` is a candidate whose correlation is not below t_cor. */
  predicate Correlated(indices: seq<nat>, cors: seq<Option<real>>, tCor: real, v: nat)
    requires |cors| == |indices|
  {
    exists i :: 0 <= i < |indices| && indices[i] == v && !Below(cors[i], tCor)
  }

  /** Every survivor is a candidate whose correlation reached t_cor, and
      survivors keep the candidates' order. */
  lemma {:induction false} KeepCorrelatedSound(indices: seq<nat>, cors: seq<Option<real>>, tCor: real)
    requires |cors| == |indices|
    ensures forall k :: 0 <= k < |KeepCorrelated(indices, cors, tCor)| ==>
      Correlated(indices, cors, tCor, KeepCorrelated(indices, cors, tCor)[k])
    ensures Increasing(indices) ==> Increasing(KeepCorrelated(indices, cors, tCor))
    decreases |indices|
  {
    if |indices| > 0 {
      var n := |indices| - 1;
      var pre, preC := indices[..n], cors[..n];
      KeepCorrelatedSound(pre, preC, tCor);
      var front := KeepCorrelated(pre, preC, tCor);
      forall k | 0 <= k < |front|
        ensures exists i :: 0 <= i < n && indices[i] == front[k] && !Below(cors[i], tCor)
      {
        assert Correlated(pre, preC, tCor, front[k]);
        var i :| 0 <= i < |pre| && pre[i] == front[k] && !Below(preC[i], tCor);
        assert indices[i] == front[k] && !Below(cors[i], tCor);
      }
      if !Below(cors[n], tCor) {
        assert Correlated(indices, cors, tCor, indices[n]);
      }
      if Increasing(indices) {
        assert Increasing(pre);
        forall k | 0 <= k < |front|
          ensures front[k] < indices[n]
        {
          var i :| 0 <= i < n && indices[i] == front[k] && !Below(cors[i], tCor);
          IncreasingLess(indices, i, n);
        }
      }
    }
  }

  lemma {:induction false} IncreasingLess(s: seq<nat>, i: nat, j: nat)
    requires Increasing(s) && i < j < |s|
    ensures s[i] < s[j]
    decreases j - i
  {
    if i + 1 < j {
      IncreasingLess(s, i, j - 1);
    }
  }

  /** The end of findPossibleBlinks: candidates below t_cor are marked with
      -1 and counted out; the survivors are copied in order, or none when
      the count reaches 0. Candidates are at least 1, so the `> 0` test of
      the copy loop drops exactly the marked ones. */
  method RemoveUncorrelated(indices: seq<nat>, cors: seq<Option<real>>, tCor: real) returns (blinks: seq<nat>, numBlinks: int)
    requires |cors| == |indices|
    requires forall k :: 0 <= k < |indices| ==> 1 <= indices[k]
    ensures blinks == KeepCorrelated(indices, cors, tCor) && numBlinks == |blinks|
  {
    var marked;
    marked, numBlinks := MarkUncorrelated(indices, cors, tCor);
    blinks := [];
    if numBlinks != 0 {
      blinks := CopyMarked(indices, cors, tCor, marked);
    } else {
      assert |KeepCorrelated(indices, cors, tCor)| == 0;
    }
  }

  /** The marking loop of findPossibleBlinks: -1 for a candidate below
      t_cor, the candidate itself otherwise, and the count of survivors. */
  method MarkUncorrelated(indices: seq<nat>, cors: seq<Option<real>>, tCor: real) returns (marked: seq<int>, numBlinks: int)
    requires |cors| == |indices|
    ensures |marked| == |indices| && numBlinks == Kept(cors, tCor)
    ensures forall k :: 0 <= k < |indices| ==> marked[k] == if Below(cors[k], tCor) then -1 else indices[k] as int
  {
    marked := [];
    numBlinks := |indices|;
    var i := 0;
    while i < |indices|
      invariant 0 <= i <= |indices| && |marked| == i
      invariant forall k :: 0 <= k < i ==> marked[k] == if Below(cors[k], tCor) then -1 else indices[k] as int
      invariant numBlinks == |indices| - i + Kept(cors[..i], tCor)
    {
      assert cors[..i + 1][..i] == cors[..i];
      if Below(cors[i], tCor) {
        marked := marked + [-1];
        numBlinks := numBlinks - 1;
      } else {
        marked := marked + [indices[i] as int];
      }
      i := i + 1;
    }
    assert cors[..|cors|] == cors;
  }

  /** The copy loop of findPossibleBlinks: the positive marks, in order. */
  method CopyMarked(indices: seq<nat>, cors: seq<Option<real>>, tCor: real, marked: seq<int>) returns (blinks: seq<nat>)
    requires |cors| == |indices| == |marked|
    requires forall k :: 0 <= k < |indices| ==> 1 <= indices[k]
    requires forall k :: 0 <= k < |indices| ==> marked[k] == if Below(cors[k], tCor) then -1 else indices[k] as int
    ensures blinks == KeepCorrelated(indices, cors, tCor)
  {
    blinks := [];
    var i := 0;
    while i < |indices|
      invariant 0 <= i <= |indices|
      invariant blinks == KeepCorrelated(indices[..i], cors[..i], tCor)
    {
      assert indices[..i + 1][..i] == indices[..i];
      assert cors[..i + 1][..i] == cors[..i];
      if marked[i] > 0 {
        blinks := blinks + [marked[i] as nat];
      }
      i := i + 1;
    }
    assert indices[..|indices|] == indices;
    assert cors[..|cors|] == cors;
  }

  // ---------------------------------------------------------------------------
  // maxCorrelate
  // ---------------------------------------------------------------------------

  function Sum(v: seq<real>): real
  {
    if |v| == 0 then 0.0 else Sum(v[..|v| - 1]) + v[|v| - 1]
  }

  function Mean(v: seq<real>): real
    requires 0 < |v|
  {
    Sum(v) / |v| as real
  }

  /** The sum of (u[i] - mean u) * (v[i] - mean v) over the first k samples. */
  function CoSum(u: seq<real>, v: seq<real>, k: nat): real
    requires 0 < |u| == |v| && k <= |u|
  {
    if k == 0 then 0.0 else CoSum(u, v, k - 1) + (u[k - 1] - Mean(u)) * (v[k - 1] - Mean(v))
  }

  /** Row j of S as a signal. */
  function Row(s: Matrix, j: nat): (r: seq<real>)
    requires s.Valid() && j < s.rows
    ensures |r| == s.cols
  {
    seq(s.cols, i requires 0 <= i < s.cols => s.At(j, i))
  }

  /** Two signals of one, positive length, neither of them constant. */
  predicate Comparable(u: seq<real>, v: seq<real>)
  {
    0 < |u| == |v| && CoSum(u, u, |u|) != 0.0 && CoSum(v, v, |v|) != 0.0
  }

  /** c / (x y). */
  function Ratio(c: real, x: real, y: real): real
    requires x != 0.0 && y != 0.0
  {
    c / (x * y)
  }

  function Square(c: real): real
  {
    c * c
  }

  /** The score maxCorrelate computes for a pair of signals: the absolute
      covariance sum divided by the product of the two sums of squares. */
  function AsWrittenScore(u: seq<real>, v: seq<real>): (r: real)
    requires Comparable(u, v)
    ensures r >= 0.0
  {
    AbsVal(Ratio(CoSum(u, v, |u|), CoSum(u, u, |u|), CoSum(v, v, |v|)))
  }

  /** The squared Pearson correlation: the covariance sum squared over the
      product of the two sums of squares. */
  function CorrSq(u: seq<real>, v: seq<real>): (r: real)
    requires Comparable(u, v)
  {
    Ratio(Square(CoSum(u, v, |u|)), CoSum(u, u, |u|), CoSum(v, v, |v|))
  }

  /** The value maxCorrelate compares for row j: the score when the row
      and the signal are comparable, and None, the NaN of 0 / 0, when
      either is constant or there is no column (the covariance sum is then
      0 as well, ConstantNoCovariance). */
  function Score(s: Matrix, signal: seq<real>, j: nat): (r: Option<real>)
    requires s.Valid() && |signal| == s.cols && j < s.rows
    ensures r.Some? ==> r.value >= 0.0
  {
    if Comparable(Row(s, j), signal) then Some(AsWrittenScore(Row(s, j), signal)) else None
  }

  /** The squared correlation of row j with the signal, None where it is
      undefined. */
  function CorrScore(s: Matrix, signal: seq<real>, j: nat): (r: Option<real>)
    requires s.Valid() && |signal| == s.cols && j < s.rows
  {
    if Comparable(Row(s, j), signal) then Some(CorrSq(Row(s, j), signal)) else None
  }

  /** `cor > max_cor` on a value that may be NaN: false for NaN. */
  predicate Beats(o: Option<real>, m: real)
  {
    o.Some? && o.value > m
  }

  /** `cor >= m` on a value that may be NaN. */
  predicate Reaches(o: Option<real>, m: real)
  {
    o.Some? && o.value >= m
  }

  /** The scores of every row of S against the signal. */
  function Scores(s: Matrix, signal: seq<real>): (r: seq<Option<real>>)
    requires s.Valid() && |signal| == s.cols
    ensures |r| == s.rows && forall j :: 0 <= j < s.rows ==> r[j] == Score(s, signal, j)
  {
    seq(s.rows, j requires 0 <= j < s.rows => Score(s, signal, j))
  }

  /** The squared correlations of every row of S with the signal. */
  function CorrScores(s: Matrix, signal: seq<real>): (r: seq<Option<real>>)
    requires s.Valid() && |signal| == s.cols
    ensures |r| == s.rows && forall j :: 0 <= j < s.rows ==> r[j] == CorrScore(s, signal, j)
  {
    seq(s.rows, j requires 0 <= j < s.rows => CorrScore(s, signal, j))
  }

  /** k is what maxCorrelate's loop picks from the values sc: 0 when no
      value exceeds 0 (NaN never does); otherwise a value that exceeds 0
      and that no value beats, at the lowest index where such a value
      occurs. */
  predicate Picked(sc: seq<Option<real>>, k: nat)
  {
    ((forall j :: 0 <= j < |sc| ==> !Beats(sc[j], 0.0)) ==> k == 0)
    && ((exists j :: 0 <= j < |sc| && Beats(sc[j], 0.0)) ==>
          k < |sc| && Beats(sc[k], 0.0)
          && (forall j :: 0 <= j < |sc| ==> !Beats(sc[j], sc[k].value))
          && forall j :: 0 <= j < k ==> !Reaches(sc[j], sc[k].value))
  }

  /** At most one index is picked. */
  lemma PickedUnique(sc: seq<Option<real>>, k1: nat, k2: nat)
    requires Picked(sc, k1) && Picked(sc, k2)
    ensures k1 == k2
  {
    if exists j :: 0 <= j < |sc| && Beats(sc[j], 0.0) {
      if k1 < k2 {
        assert false;
      } else if k2 < k1 {
        assert false;
      }
    }
  }

  /** maxCorrelate's selection loop: starting from 0 at index 0, a value
      that beats the best so far takes over, and NaN never does. */
  method MaxIndex(sc: seq<Option<real>>) returns (k: nat)
    ensures Picked(sc, k)
  {
    var maxCor := 0.0;
    k := 0;
    var i := 0;
    while i < |sc|
      invariant 0 <= i <= |sc| && maxCor >= 0.0
      invariant forall j :: 0 <= j < i ==> !Beats(sc[j], maxCor)
      invariant maxCor == 0.0 ==> k == 0
      invariant maxCor > 0.0 ==> k < i && sc[k] == Some(maxCor) && forall j :: 0 <= j < k ==> !Reaches(sc[j], maxCor)
    {
      if Beats(sc[i], maxCor) {
        maxCor := sc[i].value;
        k := i;
      }
      i := i + 1;
    }
  }

  /** maxCorrelate as written: the row of S whose score against `signal` is
      largest, the lowest such row on ties, and row 0 when no score exceeds
      0, in particular when every score is NaN. */
  method MaxCorrelate(s: Matrix, signal: seq<real>) returns (k: nat)
    requires s.Valid() && |signal| == s.cols
    ensures Picked(Scores(s, signal), k)
  {
    k := MaxIndex(Scores(s, signal));
  }

  /** maxCorrelate as documented: the row with the highest absolute
      correlation, the lowest such row on ties, and row 0 when no row
      correlates at all. Squared correlations order the rows as absolute
      correlations do (SquareOrder). */
  method MaxCorrelateFixed(s: Matrix, signal: seq<real>) returns (k: nat)
    requires s.Valid() && |signal| == s.cols
    ensures Picked(CorrScores(s, signal), k)
  {
    k := MaxIndex(CorrScores(s, signal));
  }

  // ---------------------------------------------------------------------------
  // Constant signals
  // ---------------------------------------------------------------------------

  /** The deviations of a signal from its mean. */
  function Devs(v: seq<real>): (r: seq<real>)
    requires 0 < |v|
    ensures |r| == |v| && forall i :: 0 <= i < |v| ==> r[i] == v[i] - Mean(v)
  {
    seq(|v|, i requires 0 <= i < |v| => v[i] - Mean(v))
  }

  /** The sum of a[i] * b[i] over the first k samples. */
  function ProdSum(a: seq<real>, b: seq<real>, k: nat): real
    requires k <= |a| == |b|
  {
    if k == 0 then 0.0 else ProdSum(a, b, k - 1) + Prod(a[k - 1], b[k - 1])
  }

  /** The covariance sum is the dot product of the deviations. */
  lemma {:induction false} CoSumDot(u: seq<real>, v: seq<real>, k: nat)
    requires 0 < |u| == |v| && k <= |u|
    ensures CoSum(u, v, k) == ProdSum(Devs(u), Devs(v), k)
  {
    if k > 0 {
      CoSumDot(u, v, k - 1);
    }
  }

  /** A square is never negative, and positive unless its root is 0. */
  lemma SquareSign(d: real)
    ensures 0.0 <= Prod(d, d)
    ensures d != 0.0 ==> 0.0 < Prod(d, d)
  {
    if d > 0.0 {
      PositiveProd(d, d);
    } else if d < 0.0 {
      NegatedProd(d);
      PositiveProd(-d, -d);
    }
  }

  lemma PositiveProd(x: real, y: real)
    requires 0.0 < x && 0.0 < y
    ensures 0.0 < Prod(x, y)
  {
  }

  lemma NegatedProd(d: real)
    ensures Prod(-d, -d) == Prod(d, d)
  {
  }

  lemma ZeroProd(a: real, b: real)
    requires a == 0.0 || b == 0.0
    ensures Prod(a, b) == 0.0
  {
  }

  /** A sum of squares is non-negative, grows with every term, and is
      positive once a term is not 0. */
  lemma {:induction false} DotSquares(a: seq<real>, k: nat)
    requires k <= |a|
    ensures 0.0 <= ProdSum(a, a, k)
    ensures 0 < k ==> ProdSum(a, a, k - 1) <= ProdSum(a, a, k)
    ensures 0 < k && a[k - 1] != 0.0 ==> 0.0 < ProdSum(a, a, k)
  {
    if k > 0 {
      DotSquares(a, k - 1);
      SquareSign(a[k - 1]);
    }
  }

  /** A non-zero dot product needs a non-zero sum of squares on both
      sides. */
  lemma {:induction false} DotNeedsSpread(a: seq<real>, b: seq<real>, k: nat)
    requires k <= |a| == |b|
    ensures ProdSum(a, b, k) != 0.0 ==> 0.0 < ProdSum(a, a, k) && 0.0 < ProdSum(b, b, k)
  {
    if k > 0 {
      DotSquares(a, k);
      DotSquares(b, k);
      DotNeedsSpread(a, b, k - 1);
      if a[k - 1] == 0.0 || b[k - 1] == 0.0 {
        ZeroProd(a[k - 1], b[k - 1]);
      }
    }
  }

  /** When either sum of squares is 0 the covariance sum is 0 too: every
      sample of the constant signal equals its mean. So a constant row or
      signal makes maxCorrelate divide 0 by 0. */
  lemma ConstantNoCovariance(u: seq<real>, v: seq<real>, k: nat)
    requires 0 < |u| == |v| && k <= |u|
    requires CoSum(u, u, k) == 0.0 || CoSum(v, v, k) == 0.0
    ensures CoSum(u, v, k) == 0.0
  {
    CoSumDot(u, v, k);
    CoSumDot(u, u, k);
    CoSumDot(v, v, k);
    DotNeedsSpread(Devs(u), Devs(v), k);
  }

  lemma {:induction false} SumZeros(n: nat)
    ensures Sum(Zeros(n)) == 0.0
  {
    if n > 0 {
      assert Zeros(n)[..n - 1] == Zeros(n - 1);
      SumZeros(n - 1);
    }
  }

  lemma {:induction false} CoSumZeros(n: nat, k: nat)
    requires 0 < n && k <= n
    ensures CoSum(Zeros(n), Zeros(n), k) == 0.0
  {
    if k > 0 {
      SumZeros(n);
      CoSumZeros(n, k - 1);
    }
  }

  /** Against an all-zero signal every score is NaN, so maxCorrelate
      returns row 0. */
  lemma ZerosNoScore(s: Matrix)
    requires s.Valid()
    ensures forall j :: 0 <= j < s.rows ==> Score(s, Zeros(s.cols), j).None? && CorrScore(s, Zeros(s.cols), j).None?
  {
    if 0 < s.cols {
      CoSumZeros(s.cols, s.cols);
    }
  }

  // ---------------------------------------------------------------------------
  // Absolute and squared correlation
  // ---------------------------------------------------------------------------

  /** Between non-negative values, comparing squares is comparing values:
      the absolute correlation is the square root of the squared one, so
      ranking rows by squared correlation ranks them by absolute correlation. */
  lemma SquareOrder(a: real, b: real)
    requires 0.0 <= a && 0.0 <= b
    ensures a < b <==> a * a < b * b
  {
    DiffSquares(a, b);
    if a < b {
      PositiveProduct(b - a, b + a);
    } else {
      NonNegativeProduct(a - b, b + a);
      assert (a - b) * (b + a) == -((b - a) * (b + a));
    }
  }

  lemma DiffSquares(a: real, b: real)
    ensures b * b - a * a == (b - a) * (b + a)
  {
  }

  lemma PositiveProduct(x: real, y: real)
    requires 0.0 < x && 0.0 < y
    ensures 0.0 < x * y
  {
  }

  lemma NonNegativeProduct(x: real, y: real)
    requires 0.0 <= x && 0.0 <= y
    ensures 0.0 <= x * y
  {
  }

  /** A two-sample signal [a, -a] has mean 0. */
  lemma Balanced(u: seq<real>)
    requires |u| == 2 && u[1] == -u[0]
    ensures Mean(u) == 0.0
  {
    assert u[..1][..0] == [];
    assert Sum(u[..1]) == u[0];
  }

  /** The covariance sum of [a, -a] and [b, -b]. */
  lemma BalancedCoSum(u: seq<real>, v: seq<real>, a: real, b: real)
    requires u == [a, -a] && v == [b, -b]
    ensures CoSum(u, v, 2) == 2.0 * a * b
  {
    Balanced(u);
    Balanced(v);
    assert CoSum(u, v, 1) == a * b;
  }

  /** Both scores from the three sums they are built from. */
  lemma ScoresFrom(u: seq<real>, v: seq<real>, c: real, x: real, y: real)
    requires Comparable(u, v)
    requires CoSum(u, v, |u|) == c && CoSum(u, u, |u|) == x && CoSum(v, v, |v|) == y
    ensures AsWrittenScore(u, v) == AbsVal(Ratio(c, x, y))
    ensures CorrSq(u, v) == Ratio(Square(c), x, y)
  {
  }

  /** Two rows, [2, -2] and [1, -1], both perfectly correlated with the
      signal [1, -1]: as written the smaller row scores higher and is chosen,
      while their correlations tie and row 0 is the documented answer. */
  lemma MaxCorrelateAmplitudeExample()
    ensures var s := Matrix([2.0, 1.0, -2.0, -1.0], 2, 2, 2, 2);
      s.Valid()
      && Score(s, [1.0, -1.0], 0) == Some(0.25) && Score(s, [1.0, -1.0], 1) == Some(0.5)
      && CorrScore(s, [1.0, -1.0], 0) == CorrScore(s, [1.0, -1.0], 1) == Some(1.0)
  {
    var s := Matrix([2.0, 1.0, -2.0, -1.0], 2, 2, 2, 2);
    var sig, r0 := [1.0, -1.0], [2.0, -2.0];
    assert Row(s, 0) == r0 by {
      assert s.At(0, 0) == 2.0 && s.At(0, 1) == -2.0;
    }
    assert Row(s, 1) == sig by {
      assert s.At(1, 0) == 1.0 && s.At(1, 1) == -1.0;
    }
    BalancedCoSum(r0, r0, 2.0, 2.0);
    BalancedCoSum(r0, sig, 2.0, 1.0);
    BalancedCoSum(sig, sig, 1.0, 1.0);
    ScoresFrom(r0, sig, 4.0, 8.0, 2.0);
    ScoresFrom(sig, sig, 2.0, 2.0, 2.0);
  }
}

=== FILE: blink_candidates.dfy ===
/** findPossibleBlinks of src/blink/aux.c: the single-channel eyeblink
    detector. It decomposes the channel with the coif3 wavelet to seven
    levels, rebuilds the level-3 approximation and the envelopes of the
    level 5, 6 and 7 details, scans the summed envelopes against their
    moving average raised by t_1, takes the approximation's minimum in
    every run above that threshold, and keeps the candidates whose window
    correlates with the eyeblink template at t_cor or more.

    The routine `correlate` divides by a product of square roots; the
    pipeline takes it as the parameter `cor`, and Correlate below states
    what it computes, with None for the NaN of a constant window. */
module BlinkCandidates {
  import opened Options
  import opened Signals
  import opened Wavelets
  import opened BlinkAux
  import Envelope
  import MovingAverage

  /** The parameters of the detector. steps1 = round(0.08 f_s) and
      steps2 = round(0.06 f_s) are the template's part lengths in samples;
      t1 raises the moving-average threshold and tCor is the correlation a
      candidate needs. */
  datatype Params = Params(steps1: nat, steps2: nat, t1: real, tCor: real)

  /** correlate of two windows of one length; None stands for NaN. */
  type Correlator = (seq<real>, seq<real>) -> Option<real>

  /** BLINK_DEF_T_1 and BLINK_DEF_T_COR. */
  const DefaultT1: real := 15.0
  const DefaultTCor: real := 0.75

  /** The wavelet is coif3 (18 taps), as findPossibleBlinks always uses. */
  predicate Coif3(w: Wavelet)
  {
    w.Valid() && w.Len() == Coif3Length
  }

  /** The decomposition, the approximation and the detail levels used. */
  const DecLevel: nat := 7
  const ApproxLevel: nat := 3
  const FirstDetail: nat := 5

  /** The channel passes the "seven levels" guard (with the maximum level
      of a channel shorter than the filter read as 0, see MaxLevelChecked). */
  predicate Processable(x: seq<real>)
  {
    |x| < U32 && DecLevel <= MaxLevelChecked(|x|, Coif3Length)
  }

  /** The guard admits exactly the channels of at least 18 * 2^7 = 2304
      samples. */
  lemma {:induction false} ProcessableIff(x: seq<real>)
    requires |x| < U32
    ensures Processable(x) <==> 2304 <= |x|
  {
    MaxLevelCheckedIff(|x|, Coif3Length, DecLevel);
    Pow2Seven();
  }

  lemma Pow2Seven()
    ensures Pow2(7) == 128
  {
    Pow2Table();
    Pow2Add(2, 1);
    Pow2Add(4, 3);
  }

  /** What a processable channel gives the wavelet routines: seven levels
      fit, and the channel is longer than the moving-average window. */
  lemma ProcessableFacts(n: nat)
    requires n < U32 && DecLevel <= MaxLevelChecked(n, Coif3Length)
    ensures 2304 <= n && 2 * Coif3Length <= n && MovingAverage.Width < n
    ensures ClampLevel(DecLevel, n, Coif3Length) == DecLevel
    ensures Coif3Length * Pow2(DecLevel) <= n && Decomposable(n, Coif3Length, DecLevel)
  {
    MaxLevelCheckedIff(n, Coif3Length, DecLevel);
    Pow2Seven();
    WavedecLevelFits(n, Coif3Length, DecLevel);
  }

  // ---------------------------------------------------------------------------
  // The pipeline as functions
  // ---------------------------------------------------------------------------

  /** The channel rebuilt from one branch of its seven-level decomposition,
      cut to the channel's length as the channel-sized buffers cut it. */
  function Rebuilt(w: Wavelet, x: seq<real>, t: ReconType, level: nat): (r: seq<real>)
    requires Coif3(w) && Processable(x)
    ensures |r| == |x|
  {
    var n := |x|;
    ProcessableFacts(n);
    var lengths := WavedecLengths(n, Coif3Length, DecLevel);
    var coefs := Approx(w, x, DecLevel) + Details(w, x, DecLevel);
    WavedecFeedsWrcoef(w, x, DecLevel, lengths, coefs);
    WrcoefCoversChannel(n, Coif3Length, DecLevel);
    WrcoefRef(w, coefs, lengths, t, level)[..n]
  }

  /** chan_a: the level-3 approximation. */
  function ChanA(w: Wavelet, x: seq<real>): (r: seq<real>)
    requires Coif3(w) && Processable(x)
    ensures |r| == |x|
  {
    Rebuilt(w, x, ReconApprox, ApproxLevel)
  }

  /** The envelopes of the rebuilt details of levels 5 up to (not
      including) `upto`, summed sample by sample onto zeros. */
  function DetailSum(w: Wavelet, x: seq<real>, upto: nat): (r: seq<real>)
    requires Coif3(w) && Processable(x) && FirstDetail <= upto
    ensures |r| == |x|
    decreases upto
  {
    if upto == FirstDetail then Zeros(|x|)
    else
      ProcessableFacts(|x|);
      Add(DetailSum(w, x, upto - 1), Envelope.EnvelopeOf(Rebuilt(w, x, ReconDetail, upto - 1)))
  }

  /** chan_d: the enveloped details of levels 5, 6 and 7, summed. */
  function ChanD(w: Wavelet, x: seq<real>): (r: seq<real>)
    requires Coif3(w) && Processable(x)
    ensures |r| == |x|
  {
    DetailSum(w, x, DecLevel + 1)
  }

  /** thresh: the moving average of d, raised by t1. */
  function Thresholds(d: seq<real>, t1: real): (r: seq<real>)
    requires MovingAverage.Long(d)
    ensures |r| == |d|
  {
    seq(|d|, i requires 0 <= i < |d| => MovingAverage.AverageAt(d, i) + t1)
  }

  /** The first guess: the approximation's minimum in every run of chan_d
      above the threshold. */
  function Candidates(w: Wavelet, x: seq<real>, t1: real): (r: seq<nat>)
    requires Coif3(w) && Processable(x)
  {
    ProcessableFacts(|x|);
    var d := ChanD(w, x);
    Minima(ChanA(w, x), Runs(d, Thresholds(d, t1), 1))
  }

  /** The eyeblink template as a sequence. */
  function Template(s1: nat, s2: nat): (t: seq<real>)
    requires 2 <= s1 && 2 <= s2
    ensures |t| == TemplateLength(s1, s2)
  {
    seq(TemplateLength(s1, s2), i requires 0 <= i < TemplateLength(s1, s2) => TemplateAt(s1, s2, i))
  }

  /** The correlation of one candidate: `cor` of the clipped approximation
      slice against the matching template slice. */
  function WindowCorrelation(a: seq<real>, templ: seq<real>, s1: nat, c: nat, cor: Correlator): Option<real>
    requires c < |a| && s1 <= |templ| <= |a|
  {
    var win := CorWindow(c, s1, |templ|, |a|);
    cor(a[win.index .. win.index + win.length], templ[win.tempStart .. win.tempStart + win.length])
  }

  function Correlations(a: seq<real>, templ: seq<real>, s1: nat, cands: seq<nat>, cor: Correlator): (r: seq<Option<real>>)
    requires s1 <= |templ| <= |a|
    requires forall k :: 0 <= k < |cands| ==> cands[k] < |a|
    ensures |r| == |cands|
  {
    seq(|cands|, k requires 0 <= k < |cands| => WindowCorrelation(a, templ, s1, cands[k], cor))
  }

  /** What the detector needs of its arguments: a coif3 wavelet, a channel
      length that fits an int, template parts of at least two samples each
      (getTemplate divides by steps - 1) and a template no longer than the
      channel (the clipped window stays inside both arrays). */
  predicate Admissible(w: Wavelet, x: seq<real>, p: Params)
  {
    Coif3(w) && |x| < U32 && 2 <= p.steps1 && 2 <= p.steps2
    && TemplateLength(p.steps1, p.steps2) <= |x|
  }

  /** The detector's result: nothing for a channel the guard rejects,
      otherwise the candidates whose correlation reaches tCor. */
  function PossibleBlinks(w: Wavelet, x: seq<real>, p: Params, cor: Correlator): (r: seq<nat>)
    requires Admissible(w, x, p)
  {
    if !Processable(x) then []
    else
      var cands := Candidates(w, x, p.t1);
      CandidatesInChannel(w, x, p.t1);
      KeepCorrelated(cands, Correlations(ChanA(w, x), Template(p.steps1, p.steps2), p.steps1, cands, cor), p.tCor)
  }

  /** The candidates are increasing indices in [1, |x|). */
  lemma CandidatesInChannel(w: Wavelet, x: seq<real>, t1: real)
    requires Coif3(w) && Processable(x)
    ensures var c := Candidates(w, x, t1);
      (forall k :: 0 <= k < |c| ==> 1 <= c[k] < |x|) && Increasing(c)
  {
    ProcessableFacts(|x|);
    var d := ChanD(w, x);
    MinScanResult(d, Thresholds(d, t1), ChanA(w, x));
  }

  /** b is a sound selection from the candidates over the approximation a:
      increasing indices in [1, |a|), each a candidate whose window
      correlation is not below tCor (NaN included). */
  predicate SoundBlinks(b: seq<nat>, a: seq<real>, templ: seq<real>, s1: nat, cands: seq<nat>,
                        cor: Correlator, tCor: real)
  {
    Increasing(b)
    && (forall k :: 0 <= k < |b| ==> 1 <= b[k] < |a|)
    && s1 <= |templ| <= |a|
    && (forall k :: 0 <= k < |b| ==>
          exists i :: 0 <= i < |cands| && cands[i] == b[k] && !Below(WindowCorrelation(a, templ, s1, b[k], cor), tCor))
  }

  /** Every detected blink is a candidate of the scan whose window
      correlation reached tCor; the blinks are increasing indices inside
      the channel (index 0 is never reported). A channel the guard rejects
      gives none. */
  lemma PossibleBlinksSound(w: Wavelet, x: seq<real>, p: Params, cor: Correlator)
    requires Admissible(w, x, p)
    ensures !Processable(x) ==> PossibleBlinks(w, x, p, cor) == []
    ensures Processable(x) ==>
      SoundBlinks(PossibleBlinks(w, x, p, cor), ChanA(w, x), Template(p.steps1, p.steps2), p.steps1, Candidates(w, x, p.t1), cor, p.tCor)
  {
    if Processable(x) {
      var a := ChanA(w, x);
      var templ := Template(p.steps1, p.steps2);
      var cands := Candidates(w, x, p.t1);
      CandidatesInChannel(w, x, p.t1);
      var b := PossibleBlinks(w, x, p, cor);
      assert b == KeepCorrelated(cands, Correlations(a, templ, p.steps1, cands, cor), p.tCor);
      KeptSound(a, templ, p.steps1, cands, cor, p.tCor, b);
    }
  }

  /** Every candidate blink is a sample of the channel. */
  lemma PossibleBlinksInside(w: Wavelet, x: seq<real>, p: Params, cor: Correlator)
    requires Admissible(w, x, p)
    ensures forall k :: 0 <= k < |PossibleBlinks(w, x, p, cor)| ==> PossibleBlinks(w, x, p, cor)[k] < |x|
  {
    PossibleBlinksSound(w, x, p, cor);
  }

  /** What KeepCorrelated keeps of increasing candidates is a sound
      selection. */
  lemma KeptSound(a: seq<real>, templ: seq<real>, s1: nat, cands: seq<nat>, cor: Correlator, tCor: real, b: seq<nat>)
    requires s1 <= |templ| <= |a|
    requires (forall k :: 0 <= k < |cands| ==> 1 <= cands[k] < |a|) && Increasing(cands)
    requires b == KeepCorrelated(cands, Correlations(a, templ, s1, cands, cor), tCor)
    ensures SoundBlinks(b, a, templ, s1, cands, cor, tCor)
  {
    var cors := Correlations(a, templ, s1, cands, cor);
    KeepCorrelatedSound(cands, cors, tCor);
    forall k | 0 <= k < |b|
      ensures 1 <= b[k] < |a|
      ensures exists i :: 0 <= i < |cands| && cands[i] == b[k] && !Below(WindowCorrelation(a, templ, s1, b[k], cor), tCor)
    {
      assert Correlated(cands, cors, tCor, b[k]);
      var i :| 0 <= i < |cands| && cands[i] == b[k] && !Below(cors[i], tCor);
      assert cors[i] == WindowCorrelation(a, templ, s1, cands[i], cor);
    }
  }

  /** The window correlation of candidate i. */
  function CandidateCorrelation(w: Wavelet, x: seq<real>, p: Params, cor: Correlator, i: nat): Option<real>
    requires Admissible(w, x, p) && Processable(x) && i < |Candidates(w, x, p.t1)|
  {
    CandidatesInChannel(w, x, p.t1);
    WindowCorrelation(ChanA(w, x), Template(p.steps1, p.steps2), p.steps1, Candidates(w, x, p.t1)[i], cor)
  }

  /** A candidate whose window correlation is not below tCor, or is NaN,
      is reported. */
  lemma PossibleBlinksComplete(w: Wavelet, x: seq<real>, p: Params, cor: Correlator, i: nat)
    requires Admissible(w, x, p) && Processable(x) && i < |Candidates(w, x, p.t1)|
    requires !Below(CandidateCorrelation(w, x, p, cor, i), p.tCor)
    ensures Candidates(w, x, p.t1)[i] in PossibleBlinks(w, x, p, cor)
  {
    var cands := Candidates(w, x, p.t1);
    CandidatesInChannel(w, x, p.t1);
    var cors := Correlations(ChanA(w, x), Template(p.steps1, p.steps2), p.steps1, cands, cor);
    KeepCorrelatedKeeps(cands, cors, p.tCor, i);
  }

  /** KeepCorrelated keeps every candidate whose correlation reaches the
      threshold. */
  lemma {:induction false} KeepCorrelatedKeeps(indices: seq<nat>, cors: seq<Option<real>>, tCor: real, i: nat)
    requires |cors| == |indices| && i < |indices| && !Below(cors[i], tCor)
    ensures indices[i] in KeepCorrelated(indices, cors, tCor)
    decreases |indices|
  {
    var n := |indices| - 1;
    if i < n {
      KeepCorrelatedKeeps(indices[..n], cors[..n], tCor, i);
    }
  }

  // ---------------------------------------------------------------------------
  // The routine
  // ---------------------------------------------------------------------------

  /** Summing the enveloped details of levels 5, 6 and 7 into chan_d. */
  method SumDetails(w: Wavelet, x: seq<real>, coefs: seq<real>, lengths: seq<nat>) returns (d: seq<real>)
    requires Coif3(w) && Processable(x) && Decomposable(|x|, Coif3Length, DecLevel)
    requires lengths == WavedecLengths(|x|, Coif3Length, DecLevel)
    requires coefs == Approx(w, x, DecLevel) + Details(w, x, DecLevel)
    ensures d == ChanD(w, x)
  {
    // the loop over levels 5, 6 and 7, unrolled
    d := Zeros(|x|);
    d := AddDetail(w, x, coefs, lengths, 5, d);
    d := AddDetail(w, x, coefs, lengths, 6, d);
    d := AddDetail(w, x, coefs, lengths, 7, d);
  }

  /** chan_d with one more detail level added. */
  method AddDetail(w: Wavelet, x: seq<real>, coefs: seq<real>, lengths: seq<nat>, level: nat, d: seq<real>) returns (d2: seq<real>)
    requires Coif3(w) && Processable(x) && Decomposable(|x|, Coif3Length, DecLevel)
    requires lengths == WavedecLengths(|x|, Coif3Length, DecLevel)
    requires coefs == Approx(w, x, DecLevel) + Details(w, x, DecLevel)
    requires FirstDetail <= level && d == DetailSum(w, x, level)
    ensures d2 == DetailSum(w, x, level + 1)
  {
    var e := DetailEnvelope(w, x, coefs, lengths, level);
    d2 := Add(d, e);
  }

  /** One detail level rebuilt from the decomposition and enveloped. */
  method DetailEnvelope(w: Wavelet, x: seq<real>, coefs: seq<real>, lengths: seq<nat>, level: nat) returns (e: seq<real>)
    requires Coif3(w) && Processable(x) && Decomposable(|x|, Coif3Length, DecLevel)
    requires lengths == WavedecLengths(|x|, Coif3Length, DecLevel)
    requires coefs == Approx(w, x, DecLevel) + Details(w, x, DecLevel)
    ensures e == Envelope.EnvelopeOf(Rebuilt(w, x, ReconDetail, level))
  {
    var n := |x|;
    ProcessableFacts(n);
    WavedecFeedsWrcoef(w, x, DecLevel, lengths, coefs);
    WrcoefCoversChannel(n, Coif3Length, DecLevel);
    var r := WrcoefChannel(coefs, lengths, ReconDetail, w, level, n);
    e := Envelope.Envelope(r);
  }

  /** chan_a from the decomposition. */
  method ApproxChannel(w: Wavelet, x: seq<real>, coefs: seq<real>, lengths: seq<nat>) returns (a: seq<real>)
    requires Coif3(w) && Processable(x) && Decomposable(|x|, Coif3Length, DecLevel)
    requires lengths == WavedecLengths(|x|, Coif3Length, DecLevel)
    requires coefs == Approx(w, x, DecLevel) + Details(w, x, DecLevel)
    ensures a == ChanA(w, x)
  {
    ProcessableFacts(|x|);
    WavedecFeedsWrcoef(w, x, DecLevel, lengths, coefs);
    WrcoefCoversChannel(|x|, Coif3Length, DecLevel);
    a := WrcoefChannel(coefs, lengths, ReconApprox, w, ApproxLevel, |x|);
  }

  /** thresh: the moving average plus t_1 at every sample. */
  method Threshold(d: seq<real>, t1: real) returns (thresh: seq<real>)
    requires MovingAverage.Long(d)
    ensures thresh == Thresholds(d, t1)
  {
    var avg := MovingAverage.MovingAverage(d);
    thresh := seq(|d|, i requires 0 <= i < |d| => avg[i] + t1);
  }

  /** The correlation loop: one clipped window per candidate. */
  method CorrelateCandidates(a: seq<real>, templ: seq<real>, s1: nat, cands: seq<nat>, cor: Correlator)
      returns (cors: seq<Option<real>>)
    requires s1 <= |templ| <= |a|
    requires forall k :: 0 <= k < |cands| ==> cands[k] < |a|
    ensures cors == Correlations(a, templ, s1, cands, cor)
  {
    cors := [];
    var i := 0;
    while i < |cands|
      invariant 0 <= i <= |cands| && |cors| == i
      invariant forall k :: 0 <= k < i ==> cors[k] == WindowCorrelation(a, templ, s1, cands[k], cor)
    {
      var index := cands[i] - s1;
      var tempStart := 0;
      var corLength := |templ|;
      if index < 0 {
        tempStart := -index;
        corLength := |templ| + index;
        index := 0;
      } else if index + |templ| >= |a| {
        corLength := |templ| - (index + |templ| - |a|);
      }
      cors := cors + [cor(a[index .. index + corLength], templ[tempStart .. tempStart + corLength])];
      i := i + 1;
    }
  }

  /** getTemplate's samples are the template. */
  method TemplateSeq(s1: nat, s2: nat) returns (t: seq<real>)
    requires 2 <= s1 && 2 <= s2
    ensures t == Template(s1, s2)
  {
    t := GetTemplate(s1, s2);
  }

  /** findPossibleBlinks, with the seven-level guard reading the maximum
      level of a channel shorter than the filter as 0 (from 18 samples on
      the guard as written agrees, GuardAgrees). `cor` is correlate, with
      `root` standing for sqrt and None for NaN. */
  method FindPossibleBlinks(x: seq<real>, w: Wavelet, p: Params, cor: Correlator, root: real -> real)
      returns (blinks: seq<nat>, numBlinks: int)
    requires Admissible(w, x, p) && CorrelateBy(cor, root)
    ensures blinks == PossibleBlinks(w, x, p, cor) && numBlinks == |blinks|
  {
    var n := |x|;
    if MaxLevelChecked(n, Coif3Length) < DecLevel {
      return [], 0;
    }
    var chanA, indices := FirstGuess(w, x, p.t1);
    blinks, numBlinks := KeepBlinks(w, x, p, cor, chanA, indices);
  }

  /** For channels of at least one filter length, the seven-level guard
      as written (on the wrapped maximum level) and the checked guard
      agree; they differ only below 18 samples (MaxLevelWrapPassesGuard). */
  lemma GuardAgrees(n: nat)
    requires Coif3Length <= n < U32
    ensures MaxLevel(n, Coif3Length) < DecLevel <==> MaxLevelChecked(n, Coif3Length) < DecLevel
  {
  }

  /** The decomposition, chan_a, chan_d, the threshold and the minima of
      the runs above it. */
  method FirstGuess(w: Wavelet, x: seq<real>, t1: real) returns (chanA: seq<real>, indices: seq<nat>)
    requires Coif3(w) && Processable(x)
    ensures chanA == ChanA(w, x) && indices == Candidates(w, x, t1)
  {
    ProcessableFacts(|x|);
    var coefs, lengths := Wavedec(x, w, DecLevel);
    WavedecFeedsWrcoef(w, x, DecLevel, lengths, coefs);
    chanA := ApproxChannel(w, x, coefs, lengths);
    var chanD := SumDetails(w, x, coefs, lengths);
    var thresh := Threshold(chanD, t1);
    indices := ScanMinima(chanD, thresh, chanA);
  }

  /** The end of findPossibleBlinks: the template, the window correlation
      of every candidate, and the candidates that reach tCor. */
  method KeepBlinks(w: Wavelet, x: seq<real>, p: Params, cor: Correlator, chanA: seq<real>, indices: seq<nat>)
      returns (blinks: seq<nat>, numBlinks: int)
    requires Admissible(w, x, p) && Processable(x)
    requires chanA == ChanA(w, x) && indices == Candidates(w, x, p.t1)
    ensures blinks == PossibleBlinks(w, x, p, cor) && numBlinks == |blinks|
  {
    CandidatesInChannel(w, x, p.t1);
    var templ := TemplateSeq(p.steps1, p.steps2);
    var cors := CorrelateCandidates(chanA, templ, p.steps1, indices, cor);
    blinks, numBlinks := RemoveUncorrelated(indices, cors, p.tCor);
  }

  // ---------------------------------------------------------------------------
  // correlate
  // ---------------------------------------------------------------------------

  function Quot(a: real, b: real): real
    requires b != 0.0
  {
    a / b
  }

  function Times(a: real, b: real): real
  {
    a * b
  }

  /** The mean-removed sum of products divided by the length: the
      covariance (or, with u == v, the variance) correlate computes. */
  function Moment(u: seq<real>, v: seq<real>): real
    requires 0 < |u| == |v|
  {
    Quot(CoSum(u, v, |u|), |u| as real)
  }

  /** The product of the two standard deviations, with `root` for sqrt. */
  function Spread(u: seq<real>, v: seq<real>, root: real -> real): real
    requires 0 < |u| == |v|
  {
    Times(root(Moment(u, u)), root(Moment(v, v)))
  }

  /** correlate: the covariance over the product of the standard
      deviations. An empty window makes the means 0/0, and a product of
      standard deviations that is 0 divides by 0; both are None (NaN; for
      the second see DegenerateIsNaN). */
  function Correlate(u: seq<real>, v: seq<real>, root: real -> real): (r: Option<real>)
    requires |u| == |v|
    ensures r.None? <==> |u| == 0 || Spread(u, v, root) == 0.0
  {
    if |u| == 0 || Spread(u, v, root) == 0.0 then None
    else Some(Quot(Moment(u, v), Spread(u, v, root)))
  }

  /** With a root that is 0 only at 0, as sqrt is, a product of standard
      deviations that is 0 comes from a constant window, whose covariance
      is 0 too: C divides 0 by 0, which is NaN. */
  lemma DegenerateIsNaN(u: seq<real>, v: seq<real>, root: real -> real)
    requires 0 < |u| == |v| && Spread(u, v, root) == 0.0
    requires root(Moment(u, u)) == 0.0 ==> Moment(u, u) == 0.0
    requires root(Moment(v, v)) == 0.0 ==> Moment(v, v) == 0.0
    ensures Moment(u, v) == 0.0
  {
    assert root(Moment(u, u)) == 0.0 || root(Moment(v, v)) == 0.0;
    assert CoSum(u, u, |u|) == 0.0 || CoSum(v, v, |u|) == 0.0;
    ConstantNoCovariance(u, v, |u|);
  }

  /** `cor` is correlate on every pair of windows of one length, with
      `root` for sqrt. */
  ghost predicate CorrelateBy(cor: Correlator, root: real -> real)
  {
    forall u: seq<real>, v: seq<real> | |u| == |v| :: cor(u, v) == Correlate(u, v, root)
  }

  /** The two slices correlated for candidate c. */
  function WindowSlices(a: seq<real>, templ: seq<real>, s1: nat, c: nat): (r: (seq<real>, seq<real>))
    requires c < |a| && s1 <= |templ| <= |a|
    ensures |r.0| == |r.1|
  {
    var win := CorWindow(c, s1, |templ|, |a|);
    (a[win.index .. win.index + win.length], templ[win.tempStart .. win.tempStart + win.length])
  }

  /** Candidate i of the scan, an index inside the channel. */
  function CandidateAt(w: Wavelet, x: seq<real>, t1: real, i: nat): (c: nat)
    requires Coif3(w) && Processable(x) && i < |Candidates(w, x, t1)|
    ensures c == Candidates(w, x, t1)[i] && 1 <= c < |x|
  {
    CandidatesInChannel(w, x, t1);
    Candidates(w, x, t1)[i]
  }

  /** With `cor` correlate, a candidate of a processable channel is kept
      exactly when correlate of its window is not below t_cor: when it
      reaches t_cor, or when it is NaN because the window is constant. */
  lemma KeptIffCorrelate(w: Wavelet, x: seq<real>, p: Params, cor: Correlator, root: real -> real, i: nat)
    requires Admissible(w, x, p) && Processable(x) && CorrelateBy(cor, root)
    requires i < |Candidates(w, x, p.t1)|
    ensures var sl := WindowSlices(ChanA(w, x), Template(p.steps1, p.steps2), p.steps1, CandidateAt(w, x, p.t1, i));
      var r := Correlate(sl.0, sl.1, root);
      CandidateAt(w, x, p.t1, i) in PossibleBlinks(w, x, p, cor) <==> r.None? || r.value >= p.tCor
  {
    CandidatesInChannel(w, x, p.t1);
    var a := ChanA(w, x);
    var templ := Template(p.steps1, p.steps2);
    var c := CandidateAt(w, x, p.t1, i);
    var sl := WindowSlices(a, templ, p.steps1, c);
    assert WindowCorrelation(a, templ, p.steps1, c, cor) == Correlate(sl.0, sl.1, root);
    if !Below(Correlate(sl.0, sl.1, root), p.tCor) {
      PossibleBlinksComplete(w, x, p, cor, i);
    }
    if c in PossibleBlinks(w, x, p, cor) {
      PossibleBlinksSound(w, x, p, cor);
      var b := PossibleBlinks(w, x, p, cor);
      var k :| 0 <= k < |b| && b[k] == c;
    }
  }

  lemma {:induction false} CoSumSymmetric(u: seq<real>, v: seq<real>, k: nat)
    requires 0 < |u| == |v| && k <= |u|
    ensures CoSum(u, v, k) == CoSum(v, u, k)
  {
    if k > 0 {
      CoSumSymmetric(u, v, k - 1);
      assert (u[k - 1] - Mean(u)) * (v[k - 1] - Mean(v)) == (v[k - 1] - Mean(v)) * (u[k - 1] - Mean(u));
    }
  }

  /** The correlation does not depend on the order of its arguments. */
  lemma CorrelateSymmetric(u: seq<real>, v: seq<real>, root: real -> real)
    requires |u| == |v|
    ensures Correlate(u, v, root) == Correlate(v, u, root)
  {
    if 0 < |u| {
      CoSumSymmetric(u, v, |u|);
      assert Spread(v, u, root) == Spread(u, v, root);
    }
  }

  /** With a root that squares back to the variance, a window that is not
      constant correlates with itself to exactly 1. */
  lemma CorrelateSelf(u: seq<real>, root: real -> real)
    requires 0 < |u| && Moment(u, u) != 0.0 && Times(root(Moment(u, u)), root(Moment(u, u))) == Moment(u, u)
    ensures Correlate(u, u, root) == Some(1.0)
  {
    var m := Moment(u, u);
    assert Spread(u, u, root) == m;
    QuotSelf(m);
  }

  lemma QuotSelf(m: real)
    requires m != 0.0
    ensures Quot(m, m) == 1.0
  {
  }
}

=== FILE: blink_detect.dfy ===
/** src/blink/detect.c: the fusion of the single-channel candidates into
    multi-channel eyeblinks (blinkDetect), the synthetic blink signal and
    the choice of the blink source (blinkSource), and the peaks of that
    source confirmed by the EEG blinks (blinksInSource).

    window = trunc(0.02 f_s) enters as an integer. */
module BlinkDetect {
  import opened Options
  import opened Signals
  import opened Matrices
  import opened BlinkAux
  import BlinkCandidates
  import Wavelets

  // ---------------------------------------------------------------------------
  // Matching candidates across lists
  // ---------------------------------------------------------------------------

  /** abs(a - b) <= window on ints. */
  predicate Near(a: int, b: int, window: nat)
  {
    -(window as int) <= a - b <= window
  }

  /** How many entries of `list` from position `from` on lie within the
      window of b. */
  function MatchCount(b: nat, list: seq<nat>, from: nat, window: nat): (r: nat)
    requires from <= |list|
    ensures r <= |list| - from
    decreases |list| - from
  {
    if from == |list| then 0
    else (if Near(b, list[from], window) then 1 else 0) + MatchCount(b, list, from + 1, window)
  }

  /** The count is positive exactly when some entry from `from` on is near. */
  lemma {:induction false} MatchCountPositive(b: nat, list: seq<nat>, from: nat, window: nat)
    requires from <= |list|
    ensures MatchCount(b, list, from, window) > 0 <==> exists j :: from <= j < |list| && Near(b, list[j], window)
    decreases |list| - from
  {
    if from < |list| {
      MatchCountPositive(b, list, from + 1, window);
      if MatchCount(b, list, from, window) > 0 && !Near(b, list[from], window) {
        var j :| from + 1 <= j < |list| && Near(b, list[j], window);
      }
    }
  }

  /** The first position at or after `from` whose entry lies within the
      window of b. */
  function FirstMatch(b: nat, list: seq<nat>, from: nat, window: nat): (r: Option<nat>)
    requires from <= |list|
    ensures r.Some? ==> from <= r.value < |list| && Near(b, list[r.value], window)
    ensures forall j :: from <= j < |list| && (r.None? || j < r.value) ==> !Near(b, list[j], window)
    decreases |list| - from
  {
    if from == |list| then None
    else if Near(b, list[from], window) then Some(from)
    else FirstMatch(b, list, from + 1, window)
  }

  // ---------------------------------------------------------------------------
  // blinkDetect as written
  // ---------------------------------------------------------------------------

  /** One cursor per channel, each inside its channel's list. */
  predicate Cursors(lists: seq<seq<nat>>, iters: seq<nat>)
  {
    |iters| == |lists| && forall ch :: 0 <= ch < |lists| ==> iters[ch] <= |lists[ch]|
  }

  /** The outcome of checking one candidate: whether every channel agreed,
      and the cursors afterwards. */
  datatype Check = Check(ok: bool, iters: seq<nat>)

  /** The channel loop of blinkDetect for the channel-0 candidate b, from
      channel `chan` on: each channel's cursor moves on by the number of
      its candidates within the window (from the cursor to the end), and
      the first channel without one ends the check. */
  function Confirm(lists: seq<seq<nat>>, window: nat, b: nat, chan: nat, iters: seq<nat>): (r: Check)
    requires Cursors(lists, iters) && chan <= |lists|
    ensures Cursors(lists, r.iters)
    decreases |lists| - chan
  {
    if chan == |lists| then Check(true, iters)
    else
      var c := MatchCount(b, lists[chan], iters[chan], window);
      if c == 0 then Check(false, iters)
      else Confirm(lists, window, b, chan + 1, iters[chan := iters[chan] + c])
  }

  /** The channel-0 candidates from position i on that every other channel
      confirms, the cursors carried from one candidate to the next. */
  function FuseFrom(lists: seq<seq<nat>>, window: nat, i: nat, iters: seq<nat>): (r: seq<nat>)
    requires 1 <= |lists| && Cursors(lists, iters) && i <= |lists[0]|
    decreases |lists[0]| - i
  {
    if i == |lists[0]| then []
    else
      var b := lists[0][i];
      var c := Confirm(lists, window, b, 1, iters);
      (if c.ok then [b] else []) + FuseFrom(lists, window, i + 1, c.iters)
  }

  /** Some channel has no candidate at all. */
  predicate AnyEmpty(lists: seq<seq<nat>>)
  {
    exists ch :: 0 <= ch < |lists| && |lists[ch]| == 0
  }

  function Start(n: nat): (r: seq<nat>)
    ensures |r| == n && forall ch :: 0 <= ch < n ==> r[ch] == 0
  {
    seq(n, _ => 0)
  }

  /** blinkDetect's result from the per-channel candidate lists. */
  function Fusion(lists: seq<seq<nat>>, window: nat): (r: seq<nat>)
    requires 1 <= |lists|
  {
    if AnyEmpty(lists) then [] else FuseFrom(lists, window, 0, Start(|lists|))
  }

  /** The survivors of a marked list: the entries not marked with -1. */
  function Survivors(marked: seq<int>): (r: seq<nat>)
  {
    if |marked| == 0 then []
    else Survivors(marked[..|marked| - 1]) + (if marked[|marked| - 1] >= 0 then [marked[|marked| - 1] as nat] else [])
  }

  lemma SurvivorsSnoc(marked: seq<int>, v: int)
    ensures Survivors(marked + [v]) == Survivors(marked) + (if v >= 0 then [v as nat] else [])
  {
    assert (marked + [v])[..|marked|] == marked;
  }

  /** The inner search of blinkDetect over one channel: every candidate
      from the cursor to the end that lies within the window moves the
      cursor on by one. */
  method CountMatches(b: nat, list: seq<nat>, start: nat, window: nat) returns (cursor: nat, found: bool)
    requires start <= |list|
    ensures cursor == start + MatchCount(b, list, start, window)
    ensures found <==> MatchCount(b, list, start, window) > 0
  {
    cursor := start;
    found := false;
    var j := start;
    while j < |list|
      invariant start <= j <= |list|
      invariant cursor - start + MatchCount(b, list, j, window) == MatchCount(b, list, start, window)
      invariant start <= cursor && (found <==> cursor > start)
    {
      if Near(b, list[j], window) {
        cursor := cursor + 1;
        found := true;
      }
      j := j + 1;
    }
  }

  /** The channel loop for one candidate, leaving on the first channel
      without a match. */
  method ConfirmLoop(lists: seq<seq<nat>>, window: nat, b: nat, iters0: seq<nat>) returns (found: bool, iters: seq<nat>)
    requires 1 <= |lists| && Cursors(lists, iters0)
    ensures Check(found, iters) == Confirm(lists, window, b, 1, iters0)
  {
    iters := iters0;
    found := true;
    var chan := 1;
    while chan < |lists|
      invariant 1 <= chan <= |lists| && Cursors(lists, iters)
      invariant Confirm(lists, window, b, chan, iters) == Confirm(lists, window, b, 1, iters0)
    {
      var cursor, any := CountMatches(b, lists[chan], iters[chan], window);
      if !any {
        found := false;
        return;
      }
      iters := iters[chan := cursor];
      chan := chan + 1;
    }
  }

  /** One candidate of the fusion loop: marking it (or -1) and moving the
      cursors on keeps the survivors plus the rest of the fusion fixed. */
  lemma FuseStep(lists: seq<seq<nat>>, window: nat, i: nat, iters: seq<nat>, found: bool, next: seq<nat>, marked: seq<int>, v: int)
    requires 1 <= |lists| && Cursors(lists, iters) && i < |lists[0]|
    requires Check(found, next) == Confirm(lists, window, lists[0][i], 1, iters)
    requires v == if found then lists[0][i] as int else -1
    ensures Cursors(lists, next)
    ensures Survivors(marked + [v]) + FuseFrom(lists, window, i + 1, next) == Survivors(marked) + FuseFrom(lists, window, i, iters)
    ensures |Survivors(marked + [v])| == |Survivors(marked)| + (if found then 1 else 0)
  {
    var kept: seq<nat> := if found then [lists[0][i]] else [];
    var rest := FuseFrom(lists, window, i + 1, next);
    assert FuseFrom(lists, window, i, iters) == kept + rest;
    SurvivorsSnoc(marked, v);
    ConcatAssoc(Survivors(marked), kept, rest);
  }

  /** blinkDetect after the per-channel detection, as written: the cursors
      start at 0, a candidate that some channel does not confirm is marked
      with -1 and counted out, and the survivors are copied in order. */
  method FuseAsWritten(lists: seq<seq<nat>>, window: nat) returns (blinks: seq<nat>, numBlinks: int)
    requires 1 <= |lists|
    ensures blinks == Fusion(lists, window) && numBlinks == |blinks|
    ensures AnyEmpty(lists) ==> blinks == []
  {
    var ch := 0;
    while ch < |lists|
      invariant 0 <= ch <= |lists| && forall k :: 0 <= k < ch ==> |lists[k]| > 0
    {
      if |lists[ch]| == 0 {
        return [], 0;
      }
      ch := ch + 1;
    }
    var first := lists[0];
    var iters := Start(|lists|);
    ghost var goal := Fusion(lists, window);
    assert goal == FuseFrom(lists, window, 0, iters);
    var marked: seq<int> := [];
    numBlinks := |first|;
    var i := 0;
    while i < |first|
      invariant 0 <= i <= |first| && |marked| == i && Cursors(lists, iters)
      invariant Survivors(marked) + FuseFrom(lists, window, i, iters) == goal
      invariant numBlinks == |Survivors(marked)| + (|first| - i)
    {
      var b := first[i];
      var found, next := ConfirmLoop(lists, window, b, iters);
      FuseStep(lists, window, i, iters, found, next, marked, if found then b as int else -1);
      if found {
        marked := marked + [b as int];
      } else {
        marked := marked + [-1];
        numBlinks := numBlinks - 1;
      }
      iters := next;
      i := i + 1;
    }
    if numBlinks > 0 {
      blinks := Compact(marked);
    } else {
      numBlinks := 0;
      blinks := [];
    }
  }

  /** The copy loop: the entries that are not -1, in order (every entry
      is a candidate index or -1, so the tests `>= 0` and `!= -1` agree). */
  method Compact(marked: seq<int>) returns (r: seq<nat>)
    ensures r == Survivors(marked)
  {
    r := [];
    var i := 0;
    while i < |marked|
      invariant 0 <= i <= |marked| && r == Survivors(marked[..i])
    {
      assert marked[..i + 1][..i] == marked[..i];
      if marked[i] >= 0 {
        r := r + [marked[i] as nat];
      }
      i := i + 1;
    }
    assert marked[..|marked|] == marked;
  }

  /** A candidate passes the channel loop exactly when every channel from
      `chan` on has a candidate within the window at or after its cursor. */
  lemma {:induction false} ConfirmIff(lists: seq<seq<nat>>, window: nat, b: nat, chan: nat, iters: seq<nat>)
    requires Cursors(lists, iters) && chan <= |lists|
    ensures Confirm(lists, window, b, chan, iters).ok <==>
      forall ch :: chan <= ch < |lists| ==> MatchCount(b, lists[ch], iters[ch], window) > 0
    decreases |lists| - chan
  {
    if chan < |lists| {
      var c := MatchCount(b, lists[chan], iters[chan], window);
      if c > 0 {
        var next := iters[chan := iters[chan] + c];
        ConfirmIff(lists, window, b, chan + 1, next);
        assert forall ch :: chan < ch < |lists| ==> next[ch] == iters[ch];
      }
    }
  }

  /** Cursors only grow; channels before `chan` keep theirs; and when every
      channel agrees, each cursor has moved on by exactly its channel's
      number of in-window candidates (not to the match position). */
  lemma {:induction false} ConfirmCursors(lists: seq<seq<nat>>, window: nat, b: nat, chan: nat, iters: seq<nat>)
    requires Cursors(lists, iters) && chan <= |lists|
    ensures var r := Confirm(lists, window, b, chan, iters);
      (forall ch :: 0 <= ch < |lists| ==> iters[ch] <= r.iters[ch])
      && (forall ch :: 0 <= ch < chan ==> r.iters[ch] == iters[ch])
      && (r.ok ==> forall ch :: chan <= ch < |lists| ==> r.iters[ch] == iters[ch] + MatchCount(b, lists[ch], iters[ch], window))
    decreases |lists| - chan
  {
    if chan < |lists| {
      var c := MatchCount(b, lists[chan], iters[chan], window);
      if c > 0 {
        var next := iters[chan := iters[chan] + c];
        ConfirmCursors(lists, window, b, chan + 1, next);
      }
    }
  }

  /** `a` is `b` with some entries left out, the rest in order. */
  predicate SubseqOf(a: seq<nat>, b: seq<nat>)
    decreases |b|
  {
    if |a| == 0 then true
    else if |b| == 0 then false
    else (a[0] == b[0] && SubseqOf(a[1..], b[1..])) || SubseqOf(a, b[1..])
  }

  lemma {:induction false} SubseqOfPrepend(a: seq<nat>, b: seq<nat>, x: nat, keep: bool)
    requires SubseqOf(a, b)
    ensures SubseqOf((if keep then [x] else []) + a, [x] + b)
  {
    var c := (if keep then [x] else []) + a;
    var d := [x] + b;
    assert d[1..] == b;
    if keep {
      assert c[0] == d[0] && c[1..] == a;
    } else {
      assert c == a;
      if |a| > 0 {
        assert SubseqOf(a, d[1..]);
      }
    }
  }

  /** The survivors are channel-0 candidates in their order. */
  lemma {:induction false} FuseSubseq(lists: seq<seq<nat>>, window: nat, i: nat, iters: seq<nat>)
    requires 1 <= |lists| && Cursors(lists, iters) && i <= |lists[0]|
    ensures SubseqOf(FuseFrom(lists, window, i, iters), lists[0][i..])
    decreases |lists[0]| - i
  {
    if i < |lists[0]| {
      var b := lists[0][i];
      var c := Confirm(lists, window, b, 1, iters);
      FuseSubseq(lists, window, i + 1, c.iters);
      assert lists[0][i..] == [b] + lists[0][i + 1..];
      SubseqOfPrepend(FuseFrom(lists, window, i + 1, c.iters), lists[0][i + 1..], b, c.ok);
    }
  }

  /** The result of blinkDetect is an order-preserving selection of the
      channel-0 candidates. */
  lemma FusionSubseq(lists: seq<seq<nat>>, window: nat)
    requires 1 <= |lists|
    ensures SubseqOf(Fusion(lists, window), lists[0])
  {
    if !AnyEmpty(lists) {
      FuseSubseq(lists, window, 0, Start(|lists|));
      assert lists[0][0..] == lists[0];
    }
  }

  /** A subsequence is no longer than the sequence and draws its entries
      from it. */
  lemma {:induction false} SubseqOfIn(a: seq<nat>, b: seq<nat>)
    requires SubseqOf(a, b)
    ensures |a| <= |b|
    ensures forall k :: 0 <= k < |a| ==> a[k] in b
    decreases |b|
  {
    if |a| > 0 {
      if a[0] == b[0] && SubseqOf(a[1..], b[1..]) {
        SubseqOfIn(a[1..], b[1..]);
        forall k | 0 <= k < |a|
          ensures a[k] in b
        {
          if k > 0 {
            assert a[k] == a[1..][k - 1];
          }
        }
      } else {
        SubseqOfIn(a, b[1..]);
      }
    }
  }

  /** b has, in every channel but the first, a candidate within the
      window. */
  predicate Confirmed(lists: seq<seq<nat>>, window: nat, b: nat)
  {
    forall ch :: 1 <= ch < |lists| ==> HasNear(b, lists[ch], window)
  }

  /** Some entry of the list lies within the window of b. */
  predicate HasNear(b: nat, list: seq<nat>, window: nat)
  {
    exists j :: 0 <= j < |list| && Near(b, list[j], window)
  }

  predicate AllConfirmed(lists: seq<seq<nat>>, window: nat, r: seq<nat>)
  {
    forall k :: 0 <= k < |r| ==> Confirmed(lists, window, r[k])
  }

  lemma {:induction false} FuseFromConfirmed(lists: seq<seq<nat>>, window: nat, i: nat, iters: seq<nat>)
    requires 1 <= |lists| && Cursors(lists, iters) && i <= |lists[0]|
    ensures AllConfirmed(lists, window, FuseFrom(lists, window, i, iters))
    decreases |lists[0]| - i
  {
    if i < |lists[0]| {
      var b := lists[0][i];
      var c := Confirm(lists, window, b, 1, iters);
      FuseFromConfirmed(lists, window, i + 1, c.iters);
      var rest := FuseFrom(lists, window, i + 1, c.iters);
      if c.ok {
        ConfirmIff(lists, window, b, 1, iters);
        forall ch | 1 <= ch < |lists|
          ensures HasNear(b, lists[ch], window)
        {
          MatchCountPositive(b, lists[ch], iters[ch], window);
        }
        assert Confirmed(lists, window, b);
        var r := [b] + rest;
        assert FuseFrom(lists, window, i, iters) == r;
        forall k | 0 <= k < |r|
          ensures Confirmed(lists, window, r[k])
        {
          if k > 0 {
            assert r[k] == rest[k - 1];
          }
        }
      } else {
        assert FuseFrom(lists, window, i, iters) == rest;
      }
    }
  }

  /** What blinkDetect as written keeps, over all inputs: at most the
      channel-0 candidates, in their order, each with a candidate within
      the window in every other channel. A channel candidate may confirm
      several blinks, since a cursor moves on by the number of matches and
      not past the match (ConfirmCursors, ReuseExample). */
  lemma FusionConfirmed(lists: seq<seq<nat>>, window: nat)
    requires 1 <= |lists|
    ensures |Fusion(lists, window)| <= |lists[0]|
    ensures AllConfirmed(lists, window, Fusion(lists, window))
  {
    FusionSubseq(lists, window);
    SubseqOfIn(Fusion(lists, window), lists[0]);
    if !AnyEmpty(lists) {
      FuseFromConfirmed(lists, window, 0, Start(|lists|));
    }
  }

  // ---------------------------------------------------------------------------
  // blinkDetect with each channel candidate used once
  // ---------------------------------------------------------------------------

  /** The channel loop with the cursor moved past the first match, as
      blinksInSource moves its cursor: a channel candidate confirms at
      most one channel-0 candidate. */
  function ConfirmConsume(lists: seq<seq<nat>>, window: nat, b: nat, chan: nat, iters: seq<nat>): (r: Check)
    requires Cursors(lists, iters) && chan <= |lists|
    ensures Cursors(lists, r.iters)
    decreases |lists| - chan
  {
    if chan == |lists| then Check(true, iters)
    else
      match FirstMatch(b, lists[chan], iters[chan], window)
      case None => Check(false, iters)
      case Some(j) => ConfirmConsume(lists, window, b, chan + 1, iters[chan := j + 1])
  }

  function FuseConsumeFrom(lists: seq<seq<nat>>, window: nat, i: nat, iters: seq<nat>): (r: seq<nat>)
    requires 1 <= |lists| && Cursors(lists, iters) && i <= |lists[0]|
    decreases |lists[0]| - i
  {
    if i == |lists[0]| then []
    else
      var b := lists[0][i];
      var c := ConfirmConsume(lists, window, b, 1, iters);
      (if c.ok then [b] else []) + FuseConsumeFrom(lists, window, i + 1, c.iters)
  }

  /** The fusion with consumed matches. */
  function FusionConsume(lists: seq<seq<nat>>, window: nat): (r: seq<nat>)
    requires 1 <= |lists|
  {
    if AnyEmpty(lists) then [] else FuseConsumeFrom(lists, window, 0, Start(|lists|))
  }

  /** The inner search with the cursor moved past the first match. */
  method FindMatch(b: nat, list: seq<nat>, start: nat, window: nat) returns (cursor: nat, found: bool)
    requires start <= |list|
    ensures found <==> FirstMatch(b, list, start, window).Some?
    ensures found ==> cursor == FirstMatch(b, list, start, window).value + 1
    ensures !found ==> cursor == start
  {
    cursor := start;
    found := false;
    var j := start;
    while j < |list|
      invariant start <= j <= |list|
      invariant FirstMatch(b, list, j, window) == FirstMatch(b, list, start, window)
    {
      if Near(b, list[j], window) {
        cursor := j + 1;
        found := true;
        return;
      }
      j := j + 1;
    }
  }

  method ConfirmConsumeLoop(lists: seq<seq<nat>>, window: nat, b: nat, iters0: seq<nat>) returns (found: bool, iters: seq<nat>)
    requires 1 <= |lists| && Cursors(lists, iters0)
    ensures Check(found, iters) == ConfirmConsume(lists, window, b, 1, iters0)
  {
    iters := iters0;
    found := true;
    var chan := 1;
    while chan < |lists|
      invariant 1 <= chan <= |lists| && Cursors(lists, iters)
      invariant ConfirmConsume(lists, window, b, chan, iters) == ConfirmConsume(lists, window, b, 1, iters0)
    {
      var cursor, any := FindMatch(b, lists[chan], iters[chan], window);
      if !any {
        found := false;
        return;
      }
      iters := iters[chan := cursor];
      chan := chan + 1;
    }
  }

  /** One candidate of the consuming fusion loop: marking it (or -1) and moving the
      cursors on keeps the survivors plus the rest of the fusion fixed. */
  lemma FuseConsumeStep(lists: seq<seq<nat>>, window: nat, i: nat, iters: seq<nat>, found: bool, next: seq<nat>, marked: seq<int>, v: int)
    requires 1 <= |lists| && Cursors(lists, iters) && i < |lists[0]|
    requires Check(found, next) == ConfirmConsume(lists, window, lists[0][i], 1, iters)
    requires v == if found then lists[0][i] as int else -1
    ensures Cursors(lists, next)
    ensures Survivors(marked + [v]) + FuseConsumeFrom(lists, window, i + 1, next) == Survivors(marked) + FuseConsumeFrom(lists, window, i, iters)
    ensures |Survivors(marked + [v])| == |Survivors(marked)| + (if found then 1 else 0)
  {
    var kept: seq<nat> := if found then [lists[0][i]] else [];
    var rest := FuseConsumeFrom(lists, window, i + 1, next);
    assert FuseConsumeFrom(lists, window, i, iters) == kept + rest;
    SurvivorsSnoc(marked, v);
    ConcatAssoc(Survivors(marked), kept, rest);
  }

  /** blinkDetect with consumed matches. */
  method FuseConsume(lists: seq<seq<nat>>, window: nat) returns (blinks: seq<nat>, numBlinks: int)
    requires 1 <= |lists|
    ensures blinks == FusionConsume(lists, window) && numBlinks == |blinks|
    ensures AnyEmpty(lists) ==> blinks == []
  {
    var ch := 0;
    while ch < |lists|
      invariant 0 <= ch <= |lists| && forall k :: 0 <= k < ch ==> |lists[k]| > 0
    {
      if |lists[ch]| == 0 {
        return [], 0;
      }
      ch := ch + 1;
    }
    var first := lists[0];
    var iters := Start(|lists|);
    ghost var goal := FusionConsume(lists, window);
    assert goal == FuseConsumeFrom(lists, window, 0, iters);
    var marked: seq<int> := [];
    numBlinks := |first|;
    var i := 0;
    while i < |first|
      invariant 0 <= i <= |first| && |marked| == i && Cursors(lists, iters)
      invariant Survivors(marked) + FuseConsumeFrom(lists, window, i, iters) == goal
      invariant numBlinks == |Survivors(marked)| + (|first| - i)
    {
      var b := first[i];
      var found, next := ConfirmConsumeLoop(lists, window, b, iters);
      FuseConsumeStep(lists, window, i, iters, found, next, marked, if found then b as int else -1);
      if found {
        marked := marked + [b as int];
      } else {
        marked := marked + [-1];
        numBlinks := numBlinks - 1;
      }
      iters := next;
      i := i + 1;
    }
    if numBlinks > 0 {
      blinks := Compact(marked);
    } else {
      numBlinks := 0;
      blinks := [];
    }
  }

  /** Both fusions accept a candidate under the same condition at the same
      cursors; they differ only in where the cursors go next. */
  lemma {:induction false} ConfirmConsumeIff(lists: seq<seq<nat>>, window: nat, b: nat, chan: nat, iters: seq<nat>)
    requires Cursors(lists, iters) && chan <= |lists|
    ensures ConfirmConsume(lists, window, b, chan, iters).ok <==>
      forall ch :: chan <= ch < |lists| ==> FirstMatch(b, lists[ch], iters[ch], window).Some?
    decreases |lists| - chan
  {
    if chan < |lists| {
      match FirstMatch(b, lists[chan], iters[chan], window)
      case None =>
      case Some(j) =>
        var next := iters[chan := j + 1];
        ConfirmConsumeIff(lists, window, b, chan + 1, next);
        assert forall ch :: chan < ch < |lists| ==> next[ch] == iters[ch];
    }
  }

  /** After an accepted candidate every checked channel's cursor sits just
      past the candidate that matched. */
  lemma {:induction false} ConfirmConsumeCursors(lists: seq<seq<nat>>, window: nat, b: nat, chan: nat, iters: seq<nat>)
    requires Cursors(lists, iters) && chan <= |lists|
    ensures var r := ConfirmConsume(lists, window, b, chan, iters);
      (forall ch :: 0 <= ch < chan ==> r.iters[ch] == iters[ch])
      && (r.ok ==> forall ch :: chan <= ch < |lists| ==>
            FirstMatch(b, lists[ch], iters[ch], window).Some?
            && r.iters[ch] == FirstMatch(b, lists[ch], iters[ch], window).value + 1)
    decreases |lists| - chan
  {
    if chan < |lists| {
      match FirstMatch(b, lists[chan], iters[chan], window)
      case None =>
      case Some(j) =>
        var next := iters[chan := j + 1];
        ConfirmConsumeCursors(lists, window, b, chan + 1, next);
    }
  }

  /** No reuse: once candidate b1 is accepted, the match of any later
      candidate b2 in a channel lies strictly after b1's match there. */
  lemma ConsumedOnce(lists: seq<seq<nat>>, window: nat, b1: nat, b2: nat, iters: seq<nat>, ch: nat)
    requires 1 <= ch < |lists| && Cursors(lists, iters)
    requires ConfirmConsume(lists, window, b1, 1, iters).ok
    ensures var after := ConfirmConsume(lists, window, b1, 1, iters).iters;
      var m2 := FirstMatch(b2, lists[ch], after[ch], window);
      var m1 := FirstMatch(b1, lists[ch], iters[ch], window);
      m2.Some? ==> m1.Some? && m1.value < m2.value
  {
    ConfirmConsumeCursors(lists, window, b1, 1, iters);
  }

  /** Channel 1's candidate 105 is the only one near 100 and 110. As
      written it confirms both channel-0 candidates, since the cursor only
      moves past the unmatched 50; with consumed matches it confirms one. */
  lemma ReuseExample()
    ensures Fusion([[100, 110], [50, 105]], 10) == [100, 110]
    ensures FusionConsume([[100, 110], [50, 105]], 10) == [100]
  {
    var lists: seq<seq<nat>> := [[100, 110], [50, 105]];
    assert !AnyEmpty(lists);
    var z := Start(2);
    assert MatchCount(100, lists[1], 0, 10) == 1;
    var c1 := Confirm(lists, 10, 100, 1, z);
    assert c1 == Check(true, [0, 1]);
    assert MatchCount(110, lists[1], 1, 10) == 1;
    var c2 := Confirm(lists, 10, 110, 1, c1.iters);
    assert c2.ok;
    assert FirstMatch(100, lists[1], 0, 10) == Some(1);
    var d1 := ConfirmConsume(lists, 10, 100, 1, z);
    assert d1 == Check(true, [0, 2]);
    assert FirstMatch(110, lists[1], 2, 10) == None;
    var d2 := ConfirmConsume(lists, 10, 110, 1, d1.iters);
    assert !d2.ok;
  }
  /** blinkDetect: the candidates of every channel (channels of one
      length, stored one after the other), fused as written. `cor` is
      correlate where correlate is defined, `root` standing for sqrt. */
  method BlinkDetect(channels: seq<seq<real>>, w: Wavelets.Wavelet, p: BlinkCandidates.Params,
                     cor: BlinkCandidates.Correlator, root: real -> real, window: nat)
      returns (blinks: seq<nat>, numBlinks: int)
    requires 1 <= |channels|
    requires forall c :: 0 <= c < |channels| ==> BlinkCandidates.Admissible(w, channels[c], p)
    requires BlinkCandidates.CorrelateBy(cor, root)
    ensures blinks == Fusion(ChannelCandidates(channels, w, p, cor), window) && numBlinks == |blinks|
  {
    var lists := DetectChannels(channels, w, p, cor, root);
    blinks, numBlinks := FuseAsWritten(lists, window);
  }

  /** blinkDetect with each channel candidate confirming at most one
      blink. */
  method BlinkDetectConsume(channels: seq<seq<real>>, w: Wavelets.Wavelet, p: BlinkCandidates.Params,
                            cor: BlinkCandidates.Correlator, root: real -> real, window: nat)
      returns (blinks: seq<nat>, numBlinks: int)
    requires 1 <= |channels|
    requires forall c :: 0 <= c < |channels| ==> BlinkCandidates.Admissible(w, channels[c], p)
    requires BlinkCandidates.CorrelateBy(cor, root)
    ensures blinks == FusionConsume(ChannelCandidates(channels, w, p, cor), window) && numBlinks == |blinks|
  {
    var lists := DetectChannels(channels, w, p, cor, root);
    blinks, numBlinks := FuseConsume(lists, window);
  }

  /** findPossibleBlinks on every channel in turn. */
  method DetectChannels(channels: seq<seq<real>>, w: Wavelets.Wavelet, p: BlinkCandidates.Params,
                        cor: BlinkCandidates.Correlator, root: real -> real) returns (lists: seq<seq<nat>>)
    requires forall c :: 0 <= c < |channels| ==> BlinkCandidates.Admissible(w, channels[c], p)
    requires BlinkCandidates.CorrelateBy(cor, root)
    ensures lists == ChannelCandidates(channels, w, p, cor)
  {
    ghost var goal := ChannelCandidates(channels, w, p, cor);
    lists := [];
    var c := 0;
    while c < |channels|
      invariant 0 <= c <= |channels| && lists == goal[..c]
    {
      var found, _ := BlinkCandidates.FindPossibleBlinks(channels[c], w, p, cor, root);
      assert found == goal[c];
      PrefixStep(goal, c);
      lists := lists + [found];
      c := c + 1;
    }
    assert goal[..|channels|] == goal;
  }

  /** The candidate list of every channel. */
  function ChannelCandidates(channels: seq<seq<real>>, w: Wavelets.Wavelet, p: BlinkCandidates.Params,
                             cor: BlinkCandidates.Correlator): (r: seq<seq<nat>>)
    requires forall c :: 0 <= c < |channels| ==> BlinkCandidates.Admissible(w, channels[c], p)
    ensures |r| == |channels|
    ensures forall c :: 0 <= c < |channels| ==> r[c] == BlinkCandidates.PossibleBlinks(w, channels[c], p, cor)
  {
    seq(|channels|, c requires 0 <= c < |channels| => BlinkCandidates.PossibleBlinks(w, channels[c], p, cor))
  }

  // ---------------------------------------------------------------------------
  // blinkSource
  // ---------------------------------------------------------------------------

  /** Sample c is under the template copy placed for blink b: template
      sample s1 sits on b. */
  predicate Covers(b: nat, s1: nat, lenTemplate: nat, c: int)
  {
    b - s1 <= c < b - s1 + lenTemplate
  }

  /** One memcpy of blinkSource: the template copied onto `sig` with
      template sample s1 on b, clipped to the signal. */
  function PlaceOne(sig: seq<real>, templ: seq<real>, s1: nat, b: nat): (r: seq<real>)
    requires s1 <= |templ| < |sig| && b < |sig|
    ensures |r| == |sig|
    ensures forall c :: 0 <= c < |sig| ==> r[c] == if Covers(b, s1, |templ|, c) then templ[c - b + s1] else sig[c]
  {
    var ebStart := b - s1;
    var tempStart := if ebStart < 0 then -ebStart else 0;
    var start := if ebStart < 0 then 0 else ebStart;
    var length := if start + |templ| >= |sig| then |templ| - (start + |templ| - |sig|) else |templ| - tempStart;
    sig[..start] + templ[tempStart .. tempStart + length] + sig[start + length..]
  }

  /** The synthetic signal: zeros, then one template copy per blink in
      list order. */
  function Synthetic(cols: nat, templ: seq<real>, s1: nat, blinks: seq<nat>): (r: seq<real>)
    requires s1 <= |templ| < cols
    requires forall k :: 0 <= k < |blinks| ==> blinks[k] < cols
    ensures |r| == cols
  {
    if |blinks| == 0 then Zeros(cols)
    else PlaceOne(Synthetic(cols, templ, s1, blinks[..|blinks| - 1]), templ, s1, blinks[|blinks| - 1])
  }

  /** The last blink in the list whose template copy covers sample c. */
  function LastCover(blinks: seq<nat>, s1: nat, lenTemplate: nat, c: int): (r: Option<nat>)
    ensures r.Some? ==> r.value in blinks && Covers(r.value, s1, lenTemplate, c)
    ensures r.None? ==> forall k :: 0 <= k < |blinks| ==> !Covers(blinks[k], s1, lenTemplate, c)
  {
    if |blinks| == 0 then None
    else if Covers(blinks[|blinks| - 1], s1, lenTemplate, c) then Some(blinks[|blinks| - 1])
    else LastCover(blinks[..|blinks| - 1], s1, lenTemplate, c)
  }

  /** Every sample of the synthetic signal is 0 when no copy covers it,
      and otherwise the template sample of the last copy that does: later
      blinks overwrite earlier ones. */
  lemma {:induction false} SyntheticAt(cols: nat, templ: seq<real>, s1: nat, blinks: seq<nat>, c: nat)
    requires s1 <= |templ| < cols && c < cols
    requires forall k :: 0 <= k < |blinks| ==> blinks[k] < cols
    ensures Synthetic(cols, templ, s1, blinks)[c] ==
      match LastCover(blinks, s1, |templ|, c)
      case None => 0.0
      case Some(b) => templ[c - b + s1]
  {
    if |blinks| > 0 {
      SyntheticAt(cols, templ, s1, blinks[..|blinks| - 1], c);
    }
  }

  /** The memcpy of one template copy, written as its copy loop. */
  method Place(sig: seq<real>, templ: seq<real>, s1: nat, b: nat) returns (r: seq<real>)
    requires s1 <= |templ| < |sig| && b < |sig|
    ensures r == PlaceOne(sig, templ, s1, b)
  {
    var ebStart := b - s1;
    var tempStart := 0;
    if ebStart < 0 {
      tempStart := -ebStart;
      ebStart := 0;
    }
    var length;
    if ebStart + |templ| >= |sig| {
      length := |templ| - (ebStart + |templ| - |sig|);
    } else {
      length := |templ| - tempStart;
    }
    r := sig;
    var k := 0;
    while k < length
      invariant 0 <= k <= length && |r| == |sig|
      invariant forall c :: 0 <= c < |sig| ==> r[c] == if ebStart <= c < ebStart + k then templ[c - ebStart + tempStart] else sig[c]
    {
      r := r[ebStart + k := templ[tempStart + k]];
      k := k + 1;
    }
    assert forall c :: 0 <= c < |sig| ==> r[c] == PlaceOne(sig, templ, s1, b)[c];
  }

  /** The synthetic blink signal of blinkSource: zeros, then one template
      copy per blink. */
  method SyntheticSignal(cols: nat, blinks: seq<nat>, s1: nat, s2: nat) returns (sig: seq<real>)
    requires 2 <= s1 && 2 <= s2 && TemplateLength(s1, s2) < cols
    requires forall k :: 0 <= k < |blinks| ==> blinks[k] < cols
    ensures sig == Synthetic(cols, BlinkCandidates.Template(s1, s2), s1, blinks)
  {
    var templ := GetTemplate(s1, s2);
    assert templ == BlinkCandidates.Template(s1, s2);
    sig := Zeros(cols);
    var i := 0;
    while i < |blinks|
      invariant 0 <= i <= |blinks| && sig == Synthetic(cols, templ, s1, blinks[..i])
    {
      assert blinks[..i + 1][..i] == blinks[..i];
      sig := Place(sig, templ, s1, blinks[i]);
      i := i + 1;
    }
    assert blinks[..|blinks|] == blinks;
  }

  /** blinkSource as written: the row of S that maxCorrelate picks for the
      synthetic signal, scored by absolute covariance over the product of
      the sums of squares. Blinks lie inside S's columns and the template
      is shorter than a row. */
  method BlinkSource(s: Matrix, blinks: seq<nat>, s1: nat, s2: nat) returns (source: nat)
    requires s.Valid() && 2 <= s1 && 2 <= s2 && TemplateLength(s1, s2) < s.cols
    requires forall k :: 0 <= k < |blinks| ==> blinks[k] < s.cols
    ensures Picked(Scores(s, Synthetic(s.cols, BlinkCandidates.Template(s1, s2), s1, blinks)), source)
  {
    var sig := SyntheticSignal(s.cols, blinks, s1, s2);
    source := MaxCorrelate(s, sig);
  }

  /** blinkSource with maxCorrelate as documented: the row of highest
      absolute correlation with the synthetic signal. */
  method BlinkSourceFixed(s: Matrix, blinks: seq<nat>, s1: nat, s2: nat) returns (source: nat)
    requires s.Valid() && 2 <= s1 && 2 <= s2 && TemplateLength(s1, s2) < s.cols
    requires forall k :: 0 <= k < |blinks| ==> blinks[k] < s.cols
    ensures Picked(CorrScores(s, Synthetic(s.cols, BlinkCandidates.Template(s1, s2), s1, blinks)), source)
  {
    var sig := SyntheticSignal(s.cols, blinks, s1, s2);
    source := MaxCorrelateFixed(s, sig);
  }

  /** Without blinks the synthetic signal is all zeros: every score is
      NaN and blinkSource picks row 0, with either scoring. */
  lemma NoBlinksRowZero(s: Matrix, s1: nat, s2: nat, source: nat)
    requires s.Valid() && 2 <= s1 && 2 <= s2 && TemplateLength(s1, s2) < s.cols
    requires Picked(Scores(s, Synthetic(s.cols, BlinkCandidates.Template(s1, s2), s1, [])), source)
          || Picked(CorrScores(s, Synthetic(s.cols, BlinkCandidates.Template(s1, s2), s1, [])), source)
    ensures source == 0
  {
    ZerosNoScore(s);
  }

  // ---------------------------------------------------------------------------
  // blinksInSource
  // ---------------------------------------------------------------------------

  /** The magnitude of every source sample. */
  function Magnitudes(x: seq<real>): (m: seq<real>)
    ensures |m| == |x| && forall i :: 0 <= i < |x| ==> m[i] == AbsVal(x[i])
  {
    seq(|x|, i requires 0 <= i < |x| => AbsVal(x[i]))
  }

  /** The threshold 10 / len_blinks at every sample. */
  function Level(n: nat, th: real): (t: seq<real>)
    ensures |t| == n && forall i :: 0 <= i < n ==> t[i] == th
  {
    seq(n, _ => th)
  }

  function SourceThreshold(numBlinks: nat): (t: real)
    requires 0 < numBlinks
    ensures 0.0 < t
  {
    10.0 / numBlinks as real
  }

  /** The variables of the peak scan of blinksInSource. */
  datatype PeakScan = PeakScan(above: bool, max: real, maxIndex: nat, found: seq<nat>)

  /** One iteration of the peak scan as written: a rise is taken whether or
      not the scan is above the threshold, and a fall likewise, so a fall
      before any rise records the initial max_index 0. */
  function PeakStepAsWritten(m: seq<real>, th: real, s: PeakScan, i: nat): PeakScan
    requires 1 <= i < |m|
  {
    var s1 :=
      if m[i] > th && m[i - 1] <= th then s.(above := true, max := 0.0)
      else if m[i] < th && m[i - 1] >= th then s.(above := false, found := s.found + [s.maxIndex])
      else s;
    if s1.above && s1.max < m[i] then s1.(max := m[i], maxIndex := i) else s1
  }

  function PeakScanAsWrittenFrom(m: seq<real>, th: real, s: PeakScan, i: nat): PeakScan
    requires 1 <= i
    decreases |m| - i
  {
    if i >= |m| then s else PeakScanAsWrittenFrom(m, th, PeakStepAsWritten(m, th, s, i), i + 1)
  }

  /** The peak scan of blinksInSource as written. */
  method PeakScanAsWritten(source: seq<real>, th: real) returns (indices: seq<nat>)
    ensures indices == PeakIndices(Magnitudes(source), th)
  {
    ghost var m := Magnitudes(source);
    var above := false;
    var max := 0.0;
    var maxIndex: nat := 0;
    indices := [];
    var i := 1;
    ghost var goal := PeakScanAsWrittenFrom(m, th, PeakScan(false, 0.0, 0, []), 1);
    while i < |source|
      invariant 1 <= i
      invariant PeakScanAsWrittenFrom(m, th, PeakScan(above, max, maxIndex, indices), i) == goal
      decreases |source| - i
    {
      ghost var before := PeakScan(above, max, maxIndex, indices);
      if AbsVal(source[i]) > th && AbsVal(source[i - 1]) <= th {
        above := true;
        max := 0.0;
      } else if AbsVal(source[i]) < th && AbsVal(source[i - 1]) >= th {
        above := false;
        indices := indices + [maxIndex];
      }
      if above {
        if max < AbsVal(source[i]) {
          max := AbsVal(source[i]);
          maxIndex := i;
        }
      }
      assert PeakScan(above, max, maxIndex, indices) == PeakStepAsWritten(m, th, before, i);
      i := i + 1;
    }
  }

  /** A source that starts above the threshold and falls below it at once:
      the scan as written records index 0, although no run of the source
      rose above the threshold. */
  lemma IndexZeroExample()
    ensures PeakScanAsWrittenFrom([1.0, 0.0], 0.5, PeakScan(false, 0.0, 0, []), 1).found == [0]
    ensures Runs([1.0, 0.0], Level(2, 0.5), 1) == []
  {
    assert PeakStepAsWritten([1.0, 0.0], 0.5, PeakScan(false, 0.0, 0, []), 1) == PeakScan(false, 0.0, 0, [0]);
    assert NextFall([1.0, 0.0], Level(2, 0.5), 2) == None;
    assert NextRise([1.0, 0.0], Level(2, 0.5), 2) == None;
    assert !Rise([1.0, 0.0], Level(2, 0.5), 1);
  }

  /** The scan's indices from a fresh state. */
  function PeakIndices(m: seq<real>, th: real): seq<nat>
  {
    PeakScanAsWrittenFrom(m, th, PeakScan(false, 0.0, 0, []), 1).found
  }

  /** A rising edge at i: the magnitude crosses above th. */
  predicate RiseAt(m: seq<real>, th: real, i: nat)
  {
    1 <= i < |m| && m[i] > th && m[i - 1] <= th
  }

  /** A falling edge at i: the magnitude crosses below th. */
  predicate FallAt(m: seq<real>, th: real, i: nat)
  {
    1 <= i < |m| && m[i] < th && m[i - 1] >= th
  }

  /** The falling edges from i on, in order. */
  function Falls(m: seq<real>, th: real, i: nat): (f: seq<nat>)
    ensures forall k :: 0 <= k < |f| ==> i <= f[k] && FallAt(m, th, f[k])
    ensures forall j :: i <= j && FallAt(m, th, j) ==> j in f
    decreases |m| - i
  {
    if i >= |m| then [] else (if FallAt(m, th, i) then [i] else []) + Falls(m, th, i + 1)
  }

  /** The first edge, rising or falling, from i on. */
  function FirstEdge(m: seq<real>, th: real, i: nat): (r: Option<nat>)
    ensures r.Some? ==> i <= r.value && (RiseAt(m, th, r.value) || FallAt(m, th, r.value))
    ensures forall j :: i <= j && (r.None? || j < r.value) ==> !RiseAt(m, th, j) && !FallAt(m, th, j)
    decreases |m| - i
  {
    if i >= |m| then None
    else if RiseAt(m, th, i) || FallAt(m, th, i) then Some(i)
    else FirstEdge(m, th, i + 1)
  }

  /** What holds of the scan's state before step i: the index of the
      maximum lies before i and is 0 or a sample above th; while above,
      `max` is the magnitude at that index. */
  predicate ScanOk(m: seq<real>, th: real, s: PeakScan, i: nat)
  {
    s.maxIndex < i
    && (s.maxIndex == 0 || (s.maxIndex < |m| && m[s.maxIndex] > th))
    && (s.above ==> 1 <= s.maxIndex < |m| && s.max == m[s.maxIndex])
  }

  /** x records one index per falling edge of f: each lies before its
      edge and is 0 or a sample above th. */
  predicate Recorded(x: seq<nat>, f: seq<nat>, m: seq<real>, th: real)
  {
    |x| == |f|
    && forall k :: 0 <= k < |x| ==> x[k] < f[k] && (x[k] == 0 || (x[k] < |m| && m[x[k]] > th))
  }

  lemma RecordedCons(x: seq<nat>, f: seq<nat>, m: seq<real>, th: real, v: nat, e: nat)
    requires Recorded(x, f, m, th) && v < e && (v == 0 || (v < |m| && m[v] > th))
    ensures Recorded([v] + x, [e] + f, m, th)
  {
    var x2, f2 := [v] + x, [e] + f;
    forall k | 0 <= k < |x2|
      ensures x2[k] < f2[k] && (x2[k] == 0 || (x2[k] < |m| && m[x2[k]] > th))
    {
      if k > 0 {
        assert x2[k] == x[k - 1] && f2[k] == f[k - 1];
      }
    }
  }

  /** One step keeps ScanOk. */
  lemma PeakStepOk(m: seq<real>, th: real, s: PeakScan, i: nat)
    requires 1 <= i < |m| && 0.0 <= th && ScanOk(m, th, s, i)
    ensures ScanOk(m, th, PeakStepAsWritten(m, th, s, i), i + 1)
  {
  }

  /** A step appends the index of the maximum at a falling edge and
      nothing otherwise. */
  lemma PeakStepFound(m: seq<real>, th: real, s: PeakScan, i: nat)
    requires 1 <= i < |m| && 0.0 <= th
    ensures PeakStepAsWritten(m, th, s, i).found == s.found + (if FallAt(m, th, i) then [s.maxIndex] else [])
  {
  }

  lemma PrefixSnoc(r: seq<nat>, a: seq<nat>, v: nat)
    requires |a| + 1 <= |r| && r[..|a| + 1] == a + [v]
    ensures r[..|a|] == a && r[|a|..] == [v] + r[|a| + 1..]
  {
    assert r[..|a|] == r[..|a| + 1][..|a|];
  }

  /** The scan records one index per falling edge from i on, after what
      it had already recorded. */
  lemma {:induction false} PeakScanRecords(m: seq<real>, th: real, s: PeakScan, i: nat)
    requires 1 <= i && 0.0 <= th && ScanOk(m, th, s, i)
    ensures var r := PeakScanAsWrittenFrom(m, th, s, i).found;
      |s.found| <= |r| && r[..|s.found|] == s.found && Recorded(r[|s.found|..], Falls(m, th, i), m, th)
    decreases |m| - i
  {
    var r := PeakScanAsWrittenFrom(m, th, s, i).found;
    if i < |m| {
      var s2 := PeakStepAsWritten(m, th, s, i);
      PeakStepOk(m, th, s, i);
      PeakStepFound(m, th, s, i);
      PeakScanRecords(m, th, s2, i + 1);
      assert r == PeakScanAsWrittenFrom(m, th, s2, i + 1).found;
      if FallAt(m, th, i) {
        PrefixSnoc(r, s.found, s.maxIndex);
        assert Falls(m, th, i) == [i] + Falls(m, th, i + 1);
        RecordedCons(r[|s.found| + 1..], Falls(m, th, i + 1), m, th, s.maxIndex, i);
      } else {
        assert Falls(m, th, i) == Falls(m, th, i + 1);
      }
    } else {
      assert r[|s.found|..] == [];
    }
  }

  /** Once the index of the maximum is past 0, the scan never records 0. */
  lemma {:induction false} NoZeroAfterRise(m: seq<real>, th: real, s: PeakScan, i: nat)
    requires 1 <= i && 0.0 <= th && ScanOk(m, th, s, i) && 1 <= s.maxIndex && 0 !in s.found
    ensures 0 !in PeakScanAsWrittenFrom(m, th, s, i).found
    decreases |m| - i
  {
    if i < |m| {
      PeakStepOk(m, th, s, i);
      NoZeroAfterRise(m, th, PeakStepAsWritten(m, th, s, i), i + 1);
    }
  }

  /** From a state that has seen no edge, the scan records index 0 exactly
      when the first edge is a falling one. */
  lemma {:induction false} ZeroIffFallFirst(m: seq<real>, th: real, s: PeakScan, i: nat)
    requires 1 <= i && 0.0 <= th && ScanOk(m, th, s, i)
    requires !s.above && s.maxIndex == 0 && s.found == []
    ensures 0 in PeakScanAsWrittenFrom(m, th, s, i).found <==>
      (FirstEdge(m, th, i).Some? && FallAt(m, th, FirstEdge(m, th, i).value))
    decreases |m| - i
  {
    if i < |m| {
      var s2 := PeakStepAsWritten(m, th, s, i);
      PeakStepOk(m, th, s, i);
      if RiseAt(m, th, i) {
        NoZeroAfterRise(m, th, s2, i + 1);
      } else if FallAt(m, th, i) {
        PeakScanRecords(m, th, s2, i + 1);
        PeakStepFound(m, th, s, i);
        var r := PeakScanAsWrittenFrom(m, th, s, i).found;
        assert r == PeakScanAsWrittenFrom(m, th, s2, i + 1).found;
        assert r[..1] == [0];
        assert r[0] == 0;
      } else {
        assert s2 == s;
        ZeroIffFallFirst(m, th, s, i + 1);
      }
    }
  }

  /** The scan as written, over all inputs: one recorded index per falling
      edge of the magnitudes, each before its edge and either 0 or a
      sample above th; and index 0 is recorded exactly when the first edge
      falls, with no rise before it. */
  lemma PeakIndicesFacts(m: seq<real>, th: real)
    requires 0.0 <= th
    ensures Recorded(PeakIndices(m, th), Falls(m, th, 1), m, th)
    ensures 0 in PeakIndices(m, th) <==> (FirstEdge(m, th, 1).Some? && FallAt(m, th, FirstEdge(m, th, 1).value))
  {
    var s := PeakScan(false, 0.0, 0, []);
    PeakScanRecords(m, th, s, 1);
    assert PeakIndices(m, th)[0..] == PeakIndices(m, th);
    ZeroIffFallFirst(m, th, s, 1);
  }

  /** Every index the scan records is a sample of m. */
  lemma PeakIndicesInside(m: seq<real>, th: real)
    requires 0.0 <= th
    ensures forall k :: 0 <= k < |PeakIndices(m, th)| ==> PeakIndices(m, th)[k] < |m|
  {
    PeakIndicesFacts(m, th);
    var x, f := PeakIndices(m, th), Falls(m, th, 1);
    forall k | 0 <= k < |x|
      ensures x[k] < |m|
    {
      assert x[k] < f[k] && FallAt(m, th, f[k]);
    }
  }

  function Negated(m: seq<real>): (r: seq<real>)
    ensures |r| == |m| && forall i :: 0 <= i < |m| ==> r[i] == -m[i]
  {
    seq(|m|, i requires 0 <= i < |m| => -m[i])
  }

  /** The first maximum is the first minimum of the negated signal. */
  lemma {:induction false} FirstMaxNegated(m: seq<real>, lo: nat, hi: nat)
    requires lo < hi <= |m|
    ensures FirstMin(Negated(m), lo, hi) == FirstMax(m, lo, hi)
    decreases hi
  {
    if hi > lo + 1 {
      FirstMaxNegated(m, lo, hi - 1);
    }
  }

  lemma {:induction false} MaximaNegated(m: seq<real>, runs: seq<Run>)
    requires RunsWithin(runs, |m|)
    ensures Minima(Negated(m), runs) == Maxima(m, runs)
    decreases |runs|
  {
    if |runs| > 0 {
      FirstMaxNegated(m, runs[0].start, runs[0].stop);
      assert RunsWithin(runs[1..], |m|);
      MaximaNegated(m, runs[1..]);
    }
  }

  /** The peak scan with the guards of findPossibleBlinks (a rise only
      below the threshold, a fall only above it): for every run of the
      magnitudes above th, the first index of its largest magnitude. The
      scan mirrors findPossibleBlinks' minimum scan over the negated
      magnitudes, whose running minimum is minus the running maximum. */
  method PeakScanGuarded(source: seq<real>, th: real) returns (indices: seq<nat>)
    requires 0.0 < th
    ensures indices == Maxima(Magnitudes(source), Runs(Magnitudes(source), Level(|source|, th), 1))
  {
    ghost var m := Magnitudes(source);
    ghost var t := Level(|source|, th);
    ghost var a := Negated(m);
    var above := false;
    var max := 0.0;
    ghost var min: Option<real> := None;
    var maxIndex: nat := 0;
    indices := [];
    var i := 1;
    ghost var goal := MinScanFrom(m, t, a, MinScan(false, None, 0, []), 1);
    while i < |source|
      invariant 1 <= i
      invariant MinScanFrom(m, t, a, MinScan(above, min, maxIndex, indices), i) == goal
      invariant above ==> min == Some(-max)
      decreases |source| - i
    {
      ghost var before := MinScan(above, min, maxIndex, indices);
      if !above && AbsVal(source[i]) > th && AbsVal(source[i - 1]) <= th {
        above := true;
        max := 0.0;
        min := None;
      } else if above && AbsVal(source[i]) < th && AbsVal(source[i - 1]) >= th {
        above := false;
        indices := indices + [maxIndex];
      }
      if above {
        if max < AbsVal(source[i]) {
          max := AbsVal(source[i]);
          maxIndex := i;
          min := Some(a[i]);
        }
      }
      assert MinScan(above, min, maxIndex, indices) == MinStep(m, t, a, before, i);
      i := i + 1;
    }
    MinScanResult(m, t, a);
    MaximaNegated(m, Runs(m, t, 1));
  }

  /** The peaks from the cursor on that an EEG blink confirms: each peak
      takes the first blink at or after the cursor within the window, and
      the cursor moves past that blink. */
  function MatchPeaks(peaks: seq<nat>, blinks: seq<nat>, window: nat, cursor: nat): (r: seq<nat>)
    requires cursor <= |blinks|
    decreases |peaks|
  {
    if |peaks| == 0 then []
    else
      match FirstMatch(peaks[0], blinks, cursor, window)
      case None => MatchPeaks(peaks[1..], blinks, window, cursor)
      case Some(j) => [peaks[0]] + MatchPeaks(peaks[1..], blinks, window, j + 1)
  }

  /** The positions of the EEG blinks the kept peaks consumed. */
  function MatchedBlinks(peaks: seq<nat>, blinks: seq<nat>, window: nat, cursor: nat): (r: seq<nat>)
    requires cursor <= |blinks|
    decreases |peaks|
  {
    if |peaks| == 0 then []
    else
      match FirstMatch(peaks[0], blinks, cursor, window)
      case None => MatchedBlinks(peaks[1..], blinks, window, cursor)
      case Some(j) => [j] + MatchedBlinks(peaks[1..], blinks, window, j + 1)
  }

  /** r, paired with the blink positions js from the cursor on: as many
      positions as kept peaks, each within the window of its peak,
      strictly increasing; and r is the peaks in order with some left out. */
  predicate Paired(r: seq<nat>, js: seq<nat>, peaks: seq<nat>, blinks: seq<nat>, window: nat, cursor: nat)
  {
    |js| == |r|
    && (forall k :: 0 <= k < |js| ==> cursor <= js[k] < |blinks| && Near(r[k], blinks[js[k]], window))
    && (forall k :: 0 < k < |js| ==> js[k - 1] < js[k])
    && SubseqOf(r, peaks)
  }

  /** Every kept peak is paired with its own EEG blink: the consumed
      positions strictly increase from the cursor (no blink is used twice),
      each paired blink lies within the window of its peak, and the kept
      peaks are the peaks in order with some left out. */
  lemma {:induction false} MatchPeaksPaired(peaks: seq<nat>, blinks: seq<nat>, window: nat, cursor: nat)
    requires cursor <= |blinks|
    ensures Paired(MatchPeaks(peaks, blinks, window, cursor), MatchedBlinks(peaks, blinks, window, cursor), peaks, blinks, window, cursor)
    decreases |peaks|
  {
    if |peaks| > 0 {
      var rest := peaks[1..];
      assert peaks == [peaks[0]] + rest;
      match FirstMatch(peaks[0], blinks, cursor, window)
      case None =>
        MatchPeaksPaired(rest, blinks, window, cursor);
        PairedSkip(MatchPeaks(rest, blinks, window, cursor), MatchedBlinks(rest, blinks, window, cursor), rest, blinks, window, cursor, peaks[0]);
      case Some(j) =>
        MatchPeaksPaired(rest, blinks, window, j + 1);
        PairedTake(MatchPeaks(rest, blinks, window, j + 1), MatchedBlinks(rest, blinks, window, j + 1), rest, blinks, window, cursor, peaks[0], j);
    }
  }

  /** A peak left out keeps the pairing. */
  lemma PairedSkip(r: seq<nat>, js: seq<nat>, rest: seq<nat>, blinks: seq<nat>, window: nat, cursor: nat, p: nat)
    requires Paired(r, js, rest, blinks, window, cursor)
    ensures Paired(r, js, [p] + rest, blinks, window, cursor)
  {
    SubseqOfPrepend(r, rest, p, false);
  }

  /** A peak kept with the blink at j, before the pairing of the rest from
      j + 1 on, extends it. */
  lemma PairedTake(r: seq<nat>, js: seq<nat>, rest: seq<nat>, blinks: seq<nat>, window: nat, cursor: nat, p: nat, j: nat)
    requires Paired(r, js, rest, blinks, window, j + 1)
    requires cursor <= j < |blinks| && Near(p, blinks[j], window)
    ensures Paired([p] + r, [j] + js, [p] + rest, blinks, window, cursor)
  {
    var rr := [p] + r;
    var jj := [j] + js;
    forall k | 0 <= k < |jj|
      ensures cursor <= jj[k] < |blinks| && Near(rr[k], blinks[jj[k]], window)
    {
      if k > 0 {
        assert jj[k] == js[k - 1] && rr[k] == r[k - 1];
      }
    }
    forall k | 0 < k < |jj|
      ensures jj[k - 1] < jj[k]
    {
      assert jj[k] == js[k - 1];
      if k > 1 {
        assert jj[k - 1] == js[k - 2];
      }
    }
    SubseqOfPrepend(r, rest, p, true);
  }

  /** One peak of the matching loop: marking it (or -1) and moving the
      cursor keeps the survivors plus the rest of the matching fixed. */
  lemma MatchStep(peaks: seq<nat>, blinks: seq<nat>, window: nat, i: nat, cursor: nat, found: bool, next: nat, marked: seq<int>, v: int)
    requires i < |peaks| && cursor <= |blinks|
    requires found <==> FirstMatch(peaks[i], blinks, cursor, window).Some?
    requires found ==> next == FirstMatch(peaks[i], blinks, cursor, window).value + 1
    requires v == if found then peaks[i] as int else -1
    ensures found ==> next <= |blinks|
    ensures Survivors(marked + [v]) + MatchPeaks(peaks[i + 1..], blinks, window, if found then next else cursor)
      == Survivors(marked) + MatchPeaks(peaks[i..], blinks, window, cursor)
    ensures |Survivors(marked + [v])| == |Survivors(marked)| + (if found then 1 else 0)
  {
    assert peaks[i..][1..] == peaks[i + 1..];
    var kept: seq<nat> := if found then [peaks[i]] else [];
    var rest := MatchPeaks(peaks[i + 1..], blinks, window, if found then next else cursor);
    assert MatchPeaks(peaks[i..], blinks, window, cursor) == kept + rest;
    SurvivorsSnoc(marked, v);
    ConcatAssoc(Survivors(marked), kept, rest);
  }

  /** The matching loop of blinksInSource: a peak without a blink at or
      after the cursor within the window is marked -1 and counted out; the
      rest are copied in order, or none when the count reaches 0. */
  method MatchLoop(peaks: seq<nat>, blinks: seq<nat>, window: nat) returns (kept: seq<nat>, numBlinks: int)
    ensures kept == MatchPeaks(peaks, blinks, window, 0) && numBlinks == |kept|
  {
    var cursor: nat := 0;
    var marked: seq<int> := [];
    ghost var goal := MatchPeaks(peaks, blinks, window, 0);
    assert peaks[0..] == peaks;
    numBlinks := |peaks|;
    var i := 0;
    while i < |peaks|
      invariant 0 <= i <= |peaks| && |marked| == i && cursor <= |blinks|
      invariant Survivors(marked) + MatchPeaks(peaks[i..], blinks, window, cursor) == goal
      invariant numBlinks == |Survivors(marked)| + (|peaks| - i)
    {
      var next, found := FindMatch(peaks[i], blinks, cursor, window);
      MatchStep(peaks, blinks, window, i, cursor, found, next, marked, if found then peaks[i] as int else -1);
      if found {
        marked := marked + [peaks[i] as int];
        cursor := next;
      } else {
        marked := marked + [-1];
        numBlinks := numBlinks - 1;
      }
      i := i + 1;
    }
    if numBlinks == 0 {
      kept := [];
    } else {
      kept := Compact(marked);
    }
  }

  /** With no EEG blinks to match, no peak is kept. */
  lemma {:induction false} MatchNothing(peaks: seq<nat>, window: nat)
    ensures MatchPeaks(peaks, [], window, 0) == []
    decreases |peaks|
  {
    if |peaks| > 0 {
      MatchNothing(peaks[1..], window);
    }
  }

  /** blinksInSource's result as written: the as-written scan of the
      source row's magnitudes against 10 / len_blinks, confirmed by the EEG
      blinks; nothing without EEG blinks (10 / 0 is +infinity, which no
      magnitude crosses, and MatchNothing). */
  function SourceBlinks(s: Matrix, src: nat, blinks: seq<nat>, window: nat): (r: seq<nat>)
    requires s.Valid() && src < s.rows
  {
    if |blinks| == 0 then []
    else MatchPeaks(PeakIndices(Magnitudes(Row(s, src)), SourceThreshold(|blinks|)), blinks, window, 0)
  }

  /** blinksInSource with the guarded scan: the run peaks of the source
      row's magnitudes above 10 / len_blinks, confirmed by the EEG blinks. */
  function SourceBlinksGuarded(s: Matrix, src: nat, blinks: seq<nat>, window: nat): (r: seq<nat>)
    requires s.Valid() && src < s.rows
  {
    if |blinks| == 0 then []
    else
      var m := Magnitudes(Row(s, src));
      MatchPeaks(Maxima(m, Runs(m, Level(s.cols, SourceThreshold(|blinks|)), 1)), blinks, window, 0)
  }

  /** Row `src` of S read column by column. */
  method SourceRow(s: Matrix, src: nat) returns (source: seq<real>)
    requires s.Valid() && src < s.rows
    ensures source == Row(s, src)
  {
    source := seq(s.cols, i requires 0 <= i < s.cols => s.At(src, i));
  }

  /** blinksInSource as written: the peaks of the source row, matched
      against the EEG blinks, each EEG blink confirming one peak
      (MatchPeaksPaired). */
  method BlinksInSource(s: Matrix, src: nat, blinks: seq<nat>, window: nat) returns (peaks: seq<nat>, numBlinks: int)
    requires s.Valid() && src < s.rows
    ensures peaks == SourceBlinks(s, src, blinks, window) && numBlinks == |peaks|
  {
    if |blinks| == 0 {
      return [], 0;
    }
    var th := 10.0 / |blinks| as real;
    var source := SourceRow(s, src);
    var indices := PeakScanAsWritten(source, th);
    if |indices| == 0 {
      return [], 0;
    }
    peaks, numBlinks := MatchLoop(indices, blinks, window);
  }

  /** blinksInSource with the guarded peak scan. */
  method BlinksInSourceGuarded(s: Matrix, src: nat, blinks: seq<nat>, window: nat) returns (peaks: seq<nat>, numBlinks: int)
    requires s.Valid() && src < s.rows
    ensures peaks == SourceBlinksGuarded(s, src, blinks, window) && numBlinks == |peaks|
  {
    if |blinks| == 0 {
      return [], 0;
    }
    var th := 10.0 / |blinks| as real;
    var source := SourceRow(s, src);
    var indices := PeakScanGuarded(source, th);
    if |indices| == 0 {
      return [], 0;
    }
    peaks, numBlinks := MatchLoop(indices, blinks, window);
  }
}

=== FILE: blink_remove.dfy ===
/** blinkFlatten and blinkRemove of src/blink/remove.cpp: the blink source
    row of the ICA sources is flattened around every blink that survived
    matching, the EEG is rebuilt from the mixing matrix and the modified
    sources, the means are added back and the rows the caller asked to keep
    are restored verbatim. The ICA run, which the routine starts on a thread
    and joins before blinkSource, enters as its result. */
module BlinkRemove {
  import opened Signals
  import opened Matrices
  import opened BlinkAux
  import BlinkCandidates
  import BlinkDetect
  import Wavelets

  // ---------------------------------------------------------------------------
  // blinkFlatten on one row
  // ---------------------------------------------------------------------------

  /** The reads of blinkFlatten for blink b stay inside the row: b is a
      column, and a blink within w of the start has b + w inside the row
      (that column supplies the value). */
  predicate Flattenable(n: nat, b: nat, w: nat)
  {
    b < n && (b < w ==> b + w < n)
  }

  /** The stretch [lo, hi) blinkFlatten overwrites for one blink, and the
      value it writes there. */
  datatype Patch = Patch(lo: nat, hi: nat, val: real)

  function PatchOf(x: seq<real>, b: nat, w: nat): (p: Patch)
    requires Flattenable(|x|, b, w)
    ensures p.lo <= p.hi < |x|
  {
    var jLow := b - w;
    var jHigh := b + w;
    if jLow < 0 then Patch(0, jHigh, x[jHigh])
    else if jHigh >= |x| then Patch(jLow, |x| - 1, x[jLow])
    else Patch(jLow, jHigh, 0.5 * (x[jLow] + x[jHigh]))
  }

  /** One blink flattened: near the start, columns [0, b + w) take the value
      at b + w; near the end, columns [b - w, n - 1) take the value at b - w;
      elsewhere columns [b - w, b + w) take the mean of the two. Every other
      column keeps its value. */
  function FlattenOne(x: seq<real>, b: nat, w: nat): (r: seq<real>)
    requires Flattenable(|x|, b, w)
    ensures |r| == |x|
    ensures b < w ==> forall j :: 0 <= j < |x| ==> r[j] == if j < b + w then x[b + w] else x[j]
    ensures w <= b && |x| <= b + w ==>
      forall j :: 0 <= j < |x| ==> r[j] == if b - w <= j < |x| - 1 then x[b - w] else x[j]
    ensures w <= b && b + w < |x| ==>
      forall j :: 0 <= j < |x| ==> r[j] == if b - w <= j < b + w then (x[b - w] + x[b + w]) / 2.0 else x[j]
  {
    var p := PatchOf(x, b, w);
    seq(|x|, j requires 0 <= j < |x| => if p.lo <= j < p.hi then p.val else x[j])
  }

  /** The blinks flattened one after the other in list order, each reading
      the row as the earlier ones left it. */
  function FlattenAll(x: seq<real>, blinks: seq<nat>, w: nat): (r: seq<real>)
    requires forall k :: 0 <= k < |blinks| ==> Flattenable(|x|, blinks[k], w)
    ensures |r| == |x|
  {
    if |blinks| == 0 then x
    else FlattenOne(FlattenAll(x, blinks[..|blinks| - 1], w), blinks[|blinks| - 1], w)
  }

  /** Whatever the blinks, the last column is never overwritten. */
  lemma {:induction false} FlattenKeepsLast(x: seq<real>, blinks: seq<nat>, w: nat)
    requires forall k :: 0 <= k < |blinks| ==> Flattenable(|x|, blinks[k], w)
    requires 0 < |x|
    ensures FlattenAll(x, blinks, w)[|x| - 1] == x[|x| - 1]
  {
    if |blinks| > 0 {
      FlattenKeepsLast(x, blinks[..|blinks| - 1], w);
    }
  }

  /** A column farther than w from every blink (b - w <= j < b + w fails for
      all of them) keeps its value. */
  lemma {:induction false} FlattenOutside(x: seq<real>, blinks: seq<nat>, w: nat, j: nat)
    requires forall k :: 0 <= k < |blinks| ==> Flattenable(|x|, blinks[k], w)
    requires j < |x| && forall k :: 0 <= k < |blinks| ==> !(blinks[k] - w <= j < blinks[k] + w)
    ensures FlattenAll(x, blinks, w)[j] == x[j]
  {
    if |blinks| > 0 {
      FlattenOutside(x, blinks[..|blinks| - 1], w, j);
    }
  }

  /** The flattened stretch of one blink holds a single value. */
  lemma FlattenedConstant(x: seq<real>, b: nat, w: nat, i: nat, j: nat)
    requires Flattenable(|x|, b, w)
    requires var p := PatchOf(x, b, w); p.lo <= i < p.hi && p.lo <= j < p.hi
    ensures FlattenOne(x, b, w)[i] == FlattenOne(x, b, w)[j]
  {
  }

  /** Overlapping windows: the second blink's mean reads column 2, which the
      first blink has already overwritten with 5 (the original row holds 0
      there, and the mean would have been 0). */
  lemma OverlapExample()
    ensures FlattenAll([0.0, 0.0, 0.0, 10.0, 0.0, 0.0], [2, 3], 1) == [0.0, 5.0, 2.5, 2.5, 0.0, 0.0]
  {
    var x := [0.0, 0.0, 0.0, 10.0, 0.0, 0.0];
    assert [2, 3][..1] == [2];
    assert [2][..0] == [];
    var y := FlattenOne(x, 2, 1);
    assert y == [0.0, 5.0, 5.0, 10.0, 0.0, 0.0];
    assert FlattenOne(y, 3, 1) == [0.0, 5.0, 2.5, 2.5, 0.0, 0.0];
  }

  // ---------------------------------------------------------------------------
  // blinkFlatten on the matrix
  // ---------------------------------------------------------------------------

  /** Storage slot k holds an element of row `row` of the block. */
  predicate RowSlot(s: Matrix, row: nat, k: nat)
    requires 0 < s.ld
  {
    k % s.ld == row && k / s.ld < s.cols
  }

  /** t has s's shape, and every slot outside row `row` holds what s held. */
  predicate SameOutsideRow(s: Matrix, t: Matrix, row: nat)
    requires s.Valid() && row < s.rows
  {
    t.Valid() && t.rows == s.rows && t.cols == s.cols && t.ld == s.ld && t.lag == s.lag
    && |t.elem| == |s.elem|
    && forall k :: 0 <= k < |s.elem| && !RowSlot(s, row, k) ==> t.elem[k] == s.elem[k]
  }

  /** Every element outside row `row` is untouched. */
  lemma SameOutsideRowAt(s: Matrix, t: Matrix, row: nat, r: nat, c: nat)
    requires s.Valid() && row < s.rows && SameOutsideRow(s, t, row)
    requires r < s.rows && c < s.cols && r != row
    ensures t.At(r, c) == s.At(r, c)
  {
    OffsetBelow(s.ld, s.cols, r, c);
    assert !RowSlot(s, row, Offset(s.ld, r, c));
  }

  /** The store of one column of row `row`. */
  method Store(t: Matrix, row: nat, j: nat, v: real, ghost s: Matrix) returns (u: Matrix)
    requires s.Valid() && row < s.rows && SameOutsideRow(s, t, row) && j < s.cols
    ensures SameOutsideRow(s, u, row)
    ensures Row(u, row) == Row(t, row)[j := v]
  {
    u := Put(t, row, j, v);
    PutAt(t, row, j, v);
    forall k | 0 <= k < |s.elem| && !RowSlot(s, row, k)
      ensures u.elem[k] == s.elem[k]
    {
      assert k % t.ld != row || k / t.ld != j;
    }
  }

  /** The flattening of one blink, as the copy loop writes it. */
  method FlattenBlink(t: Matrix, row: nat, b: nat, w: nat, ghost s: Matrix) returns (u: Matrix)
    requires s.Valid() && row < s.rows && SameOutsideRow(s, t, row) && Flattenable(s.cols, b, w)
    ensures SameOutsideRow(s, u, row)
    ensures Row(u, row) == FlattenOne(Row(t, row), b, w)
  {
    ghost var x := Row(t, row);
    var jLow := b - w;
    var jHigh := b + w;
    var val;
    if jLow < 0 {
      val := t.At(row, jHigh);
      jLow := 0;
    } else if jHigh >= t.cols {
      val := t.At(row, jLow);
      jHigh := t.cols - 1;
    } else {
      val := 0.5 * (t.At(row, jLow) + t.At(row, jHigh));
    }
    ghost var p := PatchOf(x, b, w);
    assert jLow == p.lo && jHigh == p.hi && val == p.val;
    u := t;
    var j := jLow;
    while j < jHigh
      invariant jLow <= j <= jHigh && SameOutsideRow(s, u, row)
      invariant forall c :: 0 <= c < s.cols ==> Row(u, row)[c] == if jLow <= c < j then val else x[c]
    {
      u := Store(u, row, j, val, s);
      j := j + 1;
    }
  }

  /** blinkFlatten: row `row` of S becomes the row with every blink
      flattened in list order; no other element of S, nor any storage slot
      outside that row, changes. */
  method BlinkFlatten(s: Matrix, blinks: seq<nat>, row: nat, w: nat) returns (t: Matrix)
    requires s.Valid() && row < s.rows
    requires forall k :: 0 <= k < |blinks| ==> Flattenable(s.cols, blinks[k], w)
    ensures SameOutsideRow(s, t, row)
    ensures Row(t, row) == FlattenAll(Row(s, row), blinks, w)
    ensures forall r: nat, c: nat | r < s.rows && c < s.cols && r != row :: t.At(r, c) == s.At(r, c)
  {
    t := s;
    var i := 0;
    while i < |blinks|
      invariant 0 <= i <= |blinks| && SameOutsideRow(s, t, row)
      invariant Row(t, row) == FlattenAll(Row(s, row), blinks[..i], w)
    {
      assert blinks[..i + 1][..i] == blinks[..i];
      t := FlattenBlink(t, row, blinks[i], w, s);
      i := i + 1;
    }
    assert blinks[..|blinks|] == blinks;
    forall r: nat, c: nat | r < s.rows && c < s.cols && r != row
      ensures t.At(r, c) == s.At(r, c)
    {
      SameOutsideRowAt(s, t, row, r, c);
    }
  }

  // ---------------------------------------------------------------------------
  // Reconstruction and the rows to keep
  // ---------------------------------------------------------------------------

  /** Row j is one of the rows to keep. */
  predicate Kept(keep: seq<int>, j: nat)
  {
    exists k :: 0 <= k < |keep| && keep[k] == j
  }

  /** The scan of `keep` for row j, stopping at the first hit. */
  method FindKeep(keep: seq<int>, j: nat) returns (restore: bool)
    ensures restore <==> Kept(keep, j)
  {
    restore := false;
    var k := 0;
    while k < |keep|
      invariant 0 <= k <= |keep| && !restore
      invariant forall q :: 0 <= q < k ==> keep[q] != j
    {
      if j == keep[k] {
        restore := true;
        return;
      }
      k := k + 1;
    }
  }

  /** The value the restoring loop leaves at (j, i): X's element for a kept
      row, the rebuilt element plus the row's mean otherwise. */
  function RestoredAt(r: Matrix, x: Matrix, mu: seq<real>, keep: seq<int>, j: nat, i: nat): real
    requires r.Valid() && x.Valid() && r.rows <= x.rows && r.cols <= x.cols && r.rows <= |mu|
    requires j < r.rows && i < r.cols
  {
    if Kept(keep, j) then x.At(j, i) else r.At(j, i) + mu[j]
  }

  /** Storage slot k holds an element of the rows x cols block. */
  predicate InBlock(m: Matrix, k: nat)
  {
    0 < m.ld && k % m.ld < m.rows && k / m.ld < m.cols
  }

  /** The restoring loop of blinkRemove: column by column, every element of
      a kept row is copied from X and every other element gets its row's
      mean added; slots outside the block are untouched. */
  method Restore(r: Matrix, x: Matrix, mu: seq<real>, keep: seq<int>) returns (out: Matrix)
    requires r.Valid() && x.Valid() && r.rows <= x.rows && r.cols <= x.cols && r.rows <= |mu|
    ensures out.Valid() && out.rows == r.rows && out.cols == r.cols && out.ld == r.ld && |out.elem| == |r.elem|
    ensures forall j: nat, i: nat | j < r.rows && i < r.cols :: out.At(j, i) == RestoredAt(r, x, mu, keep, j, i)
    ensures forall k :: 0 <= k < |r.elem| && !InBlock(r, k) ==> out.elem[k] == r.elem[k]
  {
    out := r;
    var i := 0;
    while i < r.cols
      invariant 0 <= i <= r.cols
      invariant out.Valid() && out.rows == r.rows && out.cols == r.cols && out.ld == r.ld && out.lag == r.lag
      invariant |out.elem| == |r.elem|
      invariant forall j: nat, c: nat | j < r.rows && c < r.cols ::
        out.At(j, c) == if c < i then RestoredAt(r, x, mu, keep, j, c) else r.At(j, c)
      invariant forall k :: 0 <= k < |r.elem| && !InBlock(r, k) ==> out.elem[k] == r.elem[k]
    {
      out := RestoreColumn(out, r, x, mu, keep, i);
      i := i + 1;
    }
  }

  /** One pass of the inner loop: column i of every row. */
  method RestoreColumn(t: Matrix, r: Matrix, x: Matrix, mu: seq<real>, keep: seq<int>, i: nat) returns (out: Matrix)
    requires r.Valid() && x.Valid() && r.rows <= x.rows && r.cols <= x.cols && r.rows <= |mu| && i < r.cols
    requires t.Valid() && t.rows == r.rows && t.cols == r.cols && t.ld == r.ld && t.lag == r.lag && |t.elem| == |r.elem|
    requires forall j: nat | j < r.rows :: t.At(j, i) == r.At(j, i)
    ensures out.Valid() && out.rows == r.rows && out.cols == r.cols && out.ld == r.ld && out.lag == r.lag
    ensures |out.elem| == |r.elem|
    ensures forall j: nat | j < r.rows :: out.At(j, i) == RestoredAt(r, x, mu, keep, j, i)
    ensures forall j: nat, c: nat | j < r.rows && c < r.cols && c != i :: out.At(j, c) == t.At(j, c)
    ensures forall k :: 0 <= k < |r.elem| && !InBlock(r, k) ==> out.elem[k] == t.elem[k]
  {
    out := t;
    var j := 0;
    while j < r.rows
      invariant 0 <= j <= r.rows
      invariant out.Valid() && out.rows == r.rows && out.cols == r.cols && out.ld == r.ld && out.lag == r.lag
      invariant |out.elem| == |r.elem|
      invariant forall q: nat | q < r.rows :: out.At(q, i) == if q < j then RestoredAt(r, x, mu, keep, q, i) else r.At(q, i)
      invariant forall q: nat, c: nat | q < r.rows && c < r.cols && c != i :: out.At(q, c) == t.At(q, c)
      invariant forall k :: 0 <= k < |r.elem| && !InBlock(r, k) ==> out.elem[k] == t.elem[k]
    {
      var restore := FindKeep(keep, j);
      var v;
      if restore {
        v := x.At(j, i);
      } else {
        v := out.At(j, i) + mu[j];
      }
      PutAt(out, j, i, v);
      out := Put(out, j, i, v);
      j := j + 1;
    }
  }

  // ---------------------------------------------------------------------------
  // blinkRemove
  // ---------------------------------------------------------------------------

  /** What the ICA thread leaves behind for X (rows x cols): the mixing
      matrix A (rows x rows), the sources S (rows x cols) and their means. */
  datatype Ica = Ica(a: Matrix, s: Matrix, muS: seq<real>)

  predicate IcaShaped(ica: Ica, x: Matrix)
  {
    ica.a.Valid() && ica.s.Valid() && ica.a.rows == x.rows && ica.a.cols == x.rows
    && ica.s.rows == x.rows && ica.s.cols == x.cols && |ica.muS| == x.rows
  }

  /** The time-derived sample counts of the blink parameters:
      window = trunc(0.02 fs) for matching and flatten = trunc(0.2 fs) for
      the half-width of the flattened stretch. */
  datatype Counts = Counts(window: nat, flatten: nat)

  /** With twice the half-width inside the row, every column can be
      flattened. */
  lemma FlattenWidth(n: nat, w: nat)
    requires 2 * w <= n
    ensures forall b :: 0 <= b < n ==> Flattenable(n, b, w)
  {
  }

  lemma {:induction false} MatchPeaksBelow(peaks: seq<nat>, blinks: seq<nat>, window: nat, cursor: nat, n: nat)
    requires cursor <= |blinks| && forall k :: 0 <= k < |peaks| ==> peaks[k] < n
    ensures var r := BlinkDetect.MatchPeaks(peaks, blinks, window, cursor); forall k :: 0 <= k < |r| ==> r[k] < n
    decreases |peaks|
  {
    if |peaks| > 0 {
      var f := BlinkDetect.FirstMatch(peaks[0], blinks, cursor, window);
      if f.Some? {
        MatchPeaksBelow(peaks[1..], blinks, window, f.value + 1, n);
        assert BlinkDetect.MatchPeaks(peaks, blinks, window, cursor)
          == [peaks[0]] + BlinkDetect.MatchPeaks(peaks[1..], blinks, window, f.value + 1);
      } else {
        MatchPeaksBelow(peaks[1..], blinks, window, cursor, n);
        assert BlinkDetect.MatchPeaks(peaks, blinks, window, cursor)
          == BlinkDetect.MatchPeaks(peaks[1..], blinks, window, cursor);
      }
    }
  }

  /** Every peak blinksInSource keeps is a column of S. */
  lemma PeaksInside(s: Matrix, src: nat, blinks: seq<nat>, window: nat)
    requires s.Valid() && src < s.rows
    ensures var r := BlinkDetect.SourceBlinks(s, src, blinks, window); forall k :: 0 <= k < |r| ==> r[k] < s.cols
  {
    if 0 < |blinks| {
      var m := BlinkDetect.Magnitudes(Row(s, src));
      var th := BlinkDetect.SourceThreshold(|blinks|);
      BlinkDetect.PeakIndicesInside(m, th);
      MatchPeaksBelow(BlinkDetect.PeakIndices(m, th), blinks, window, 0, s.cols);
      assert BlinkDetect.SourceBlinks(s, src, blinks, window) == BlinkDetect.MatchPeaks(BlinkDetect.PeakIndices(m, th), blinks, window, 0);
    }
  }

  /** The blinks of the first four channels, fused as blinkDetect does. */
  function DetectedBlinks(channels: seq<seq<real>>, w: Wavelets.Wavelet, p: BlinkCandidates.Params,
                          cor: BlinkCandidates.Correlator, window: nat): seq<nat>
    requires 4 <= |channels| && forall c :: 0 <= c < 4 ==> BlinkCandidates.Admissible(w, channels[c], p)
  {
    BlinkDetect.Fusion(BlinkDetect.ChannelCandidates(channels[..4], w, p, cor), window)
  }

  /** The detected blinks are samples of the first channel. */
  lemma DetectedInside(channels: seq<seq<real>>, w: Wavelets.Wavelet, p: BlinkCandidates.Params,
                       cor: BlinkCandidates.Correlator, window: nat)
    requires 4 <= |channels| && forall c :: 0 <= c < 4 ==> BlinkCandidates.Admissible(w, channels[c], p)
    ensures var b := DetectedBlinks(channels, w, p, cor, window); forall k :: 0 <= k < |b| ==> b[k] < |channels[0]|
  {
    var lists := BlinkDetect.ChannelCandidates(channels[..4], w, p, cor);
    var first := BlinkCandidates.PossibleBlinks(w, channels[0], p, cor);
    assert lists[0] == first;
    var b := BlinkDetect.Fusion(lists, window);
    assert b == DetectedBlinks(channels, w, p, cor, window);
    BlinkDetect.FusionSubseq(lists, window);
    BlinkDetect.SubseqOfIn(b, first);
    BlinkCandidates.PossibleBlinksInside(w, channels[0], p, cor);
    forall k | 0 <= k < |b|
      ensures b[k] < |channels[0]|
    {
      var j :| 0 <= j < |first| && first[j] == b[k];
    }
  }

  /** What blinkSource needs of the blinks: they are columns of S, and the
      template is shorter than a row. */
  predicate SourceReady(s: Matrix, blinks: seq<nat>, p: BlinkCandidates.Params)
    requires 2 <= p.steps1 && 2 <= p.steps2
  {
    s.Valid() && TemplateLength(p.steps1, p.steps2) < s.cols
    && (forall k :: 0 <= k < |blinks| ==> blinks[k] < s.cols)
  }

  /** The blink source and its peaks: blinkSource on the detected blinks,
      then blinksInSource on the row it picks. */
  method LocatePeaks(s: Matrix, blinks: seq<nat>, p: BlinkCandidates.Params, window: nat)
      returns (source: nat, peaks: seq<nat>)
    requires 2 <= p.steps1 && 2 <= p.steps2 && 0 < s.rows && SourceReady(s, blinks, p)
    ensures source < s.rows
    ensures Picked(Scores(s, BlinkDetect.Synthetic(s.cols, BlinkCandidates.Template(p.steps1, p.steps2), p.steps1, blinks)), source)
    ensures peaks == BlinkDetect.SourceBlinks(s, source, blinks, window)
    ensures forall k :: 0 <= k < |peaks| ==> peaks[k] < s.cols
  {
    source := BlinkDetect.BlinkSource(s, blinks, p.steps1, p.steps2);
    var numPeaks;
    peaks, numPeaks := BlinkDetect.BlinksInSource(s, source, blinks, window);
    PeaksInside(s, source, blinks, window);
  }

  /** The sources with row `source` flattened around the peaks. */
  predicate FlattenedSources(s: Matrix, flat: Matrix, source: nat, peaks: seq<nat>, w: nat)
    requires s.Valid() && source < s.rows && forall k :: 0 <= k < |peaks| ==> Flattenable(s.cols, peaks[k], w)
  {
    SameOutsideRow(s, flat, source) && Row(flat, source) == FlattenAll(Row(s, source), peaks, w)
  }

  /** R after blinkRemove, given the blink source row and its peaks: R has
      X's shape, every row listed in `keep` equals X, and every other
      element is (A * S')[j, i] + (A * mu_S)[j], S' being the sources with
      the blink row flattened around the peaks. */
  ghost predicate Reconstructed(r0: Matrix, x: Matrix, keep: seq<int>, ica: Ica, source: nat, peaks: seq<nat>, w: nat, r: Matrix)
    requires x.Valid() && IcaShaped(ica, x) && source < x.rows
    requires r0.Valid() && r0.rows == x.rows && r0.cols == x.cols && 0 < r0.ld
    requires forall k :: 0 <= k < |peaks| ==> Flattenable(x.cols, peaks[k], w)
  {
    r.Valid() && r.rows == x.rows && r.cols == x.cols
    && (forall j: nat, i: nat | j < x.rows && i < x.cols && Kept(keep, j) :: r.At(j, i) == x.At(j, i))
    && exists flat: Matrix ::
      FlattenedSources(ica.s, flat, source, peaks, w) && Conformable(r0, ica.a, false, flat, false)
      && forall j: nat, i: nat | j < x.rows && i < x.cols && !Kept(keep, j) ::
           r.At(j, i) == GemmNN(r0, ica.a, flat).At(j, i) + Gemv(ica.a, ica.muS)[j]
  }

  /** The second half of blinkRemove: the blink row flattened, the EEG
      rebuilt as A * S + A * mu_S, and the kept rows restored from X. */
  method Rebuild(r0: Matrix, x: Matrix, keep: seq<int>, ica: Ica, source: nat, peaks: seq<nat>, w: nat)
      returns (r: Matrix)
    requires x.Valid() && IcaShaped(ica, x) && source < x.rows
    requires r0.Valid() && r0.rows == x.rows && r0.cols == x.cols && 0 < r0.ld
    requires forall k :: 0 <= k < |peaks| ==> Flattenable(x.cols, peaks[k], w)
    ensures Reconstructed(r0, x, keep, ica, source, peaks, w, r)
  {
    var flat := BlinkFlatten(ica.s, peaks, source, w);
    var rebuilt := GemmNN(r0, ica.a, flat);
    var mu := Gemv(ica.a, ica.muS);
    r := Restore(rebuilt, x, mu, keep);
    assert FlattenedSources(ica.s, flat, source, peaks, w);
  }

  /** The outcome of blinkRemove for the detected blinks: the blink
      source row, its peaks as blinksInSource finds them, and R rebuilt with
      that row flattened around them. */
  ghost predicate Removed(r0: Matrix, x: Matrix, keep: seq<int>, ica: Ica, p: BlinkCandidates.Params, blinks: seq<nat>,
                          counts: Counts, source: nat, peaks: seq<nat>, r: Matrix)
    requires x.Valid() && IcaShaped(ica, x) && 2 <= p.steps1 && 2 <= p.steps2
    requires r0.Valid() && r0.rows == x.rows && r0.cols == x.cols && 0 < r0.ld
  {
    source < x.rows && SourceReady(ica.s, blinks, p)
    && Picked(Scores(ica.s, BlinkDetect.Synthetic(x.cols, BlinkCandidates.Template(p.steps1, p.steps2), p.steps1, blinks)), source)
    && peaks == BlinkDetect.SourceBlinks(ica.s, source, blinks, counts.window)
    && (forall k :: 0 <= k < |peaks| ==> Flattenable(x.cols, peaks[k], counts.flatten))
    && Reconstructed(r0, x, keep, ica, source, peaks, counts.flatten, r)
  }

  /** blinkRemove from the detected blinks on. */
  method RemoveDetected(r0: Matrix, x: Matrix, keep: seq<int>, ica: Ica, p: BlinkCandidates.Params,
                        blinks: seq<nat>, counts: Counts) returns (r: Matrix, source: nat, peaks: seq<nat>)
    requires x.Valid() && 0 < x.rows && IcaShaped(ica, x)
    requires r0.Valid() && r0.rows == x.rows && r0.cols == x.cols && 0 < r0.ld
    requires 2 <= p.steps1 && 2 <= p.steps2 && SourceReady(ica.s, blinks, p)
    requires 2 * counts.flatten <= x.cols
    ensures Removed(r0, x, keep, ica, p, blinks, counts, source, peaks, r)
  {
    source, peaks := LocatePeaks(ica.s, blinks, p, counts.window);
    FlattenWidth(x.cols, counts.flatten);
    r := Rebuild(r0, x, keep, ica, source, peaks, counts.flatten);
  }

  /** The blink detection step: blinkDetect on the first four channels. */
  method Detect(channels: seq<seq<real>>, w: Wavelets.Wavelet, p: BlinkCandidates.Params,
                cor: BlinkCandidates.Correlator, root: real -> real, window: nat) returns (blinks: seq<nat>)
    requires 4 <= |channels| && forall c :: 0 <= c < 4 ==> BlinkCandidates.Admissible(w, channels[c], p)
    requires BlinkCandidates.CorrelateBy(cor, root)
    ensures blinks == DetectedBlinks(channels, w, p, cor, window)
    ensures forall k :: 0 <= k < |blinks| ==> blinks[k] < |channels[0]|
  {
    DetectedInside(channels, w, p, cor, window);
    var numBlinks;
    blinks, numBlinks := BlinkDetect.BlinkDetect(channels[..4], w, p, cor, root, window);
  }

  /** blinkRemove run in sequence: blinks detected on the first four
      channels (the routine passes 4 whatever num_channels says), the blink
      source row chosen by maxCorrelate against the synthetic signal (row 0
      when there are no blinks), its peaks matched against the blinks, that
      row flattened around the peaks, and the EEG rebuilt. The result is
      always 0; every row listed in `keep` equals X, and every other
      element is the rebuilt element plus the mixing of the source means.
      The channels hold X's columns; `cor` is correlate where correlate is
      defined, `root` standing for sqrt. */
  method BlinkRemove(r0: Matrix, x: Matrix, channels: seq<seq<real>>, numChannels: int, keep: seq<int>,
                     ica: Ica, w: Wavelets.Wavelet, p: BlinkCandidates.Params,
                     cor: BlinkCandidates.Correlator, root: real -> real, counts: Counts)
      returns (r: Matrix, rc: int, source: nat, peaks: seq<nat>)
    requires x.Valid() && 0 < x.rows && IcaShaped(ica, x) && 4 <= |channels|
    requires r0.Valid() && r0.rows == x.rows && r0.cols == x.cols && 0 < r0.ld
    requires forall c :: 0 <= c < 4 ==> BlinkCandidates.Admissible(w, channels[c], p) && |channels[c]| == x.cols
    requires BlinkCandidates.CorrelateBy(cor, root)
    requires 2 <= p.steps1 && 2 <= p.steps2 && TemplateLength(p.steps1, p.steps2) < x.cols
    requires 2 * counts.flatten <= x.cols
    ensures rc == 0
    ensures Removed(r0, x, keep, ica, p, DetectedBlinks(channels, w, p, cor, counts.window), counts, source, peaks, r)
  {
    var blinks := Detect(channels, w, p, cor, root, counts.window);
    r, source, peaks := RemoveDetected(r0, x, keep, ica, p, blinks, counts);
    rc := 0;
  }
}

=== FILE: bytes.dfy ===
/** Bytes as they come out of an ERD or EDF file, and the little-endian
    integer reads the decoders make from them. */
module Bytes {

  /** One unsigned byte. */
  newtype byte = x: int | 0 <= x < 256

  /** A byte read through a signed char. */
  function Int8(b: byte): (v: int)
    ensures -128 <= v < 128
    ensures v % 256 == b as int
  {
    if b < 128 then b as int else b as int - 256
  }

  /** Unsigned little-endian 16-bit value at b[at]. */
  function Uint16(b: seq<byte>, at: nat): (v: nat)
    requires at + 2 <= |b|
    ensures v < 0x1_0000
  {
    b[at] as nat + 256 * b[at + 1] as nat
  }

  /** Little-endian 16-bit value read through a signed short. */
  function Int16(b: seq<byte>, at: nat): (v: int)
    requires at + 2 <= |b|
    ensures -0x8000 <= v < 0x8000
    ensures v % 0x1_0000 == Uint16(b, at)
  {
    var u := Uint16(b, at);
    if u < 0x8000 then u else u - 0x1_0000
  }

  /** Little-endian 32-bit value read through a signed int. */
  function Int32(b: seq<byte>, at: nat): (v: int)
    requires at + 4 <= |b|
    ensures -0x8000_0000 <= v < 0x8000_0000
    ensures v % 0x1_0000_0000 == b[at] as int + 0x100 * b[at + 1] as int + 0x1_0000 * b[at + 2] as int + 0x100_0000 * b[at + 3] as int
  {
    var u := Uint16(b, at) + 0x1_0000 * Uint16(b, at + 2);
    if u < 0x8000_0000 then u else u - 0x1_0000_0000
  }

  /** An int holds -2^31 .. 2^31 - 1. */
  predicate InInt32(x: int)
  {
    -0x8000_0000 <= x < 0x8000_0000
  }

  /** A sum stored into an int: two's-complement wrap-around, the value
      congruent to x modulo 2^32 inside the int range. */
  function Wrap32(x: int): (v: int)
    ensures InInt32(v) && (v - x) % 0x1_0000_0000 == 0
    ensures InInt32(x) ==> v == x
  {
    var m := x % 0x1_0000_0000;
    if m < 0x8000_0000 then m else m - 0x1_0000_0000
  }
}

=== FILE: contrast.dfy ===
/** The FastICA contrast rules of src/ica/fastica/contrast.c. Each applies one
    step of the learning rule w+ = E{z g(w'z)} - E{g'(w'z)} w to every row of
    the unmixing guess W, for the whitened observations Z (rows are variables,
    columns observations). tanh and exp are parameters; the elementwise passes
    are modelled on one array of cells (the separate buffers of the C code,
    slot by slot), and the optional worker threads through the ranges they
    are given. */
module Contrast {
  import opened Matrices

  /** ContrastType: which nonlinearity approximates negentropy. */
  datatype Nonlin = Tanh | Cube | Gauss

  /** The two libm functions the rules call. */
  datatype Libm = Libm(tanh: real -> real, exp: real -> real)

  /** g, as the contrast header names it: tanh(y), y^3 or y e^(-y^2/2). */
  function Score(k: Nonlin, m: Libm, y: real): real
  {
    match k
    case Tanh => m.tanh(y)
    case Cube => Prod(Prod(y, y), y)
    case Gauss => Prod(y, m.exp(-Prod(y, y) / 2.0))
  }

  /** g': 1 - tanh(y)^2, 3 y^2 or (1 - y^2) e^(-y^2/2). */
  function Slope(k: Nonlin, m: Libm, y: real): real
  {
    match k
    case Tanh => 1.0 - Prod(m.tanh(y), m.tanh(y))
    case Cube => 3.0 * Prod(y, y)
    case Gauss => Prod(1.0 - Prod(y, y), m.exp(-Prod(y, y) / 2.0))
  }

  // ---------------------------------------------------------------------------
  // The elementwise passes and their thread blocks
  // ---------------------------------------------------------------------------

  /** Every slot whose index lies in [lo, hi) replaced by f of itself: the
      loop one thread runs over its block. */
  method MapRange<A>(f: A -> A, a: seq<A>, lo: nat, hi: nat) returns (b: seq<A>)
    requires lo <= hi <= |a|
    ensures |b| == |a|
    ensures forall i :: lo <= i < hi ==> b[i] == f(a[i])
    ensures forall i :: 0 <= i < |a| && !(lo <= i < hi) ==> b[i] == a[i]
  {
    b := a;
    var i := lo;
    while i < hi
      invariant lo <= i <= hi && |b| == |a|
      invariant forall j :: lo <= j < i ==> b[j] == f(a[j])
      invariant forall j :: 0 <= j < |a| && !(lo <= j < i) ==> b[j] == a[j]
    {
      b := b[i := f(b[i])];
      i := i + 1;
    }
  }

  /** Where thread i's block starts when every block has width b: i b,
      counted up one block at a time. */
  function Start(b: nat, i: nat): (s: nat)
    ensures i == 0 ==> s == 0
  {
    if i == 0 then 0 else Start(b, i - 1) + b
  }

  lemma {:induction false} StartIsProduct(b: nat, i: nat)
    ensures Start(b, i) == i * b
  {
    if i > 0 {
      StartIsProduct(b, i - 1);
    }
  }

  lemma {:induction false} StartMonotone(b: nat, i: nat, j: nat)
    requires i <= j
    ensures Start(b, i) <= Start(b, j)
  {
    if i < j {
      StartMonotone(b, i, j - 1);
    }
  }

  /** With b = N / T, no block starts past the end: i b <= N for i <= T. */
  lemma BlockBound(n: nat, threads: nat, b: nat, i: nat)
    requires 1 <= threads && b == n / threads && i <= threads
    ensures Start(b, i) <= n
  {
    StartIsProduct(b, i);
    MulLeq(i, threads, b);
  }

  /** Slot k's thread when N slots are split among T threads with block
      width b = N / T: worker i (i < T - 1) takes [i b, (i + 1) b) and the
      calling thread takes [(T - 1) b, N). */
  predicate InBlock(n: nat, threads: nat, b: nat, i: nat, k: nat)
    requires 1 <= threads
  {
    if i < threads - 1 then Start(b, i) <= k < Start(b, i + 1)
    else i == threads - 1 && Start(b, threads - 1) <= k < n
  }

  /** The thread that owns slot k: the first block that ends past k, or the
      calling thread's. */
  function Owner(threads: nat, b: nat, k: nat): nat
    requires 1 <= threads
  {
    OwnerFrom(threads - 1, b, k, 0)
  }

  function OwnerFrom(last: nat, b: nat, k: nat, i: nat): nat
    decreases last - i
  {
    if last <= i || k < Start(b, i + 1) then i else OwnerFrom(last, b, k, i + 1)
  }

  /** The blocks cover [0, N) exactly once: each slot lies in its owner's
      block and in no other. */
  lemma BlocksPartition(n: nat, threads: nat, b: nat, k: nat, i: nat)
    requires 1 <= threads && b == n / threads && k < n
    ensures Owner(threads, b, k) < threads
    ensures InBlock(n, threads, b, Owner(threads, b, k), k)
    ensures InBlock(n, threads, b, i, k) ==> i == Owner(threads, b, k)
  {
    BlockBound(n, threads, b, threads - 1);
    OwnerHolds(n, threads, b, k, 0);
    if InBlock(n, threads, b, i, k) {
      OnlyOne(n, threads, b, k, i, Owner(threads, b, k));
    }
  }

  lemma {:induction false} OwnerHolds(n: nat, threads: nat, b: nat, k: nat, i: nat)
    requires 1 <= threads && i <= threads - 1 && Start(b, i) <= k < n && Start(b, threads - 1) <= n
    ensures OwnerFrom(threads - 1, b, k, i) < threads
    ensures InBlock(n, threads, b, OwnerFrom(threads - 1, b, k, i), k)
    decreases threads - 1 - i
  {
    if i < threads - 1 && Start(b, i + 1) <= k {
      OwnerHolds(n, threads, b, k, i + 1);
    }
  }

  /** Two blocks holding the same slot are the same block. */
  lemma OnlyOne(n: nat, threads: nat, b: nat, k: nat, i: nat, j: nat)
    requires 1 <= threads && InBlock(n, threads, b, i, k) && InBlock(n, threads, b, j, k)
    ensures i == j
  {
    if i < j {
      StartMonotone(b, i + 1, j);
    } else if j < i {
      StartMonotone(b, j + 1, i);
    }
  }

  /** A pass split into thread blocks, the workers' blocks run one after
      another and then the caller's: the same as the pass over every slot
      once. With one thread this is the unthreaded loop. */
  method Threaded<A>(f: A -> A, a: seq<A>, threads: nat) returns (b: seq<A>)
    requires 1 <= threads
    ensures |b| == |a|
    ensures forall i :: 0 <= i < |a| ==> b[i] == f(a[i])
  {
    var block := |a| / threads;
    b := a;
    var t := 0;
    var lo := 0;
    while t < threads - 1
      invariant 0 <= t <= threads - 1 && |b| == |a| && lo == Start(block, t) && lo <= |a|
      invariant forall i :: 0 <= i < lo ==> b[i] == f(a[i])
      invariant forall i :: lo <= i < |a| ==> b[i] == a[i]
    {
      BlockBound(|a|, threads, block, t + 1);
      b := MapRange(f, b, lo, lo + block);
      t := t + 1;
      lo := lo + block;
    }
    b := MapRange(f, b, lo, |a|);
  }

  // ---------------------------------------------------------------------------
  // Row sums into column 0 and the final combination
  // ---------------------------------------------------------------------------

  /** Partial sums of the row-sum loops: slot r (r < n) holds the sum of
      row r over the first col columns, and every slot past column 0 still
      holds its input value. */
  ghost predicate SummedTo(x: Matrix, d: seq<real>, e: seq<real>, n: nat, col: nat)
    requires x.Valid() && x.rows == n && col <= x.cols
  {
    |e| == |d| && n <= |d| && (forall r :: 0 <= r < n ==> e[r] == RowSum(x, r, col))
      && (forall i :: n <= i < |d| ==> e[i] == d[i])
  }

  /** The loops that add every column of an n x cols buffer into column 0:
      afterwards slot r (r < n) holds row r's total and every other slot is
      unchanged. */
  method SumRowsIntoFirst(d: seq<real>, n: nat, cols: nat) returns (e: seq<real>)
    requires 1 <= n && 1 <= cols && cols * n <= |d|
    ensures |e| == |d|
    ensures forall r :: 0 <= r < n ==> e[r] == RowSum(Matrix(d, n, cols, n, cols), r, cols)
    ensures forall i :: n <= i < |d| ==> e[i] == d[i]
  {
    var x := Matrix(d, n, cols, n, cols);
    e := d;
    var col := 1;
    while col < cols
      invariant 1 <= col <= cols && SummedTo(x, d, e, n, col)
    {
      e := AddColumn(x, d, e, n, cols, col);
      col := col + 1;
    }
  }

  /** The inner loop of the row sums: adds column col into column 0. */
  method AddColumn(x: Matrix, d: seq<real>, e0: seq<real>, n: nat, cols: nat, col: nat) returns (e: seq<real>)
    requires x == Matrix(d, n, cols, n, cols) && x.Valid() && 1 <= col < cols
    requires SummedTo(x, d, e0, n, col)
    ensures SummedTo(x, d, e, n, col + 1)
  {
    e := e0;
    var row := 0;
    while row < n
      invariant 0 <= row <= n && |e| == |d|
      invariant forall r :: 0 <= r < row ==> e[r] == RowSum(x, r, col + 1)
      invariant forall r :: row <= r < n ==> e[r] == RowSum(x, r, col)
      invariant forall i :: n <= i < |d| ==> e[i] == d[i]
    {
      var o := Offset(n, row, col);
      OffsetBelow(n, cols, row, col);
      OffsetPastFirstColumn(n, row, col);
      var e1 := e[row := e[row] + e[o]];
      SumStep(x, d, e, e1, n, cols, row, col, o);
      e := e1;
      row := row + 1;
    }
  }

  /** One addition of the row-sum loops; o is the slot of (row, col). */
  lemma SumStep(x: Matrix, d: seq<real>, e: seq<real>, e1: seq<real>, n: nat, cols: nat, row: nat, col: nat, o: nat)
    requires x == Matrix(d, n, cols, n, cols) && x.Valid() && 1 <= col < cols && row < n && |e| == |d|
    requires o == Offset(n, row, col) && n <= o < |d|
    requires forall r :: 0 <= r < row ==> e[r] == RowSum(x, r, col + 1)
    requires forall r :: row <= r < n ==> e[r] == RowSum(x, r, col)
    requires forall i :: n <= i < |d| ==> e[i] == d[i]
    requires e1 == e[row := e[row] + e[o]]
    ensures |e1| == |d|
    ensures forall r :: 0 <= r < row + 1 ==> e1[r] == RowSum(x, r, col + 1)
    ensures forall r :: row + 1 <= r < n ==> e1[r] == RowSum(x, r, col)
    ensures forall i :: n <= i < |d| ==> e1[i] == d[i]
  {
    assert e[o] == x.At(row, col);
  }

  /** Slots of columns after the first lie past the first column. */
  lemma OffsetPastFirstColumn(n: nat, r: nat, c: nat)
    requires r < n && 1 <= c
    ensures n <= Offset(n, r, c)
  {
    MulLeq(1, c, n);
  }

  /** Slot (r, c) lies before column col. */
  lemma OffsetBeforeColumn(n: nat, r: nat, c: nat, col: nat)
    requires r < n && c < col
    ensures Offset(n, r, c) < col * n && (c + 1) * n <= col * n
  {
    MulLeq(c + 1, col, n);
  }

  /** The combination loops: slot (r, c) of the new guess becomes
      (G[r, c] - s[r] W[r, c]) / cols, all three n x n at leading dimension
      n; slots past the n x n block are left alone. */
  method Combine(g: seq<real>, s: seq<real>, w: seq<real>, n: nat, cols: nat) returns (wn: seq<real>)
    requires 1 <= cols && n <= |s| && n * n <= |g| && n * n <= |w|
    ensures |wn| == |g|
    ensures forall r, c :: 0 <= r < n && 0 <= c < n ==> CombinedAt(g, s, w, n, cols, wn, r, c)
    ensures forall i :: n * n <= i < |g| ==> wn[i] == g[i]
  {
    wn := g;
    var col := 0;
    var next := 0;
    while col < n
      invariant 0 <= col <= n && |wn| == |g| && next == col * n && next <= n * n
      invariant forall r, c :: 0 <= r < n && 0 <= c < col ==> CombinedAt(g, s, w, n, cols, wn, r, c)
      invariant forall i :: next <= i < |g| ==> wn[i] == g[i]
    {
      MulLeq(col + 1, n, n);
      var row := 0;
      while row < n
        invariant 0 <= row <= n && |wn| == |g| && next == col * n + row
        invariant forall r, c :: 0 <= r < n && 0 <= c < col ==> CombinedAt(g, s, w, n, cols, wn, r, c)
        invariant forall r :: 0 <= r < row ==> CombinedAt(g, s, w, n, cols, wn, r, col)
        invariant forall i :: next <= i < |g| ==> wn[i] == g[i]
      {
        OffsetBelow(n, n, row, col);
        var wn1 := wn[next := (wn[next] - Prod(s[row], w[next])) / cols as real];
        CombineStep(g, s, w, n, cols, wn, wn1, row, col, next);
        wn := wn1;
        row := row + 1;
        next := next + 1;
      }
      col := col + 1;
    }
  }

  /** Slot (r, c) of wn holds the combination of G, s and W there. */
  predicate CombinedAt(g: seq<real>, s: seq<real>, w: seq<real>, n: nat, cols: nat, wn: seq<real>, r: nat, c: nat)
    requires 1 <= cols && r < n && c < n && n <= |s| && n * n <= |g| && n * n <= |w| && |wn| == |g|
  {
    OffsetBelow(n, n, r, c);
    wn[Offset(n, r, c)] == (g[Offset(n, r, c)] - Prod(s[r], w[Offset(n, r, c)])) / cols as real
  }

  /** One store of the combination loops. */
  lemma CombineStep(g: seq<real>, s: seq<real>, w: seq<real>, n: nat, cols: nat, wn: seq<real>, wn1: seq<real>,
                    row: nat, col: nat, next: nat)
    requires 1 <= cols && n <= |s| && n * n <= |g| && n * n <= |w| && |wn| == |g|
    requires row < n && col < n && next == col * n + row && next < |g| && next < |w|
    requires forall r, c :: 0 <= r < n && 0 <= c < col ==> CombinedAt(g, s, w, n, cols, wn, r, c)
    requires forall r :: 0 <= r < row ==> CombinedAt(g, s, w, n, cols, wn, r, col)
    requires forall i :: next <= i < |g| ==> wn[i] == g[i]
    requires wn1 == wn[next := (wn[next] - Prod(s[row], w[next])) / cols as real]
    ensures |wn1| == |g|
    ensures forall r, c :: 0 <= r < n && 0 <= c < col ==> CombinedAt(g, s, w, n, cols, wn1, r, c)
    ensures forall r :: 0 <= r < row + 1 ==> CombinedAt(g, s, w, n, cols, wn1, r, col)
    ensures forall i :: next + 1 <= i < |g| ==> wn1[i] == g[i]
  {
    forall r, c | 0 <= r < n && 0 <= c < col
      ensures CombinedAt(g, s, w, n, cols, wn1, r, c)
    {
      OffsetBeforeColumn(n, r, c, col);
      assert CombinedAt(g, s, w, n, cols, wn, r, c);
    }
    forall r | 0 <= r < row + 1
      ensures CombinedAt(g, s, w, n, cols, wn1, r, col)
    {
      if r < row {
        assert CombinedAt(g, s, w, n, cols, wn, r, col);
      }
    }
  }

  // ---------------------------------------------------------------------------
  // The elementwise stage of each rule
  // ---------------------------------------------------------------------------

  /** negent_cube's pass on one slot: the slot of the squared buffer gets
      3 y^2 from the value y still held, and only then is y cubed in place. */
  function CubeCell(cell: (real, real)): (real, real)
  {
    var squared := 3.0 * Prod(cell.0, cell.0);
    (Prod(Prod(cell.0, cell.0), cell.0), squared)
  }

  /** negent_gauss's pass on one slot of (WZ, WZ_sqr, WZ_expo), in the order
      of its four statements. */
  function GaussCell(m: Libm, cell: (real, real, real)): (real, real, real)
  {
    var sqr := Prod(cell.0, cell.0);
    var expo := m.exp(-sqr / 2.0);
    (Prod(cell.0, expo), sqr, Prod(1.0 - sqr, expo))
  }

  /** The elementwise passes of one rule over the slots y of W Z: fed holds
      what GEMM_NT multiplies by Z', summed what the row sums add up. tanh
      overwrites y with tanh(y) and, after G is formed, turns those stored
      values into 1 - tanh^2; cube and gauss compute both in one pass. Either
      way the two arrays hold g and g' of the original slots. */
  method ElementStage(k: Nonlin, m: Libm, threads: nat, y: seq<real>) returns (fed: seq<real>, summed: seq<real>)
    requires 1 <= threads
    ensures |fed| == |y| && |summed| == |y|
    ensures forall i :: 0 <= i < |y| ==> fed[i] == Score(k, m, y[i]) && summed[i] == Slope(k, m, y[i])
  {
    match k {
      case Tanh =>
        fed := Threaded((v: real) => m.tanh(v), y, threads);
        summed := Threaded((v: real) => 1.0 - Prod(v, v), fed, threads);
      case Cube =>
        var cells := Threaded(CubeCell, seq(|y|, i requires 0 <= i < |y| => (y[i], 0.0)), threads);
        fed := seq(|y|, i requires 0 <= i < |y| => cells[i].0);
        summed := seq(|y|, i requires 0 <= i < |y| => cells[i].1);
      case Gauss =>
        var cells := Threaded((cell: (real, real, real)) => GaussCell(m, cell),
                              seq(|y|, i requires 0 <= i < |y| => (y[i], 0.0, 0.0)), threads);
        fed := seq(|y|, i requires 0 <= i < |y| => cells[i].0);
        summed := seq(|y|, i requires 0 <= i < |y| => cells[i].2);
    }
  }

  // ---------------------------------------------------------------------------
  // The learning rule, and the contrast functions that compute it
  // ---------------------------------------------------------------------------

  /** The operands every contrast function is called with: W and the result
      buffer n x n, Z n x T, all three at leading dimension n. */
  predicate Shapes(w: Matrix, z: Matrix, wn0: Matrix)
  {
    var n := z.rows;
    1 <= n && 1 <= z.cols && z.ld == n && z.Valid()
    && w.rows == n && w.cols == n && w.ld == n && w.Valid()
    && wn0.rows == n && wn0.cols == n && wn0.ld == n && wn0.Valid()
  }

  /** (W Z)[r, t]: observation t projected on unmixing row r. */
  function Projection(w: Matrix, z: Matrix, r: nat, t: nat): real
    requires w.Valid() && z.Valid() && w.cols == z.rows && r < w.rows && t < z.cols
  {
    Dot(w, false, z, false, r, t, w.cols)
  }

  /** The sum over the first t observations of g(w_r' z_s) z_s[c]. */
  function ScoreSum(k: Nonlin, m: Libm, w: Matrix, z: Matrix, r: nat, c: nat, t: nat): real
    requires w.Valid() && z.Valid() && w.cols == z.rows && r < w.rows && c < z.rows && t <= z.cols
  {
    if t == 0 then 0.0
    else ScoreSum(k, m, w, z, r, c, t - 1) + Prod(Score(k, m, Projection(w, z, r, t - 1)), z.At(c, t - 1))
  }

  /** The sum over the first t observations of g'(w_r' z_s). */
  function SlopeSum(k: Nonlin, m: Libm, w: Matrix, z: Matrix, r: nat, t: nat): real
    requires w.Valid() && z.Valid() && w.cols == z.rows && r < w.rows && t <= z.cols
  {
    if t == 0 then 0.0 else SlopeSum(k, m, w, z, r, t - 1) + Slope(k, m, Projection(w, z, r, t - 1))
  }

  /** Entry (r, c) of the next guess by the learning rule, expectations taken
      as means over the T observations:
      E{z g(w_r' z)}[c] - E{g'(w_r' z)} W[r, c]. */
  function LearningRule(k: Nonlin, m: Libm, w: Matrix, z: Matrix, r: nat, c: nat): real
    requires w.Valid() && z.Valid() && w.cols == z.rows && 1 <= z.cols && r < w.rows && c < w.cols
  {
    (ScoreSum(k, m, w, z, r, c, z.cols) - Prod(SlopeSum(k, m, w, z, r, z.cols), w.At(r, c))) / z.cols as real
  }

  /** negent_tanh, negent_cube and negent_gauss: W Z into a scratch n x T
      buffer, the elementwise stage, G = g(W Z) Z' into the result buffer,
      the row sums of g'(W Z), then the combination. Every entry of the
      result is the learning rule's. */
  method NegEntropy(k: Nonlin, m: Libm, threads: nat, wn0: Matrix, w: Matrix, z: Matrix, scratch: seq<real>)
    returns (wn: Matrix)
    requires Shapes(w, z, wn0) && 1 <= threads && |scratch| == z.rows * z.cols
    ensures wn.rows == wn0.rows && wn.cols == wn0.cols && wn.ld == wn0.ld && |wn.elem| == |wn0.elem| && wn.Valid()
    ensures forall r, c :: 0 <= r < wn.rows && 0 <= c < wn.cols ==> wn.At(r, c) == LearningRule(k, m, w, z, r, c)
  {
    var n, t := z.rows, z.cols;
    var y := GemmNN(Matrix(scratch, n, t, n, t), w, z);
    var fed, summed := ElementStage(k, m, threads, y.elem);
    var f := Matrix(fed, n, t, n, t);
    var g := GemmNT(wn0, f, z);
    var s := SumRowsIntoFirst(summed, n, t);
    MulLeq(n, n, n);
    var e := Combine(g.elem, s, w.elem, n, t);
    wn := wn0.(elem := e);
    var d := Matrix(summed, n, t, n, t);
    forall r, j | 0 <= r < n && 0 <= j < t
      ensures f.At(r, j) == Score(k, m, Projection(w, z, r, j)) && d.At(r, j) == Slope(k, m, Projection(w, z, r, j))
    {
      StageAt(k, m, w, z, scratch, y, fed, summed, r, j);
    }
    forall r, c | 0 <= r < n && 0 <= c < n
      ensures wn.At(r, c) == LearningRule(k, m, w, z, r, c)
    {
      RuleAt(k, m, w, z, wn0, f, d, g, s, e, r, c);
    }
  }

  /** Entry (r, c) of the contrast result, from the facts each stage
      establishes about row r. */
  lemma RuleAt(k: Nonlin, m: Libm, w: Matrix, z: Matrix, wn0: Matrix, f: Matrix, d: Matrix,
               g: Matrix, s: seq<real>, e: seq<real>, r: nat, c: nat)
    requires Shapes(w, z, wn0) && r < z.rows && c < z.rows
    requires f.Valid() && f.rows == z.rows && f.cols == z.cols
    requires d.Valid() && d.rows == z.rows && d.cols == z.cols
    requires forall j :: 0 <= j < z.cols ==> f.At(r, j) == Score(k, m, Projection(w, z, r, j))
    requires forall j :: 0 <= j < z.cols ==> d.At(r, j) == Slope(k, m, Projection(w, z, r, j))
    requires g == GemmNT(wn0, f, z)
    requires z.rows <= |s| && s[r] == RowSum(d, r, z.cols)
    requires z.rows * z.rows <= |g.elem| && |e| == |g.elem|
    requires CombinedAt(g.elem, s, w.elem, z.rows, z.cols, e, r, c)
    ensures wn0.(elem := e).At(r, c) == LearningRule(k, m, w, z, r, c)
  {
    FedDot(k, m, w, z, f, r, c, z.cols);
    SummedRow(k, m, w, z, d, r, z.cols);
    GemmAt(wn0, f, false, z, true, 1.0, r, c);
  }

  /** The stage's two arrays at (r, j), read as n x T matrices. */
  lemma StageAt(k: Nonlin, m: Libm, w: Matrix, z: Matrix, scratch: seq<real>, y: Matrix,
                fed: seq<real>, summed: seq<real>, r: nat, j: nat)
    requires w.Valid() && z.Valid() && w.cols == z.rows && w.rows == z.rows && z.ld == z.rows && 1 <= z.rows
    requires |scratch| == z.rows * z.cols && r < z.rows && j < z.cols
    requires y == GemmNN(Matrix(scratch, z.rows, z.cols, z.rows, z.cols), w, z)
    requires |fed| == |y.elem| && |summed| == |y.elem|
    requires forall i :: 0 <= i < |y.elem| ==> fed[i] == Score(k, m, y.elem[i]) && summed[i] == Slope(k, m, y.elem[i])
    ensures Matrix(fed, z.rows, z.cols, z.rows, z.cols).At(r, j) == Score(k, m, Projection(w, z, r, j))
    ensures Matrix(summed, z.rows, z.cols, z.rows, z.cols).At(r, j) == Slope(k, m, Projection(w, z, r, j))
  {
    GemmAt(Matrix(scratch, z.rows, z.cols, z.rows, z.cols), w, false, z, false, 1.0, r, j);
  }

  /** Row r of g(W Z) times column c of Z' is the score sum. */
  lemma {:induction false} FedDot(k: Nonlin, m: Libm, w: Matrix, z: Matrix, f: Matrix, r: nat, c: nat, t: nat)
    requires w.Valid() && z.Valid() && f.Valid() && w.cols == z.rows && r < w.rows && c < z.rows
    requires f.rows == w.rows && f.cols == z.cols && t <= z.cols
    requires forall j :: 0 <= j < z.cols ==> f.At(r, j) == Score(k, m, Projection(w, z, r, j))
    ensures Dot(f, false, z, true, r, c, t) == ScoreSum(k, m, w, z, r, c, t)
  {
    if t > 0 {
      FedDot(k, m, w, z, f, r, c, t - 1);
      DotLast(f, false, z, true, r, c, t);
    }
  }

  /** The row total of g'(W Z) is the slope sum. */
  lemma {:induction false} SummedRow(k: Nonlin, m: Libm, w: Matrix, z: Matrix, d: Matrix, r: nat, t: nat)
    requires w.Valid() && z.Valid() && d.Valid() && w.cols == z.rows && r < w.rows
    requires d.rows == w.rows && d.cols == z.cols && t <= z.cols
    requires forall j :: 0 <= j < z.cols ==> d.At(r, j) == Slope(k, m, Projection(w, z, r, j))
    ensures RowSum(d, r, t) == SlopeSum(k, m, w, z, r, t)
  {
    if t > 0 {
      SummedRow(k, m, w, z, d, r, t - 1);
    }
  }
}

=== FILE: convolution.dfy ===
/** Convolution with symmetric edge extension, fused with down- or
    up-sampling by two (src/convolution.c).

    Both routines are written as three-phase loops (left edge, interior,
    right edge).  The reference definitions below state the same sums as
    one formula per output over an extended input; the methods are proved
    to agree with them. */
module Convolution {
  import opened Signals

  /** Whole-sample symmetric extension of `x` on both sides:
      x[-m] = x[m] and x[L-1+m] = x[L-1-m]. */
  function Mirror(x: seq<real>, n: int): real
    requires -|x| < n < 2 * |x| - 1
  {
    if n < 0 then x[-n] else if n < |x| then x[n] else x[2 * |x| - 2 - n]
  }

  /** The product of one input sample and one filter tap. */
  function Mul(sample: real, tap: real): real
  {
    sample * tap
  }

  /** Partial convolution sum over the taps t in [lo, hi):
      the sum of Mirror(x, p - t) * h[t]. */
  function DownTaps(x: seq<real>, h: seq<real>, p: int, lo: int, hi: int): real
    requires 0 <= lo <= hi <= |h|
    requires lo < hi ==> -|x| < p - hi + 1 && p - lo < 2 * |x| - 1
    decreases hi - lo
  {
    if lo == hi then 0.0 else Mul(Mirror(x, p - lo), h[lo]) + DownTaps(x, h, p, lo + 1, hi)
  }

  /** A partial sum extended by the tap at its upper end. */
  lemma {:induction false} DownTapsSnoc(x: seq<real>, h: seq<real>, p: int, lo: int, hi: int)
    requires 0 <= lo <= hi < |h|
    requires -|x| < p - hi && p - lo < 2 * |x| - 1
    ensures DownTaps(x, h, p, lo, hi + 1) == DownTaps(x, h, p, lo, hi) + Mul(Mirror(x, p - hi), h[hi])
    decreases hi - lo
  {
    if lo < hi {
      DownTapsSnoc(x, h, p, lo + 1, hi);
    }
  }

  lemma {:induction false} DownTapsSplit(x: seq<real>, h: seq<real>, p: int, lo: int, mid: int, hi: int)
    requires 0 <= lo <= mid <= hi <= |h|
    requires lo < hi ==> -|x| < p - hi + 1 && p - lo < 2 * |x| - 1
    ensures DownTaps(x, h, p, lo, hi) == DownTaps(x, h, p, lo, mid) + DownTaps(x, h, p, mid, hi)
    decreases mid - lo
  {
    if lo < mid {
      DownTapsSplit(x, h, p, lo + 1, mid, hi);
    }
  }

  /** Number of outputs of the down-sampling convolution. */
  function DownLength(lenInput: nat, lenFilter: nat): nat
    requires 1 <= lenFilter
  {
    (lenInput + lenFilter - 1) / 2
  }

  /** Output k of the down-sampling convolution: the full convolution of the
      mirrored input with the filter, taken at the odd position 2k+1. */
  function DownAt(x: seq<real>, h: seq<real>, k: int): real
    requires 1 <= |h| <= |x|
    requires 0 <= k < DownLength(|x|, |h|)
  {
    DownTaps(x, h, 2 * k + 1, 0, |h|)
  }

  /** All outputs of the down-sampling convolution. */
  function DownRef(x: seq<real>, h: seq<real>): (r: seq<real>)
    requires 1 <= |h| <= |x|
    ensures |r| == DownLength(|x|, |h|)
  {
    seq(DownLength(|x|, |h|), k requires 0 <= k < DownLength(|x|, |h|) => DownAt(x, h, k))
  }

  /** Appending output k to the first k outputs gives the first k+1. */
  lemma DownRefStep(x: seq<real>, h: seq<real>, out: seq<real>, k: nat, v: real)
    requires 1 <= |h| <= |x| && k < DownLength(|x|, |h|)
    requires out == DownRef(x, h)[..k] && v == DownAt(x, h, k)
    ensures out + [v] == DownRef(x, h)[..k + 1]
  {
  }

  /** One left-edge output of conv_mirrorDown (odd i < M-1): the samples
      x[0..i] against taps i..0, then the mirrored samples x[1..M-1-i]
      against taps i+1..M-1. */
  method DownLeftOutput(x: seq<real>, h: seq<real>, i: int) returns (sum: real)
    requires 1 <= |h| <= |x| && 1 <= i < |h| - 1
    ensures sum == DownTaps(x, h, i, 0, |h|)
  {
    var M := |h|;
    sum := 0.0;
    var j := 0;
    while j <= i
      invariant 0 <= j <= i + 1
      invariant sum == DownTaps(x, h, i, i - j + 1, i + 1)
    {
      assert Mirror(x, i - (i - j)) == x[j];
      sum := sum + Mul(x[j], h[i - j]);
      j := j + 1;
    }
    j := i + 1;
    while j < M
      invariant i + 1 <= j <= M
      invariant sum == DownTaps(x, h, i, 0, j)
    {
      DownTapsSnoc(x, h, i, 0, j);
      assert Mirror(x, i - j) == x[j - i];
      sum := sum + Mul(x[j - i], h[j]);
      j := j + 1;
    }
  }

  /** One interior output of conv_mirrorDown (M-1 <= i < L): every tap reads
      a sample of x itself. */
  method DownInteriorOutput(x: seq<real>, h: seq<real>, i: int) returns (sum: real)
    requires 1 <= |h| <= |x| && |h| - 1 <= i < |x|
    ensures sum == DownTaps(x, h, i, 0, |h|)
  {
    var M := |h|;
    sum := 0.0;
    var j := 0;
    while j < M
      invariant 0 <= j <= M
      invariant sum == DownTaps(x, h, i, 0, j)
    {
      DownTapsSnoc(x, h, i, 0, j);
      assert Mirror(x, i - j) == x[i - j];
      sum := sum + Mul(x[i - j], h[j]);
      j := j + 1;
    }
  }

  /** One right-edge output of conv_mirrorDown (L <= i < L+M-1): with
      k = 2L-2-i, the samples x[k..L-1] against taps 0.., whose reflections
      lie past the end, then x[i-M+1..L-2] against the remaining taps. */
  method DownRightOutput(x: seq<real>, h: seq<real>, i: int) returns (sum: real)
    requires 1 <= |h| <= |x| && |x| <= i < |x| + |h| - 1
    ensures sum == DownTaps(x, h, i, 0, |h|)
  {
    var L, M := |x|, |h|;
    var k := 2 * L - 2 - i;
    sum := 0.0;
    var j := k;
    while j < L
      invariant k <= j <= L
      invariant sum == DownTaps(x, h, i, 0, j - k)
    {
      DownTapsSnoc(x, h, i, 0, j - k);
      assert Mirror(x, i - (j - k)) == x[j];
      sum := sum + Mul(x[j], h[j - k]);
      j := j + 1;
    }
    ghost var mid := i - L + 2;
    j := 1 - M + i;
    while j < L - 1
      invariant 1 - M + i <= j <= L - 1
      invariant sum == DownTaps(x, h, i, 0, mid) + DownTaps(x, h, i, i - j + 1, M)
    {
      assert Mirror(x, i - (i - j)) == x[j];
      sum := sum + Mul(x[j], h[i - j]);
      j := j + 1;
    }
    DownTapsSplit(x, h, i, 0, mid, M);
  }

  /** conv_mirrorDown: the left-edge, interior and right-edge loops of the
      source, one output per odd position i = 1, 3, 5, ... < L+M-1. */
  method MirrorDown(x: seq<real>, h: seq<real>) returns (out: seq<real>)
    requires 1 <= |h| <= |x|
    ensures out == DownRef(x, h)
  {
    var L, M := |x|, |h|;
    out := [];
    var i := 1;
    ghost var k := 0;
    while i < M - 1
      invariant i == 2 * k + 1 && 0 <= k && i <= M
      invariant out == DownRef(x, h)[..k]
    {
      var sum := DownLeftOutput(x, h, i);
      DownRefStep(x, h, out, k, sum);
      out := out + [sum];
      i, k := i + 2, k + 1;
    }
    while i < L
      invariant i == 2 * k + 1 && 0 <= k && M - 1 <= i <= L + 1
      invariant out == DownRef(x, h)[..k]
    {
      var sum := DownInteriorOutput(x, h, i);
      DownRefStep(x, h, out, k, sum);
      out := out + [sum];
      i, k := i + 2, k + 1;
    }
    while i < L + M - 1
      invariant i == 2 * k + 1 && 0 <= k && L <= i <= L + M
      invariant out == DownRef(x, h)[..k]
    {
      var sum := DownRightOutput(x, h, i);
      DownRefStep(x, h, out, k, sum);
      out := out + [sum];
      i, k := i + 2, k + 1;
    }
    assert k == DownLength(L, M);
  }

  /** Extension of the input as seen by the up-sampling convolution: the
      up-sampled signal [0, x0, 0, x1, ..., 0, x(L-1)] mirrored about its
      first and last samples reads x[-q-1] at q < 0 and x[2L-2-q] at q >= L. */
  function ExtUp(x: seq<real>, q: int): real
    requires -|x| <= q <= 2 * |x| - 2
  {
    if q < 0 then x[-q - 1] else if q < |x| then x[q] else x[2 * |x| - 2 - q]
  }

  /** Partial up-sampling sum over j in [lo, hi) of ExtUp(x, q-j) * h[2j+par]:
      with par = 0 the even taps, with par = 1 the odd taps. */
  function UpTaps(x: seq<real>, h: seq<real>, q: int, par: int, lo: int, hi: int): real
    requires par == 0 || par == 1
    requires 0 <= lo <= hi
    requires lo < hi ==> 2 * (hi - 1) + par < |h| && -|x| <= q - hi + 1 && q - lo <= 2 * |x| - 2
    decreases hi - lo
  {
    if lo == hi then 0.0 else Mul(ExtUp(x, q - lo), h[2 * lo + par]) + UpTaps(x, h, q, par, lo + 1, hi)
  }

  /** A partial sum extended by the tap at its upper end. */
  lemma {:induction false} UpTapsSnoc(x: seq<real>, h: seq<real>, q: int, par: int, lo: int, hi: int)
    requires par == 0 || par == 1
    requires 0 <= lo <= hi && 2 * hi + par < |h| && -|x| <= q - hi && q - lo <= 2 * |x| - 2
    ensures UpTaps(x, h, q, par, lo, hi + 1) == UpTaps(x, h, q, par, lo, hi) + Mul(ExtUp(x, q - hi), h[2 * hi + par])
    decreases hi - lo
  {
    if lo < hi {
      UpTapsSnoc(x, h, q, par, lo + 1, hi);
    }
  }

  lemma {:induction false} UpTapsSplit(x: seq<real>, h: seq<real>, q: int, par: int, lo: int, mid: int, hi: int)
    requires par == 0 || par == 1
    requires 0 <= lo <= mid <= hi
    requires lo < hi ==> 2 * (hi - 1) + par < |h| && -|x| <= q - hi + 1 && q - lo <= 2 * |x| - 2
    ensures UpTaps(x, h, q, par, lo, hi) == UpTaps(x, h, q, par, lo, mid) + UpTaps(x, h, q, par, mid, hi)
    decreases mid - lo
  {
    if lo < mid {
      UpTapsSplit(x, h, q, par, lo + 1, mid, hi);
    }
  }

  /** Number of outputs of the up-sampling convolution. */
  function UpLength(lenInput: nat, lenFilter: nat): nat
    requires 1 <= lenFilter
  {
    2 * lenInput + lenFilter - 1
  }

  /** Output s of the up-sampling convolution: at an odd s the even taps
      against the samples ending at (s-1)/2, at an even s the odd taps against
      the samples ending at s/2 - 1. */
  function UpAt(x: seq<real>, h: seq<real>, s: int): real
    requires 2 <= |h| && |h| / 2 < |x|
    requires 0 <= s < UpLength(|x|, |h|)
  {
    if s % 2 == 1 then UpTaps(x, h, (s - 1) / 2, 0, 0, (|h| + 1) / 2)
    else UpTaps(x, h, s / 2 - 1, 1, 0, |h| / 2)
  }

  /** The outputs at positions 2i+1 and 2i+2 of the up-sampling convolution
      share the sample window ending at i. */
  lemma UpAtPair(x: seq<real>, h: seq<real>, i: int)
    requires 2 <= |h| && |h| / 2 < |x| && -1 <= i && 2 * i + 2 < UpLength(|x|, |h|)
    ensures i >= 0 ==> UpAt(x, h, 2 * i + 1) == UpTaps(x, h, i, 0, 0, (|h| + 1) / 2)
    ensures UpAt(x, h, 2 * i + 2) == UpTaps(x, h, i, 1, 0, |h| / 2)
  {
    assert (2 * i + 1) % 2 == 1 && (2 * i + 1 - 1) / 2 == i;
    assert (2 * i + 2) % 2 == 0 && (2 * i + 2) / 2 - 1 == i;
  }

  /** All outputs of the up-sampling convolution. */
  function UpRef(x: seq<real>, h: seq<real>): (r: seq<real>)
    requires 2 <= |h| && |h| / 2 < |x|
    ensures |r| == UpLength(|x|, |h|)
  {
    seq(UpLength(|x|, |h|), s requires 0 <= s < UpLength(|x|, |h|) => UpAt(x, h, s))
  }

  /** Appending the outputs of window i, or only its even-tap output when it
      is the last one, extends the first 2i+1 outputs. */
  lemma UpRefStep(x: seq<real>, h: seq<real>, out: seq<real>, i: nat, e: real, o: real)
    requires 2 <= |h| && |h| / 2 < |x| && 2 * i + 1 < UpLength(|x|, |h|)
    requires out == UpRef(x, h)[..2 * i + 1]
    requires e == UpTaps(x, h, i, 0, 0, (|h| + 1) / 2)
    requires 2 * i + 2 < UpLength(|x|, |h|) ==> o == UpTaps(x, h, i, 1, 0, |h| / 2)
    ensures 2 * i + 2 < UpLength(|x|, |h|) ==> out + [e, o] == UpRef(x, h)[..2 * i + 3]
    ensures out + [e] == UpRef(x, h)[..2 * i + 2]
  {
    var r := UpRef(x, h);
    assert r[2 * i + 1] == e by {
      assert (2 * i + 1) % 2 == 1 && (2 * i + 1 - 1) / 2 == i;
    }
    if 2 * i + 2 < UpLength(|x|, |h|) {
      assert r[2 * i + 2] == o by {
        assert (2 * i + 2) % 2 == 0 && (2 * i + 2) / 2 - 1 == i;
      }
      assert r[..2 * i + 3] == r[..2 * i + 1] + [e, o];
    }
    assert r[..2 * i + 2] == r[..2 * i + 1] + [e];
  }

  /** The first output of conv_mirrorUp: the odd taps h[2j+1] against x[j]. */
  method UpFirstOutput(x: seq<real>, h: seq<real>) returns (sum: real)
    requires 2 <= |h| && |h| / 2 < |x|
    ensures sum == UpTaps(x, h, -1, 1, 0, |h| / 2)
  {
    var M := |h|;
    ghost var half := M / 2;
    sum := 0.0;
    var i := 1;
    ghost var j := 0;
    while i < M
      invariant i == 2 * j + 1 && 0 <= j <= half
      invariant sum == UpTaps(x, h, -1, 1, 0, j)
    {
      UpTapsSnoc(x, h, -1, 1, 0, j);
      assert (i - 1) / 2 == j && ExtUp(x, -1 - j) == x[j];
      sum := sum + Mul(x[(i - 1) / 2], h[i]);
      i, j := i + 2, j + 1;
    }
  }

  /** The first loop of a left-edge pair of conv_mirrorUp: x[0..i] against
      the taps i..0 of each parity. */
  method UpLeftHead(x: seq<real>, h: seq<real>, i: int) returns (e: real, o: real)
    requires 2 <= |h| && |h| / 2 < |x| && 0 <= i < (|h| - 1) / 2
    ensures e == UpTaps(x, h, i, 0, 0, i + 1)
    ensures o == UpTaps(x, h, i, 1, 0, i + 1)
  {
    e, o := 0.0, 0.0;
    var j := 0;
    while j <= i
      invariant 0 <= j <= i + 1
      invariant e == UpTaps(x, h, i, 0, i - j + 1, i + 1)
      invariant o == UpTaps(x, h, i, 1, i - j + 1, i + 1)
    {
      assert ExtUp(x, i - (i - j)) == x[j];
      e := e + Mul(x[j], h[2 * (i - j)]);
      o := o + Mul(x[j], h[2 * (i - j) + 1]);
      j := j + 1;
    }
  }

  /** The two left-edge outputs of conv_mirrorUp for i < (M-1)/2: after the
      first loop, the mirrored samples x[j-i-1] against the taps j = i+1.. of
      each parity, and the extra even tap of an odd-length filter. */
  method UpLeftPair(x: seq<real>, h: seq<real>, i: int) returns (e: real, o: real)
    requires 2 <= |h| && |h| / 2 < |x| && 0 <= i < (|h| - 1) / 2
    ensures e == UpTaps(x, h, i, 0, 0, (|h| + 1) / 2)
    ensures o == UpTaps(x, h, i, 1, 0, |h| / 2)
  {
    var M := |h|;
    var half := M / 2;
    e, o := UpLeftHead(x, h, i);
    var j := i + 1;
    while j < half
      invariant i + 1 <= j <= half
      invariant e == UpTaps(x, h, i, 0, 0, j)
      invariant o == UpTaps(x, h, i, 1, 0, j)
    {
      UpTapsSnoc(x, h, i, 0, 0, j);
      UpTapsSnoc(x, h, i, 1, 0, j);
      assert ExtUp(x, i - j) == x[j - i - 1];
      e := e + Mul(x[j - i - 1], h[2 * j]);
      o := o + Mul(x[j - i - 1], h[2 * j + 1]);
      j := j + 1;
    }
    if M % 2 == 1 {
      UpTapsSnoc(x, h, i, 0, 0, j);
      assert ExtUp(x, i - j) == x[j - i - 1];
      e := e + Mul(x[j - i - 1], h[2 * j]);
    }
    assert (M + 1) / 2 == if M % 2 == 1 then half + 1 else half;
  }

  /** The two interior outputs of conv_mirrorUp for (M-1)/2 <= i < L. */
  method UpInteriorPair(x: seq<real>, h: seq<real>, i: int) returns (e: real, o: real)
    requires 2 <= |h| && |h| / 2 < |x| && (|h| - 1) / 2 <= i < |x|
    ensures e == UpTaps(x, h, i, 0, 0, (|h| + 1) / 2)
    ensures o == UpTaps(x, h, i, 1, 0, |h| / 2)
  {
    var M := |h|;
    var half := M / 2;
    assert half - 1 <= i && (M % 2 == 1 ==> half <= i);
    e, o := 0.0, 0.0;
    var j := 0;
    while j < half
      invariant 0 <= j <= half
      invariant e == UpTaps(x, h, i, 0, 0, j)
      invariant o == UpTaps(x, h, i, 1, 0, j)
    {
      UpTapsSnoc(x, h, i, 0, 0, j);
      UpTapsSnoc(x, h, i, 1, 0, j);
      assert ExtUp(x, i - j) == x[i - j];
      e := e + Mul(x[i - j], h[2 * j]);
      o := o + Mul(x[i - j], h[2 * j + 1]);
      j := j + 1;
    }
    if M % 2 == 1 {
      UpTapsSnoc(x, h, i, 0, 0, j);
      assert ExtUp(x, i - j) == x[i - j];
      e := e + Mul(x[i - j], h[2 * j]);
    }
    assert (M + 1) / 2 == if M % 2 == 1 then half + 1 else half;
  }

  /** The first loop of a right-edge pair of conv_mirrorUp: with
      k = 2L-2-i, the samples x[k..L-1], whose reflections lie past the end,
      against the first taps of each parity. */
  method UpRightHead(x: seq<real>, h: seq<real>, i: int) returns (e: real, o: real)
    requires 2 <= |h| && |h| / 2 < |x| && |x| <= i < |x| + |h| / 2 - 1
    ensures e == UpTaps(x, h, i, 0, 0, i - |x| + 2)
    ensures o == UpTaps(x, h, i, 1, 0, i - |x| + 2)
  {
    var L := |x|;
    var k := 2 * L - 2 - i;
    e, o := 0.0, 0.0;
    var j := k;
    while j < L
      invariant k <= j <= L
      invariant e == UpTaps(x, h, i, 0, 0, j - k)
      invariant o == UpTaps(x, h, i, 1, 0, j - k)
    {
      UpTapsSnoc(x, h, i, 0, 0, j - k);
      UpTapsSnoc(x, h, i, 1, 0, j - k);
      assert ExtUp(x, i - (j - k)) == x[j];
      e := e + Mul(x[j], h[2 * (j - k)]);
      o := o + Mul(x[j], h[2 * (j - k) + 1]);
      j := j + 1;
    }
  }

  /** The two right-edge outputs of conv_mirrorUp for L <= i < L+M/2-1:
      after the first loop, x[i-M/2+1..L-2] against the remaining taps, and
      the extra even tap of an odd-length filter. */
  method UpRightPair(x: seq<real>, h: seq<real>, i: int) returns (e: real, o: real)
    requires 2 <= |h| && |h| / 2 < |x| && |x| <= i < |x| + |h| / 2 - 1
    ensures e == UpTaps(x, h, i, 0, 0, (|h| + 1) / 2)
    ensures o == UpTaps(x, h, i, 1, 0, |h| / 2)
  {
    var L, M := |x|, |h|;
    var half := M / 2;
    e, o := UpRightHead(x, h, i);
    ghost var mid := i - L + 2;
    var j := 1 - half + i;
    while j < L - 1
      invariant 1 - half + i <= j <= L - 1
      invariant e == UpTaps(x, h, i, 0, 0, mid) + UpTaps(x, h, i, 0, i - j + 1, half)
      invariant o == UpTaps(x, h, i, 1, 0, mid) + UpTaps(x, h, i, 1, i - j + 1, half)
    {
      assert ExtUp(x, i - (i - j)) == x[j];
      e := e + Mul(x[j], h[2 * (i - j)]);
      o := o + Mul(x[j], h[2 * (i - j) + 1]);
      j := j + 1;
    }
    UpTapsSplit(x, h, i, 0, 0, mid, half);
    UpTapsSplit(x, h, i, 1, 0, mid, half);
    if M % 2 == 1 {
      j := 1 - half + i - 1;
      UpTapsSnoc(x, h, i, 0, 0, half);
      assert ExtUp(x, i - half) == x[j];
      e := e + Mul(x[j], h[2 * (i - j)]);
    }
    assert (M + 1) / 2 == if M % 2 == 1 then half + 1 else half;
  }

  /** The final output of conv_mirrorUp for an odd filter length, at
      i = L + M/2 - 1: the even taps against x[k..L-1] with k = 2L-2-i. */
  method UpLastOutput(x: seq<real>, h: seq<real>) returns (e: real)
    requires 2 <= |h| && |h| / 2 < |x| && |h| % 2 == 1
    ensures e == UpTaps(x, h, |x| + |h| / 2 - 1, 0, 0, (|h| + 1) / 2)
  {
    var L, M := |x|, |h|;
    var half := M / 2;
    assert (M + 1) / 2 == half + 1 && M == 2 * half + 1;
    var i := L + half - 1;
    var k := 2 * L - 2 - i;
    e := 0.0;
    var j := k;
    while j < L
      invariant k <= j <= L
      invariant e == UpTaps(x, h, i, 0, 0, j - k)
    {
      UpTapsSnoc(x, h, i, 0, 0, j - k);
      assert ExtUp(x, i - (j - k)) == x[j];
      e := e + Mul(x[j], h[2 * (j - k)]);
      j := j + 1;
    }
  }

  /** conv_mirrorUp: a first output from the odd taps, then two outputs per
      input position over the left-edge, interior and right-edge loops, and
      for an odd filter length one final output from the even taps. */
  method MirrorUp(x: seq<real>, h: seq<real>) returns (out: seq<real>)
    requires 2 <= |h| && |h| / 2 < |x|
    ensures out == UpRef(x, h)
  {
    var L, M := |x|, |h|;
    var first := UpFirstOutput(x, h);
    UpAtPair(x, h, -1);
    assert UpRef(x, h)[..1] == [first];
    out := [first];
    var i := 0;
    while i < (M - 1) / 2
      invariant 0 <= i <= (M - 1) / 2
      invariant out == UpRef(x, h)[..2 * i + 1]
    {
      var e, o := UpLeftPair(x, h, i);
      UpRefStep(x, h, out, i, e, o);
      out := out + [e, o];
      i := i + 1;
    }
    while i < L
      invariant (M - 1) / 2 <= i <= L
      invariant out == UpRef(x, h)[..2 * i + 1]
    {
      var e, o := UpInteriorPair(x, h, i);
      UpRefStep(x, h, out, i, e, o);
      out := out + [e, o];
      i := i + 1;
    }
    while i < L + M / 2 - 1
      invariant L <= i <= L + M / 2 - 1
      invariant out == UpRef(x, h)[..2 * i + 1]
    {
      var e, o := UpRightPair(x, h, i);
      UpRefStep(x, h, out, i, e, o);
      out := out + [e, o];
      i := i + 1;
    }
    if M % 2 == 1 {
      var e := UpLastOutput(x, h);
      UpRefStep(x, h, out, i, e, 0.0);
      out := out + [e];
    }
    assert |out| == UpLength(L, M);
  }

  /** Element-wise sum, stated pointwise so that the proofs below need not
      unfold `Add`. */
  predicate IsSum(s: seq<real>, a: seq<real>, b: seq<real>)
  {
    |s| == |a| == |b| && forall i :: 0 <= i < |s| ==> s[i] == a[i] + b[i]
  }

  lemma Distribute(c: real, u: real, v: real)
    ensures Mul(u + v, c) == Mul(u, c) + Mul(v, c)
  {
  }

  /** The up-sampling convolution is additive in its input. */
  lemma {:induction false} UpTapsAdd(s: seq<real>, a: seq<real>, b: seq<real>, h: seq<real>, q: int, par: int, lo: int, hi: int)
    requires IsSum(s, a, b)
    requires par == 0 || par == 1
    requires 0 <= lo <= hi
    requires lo < hi ==> 2 * (hi - 1) + par < |h| && -|a| <= q - hi + 1 && q - lo <= 2 * |a| - 2
    ensures UpTaps(s, h, q, par, lo, hi) == UpTaps(a, h, q, par, lo, hi) + UpTaps(b, h, q, par, lo, hi)
    decreases hi - lo
  {
    if lo < hi {
      UpTapsAdd(s, a, b, h, q, par, lo + 1, hi);
      var c, ea, eb := h[2 * lo + par], ExtUp(a, q - lo), ExtUp(b, q - lo);
      assert ExtUp(s, q - lo) == ea + eb;
      Distribute(c, ea, eb);
    }
  }

  /** The up-sampling convolution of the zero signal is zero. */
  lemma {:induction false} UpTapsZeros(n: nat, h: seq<real>, q: int, par: int, lo: int, hi: int)
    requires par == 0 || par == 1
    requires 0 <= lo <= hi
    requires lo < hi ==> 2 * (hi - 1) + par < |h| && 0 <= q - hi + 1 + n && q - lo <= 2 * n - 2
    ensures UpTaps(Zeros(n), h, q, par, lo, hi) == 0.0
    decreases hi - lo
  {
    if lo < hi {
      UpTapsZeros(n, h, q, par, lo + 1, hi);
      assert ExtUp(Zeros(n), q - lo) == 0.0;
    }
  }

  lemma UpAtAdd(a: seq<real>, b: seq<real>, h: seq<real>, s: int)
    requires |a| == |b| && 2 <= |h| && |h| / 2 < |a|
    requires 0 <= s < UpLength(|a|, |h|)
    ensures UpAt(Add(a, b), h, s) == UpAt(a, h, s) + UpAt(b, h, s)
  {
    if s % 2 == 1 {
      UpTapsAdd(Add(a, b), a, b, h, (s - 1) / 2, 0, 0, (|h| + 1) / 2);
    } else {
      UpTapsAdd(Add(a, b), a, b, h, s / 2 - 1, 1, 0, |h| / 2);
    }
  }

  lemma UpAtZeros(n: nat, h: seq<real>, s: int)
    requires 2 <= |h| && |h| / 2 < n
    requires 0 <= s < UpLength(n, |h|)
    ensures UpAt(Zeros(n), h, s) == 0.0
  {
    if s % 2 == 1 {
      UpTapsZeros(n, h, (s - 1) / 2, 0, 0, (|h| + 1) / 2);
    } else {
      UpTapsZeros(n, h, s / 2 - 1, 1, 0, |h| / 2);
    }
  }
}

=== FILE: convolution_fixtures.dfy ===
/** The expected outputs of the convolution routines on the test vectors of
    src/test/convolution.c, established over exact reals.  The test compares
    with a tolerance of 1e-5; every expected value here is met exactly. */
module ConvolutionFixtures {
  import opened Convolution

  const DownX1: seq<real> := [0.2, 0.4, 3.2, 1.3, -4.2, 8.2, -12.1, 3.4, 0.0, 0.0, 2.3, 0.4]
  const DownH1: seq<real> := [1.3, 2.7, 0.3, 2.9, 3.1]
  const DownR1: seq<real> := [14.49, 12.27, 10.23, -33.94, -8.65, 17.27, 13.0, 12.33]

  lemma MirrorDownFixture1Output0(x: seq<real>, h: seq<real>)
    requires x == DownX1 && h == DownH1
    ensures DownAt(x, h, 0) == DownR1[0]
  {
    assert DownAt(x, h, 0) == 14.49 by {
      assert DownTaps(x, h, 1, 3, 5) == 13.31 by {
        assert h[4] == 3.1 && Mirror(x, -3) == 1.3;
        assert DownTaps(x, h, 1, 4, 5) == 4.03;
        assert h[3] == 2.9 && Mirror(x, -2) == 3.2;
      }
      assert h[2] == 0.3 && Mirror(x, -1) == 0.4;
      assert DownTaps(x, h, 1, 2, 5) == 13.43;
      assert h[1] == 2.7 && Mirror(x, 0) == 0.2;
      assert DownTaps(x, h, 1, 1, 5) == 13.97;
      assert h[0] == 1.3 && Mirror(x, 1) == 0.4;
      assert DownTaps(x, h, 1, 0, 5) == 14.49;
    }
  }

  lemma MirrorDownFixture1Output1(x: seq<real>, h: seq<real>)
    requires x == DownX1 && h == DownH1
    ensures DownAt(x, h, 1) == DownR1[1]
  {
    assert DownAt(x, h, 1) == 12.27 by {
      assert DownTaps(x, h, 3, 3, 5) == 1.82 by {
        assert h[4] == 3.1 && Mirror(x, -1) == 0.4;
        assert DownTaps(x, h, 3, 4, 5) == 1.24;
        assert h[3] == 2.9 && Mirror(x, 0) == 0.2;
      }
      assert h[2] == 0.3 && Mirror(x, 1) == 0.4;
      assert DownTaps(x, h, 3, 2, 5) == 1.94;
      assert h[1] == 2.7 && Mirror(x, 2) == 3.2;
      assert DownTaps(x, h, 3, 1, 5) == 10.58;
      assert h[0] == 1.3 && Mirror(x, 3) == 1.3;
      assert DownTaps(x, h, 3, 0, 5) == 12.27;
    }
  }

  lemma MirrorDownFixture1Output2(x: seq<real>, h: seq<real>)
    requires x == DownX1 && h == DownH1
    ensures DownAt(x, h, 2) == DownR1[2]
  {
    assert DownAt(x, h, 2) == 10.23 by {
      assert DownTaps(x, h, 5, 3, 5) == 10.52 by {
        assert h[4] == 3.1 && Mirror(x, 1) == 0.4;
        assert DownTaps(x, h, 5, 4, 5) == 1.24;
        assert h[3] == 2.9 && Mirror(x, 2) == 3.2;
      }
      assert h[2] == 0.3 && Mirror(x, 3) == 1.3;
      assert DownTaps(x, h, 5, 2, 5) == 10.91;
      assert h[1] == 2.7 && Mirror(x, 4) == -4.2;
      assert DownTaps(x, h, 5, 1, 5) == -0.43;
      assert h[0] == 1.3 && Mirror(x, 5) == 8.2;
      assert DownTaps(x, h, 5, 0, 5) == 10.23;
    }
  }

  lemma MirrorDownFixture1Output3(x: seq<real>, h: seq<real>)
    requires x == DownX1 && h == DownH1
    ensures DownAt(x, h, 3) == DownR1[3]
  {
    assert DownAt(x, h, 3) == -33.94 by {
      assert DownTaps(x, h, 7, 3, 5) == -8.15 by {
        assert h[4] == 3.1 && Mirror(x, 3) == 1.3;
        assert DownTaps(x, h, 7, 4, 5) == 4.03;
        assert h[3] == 2.9 && Mirror(x, 4) == -4.2;
      }
      assert h[2] == 0.3 && Mirror(x, 5) == 8.2;
      assert DownTaps(x, h, 7, 2, 5) == -5.69;
      assert h[1] == 2.7 && Mirror(x, 6) == -12.1;
      assert DownTaps(x, h, 7, 1, 5) == -38.36;
      assert h[0] == 1.3 && Mirror(x, 7) == 3.4;
      assert DownTaps(x, h, 7, 0, 5) == -33.94;
    }
  }

  lemma MirrorDownFixture1Output4(x: seq<real>, h: seq<real>)
    requires x == DownX1 && h == DownH1
    ensures DownAt(x, h, 4) == DownR1[4]
  {
    assert DownAt(x, h, 4) == -8.65 by {
      assert DownTaps(x, h, 9, 3, 5) == -9.67 by {
        assert h[4] == 3.1 && Mirror(x, 5) == 8.2;
        assert DownTaps(x, h, 9, 4, 5) == 25.42;
        assert h[3] == 2.9 && Mirror(x, 6) == -12.1;
      }
      assert h[2] == 0.3 && Mirror(x, 7) == 3.4;
      assert DownTaps(x, h, 9, 2, 5) == -8.65;
      assert h[1] == 2.7 && Mirror(x, 8) == 0.0;
      assert DownTaps(x, h, 9, 1, 5) == -8.65;
      assert h[0] == 1.3 && Mirror(x, 9) == 0.0;
      assert DownTaps(x, h, 9, 0, 5) == -8.65;
    }
  }

  lemma MirrorDownFixture1Output5(x: seq<real>, h: seq<real>)
    requires x == DownX1 && h == DownH1
    ensures DownAt(x, h, 5) == DownR1[5]
  {
    assert DownAt(x, h, 5) == 17.27 by {
      assert DownTaps(x, h, 11, 3, 5) == 10.54 by {
        assert h[4] == 3.1 && Mirror(x, 7) == 3.4;
        assert DownTaps(x, h, 11, 4, 5) == 10.54;
        assert h[3] == 2.9 && Mirror(x, 8) == 0.0;
      }
      assert h[2] == 0.3 && Mirror(x, 9) == 0.0;
      assert DownTaps(x, h, 11, 2, 5) == 10.54;
      assert h[1] == 2.7 && Mirror(x, 10) == 2.3;
      assert DownTaps(x, h, 11, 1, 5) == 16.75;
      assert h[0] == 1.3 && Mirror(x, 11) == 0.4;
      assert DownTaps(x, h, 11, 0, 5) == 17.27;
    }
  }

  lemma MirrorDownFixture1Output6(x: seq<real>, h: seq<real>)
    requires x == DownX1 && h == DownH1
    ensures DownAt(x, h, 6) == DownR1[6]
  {
    assert DownAt(x, h, 6) == 13.0 by {
      assert DownTaps(x, h, 13, 3, 5) == 6.67 by {
        assert h[4] == 3.1 && Mirror(x, 9) == 0.0;
        assert DownTaps(x, h, 13, 4, 5) == 0.0;
        assert h[3] == 2.9 && Mirror(x, 10) == 2.3;
      }
      assert h[2] == 0.3 && Mirror(x, 11) == 0.4;
      assert DownTaps(x, h, 13, 2, 5) == 6.79;
      assert h[1] == 2.7 && Mirror(x, 12) == 2.3;
      assert DownTaps(x, h, 13, 1, 5) == 13.0;
      assert h[0] == 1.3 && Mirror(x, 13) == 0.0;
      assert DownTaps(x, h, 13, 0, 5) == 13.0;
    }
  }

  lemma MirrorDownFixture1Output7(x: seq<real>, h: seq<real>)
    requires x == DownX1 && h == DownH1
    ensures DownAt(x, h, 7) == DownR1[7]
  {
    assert DownAt(x, h, 7) == 12.33 by {
      assert DownTaps(x, h, 15, 3, 5) == 7.91 by {
        assert h[4] == 3.1 && Mirror(x, 11) == 0.4;
        assert DownTaps(x, h, 15, 4, 5) == 1.24;
        assert h[3] == 2.9 && Mirror(x, 12) == 2.3;
      }
      assert h[2] == 0.3 && Mirror(x, 13) == 0.0;
      assert DownTaps(x, h, 15, 2, 5) == 7.91;
      assert h[1] == 2.7 && Mirror(x, 14) == 0.0;
      assert DownTaps(x, h, 15, 1, 5) == 7.91;
      assert h[0] == 1.3 && Mirror(x, 15) == 3.4;
      assert DownTaps(x, h, 15, 0, 5) == 12.33;
    }
  }

  /** conv_mirrorDown on test vector 1: exactly 8 outputs, each one as expected. */
  lemma MirrorDownFixture1(x: seq<real>, h: seq<real>)
    requires x == DownX1 && h == DownH1
    ensures DownRef(x, h) == DownR1
  {
    forall k | 0 <= k < 8
      ensures DownRef(x, h)[k] == DownR1[k]
    {
      if k == 0 { MirrorDownFixture1Output0(x, h); }
      else if k == 1 { MirrorDownFixture1Output1(x, h); }
      else if k == 2 { MirrorDownFixture1Output2(x, h); }
      else if k == 3 { MirrorDownFixture1Output3(x, h); }
      else if k == 4 { MirrorDownFixture1Output4(x, h); }
      else if k == 5 { MirrorDownFixture1Output5(x, h); }
      else if k == 6 { MirrorDownFixture1Output6(x, h); }
      else if k == 7 { MirrorDownFixture1Output7(x, h); }
    }
  }

  const DownX2: seq<real> := [1.0, 2.0, 3.0, 4.0, 5.0, 6.0, 5.0, 4.0, 3.0, 2.0, 1.0, 2.0, 3.0, 4.0, 5.0, 6.0, 7.0, 8.0, 7.0, 6.0, 5.0, 4.0, 3.0, 2.0, 1.0]
  const DownH2: seq<real> := [0.3, 0.2, 0.1, 0.4, 0.5, 0.3, 0.2]
  const DownR2: seq<real> := [6.9, 5.1, 6.1, 8.1, 8.9, 6.9, 5.1, 6.1, 9.7, 12.1, 12.9, 10.3, 6.9, 5.1, 6.1]

  lemma MirrorDownFixture2Output0(x: seq<real>, h: seq<real>)
    requires x == DownX2 && h == DownH2
    ensures DownAt(x, h, 0) == DownR2[0]
  {
    assert DownAt(x, h, 0) == 6.9 by {
      assert DownTaps(x, h, 1, 4, 7) == 4.7 by {
        assert h[6] == 0.2 && Mirror(x, -5) == 6.0;
        assert DownTaps(x, h, 1, 6, 7) == 1.2;
        assert h[5] == 0.3 && Mirror(x, -4) == 5.0;
        assert DownTaps(x, h, 1, 5, 7) == 2.7;
        assert h[4] == 0.5 && Mirror(x, -3) == 4.0;
      }
      assert h[3] == 0.4 && Mirror(x, -2) == 3.0;
      assert DownTaps(x, h, 1, 3, 7) == 5.9;
      assert h[2] == 0.1 && Mirror(x, -1) == 2.0;
      assert DownTaps(x, h, 1, 2, 7) == 6.1;
      assert h[1] == 0.2 && Mirror(x, 0) == 1.0;
      assert DownTaps(x, h, 1, 1, 7) == 6.3;
      assert h[0] == 0.3 && Mirror(x, 1) == 2.0;
      assert DownTaps(x, h, 1, 0, 7) == 6.9;
    }
  }

  lemma MirrorDownFixture2Output1(x: seq<real>, h: seq<real>)
    requires x == DownX2 && h == DownH2
    ensures DownAt(x, h, 1) == DownR2[1]
  {
    assert DownAt(x, h, 1) == 5.1 by {
      assert DownTaps(x, h, 3, 4, 7) == 2.7 by {
        assert h[6] == 0.2 && Mirror(x, -3) == 4.0;
        assert DownTaps(x, h, 3, 6, 7) == 0.8;
        assert h[5] == 0.3 && Mirror(x, -2) == 3.0;
        assert DownTaps(x, h, 3, 5, 7) == 1.7;
        assert h[4] == 0.5 && Mirror(x, -1) == 2.0;
      }
      assert h[3] == 0.4 && Mirror(x, 0) == 1.0;
      assert DownTaps(x, h, 3, 3, 7) == 3.1;
      assert h[2] == 0.1 && Mirror(x, 1) == 2.0;
      assert DownTaps(x, h, 3, 2, 7) == 3.3;
      assert h[1] == 0.2 && Mirror(x, 2) == 3.0;
      assert DownTaps(x, h, 3, 1, 7) == 3.9;
      assert h[0] == 0.3 && Mirror(x, 3) == 4.0;
      assert DownTaps(x, h, 3, 0, 7) == 5.1;
    }
  }

  lemma MirrorDownFixture2Output2(x: seq<real>, h: seq<real>)
    requires x == DownX2 && h == DownH2
    ensures DownAt(x, h, 2) == DownR2[2]
  {
    assert DownAt(x, h, 2) == 6.1 by {
      assert DownTaps(x, h, 5, 4, 7) == 1.7 by {
        assert h[6] == 0.2 && Mirror(x, -1) == 2.0;
        assert DownTaps(x, h, 5, 6, 7) == 0.4;
        assert h[5] == 0.3 && Mirror(x, 0) == 1.0;
        assert DownTaps(x, h, 5, 5, 7) == 0.7;
        assert h[4] == 0.5 && Mirror(x, 1) == 2.0;
      }
      assert h[3] == 0.4 && Mirror(x, 2) == 3.0;
      assert DownTaps(x, h, 5, 3, 7) == 2.9;
      assert h[2] == 0.1 && Mirror(x, 3) == 4.0;
      assert DownTaps(x, h, 5, 2, 7) == 3.3;
      assert h[1] == 0.2 && Mirror(x, 4) == 5.0;
      assert DownTaps(x, h, 5, 1, 7) == 4.3;
      assert h[0] == 0.3 && Mirror(x, 5) == 6.0;
      assert DownTaps(x, h, 5, 0, 7) == 6.1;
    }
  }

  lemma MirrorDownFixture2Output3(x: seq<real>, h: seq<real>)
    requires x == DownX2 && h == DownH2
    ensures DownAt(x, h, 3) == DownR2[3]
  {
    assert DownAt(x, h, 3) == 8.1 by {
      assert DownTaps(x, h, 7, 4, 7) == 3.3 by {
        assert h[6] == 0.2 && Mirror(x, 1) == 2.0;
        assert DownTaps(x, h, 7, 6, 7) == 0.4;
        assert h[5] == 0.3 && Mirror(x, 2) == 3.0;
        assert DownTaps(x, h, 7, 5, 7) == 1.3;
        assert h[4] == 0.5 && Mirror(x, 3) == 4.0;
      }
      assert h[3] == 0.4 && Mirror(x, 4) == 5.0;
      assert DownTaps(x, h, 7, 3, 7) == 5.3;
      assert h[2] == 0.1 && Mirror(x, 5) == 6.0;
      assert DownTaps(x, h, 7, 2, 7) == 5.9;
      assert h[1] == 0.2 && Mirror(x, 6) == 5.0;
      assert DownTaps(x, h, 7, 1, 7) == 6.9;
      assert h[0] == 0.3 && Mirror(x, 7) == 4.0;
      assert DownTaps(x, h, 7, 0, 7) == 8.1;
    }
  }

  lemma MirrorDownFixture2Output4(x: seq<real>, h: seq<real>)
    requires x == DownX2 && h == DownH2
    ensures DownAt(x, h, 4) == DownR2[4]
  {
    assert DownAt(x, h, 4) == 8.9 by {
      assert DownTaps(x, h, 9, 3, 7) == 7.3 by {
        assert h[6] == 0.2 && Mirror(x, 3) == 4.0;
        assert DownTaps(x, h, 9, 6, 7) == 0.8;
        assert h[5] == 0.3 && Mirror(x, 4) == 5.0;
        assert DownTaps(x, h, 9, 5, 7) == 2.3;
        assert h[4] == 0.5 && Mirror(x, 5) == 6.0;
        assert DownTaps(x, h, 9, 4, 7) == 5.3;
        assert h[3] == 0.4 && Mirror(x, 6) == 5.0;
      }
      assert h[2] == 0.1 && Mirror(x, 7) == 4.0;
      assert DownTaps(x, h, 9, 2, 7) == 7.7;
      assert h[1] == 0.2 && Mirror(x, 8) == 3.0;
      assert DownTaps(x, h, 9, 1, 7) == 8.3;
      assert h[0] == 0.3 && Mirror(x, 9) == 2.0;
      assert DownTaps(x, h, 9, 0, 7) == 8.9;
    }
  }

  lemma MirrorDownFixture2Output5(x: seq<real>, h: seq<real>)
    requires x == DownX2 && h == DownH2
    ensures DownAt(x, h, 5) == DownR2[5]
  {
    assert DownAt(x, h, 5) == 6.9 by {
      assert DownTaps(x, h, 11, 4, 7) == 4.7 by {
        assert h[6] == 0.2 && Mirror(x, 5) == 6.0;
        assert DownTaps(x, h, 11, 6, 7) == 1.2;
        assert h[5] == 0.3 && Mirror(x, 6) == 5.0;
        assert DownTaps(x, h, 11, 5, 7) == 2.7;
        assert h[4] == 0.5 && Mirror(x, 7) == 4.0;
      }
      assert h[3] == 0.4 && Mirror(x, 8) == 3.0;
      assert DownTaps(x, h, 11, 3, 7) == 5.9;
      assert h[2] == 0.1 && Mirror(x, 9) == 2.0;
      assert DownTaps(x, h, 11, 2, 7) == 6.1;
      assert h[1] == 0.2 && Mirror(x, 10) == 1.0;
      assert DownTaps(x, h, 11, 1, 7) == 6.3;
      assert h[0] == 0.3 && Mirror(x, 11) == 2.0;
      assert DownTaps(x, h, 11, 0, 7) == 6.9;
    }
  }

  lemma MirrorDownFixture2Output6(x: seq<real>, h: seq<real>)
    requires x == DownX2 && h == DownH2
    ensures DownAt(x, h, 6) == DownR2[6]
  {
    assert DownAt(x, h, 6) == 5.1 by {
      assert DownTaps(x, h, 13, 4, 7) == 2.7 by {
        assert h[6] == 0.2 && Mirror(x, 7) == 4.0;
        assert DownTaps(x, h, 13, 6, 7) == 0.8;
        assert h[5] == 0.3 && Mirror(x, 8) == 3.0;
        assert DownTaps(x, h, 13, 5, 7) == 1.7;
        assert h[4] == 0.5 && Mirror(x, 9) == 2.0;
      }
      assert h[3] == 0.4 && Mirror(x, 10) == 1.0;
      assert DownTaps(x, h, 13, 3, 7) == 3.1;
      assert h[2] == 0.1 && Mirror(x, 11) == 2.0;
      assert DownTaps(x, h, 13, 2, 7) == 3.3;
      assert h[1] == 0.2 && Mirror(x, 12) == 3.0;
      assert DownTaps(x, h, 13, 1, 7) == 3.9;
      assert h[0] == 0.3 && Mirror(x, 13) == 4.0;
      assert DownTaps(x, h, 13, 0, 7) == 5.1;
    }
  }

  lemma MirrorDownFixture2Output7(x: seq<real>, h: seq<real>)
    requires x == DownX2 && h == DownH2
    ensures DownAt(x, h, 7) == DownR2[7]
  {
    assert DownAt(x, h, 7) == 6.1 by {
      assert DownTaps(x, h, 15, 4, 7) == 1.7 by {
        assert h[6] == 0.2 && Mirror(x, 9) == 2.0;
        assert DownTaps(x, h, 15, 6, 7) == 0.4;
        assert h[5] == 0.3 && Mirror(x, 10) == 1.0;
        assert DownTaps(x, h, 15, 5, 7) == 0.7;
        assert h[4] == 0.5 && Mirror(x, 11) == 2.0;
      }
      assert h[3] == 0.4 && Mirror(x, 12) == 3.0;
      assert DownTaps(x, h, 15, 3, 7) == 2.9;
      assert h[2] == 0.1 && Mirror(x, 13) == 4.0;
      assert DownTaps(x, h, 15, 2, 7) == 3.3;
      assert h[1] == 0.2 && Mirror(x, 14) == 5.0;
      assert DownTaps(x, h, 15, 1, 7) == 4.3;
      assert h[0] == 0.3 && Mirror(x, 15) == 6.0;
      assert DownTaps(x, h, 15, 0, 7) == 6.1;
    }
  }

  lemma MirrorDownFixture2Output8(x: seq<real>, h: seq<real>)
    requires x == DownX2 && h == DownH2
    ensures DownAt(x, h, 8) == DownR2[8]
  {
    assert DownAt(x, h, 8) == 9.7 by {
      assert DownTaps(x, h, 17, 4, 7) == 3.3 by {
        assert h[6] == 0.2 && Mirror(x, 11) == 2.0;
        assert DownTaps(x, h, 17, 6, 7) == 0.4;
        assert h[5] == 0.3 && Mirror(x, 12) == 3.0;
        assert DownTaps(x, h, 17, 5, 7) == 1.3;
        assert h[4] == 0.5 && Mirror(x, 13) == 4.0;
      }
      assert h[3] == 0.4 && Mirror(x, 14) == 5.0;
      assert DownTaps(x, h, 17, 3, 7) == 5.3;
      assert h[2] == 0.1 && Mirror(x, 15) == 6.0;
      assert DownTaps(x, h, 17, 2, 7) == 5.9;
      assert h[1] == 0.2 && Mirror(x, 16) == 7.0;
      assert DownTaps(x, h, 17, 1, 7) == 7.3;
      assert h[0] == 0.3 && Mirror(x, 17) == 8.0;
      assert DownTaps(x, h, 17, 0, 7) == 9.7;
    }
  }

  lemma MirrorDownFixture2Output9(x: seq<real>, h: seq<real>)
    requires x == DownX2 && h == DownH2
    ensures DownAt(x, h, 9) == DownR2[9]
  {
    assert DownAt(x, h, 9) == 12.1 by {
      assert DownTaps(x, h, 19, 4, 7) == 5.3 by {
        assert h[6] == 0.2 && Mirror(x, 13) == 4.0;
        assert DownTaps(x, h, 19, 6, 7) == 0.8;
        assert h[5] == 0.3 && Mirror(x, 14) == 5.0;
        assert DownTaps(x, h, 19, 5, 7) == 2.3;
        assert h[4] == 0.5 && Mirror(x, 15) == 6.0;
      }
      assert h[3] == 0.4 && Mirror(x, 16) == 7.0;
      assert DownTaps(x, h, 19, 3, 7) == 8.1;
      assert h[2] == 0.1 && Mirror(x, 17) == 8.0;
      assert DownTaps(x, h, 19, 2, 7) == 8.9;
      assert h[1] == 0.2 && Mirror(x, 18) == 7.0;
      assert DownTaps(x, h, 19, 1, 7) == 10.3;
      assert h[0] == 0.3 && Mirror(x, 19) == 6.0;
      assert DownTaps(x, h, 19, 0, 7) == 12.1;
    }
  }

  lemma MirrorDownFixture2Output10(x: seq<real>, h: seq<real>)
    requires x == DownX2 && h == DownH2
    ensures DownAt(x, h, 10) == DownR2[10]
  {
    assert DownAt(x, h, 10) == 12.9 by {
      assert DownTaps(x, h, 21, 4, 7) == 7.3 by {
        assert h[6] == 0.2 && Mirror(x, 15) == 6.0;
        assert DownTaps(x, h, 21, 6, 7) == 1.2;
        assert h[5] == 0.3 && Mirror(x, 16) == 7.0;
        assert DownTaps(x, h, 21, 5, 7) == 3.3;
        assert h[4] == 0.5 && Mirror(x, 17) == 8.0;
      }
      assert h[3] == 0.4 && Mirror(x, 18) == 7.0;
      assert DownTaps(x, h, 21, 3, 7) == 10.1;
      assert h[2] == 0.1 && Mirror(x, 19) == 6.0;
      assert DownTaps(x, h, 21, 2, 7) == 10.7;
      assert h[1] == 0.2 && Mirror(x, 20) == 5.0;
      assert DownTaps(x, h, 21, 1, 7) == 11.7;
      assert h[0] == 0.3 && Mirror(x, 21) == 4.0;
      assert DownTaps(x, h, 21, 0, 7) == 12.9;
    }
  }

  lemma MirrorDownFixture2Output11(x: seq<real>, h: seq<real>)
    requires x == DownX2 && h == DownH2
    ensures DownAt(x, h, 11) == DownR2[11]
  {
    assert DownAt(x, h, 11) == 10.3 by {
      assert DownTaps(x, h, 23, 4, 7) == 6.7 by {
        assert h[6] == 0.2 && Mirror(x, 17) == 8.0;
        assert DownTaps(x, h, 23, 6, 7) == 1.6;
        assert h[5] == 0.3 && Mirror(x, 18) == 7.0;
        assert DownTaps(x, h, 23, 5, 7) == 3.7;
        assert h[4] == 0.5 && Mirror(x, 19) == 6.0;
      }
      assert h[3] == 0.4 && Mirror(x, 20) == 5.0;
      assert DownTaps(x, h, 23, 3, 7) == 8.7;
      assert h[2] == 0.1 && Mirror(x, 21) == 4.0;
      assert DownTaps(x, h, 23, 2, 7) == 9.1;
      assert h[1] == 0.2 && Mirror(x, 22) == 3.0;
      assert DownTaps(x, h, 23, 1, 7) == 9.7;
      assert h[0] == 0.3 && Mirror(x, 23) == 2.0;
      assert DownTaps(x, h, 23, 0, 7) == 10.3;
    }
  }

  lemma MirrorDownFixture2Output12(x: seq<real>, h: seq<real>)
    requires x == DownX2 && h == DownH2
    ensures DownAt(x, h, 12) == DownR2[12]
  {
    assert DownAt(x, h, 12) == 6.9 by {
      assert DownTaps(x, h, 25, 4, 7) == 4.7 by {
        assert h[6] == 0.2 && Mirror(x, 19) == 6.0;
        assert DownTaps(x, h, 25, 6, 7) == 1.2;
        assert h[5] == 0.3 && Mirror(x, 20) == 5.0;
        assert DownTaps(x, h, 25, 5, 7) == 2.7;
        assert h[4] == 0.5 && Mirror(x, 21) == 4.0;
      }
      assert h[3] == 0.4 && Mirror(x, 22) == 3.0;
      assert DownTaps(x, h, 25, 3, 7) == 5.9;
      assert h[2] == 0.1 && Mirror(x, 23) == 2.0;
      assert DownTaps(x, h, 25, 2, 7) == 6.1;
      assert h[1] == 0.2 && Mirror(x, 24) == 1.0;
      assert DownTaps(x, h, 25, 1, 7) == 6.3;
      assert h[0] == 0.3 && Mirror(x, 25) == 2.0;
      assert DownTaps(x, h, 25, 0, 7) == 6.9;
    }
  }

  lemma MirrorDownFixture2Output13(x: seq<real>, h: seq<real>)
    requires x == DownX2 && h == DownH2
    ensures DownAt(x, h, 13) == DownR2[13]
  {
    assert DownAt(x, h, 13) == 5.1 by {
      assert DownTaps(x, h, 27, 4, 7) == 2.7 by {
        assert h[6] == 0.2 && Mirror(x, 21) == 4.0;
        assert DownTaps(x, h, 27, 6, 7) == 0.8;
        assert h[5] == 0.3 && Mirror(x, 22) == 3.0;
        assert DownTaps(x, h, 27, 5, 7) == 1.7;
        assert h[4] == 0.5 && Mirror(x, 23) == 2.0;
      }
      assert h[3] == 0.4 && Mirror(x, 24) == 1.0;
      assert DownTaps(x, h, 27, 3, 7) == 3.1;
      assert h[2] == 0.1 && Mirror(x, 25) == 2.0;
      assert DownTaps(x, h, 27, 2, 7) == 3.3;
      assert h[1] == 0.2 && Mirror(x, 26) == 3.0;
      assert DownTaps(x, h, 27, 1, 7) == 3.9;
      assert h[0] == 0.3 && Mirror(x, 27) == 4.0;
      assert DownTaps(x, h, 27, 0, 7) == 5.1;
    }
  }

  lemma MirrorDownFixture2Output14(x: seq<real>, h: seq<real>)
    requires x == DownX2 && h == DownH2
    ensures DownAt(x, h, 14) == DownR2[14]
  {
    assert DownAt(x, h, 14) == 6.1 by {
      assert DownTaps(x, h, 29, 4, 7) == 1.7 by {
        assert h[6] == 0.2 && Mirror(x, 23) == 2.0;
        assert DownTaps(x, h, 29, 6, 7) == 0.4;
        assert h[5] == 0.3 && Mirror(x, 24) == 1.0;
        assert DownTaps(x, h, 29, 5, 7) == 0.7;
        assert h[4] == 0.5 && Mirror(x, 25) == 2.0;
      }
      assert h[3] == 0.4 && Mirror(x, 26) == 3.0;
      assert DownTaps(x, h, 29, 3, 7) == 2.9;
      assert h[2] == 0.1 && Mirror(x, 27) == 4.0;
      assert DownTaps(x, h, 29, 2, 7) == 3.3;
      assert h[1] == 0.2 && Mirror(x, 28) == 5.0;
      assert DownTaps(x, h, 29, 1, 7) == 4.3;
      assert h[0] == 0.3 && Mirror(x, 29) == 6.0;
      assert DownTaps(x, h, 29, 0, 7) == 6.1;
    }
  }

  /** conv_mirrorDown on test vector 2: exactly 15 outputs, each one as expected. */
  lemma MirrorDownFixture2(x: seq<real>, h: seq<real>)
    requires x == DownX2 && h == DownH2
    ensures DownRef(x, h) == DownR2
  {
    forall k | 0 <= k < 15
      ensures DownRef(x, h)[k] == DownR2[k]
    {
      if k == 0 { MirrorDownFixture2Output0(x, h); }
      else if k == 1 { MirrorDownFixture2Output1(x, h); }
      else if k == 2 { MirrorDownFixture2Output2(x, h); }
      else if k == 3 { MirrorDownFixture2Output3(x, h); }
      else if k == 4 { MirrorDownFixture2Output4(x, h); }
      else if k == 5 { MirrorDownFixture2Output5(x, h); }
      else if k == 6 { MirrorDownFixture2Output6(x, h); }
      else if k == 7 { MirrorDownFixture2Output7(x, h); }
      else if k == 8 { MirrorDownFixture2Output8(x, h); }
      else if k == 9 { MirrorDownFixture2Output9(x, h); }
      else if k == 10 { MirrorDownFixture2Output10(x, h); }
      else if k == 11 { MirrorDownFixture2Output11(x, h); }
      else if k == 12 { MirrorDownFixture2Output12(x, h); }
      else if k == 13 { MirrorDownFixture2Output13(x, h); }
      else if k == 14 { MirrorDownFixture2Output14(x, h); }
    }
  }

  const UpX1: seq<real> := [1.0, 2.0, 3.0, 4.0, 5.0]
  const UpH1: seq<real> := [1.2, 3.4, -2.0, 0.2]
  const UpR1: seq<real> := [3.8, -0.8, 3.6, 0.4, 7.0, -0.4, 10.6, -1.2, 14.2, -2.0, 17.8, -5.2, 14.6]

  lemma MirrorUpFixture1Output0(x: seq<real>, h: seq<real>)
    requires x == UpX1 && h == UpH1
    ensures UpAt(x, h, 0) == UpR1[0]
  {
    assert UpAt(x, h, 0) == 3.8 by {
      assert h[3] == 0.2 && ExtUp(x, -2) == 2.0;
      assert UpTaps(x, h, -1, 1, 1, 2) == 0.4;
      assert h[1] == 3.4 && ExtUp(x, -1) == 1.0;
      assert UpTaps(x, h, -1, 1, 0, 2) == 3.8;
    }
  }

  lemma MirrorUpFixture1Output1(x: seq<real>, h: seq<real>)
    requires x == UpX1 && h == UpH1
    ensures UpAt(x, h, 1) == UpR1[1]
  {
    assert UpAt(x, h, 1) == -0.8 by {
      assert h[2] == -2.0 && ExtUp(x, -1) == 1.0;
      assert UpTaps(x, h, 0, 0, 1, 2) == -2.0;
      assert h[0] == 1.2 && ExtUp(x, 0) == 1.0;
      assert UpTaps(x, h, 0, 0, 0, 2) == -0.8;
    }
  }

  lemma MirrorUpFixture1Output2(x: seq<real>, h: seq<real>)
    requires x == UpX1 && h == UpH1
    ensures UpAt(x, h, 2) == UpR1[2]
  {
    assert UpAt(x, h, 2) == 3.6 by {
      assert h[3] == 0.2 && ExtUp(x, -1) == 1.0;
      assert UpTaps(x, h, 0, 1, 1, 2) == 0.2;
      assert h[1] == 3.4 && ExtUp(x, 0) == 1.0;
      assert UpTaps(x, h, 0, 1, 0, 2) == 3.6;
    }
  }

  lemma MirrorUpFixture1Output3(x: seq<real>, h: seq<real>)
    requires x == UpX1 && h == UpH1
    ensures UpAt(x, h, 3) == UpR1[3]
  {
    assert UpAt(x, h, 3) == 0.4 by {
      assert h[2] == -2.0 && ExtUp(x, 0) == 1.0;
      assert UpTaps(x, h, 1, 0, 1, 2) == -2.0;
      assert h[0] == 1.2 && ExtUp(x, 1) == 2.0;
      assert UpTaps(x, h, 1, 0, 0, 2) == 0.4;
    }
  }

  lemma MirrorUpFixture1Output4(x: seq<real>, h: seq<real>)
    requires x == UpX1 && h == UpH1
    ensures UpAt(x, h, 4) == UpR1[4]
  {
    assert UpAt(x, h, 4) == 7.0 by {
      assert h[3] == 0.2 && ExtUp(x, 0) == 1.0;
      assert UpTaps(x, h, 1, 1, 1, 2) == 0.2;
      assert h[1] == 3.4 && ExtUp(x, 1) == 2.0;
      assert UpTaps(x, h, 1, 1, 0, 2) == 7.0;
    }
  }

  lemma MirrorUpFixture1Output5(x: seq<real>, h: seq<real>)
    requires x == UpX1 && h == UpH1
    ensures UpAt(x, h, 5) == UpR1[5]
  {
    assert UpAt(x, h, 5) == -0.4 by {
      assert h[2] == -2.0 && ExtUp(x, 1) == 2.0;
      assert UpTaps(x, h, 2, 0, 1, 2) == -4.0;
      assert h[0] == 1.2 && ExtUp(x, 2) == 3.0;
      assert UpTaps(x, h, 2, 0, 0, 2) == -0.4;
    }
  }

  lemma MirrorUpFixture1Output6(x: seq<real>, h: seq<real>)
    requires x == UpX1 && h == UpH1
    ensures UpAt(x, h, 6) == UpR1[6]
  {
    assert UpAt(x, h, 6) == 10.6 by {
      assert h[3] == 0.2 && ExtUp(x, 1) == 2.0;
      assert UpTaps(x, h, 2, 1, 1, 2) == 0.4;
      assert h[1] == 3.4 && ExtUp(x, 2) == 3.0;
      assert UpTaps(x, h, 2, 1, 0, 2) == 10.6;
    }
  }

  lemma MirrorUpFixture1Output7(x: seq<real>, h: seq<real>)
    requires x == UpX1 && h == UpH1
    ensures UpAt(x, h, 7) == UpR1[7]
  {
    assert UpAt(x, h, 7) == -1.2 by {
      assert h[2] == -2.0 && ExtUp(x, 2) == 3.0;
      assert UpTaps(x, h, 3, 0, 1, 2) == -6.0;
      assert h[0] == 1.2 && ExtUp(x, 3) == 4.0;
      assert UpTaps(x, h, 3, 0, 0, 2) == -1.2;
    }
  }

  lemma MirrorUpFixture1Output8(x: seq<real>, h: seq<real>)
    requires x == UpX1 && h == UpH1
    ensures UpAt(x, h, 8) == UpR1[8]
  {
    assert UpAt(x, h, 8) == 14.2 by {
      assert h[3] == 0.2 && ExtUp(x, 2) == 3.0;
      assert UpTaps(x, h, 3, 1, 1, 2) == 0.6;
      assert h[1] == 3.4 && ExtUp(x, 3) == 4.0;
      assert UpTaps(x, h, 3, 1, 0, 2) == 14.2;
    }
  }

  lemma MirrorUpFixture1Output9(x: seq<real>, h: seq<real>)
    requires x == UpX1 && h == UpH1
    ensures UpAt(x, h, 9) == UpR1[9]
  {
    assert UpAt(x, h, 9) == -2.0 by {
      assert h[2] == -2.0 && ExtUp(x, 3) == 4.0;
      assert UpTaps(x, h, 4, 0, 1, 2) == -8.0;
      assert h[0] == 1.2 && ExtUp(x, 4) == 5.0;
      assert UpTaps(x, h, 4, 0, 0, 2) == -2.0;
    }
  }

  lemma MirrorUpFixture1Output10(x: seq<real>, h: seq<real>)
    requires x == UpX1 && h == UpH1
    ensures UpAt(x, h, 10) == UpR1[10]
  {
    assert UpAt(x, h, 10) == 17.8 by {
      assert h[3] == 0.2 && ExtUp(x, 3) == 4.0;
      assert UpTaps(x, h, 4, 1, 1, 2) == 0.8;
      assert h[1] == 3.4 && ExtUp(x, 4) == 5.0;
      assert UpTaps(x, h, 4, 1, 0, 2) == 17.8;
    }
  }

  lemma MirrorUpFixture1Output11(x: seq<real>, h: seq<real>)
    requires x == UpX1 && h == UpH1
    ensures UpAt(x, h, 11) == UpR1[11]
  {
    assert UpAt(x, h, 11) == -5.2 by {
      assert h[2] == -2.0 && ExtUp(x, 4) == 5.0;
      assert UpTaps(x, h, 5, 0, 1, 2) == -10.0;
      assert h[0] == 1.2 && ExtUp(x, 5) == 4.0;
      assert UpTaps(x, h, 5, 0, 0, 2) == -5.2;
    }
  }

  lemma MirrorUpFixture1Output12(x: seq<real>, h: seq<real>)
    requires x == UpX1 && h == UpH1
    ensures UpAt(x, h, 12) == UpR1[12]
  {
    assert UpAt(x, h, 12) == 14.6 by {
      assert h[3] == 0.2 && ExtUp(x, 4) == 5.0;
      assert UpTaps(x, h, 5, 1, 1, 2) == 1.0;
      assert h[1] == 3.4 && ExtUp(x, 5) == 4.0;
      assert UpTaps(x, h, 5, 1, 0, 2) == 14.6;
    }
  }

  /** conv_mirrorUp (even-length filter) on test vector 1: exactly 13 outputs, each one as expected. */
  lemma MirrorUpFixture1(x: seq<real>, h: seq<real>)
    requires x == UpX1 && h == UpH1
    ensures UpRef(x, h) == UpR1
  {
    forall k | 0 <= k < 13
      ensures UpRef(x, h)[k] == UpR1[k]
    {
      if k == 0 { MirrorUpFixture1Output0(x, h); }
      else if k == 1 { MirrorUpFixture1Output1(x, h); }
      else if k == 2 { MirrorUpFixture1Output2(x, h); }
      else if k == 3 { MirrorUpFixture1Output3(x, h); }
      else if k == 4 { MirrorUpFixture1Output4(x, h); }
      else if k == 5 { MirrorUpFixture1Output5(x, h); }
      else if k == 6 { MirrorUpFixture1Output6(x, h); }
      else if k == 7 { MirrorUpFixture1Output7(x, h); }
      else if k == 8 { MirrorUpFixture1Output8(x, h); }
      else if k == 9 { MirrorUpFixture1Output9(x, h); }
      else if k == 10 { MirrorUpFixture1Output10(x, h); }
      else if k == 11 { MirrorUpFixture1Output11(x, h); }
      else if k == 12 { MirrorUpFixture1Output12(x, h); }
    }
  }

  const UpX2: seq<real> := [1.0, 2.0, 3.0, 4.0, 5.0, 4.0, 3.0, 2.0, 1.0]
  const UpH2: seq<real> := [1.0, 2.0, 3.0, 4.0, 5.0]
  const UpR2: seq<real> := [10.0, 14.0, 6.0, 10.0, 8.0, 14.0, 14.0, 23.0, 20.0, 32.0, 26.0, 39.0, 28.0, 40.0, 22.0, 31.0, 16.0, 22.0, 10.0, 15.0, 8.0, 14.0]

  lemma MirrorUpFixture2Output0(x: seq<real>, h: seq<real>)
    requires x == UpX2 && h == UpH2
    ensures UpAt(x, h, 0) == UpR2[0]
  {
    assert UpAt(x, h, 0) == 10.0 by {
      assert h[3] == 4.0 && ExtUp(x, -2) == 2.0;
      assert UpTaps(x, h, -1, 1, 1, 2) == 8.0;
      assert h[1] == 2.0 && ExtUp(x, -1) == 1.0;
      assert UpTaps(x, h, -1, 1, 0, 2) == 10.0;
    }
  }

  lemma MirrorUpFixture2Output1(x: seq<real>, h: seq<real>)
    requires x == UpX2 && h == UpH2
    ensures UpAt(x, h, 1) == UpR2[1]
  {
    assert UpAt(x, h, 1) == 14.0 by {
      assert h[4] == 5.0 && ExtUp(x, -2) == 2.0;
      assert UpTaps(x, h, 0, 0, 2, 3) == 10.0;
      assert h[2] == 3.0 && ExtUp(x, -1) == 1.0;
      assert UpTaps(x, h, 0, 0, 1, 3) == 13.0;
      assert h[0] == 1.0 && ExtUp(x, 0) == 1.0;
      assert UpTaps(x, h, 0, 0, 0, 3) == 14.0;
    }
  }

  lemma MirrorUpFixture2Output2(x: seq<real>, h: seq<real>)
    requires x == UpX2 && h == UpH2
    ensures UpAt(x, h, 2) == UpR2[2]
  {
    assert UpAt(x, h, 2) == 6.0 by {
      assert h[3] == 4.0 && ExtUp(x, -1) == 1.0;
      assert UpTaps(x, h, 0, 1, 1, 2) == 4.0;
      assert h[1] == 2.0 && ExtUp(x, 0) == 1.0;
      assert UpTaps(x, h, 0, 1, 0, 2) == 6.0;
    }
  }

  lemma MirrorUpFixture2Output3(x: seq<real>, h: seq<real>)
    requires x == UpX2 && h == UpH2
    ensures UpAt(x, h, 3) == UpR2[3]
  {
    assert UpAt(x, h, 3) == 10.0 by {
      assert h[4] == 5.0 && ExtUp(x, -1) == 1.0;
      assert UpTaps(x, h, 1, 0, 2, 3) == 5.0;
      assert h[2] == 3.0 && ExtUp(x, 0) == 1.0;
      assert UpTaps(x, h, 1, 0, 1, 3) == 8.0;
      assert h[0] == 1.0 && ExtUp(x, 1) == 2.0;
      assert UpTaps(x, h, 1, 0, 0, 3) == 10.0;
    }
  }

  lemma MirrorUpFixture2Output4(x: seq<real>, h: seq<real>)
    requires x == UpX2 && h == UpH2
    ensures UpAt(x, h, 4) == UpR2[4]
  {
    assert UpAt(x, h, 4) == 8.0 by {
      assert h[3] == 4.0 && ExtUp(x, 0) == 1.0;
      assert UpTaps(x, h, 1, 1, 1, 2) == 4.0;
      assert h[1] == 2.0 && ExtUp(x, 1) == 2.0;
      assert UpTaps(x, h, 1, 1, 0, 2) == 8.0;
    }
  }

  lemma MirrorUpFixture2Output5(x: seq<real>, h: seq<real>)
    requires x == UpX2 && h == UpH2
    ensures UpAt(x, h, 5) == UpR2[5]
  {
    assert UpAt(x, h, 5) == 14.0 by {
      assert h[4] == 5.0 && ExtUp(x, 0) == 1.0;
      assert UpTaps(x, h, 2, 0, 2, 3) == 5.0;
      assert h[2] == 3.0 && ExtUp(x, 1) == 2.0;
      assert UpTaps(x, h, 2, 0, 1, 3) == 11.0;
      assert h[0] == 1.0 && ExtUp(x, 2) == 3.0;
      assert UpTaps(x, h, 2, 0, 0, 3) == 14.0;
    }
  }

  lemma MirrorUpFixture2Output6(x: seq<real>, h: seq<real>)
    requires x == UpX2 && h == UpH2
    ensures UpAt(x, h, 6) == UpR2[6]
  {
    assert UpAt(x, h, 6) == 14.0 by {
      assert h[3] == 4.0 && ExtUp(x, 1) == 2.0;
      assert UpTaps(x, h, 2, 1, 1, 2) == 8.0;
      assert h[1] == 2.0 && ExtUp(x, 2) == 3.0;
      assert UpTaps(x, h, 2, 1, 0, 2) == 14.0;
    }
  }

  lemma MirrorUpFixture2Output7(x: seq<real>, h: seq<real>)
    requires x == UpX2 && h == UpH2
    ensures UpAt(x, h, 7) == UpR2[7]
  {
    assert UpAt(x, h, 7) == 23.0 by {
      assert h[4] == 5.0 && ExtUp(x, 1) == 2.0;
      assert UpTaps(x, h, 3, 0, 2, 3) == 10.0;
      assert h[2] == 3.0 && ExtUp(x, 2) == 3.0;
      assert UpTaps(x, h, 3, 0, 1, 3) == 19.0;
      assert h[0] == 1.0 && ExtUp(x, 3) == 4.0;
      assert UpTaps(x, h, 3, 0, 0, 3) == 23.0;
    }
  }

  lemma MirrorUpFixture2Output8(x: seq<real>, h: seq<real>)
    requires x == UpX2 && h == UpH2
    ensures UpAt(x, h, 8) == UpR2[8]
  {
    assert UpAt(x, h, 8) == 20.0 by {
      assert h[3] == 4.0 && ExtUp(x, 2) == 3.0;
      assert UpTaps(x, h, 3, 1, 1, 2) == 12.0;
      assert h[1] == 2.0 && ExtUp(x, 3) == 4.0;
      assert UpTaps(x, h, 3, 1, 0, 2) == 20.0;
    }
  }

  lemma MirrorUpFixture2Output9(x: seq<real>, h: seq<real>)
    requires x == UpX2 && h == UpH2
    ensures UpAt(x, h, 9) == UpR2[9]
  {
    assert UpAt(x, h, 9) == 32.0 by {
      assert h[4] == 5.0 && ExtUp(x, 2) == 3.0;
      assert UpTaps(x, h, 4, 0, 2, 3) == 15.0;
      assert h[2] == 3.0 && ExtUp(x, 3) == 4.0;
      assert UpTaps(x, h, 4, 0, 1, 3) == 27.0;
      assert h[0] == 1.0 && ExtUp(x, 4) == 5.0;
      assert UpTaps(x, h, 4, 0, 0, 3) == 32.0;
    }
  }

  lemma MirrorUpFixture2Output10(x: seq<real>, h: seq<real>)
    requires x == UpX2 && h == UpH2
    ensures UpAt(x, h, 10) == UpR2[10]
  {
    assert UpAt(x, h, 10) == 26.0 by {
      assert h[3] == 4.0 && ExtUp(x, 3) == 4.0;
      assert UpTaps(x, h, 4, 1, 1, 2) == 16.0;
      assert h[1] == 2.0 && ExtUp(x, 4) == 5.0;
      assert UpTaps(x, h, 4, 1, 0, 2) == 26.0;
    }
  }

  lemma MirrorUpFixture2Output11(x: seq<real>, h: seq<real>)
    requires x == UpX2 && h == UpH2
    ensures UpAt(x, h, 11) == UpR2[11]
  {
    assert UpAt(x, h, 11) == 39.0 by {
      assert h[4] == 5.0 && ExtUp(x, 3) == 4.0;
      assert UpTaps(x, h, 5, 0, 2, 3) == 20.0;
      assert h[2] == 3.0 && ExtUp(x, 4) == 5.0;
      assert UpTaps(x, h, 5, 0, 1, 3) == 35.0;
      assert h[0] == 1.0 && ExtUp(x, 5) == 4.0;
      assert UpTaps(x, h, 5, 0, 0, 3) == 39.0;
    }
  }

  lemma MirrorUpFixture2Output12(x: seq<real>, h: seq<real>)
    requires x == UpX2 && h == UpH2
    ensures UpAt(x, h, 12) == UpR2[12]
  {
    assert UpAt(x, h, 12) == 28.0 by {
      assert h[3] == 4.0 && ExtUp(x, 4) == 5.0;
      assert UpTaps(x, h, 5, 1, 1, 2) == 20.0;
      assert h[1] == 2.0 && ExtUp(x, 5) == 4.0;
      assert UpTaps(x, h, 5, 1, 0, 2) == 28.0;
    }
  }

  lemma MirrorUpFixture2Output13(x: seq<real>, h: seq<real>)
    requires x == UpX2 && h == UpH2
    ensures UpAt(x, h, 13) == UpR2[13]
  {
    assert UpAt(x, h, 13) == 40.0 by {
      assert h[4] == 5.0 && ExtUp(x, 4) == 5.0;
      assert UpTaps(x, h, 6, 0, 2, 3) == 25.0;
      assert h[2] == 3.0 && ExtUp(x, 5) == 4.0;
      assert UpTaps(x, h, 6, 0, 1, 3) == 37.0;
      assert h[0] == 1.0 && ExtUp(x, 6) == 3.0;
      assert UpTaps(x, h, 6, 0, 0, 3) == 40.0;
    }
  }

  lemma MirrorUpFixture2Output14(x: seq<real>, h: seq<real>)
    requires x == UpX2 && h == UpH2
    ensures UpAt(x, h, 14) == UpR2[14]
  {
    assert UpAt(x, h, 14) == 22.0 by {
      assert h[3] == 4.0 && ExtUp(x, 5) == 4.0;
      assert UpTaps(x, h, 6, 1, 1, 2) == 16.0;
      assert h[1] == 2.0 && ExtUp(x, 6) == 3.0;
      assert UpTaps(x, h, 6, 1, 0, 2) == 22.0;
    }
  }

  lemma MirrorUpFixture2Output15(x: seq<real>, h: seq<real>)
    requires x == UpX2 && h == UpH2
    ensures UpAt(x, h, 15) == UpR2[15]
  {
    assert UpAt(x, h, 15) == 31.0 by {
      assert h[4] == 5.0 && ExtUp(x, 5) == 4.0;
      assert UpTaps(x, h, 7, 0, 2, 3) == 20.0;
      assert h[2] == 3.0 && ExtUp(x, 6) == 3.0;
      assert UpTaps(x, h, 7, 0, 1, 3) == 29.0;
      assert h[0] == 1.0 && ExtUp(x, 7) == 2.0;
      assert UpTaps(x, h, 7, 0, 0, 3) == 31.0;
    }
  }

  lemma MirrorUpFixture2Output16(x: seq<real>, h: seq<real>)
    requires x == UpX2 && h == UpH2
    ensures UpAt(x, h, 16) == UpR2[16]
  {
    assert UpAt(x, h, 16) == 16.0 by {
      assert h[3] == 4.0 && ExtUp(x, 6) == 3.0;
      assert UpTaps(x, h, 7, 1, 1, 2) == 12.0;
      assert h[1] == 2.0 && ExtUp(x, 7) == 2.0;
      assert UpTaps(x, h, 7, 1, 0, 2) == 16.0;
    }
  }

  lemma MirrorUpFixture2Output17(x: seq<real>, h: seq<real>)
    requires x == UpX2 && h == UpH2
    ensures UpAt(x, h, 17) == UpR2[17]
  {
    assert UpAt(x, h, 17) == 22.0 by {
      assert h[4] == 5.0 && ExtUp(x, 6) == 3.0;
      assert UpTaps(x, h, 8, 0, 2, 3) == 15.0;
      assert h[2] == 3.0 && ExtUp(x, 7) == 2.0;
      assert UpTaps(x, h, 8, 0, 1, 3) == 21.0;
      assert h[0] == 1.0 && ExtUp(x, 8) == 1.0;
      assert UpTaps(x, h, 8, 0, 0, 3) == 22.0;
    }
  }

  lemma MirrorUpFixture2Output18(x: seq<real>, h: seq<real>)
    requires x == UpX2 && h == UpH2
    ensures UpAt(x, h, 18) == UpR2[18]
  {
    assert UpAt(x, h, 18) == 10.0 by {
      assert h[3] == 4.0 && ExtUp(x, 7) == 2.0;
      assert UpTaps(x, h, 8, 1, 1, 2) == 8.0;
      assert h[1] == 2.0 && ExtUp(x, 8) == 1.0;
      assert UpTaps(x, h, 8, 1, 0, 2) == 10.0;
    }
  }

  lemma MirrorUpFixture2Output19(x: seq<real>, h: seq<real>)
    requires x == UpX2 && h == UpH2
    ensures UpAt(x, h, 19) == UpR2[19]
  {
    assert UpAt(x, h, 19) == 15.0 by {
      assert h[4] == 5.0 && ExtUp(x, 7) == 2.0;
      assert UpTaps(x, h, 9, 0, 2, 3) == 10.0;
      assert h[2] == 3.0 && ExtUp(x, 8) == 1.0;
      assert UpTaps(x, h, 9, 0, 1, 3) == 13.0;
      assert h[0] == 1.0 && ExtUp(x, 9) == 2.0;
      assert UpTaps(x, h, 9, 0, 0, 3) == 15.0;
    }
  }

  lemma MirrorUpFixture2Output20(x: seq<real>, h: seq<real>)
    requires x == UpX2 && h == UpH2
    ensures UpAt(x, h, 20) == UpR2[20]
  {
    assert UpAt(x, h, 20) == 8.0 by {
      assert h[3] == 4.0 && ExtUp(x, 8) == 1.0;
      assert UpTaps(x, h, 9, 1, 1, 2) == 4.0;
      assert h[1] == 2.0 && ExtUp(x, 9) == 2.0;
      assert UpTaps(x, h, 9, 1, 0, 2) == 8.0;
    }
  }

  lemma MirrorUpFixture2Output21(x: seq<real>, h: seq<real>)
    requires x == UpX2 && h == UpH2
    ensures UpAt(x, h, 21) == UpR2[21]
  {
    assert UpAt(x, h, 21) == 14.0 by {
      assert h[4] == 5.0 && ExtUp(x, 8) == 1.0;
      assert UpTaps(x, h, 10, 0, 2, 3) == 5.0;
      assert h[2] == 3.0 && ExtUp(x, 9) == 2.0;
      assert UpTaps(x, h, 10, 0, 1, 3) == 11.0;
      assert h[0] == 1.0 && ExtUp(x, 10) == 3.0;
      assert UpTaps(x, h, 10, 0, 0, 3) == 14.0;
    }
  }

  /** conv_mirrorUp (odd-length filter) on test vector 2: exactly 22 outputs, each one as expected. */
  lemma MirrorUpFixture2(x: seq<real>, h: seq<real>)
    requires x == UpX2 && h == UpH2
    ensures UpRef(x, h) == UpR2
  {
    forall k | 0 <= k < 22
      ensures UpRef(x, h)[k] == UpR2[k]
    {
      if k == 0 { MirrorUpFixture2Output0(x, h); }
      else if k == 1 { MirrorUpFixture2Output1(x, h); }
      else if k == 2 { MirrorUpFixture2Output2(x, h); }
      else if k == 3 { MirrorUpFixture2Output3(x, h); }
      else if k == 4 { MirrorUpFixture2Output4(x, h); }
      else if k == 5 { MirrorUpFixture2Output5(x, h); }
      else if k == 6 { MirrorUpFixture2Output6(x, h); }
      else if k == 7 { MirrorUpFixture2Output7(x, h); }
      else if k == 8 { MirrorUpFixture2Output8(x, h); }
      else if k == 9 { MirrorUpFixture2Output9(x, h); }
      else if k == 10 { MirrorUpFixture2Output10(x, h); }
      else if k == 11 { MirrorUpFixture2Output11(x, h); }
      else if k == 12 { MirrorUpFixture2Output12(x, h); }
      else if k == 13 { MirrorUpFixture2Output13(x, h); }
      else if k == 14 { MirrorUpFixture2Output14(x, h); }
      else if k == 15 { MirrorUpFixture2Output15(x, h); }
      else if k == 16 { MirrorUpFixture2Output16(x, h); }
      else if k == 17 { MirrorUpFixture2Output17(x, h); }
      else if k == 18 { MirrorUpFixture2Output18(x, h); }
      else if k == 19 { MirrorUpFixture2Output19(x, h); }
      else if k == 20 { MirrorUpFixture2Output20(x, h); }
      else if k == 21 { MirrorUpFixture2Output21(x, h); }
    }
  }

  const UpX3: seq<real> := [1.0, 2.0, 3.0, 4.0, 5.0, 6.0, -1.0, -2.0, -3.0, -4.0, -5.0, 6.0, 5.0, 4.0, 3.0, 2.0, 1.0]
  const UpH3: seq<real> := [1.0, 2.0, 3.0, 4.0, 5.0, 4.0, 3.0, 2.0, 1.0]
  const UpR3: seq<real> := [30.0, 27.0, 20.0, 19.0, 16.0, 19.0, 20.0, 27.0, 30.0, 39.0, 42.0, 52.0, 54.0, 57.0, 50.0, 44.0, 26.0, 9.0, -6.0, -20.0, -30.0, -39.0, -42.0, -40.0, -30.0, -17.0, 6.0, 30.0, 42.0, 53.0, 54.0, 52.0, 42.0, 39.0, 30.0, 28.0, 22.0, 23.0, 22.0, 28.0, 30.0, 39.0]

  lemma MirrorUpFixture3Output0(x: seq<real>, h: seq<real>)
    requires x == UpX3 && h == UpH3
    ensures UpAt(x, h, 0) == UpR3[0]
  {
    assert UpAt(x, h, 0) == 30.0 by {
      assert h[7] == 2.0 && ExtUp(x, -4) == 4.0;
      assert UpTaps(x, h, -1, 1, 3, 4) == 8.0;
      assert h[5] == 4.0 && ExtUp(x, -3) == 3.0;
      assert UpTaps(x, h, -1, 1, 2, 4) == 20.0;
      assert h[3] == 4.0 && ExtUp(x, -2) == 2.0;
      assert UpTaps(x, h, -1, 1, 1, 4) == 28.0;
      assert h[1] == 2.0 && ExtUp(x, -1) == 1.0;
      assert UpTaps(x, h, -1, 1, 0, 4) == 30.0;
    }
  }

  lemma MirrorUpFixture3Output1(x: seq<real>, h: seq<real>)
    requires x == UpX3 && h == UpH3
    ensures UpAt(x, h, 1) == UpR3[1]
  {
    assert UpAt(x, h, 1) == 27.0 by {
      assert UpTaps(x, h, 0, 0, 3, 5) == 13.0 by {
        assert h[8] == 1.0 && ExtUp(x, -4) == 4.0;
        assert UpTaps(x, h, 0, 0, 4, 5) == 4.0;
        assert h[6] == 3.0 && ExtUp(x, -3) == 3.0;
      }
      assert h[4] == 5.0 && ExtUp(x, -2) == 2.0;
      assert UpTaps(x, h, 0, 0, 2, 5) == 23.0;
      assert h[2] == 3.0 && ExtUp(x, -1) == 1.0;
      assert UpTaps(x, h, 0, 0, 1, 5) == 26.0;
      assert h[0] == 1.0 && ExtUp(x, 0) == 1.0;
      assert UpTaps(x, h, 0, 0, 0, 5) == 27.0;
    }
  }

  lemma MirrorUpFixture3Output2(x: seq<real>, h: seq<real>)
    requires x == UpX3 && h == UpH3
    ensures UpAt(x, h, 2) == UpR3[2]
  {
    assert UpAt(x, h, 2) == 20.0 by {
      assert h[7] == 2.0 && ExtUp(x, -3) == 3.0;
      assert UpTaps(x, h, 0, 1, 3, 4) == 6.0;
      assert h[5] == 4.0 && ExtUp(x, -2) == 2.0;
      assert UpTaps(x, h, 0, 1, 2, 4) == 14.0;
      assert h[3] == 4.0 && ExtUp(x, -1) == 1.0;
      assert UpTaps(x, h, 0, 1, 1, 4) == 18.0;
      assert h[1] == 2.0 && ExtUp(x, 0) == 1.0;
      assert UpTaps(x, h, 0, 1, 0, 4) == 20.0;
    }
  }

  lemma MirrorUpFixture3Output3(x: seq<real>, h: seq<real>)
    requires x == UpX3 && h == UpH3
    ensures UpAt(x, h, 3) == UpR3[3]
  {
    assert UpAt(x, h, 3) == 19.0 by {
      assert UpTaps(x, h, 1, 0, 3, 5) == 9.0 by {
        assert h[8] == 1.0 && ExtUp(x, -3) == 3.0;
        assert UpTaps(x, h, 1, 0, 4, 5) == 3.0;
        assert h[6] == 3.0 && ExtUp(x, -2) == 2.0;
      }
      assert h[4] == 5.0 && ExtUp(x, -1) == 1.0;
      assert UpTaps(x, h, 1, 0, 2, 5) == 14.0;
      assert h[2] == 3.0 && ExtUp(x, 0) == 1.0;
      assert UpTaps(x, h, 1, 0, 1, 5) == 17.0;
      assert h[0] == 1.0 && ExtUp(x, 1) == 2.0;
      assert UpTaps(x, h, 1, 0, 0, 5) == 19.0;
    }
  }

  lemma MirrorUpFixture3Output4(x: seq<real>, h: seq<real>)
    requires x == UpX3 && h == UpH3
    ensures UpAt(x, h, 4) == UpR3[4]
  {
    assert UpAt(x, h, 4) == 16.0 by {
      assert h[7] == 2.0 && ExtUp(x, -2) == 2.0;
      assert UpTaps(x, h, 1, 1, 3, 4) == 4.0;
      assert h[5] == 4.0 && ExtUp(x, -1) == 1.0;
      assert UpTaps(x, h, 1, 1, 2, 4) == 8.0;
      assert h[3] == 4.0 && ExtUp(x, 0) == 1.0;
      assert UpTaps(x, h, 1, 1, 1, 4) == 12.0;
      assert h[1] == 2.0 && ExtUp(x, 1) == 2.0;
      assert UpTaps(x, h, 1, 1, 0, 4) == 16.0;
    }
  }

  lemma MirrorUpFixture3Output5(x: seq<real>, h: seq<real>)
    requires x == UpX3 && h == UpH3
    ensures UpAt(x, h, 5) == UpR3[5]
  {
    assert UpAt(x, h, 5) == 19.0 by {
      assert UpTaps(x, h, 2, 0, 3, 5) == 5.0 by {
        assert h[8] == 1.0 && ExtUp(x, -2) == 2.0;
        assert UpTaps(x, h, 2, 0, 4, 5) == 2.0;
        assert h[6] == 3.0 && ExtUp(x, -1) == 1.0;
      }
      assert h[4] == 5.0 && ExtUp(x, 0) == 1.0;
      assert UpTaps(x, h, 2, 0, 2, 5) == 10.0;
      assert h[2] == 3.0 && ExtUp(x, 1) == 2.0;
      assert UpTaps(x, h, 2, 0, 1, 5) == 16.0;
      assert h[0] == 1.0 && ExtUp(x, 2) == 3.0;
      assert UpTaps(x, h, 2, 0, 0, 5) == 19.0;
    }
  }

  lemma MirrorUpFixture3Output6(x: seq<real>, h: seq<real>)
    requires x == UpX3 && h == UpH3
    ensures UpAt(x, h, 6) == UpR3[6]
  {
    assert UpAt(x, h, 6) == 20.0 by {
      assert h[7] == 2.0 && ExtUp(x, -1) == 1.0;
      assert UpTaps(x, h, 2, 1, 3, 4) == 2.0;
      assert h[5] == 4.0 && ExtUp(x, 0) == 1.0;
      assert UpTaps(x, h, 2, 1, 2, 4) == 6.0;
      assert h[3] == 4.0 && ExtUp(x, 1) == 2.0;
      assert UpTaps(x, h, 2, 1, 1, 4) == 14.0;
      assert h[1] == 2.0 && ExtUp(x, 2) == 3.0;
      assert UpTaps(x, h, 2, 1, 0, 4) == 20.0;
    }
  }

  lemma MirrorUpFixture3Output7(x: seq<real>, h: seq<real>)
    requires x == UpX3 && h == UpH3
    ensures UpAt(x, h, 7) == UpR3[7]
  {
    assert UpAt(x, h, 7) == 27.0 by {
      assert UpTaps(x, h, 3, 0, 3, 5) == 4.0 by {
        assert h[8] == 1.0 && ExtUp(x, -1) == 1.0;
        assert UpTaps(x, h, 3, 0, 4, 5) == 1.0;
        assert h[6] == 3.0 && ExtUp(x, 0) == 1.0;
      }
      assert h[4] == 5.0 && ExtUp(x, 1) == 2.0;
      assert UpTaps(x, h, 3, 0, 2, 5) == 14.0;
      assert h[2] == 3.0 && ExtUp(x, 2) == 3.0;
      assert UpTaps(x, h, 3, 0, 1, 5) == 23.0;
      assert h[0] == 1.0 && ExtUp(x, 3) == 4.0;
      assert UpTaps(x, h, 3, 0, 0, 5) == 27.0;
    }
  }

  lemma MirrorUpFixture3Output8(x: seq<real>, h: seq<real>)
    requires x == UpX3 && h == UpH3
    ensures UpAt(x, h, 8) == UpR3[8]
  {
    assert UpAt(x, h, 8) == 30.0 by {
      assert h[7] == 2.0 && ExtUp(x, 0) == 1.0;
      assert UpTaps(x, h, 3, 1, 3, 4) == 2.0;
      assert h[5] == 4.0 && ExtUp(x, 1) == 2.0;
      assert UpTaps(x, h, 3, 1, 2, 4) == 10.0;
      assert h[3] == 4.0 && ExtUp(x, 2) == 3.0;
      assert UpTaps(x, h, 3, 1, 1, 4) == 22.0;
      assert h[1] == 2.0 && ExtUp(x, 3) == 4.0;
      assert UpTaps(x, h, 3, 1, 0, 4) == 30.0;
    }
  }

  lemma MirrorUpFixture3Output9(x: seq<real>, h: seq<real>)
    requires x == UpX3 && h == UpH3
    ensures UpAt(x, h, 9) == UpR3[9]
  {
    assert UpAt(x, h, 9) == 39.0 by {
      assert UpTaps(x, h, 4, 0, 3, 5) == 7.0 by {
        assert h[8] == 1.0 && ExtUp(x, 0) == 1.0;
        assert UpTaps(x, h, 4, 0, 4, 5) == 1.0;
        assert h[6] == 3.0 && ExtUp(x, 1) == 2.0;
      }
      assert h[4] == 5.0 && ExtUp(x, 2) == 3.0;
      assert UpTaps(x, h, 4, 0, 2, 5) == 22.0;
      assert h[2] == 3.0 && ExtUp(x, 3) == 4.0;
      assert UpTaps(x, h, 4, 0, 1, 5) == 34.0;
      assert h[0] == 1.0 && ExtUp(x, 4) == 5.0;
      assert UpTaps(x, h, 4, 0, 0, 5) == 39.0;
    }
  }

  lemma MirrorUpFixture3Output10(x: seq<real>, h: seq<real>)
    requires x == UpX3 && h == UpH3
    ensures UpAt(x, h, 10) == UpR3[10]
  {
    assert UpAt(x, h, 10) == 42.0 by {
      assert h[7] == 2.0 && ExtUp(x, 1) == 2.0;
      assert UpTaps(x, h, 4, 1, 3, 4) == 4.0;
      assert h[5] == 4.0 && ExtUp(x, 2) == 3.0;
      assert UpTaps(x, h, 4, 1, 2, 4) == 16.0;
      assert h[3] == 4.0 && ExtUp(x, 3) == 4.0;
      assert UpTaps(x, h, 4, 1, 1, 4) == 32.0;
      assert h[1] == 2.0 && ExtUp(x, 4) == 5.0;
      assert UpTaps(x, h, 4, 1, 0, 4) == 42.0;
    }
  }

  lemma MirrorUpFixture3Output11(x: seq<real>, h: seq<real>)
    requires x == UpX3 && h == UpH3
    ensures UpAt(x, h, 11) == UpR3[11]
  {
    assert UpAt(x, h, 11) == 52.0 by {
      assert UpTaps(x, h, 5, 0, 3, 5) == 11.0 by {
        assert h[8] == 1.0 && ExtUp(x, 1) == 2.0;
        assert UpTaps(x, h, 5, 0, 4, 5) == 2.0;
        assert h[6] == 3.0 && ExtUp(x, 2) == 3.0;
      }
      assert h[4] == 5.0 && ExtUp(x, 3) == 4.0;
      assert UpTaps(x, h, 5, 0, 2, 5) == 31.0;
      assert h[2] == 3.0 && ExtUp(x, 4) == 5.0;
      assert UpTaps(x, h, 5, 0, 1, 5) == 46.0;
      assert h[0] == 1.0 && ExtUp(x, 5) == 6.0;
      assert UpTaps(x, h, 5, 0, 0, 5) == 52.0;
    }
  }

  lemma MirrorUpFixture3Output12(x: seq<real>, h: seq<real>)
    requires x == UpX3 && h == UpH3
    ensures UpAt(x, h, 12) == UpR3[12]
  {
    assert UpAt(x, h, 12) == 54.0 by {
      assert h[7] == 2.0 && ExtUp(x, 2) == 3.0;
      assert UpTaps(x, h, 5, 1, 3, 4) == 6.0;
      assert h[5] == 4.0 && ExtUp(x, 3) == 4.0;
      assert UpTaps(x, h, 5, 1, 2, 4) == 22.0;
      assert h[3] == 4.0 && ExtUp(x, 4) == 5.0;
      assert UpTaps(x, h, 5, 1, 1, 4) == 42.0;
      assert h[1] == 2.0 && ExtUp(x, 5) == 6.0;
      assert UpTaps(x, h, 5, 1, 0, 4) == 54.0;
    }
  }

  lemma MirrorUpFixture3Output13(x: seq<real>, h: seq<real>)
    requires x == UpX3 && h == UpH3
    ensures UpAt(x, h, 13) == UpR3[13]
  {
    assert UpAt(x, h, 13) == 57.0 by {
      assert UpTaps(x, h, 6, 0, 3, 5) == 15.0 by {
        assert h[8] == 1.0 && ExtUp(x, 2) == 3.0;
        assert UpTaps(x, h, 6, 0, 4, 5) == 3.0;
        assert h[6] == 3.0 && ExtUp(x, 3) == 4.0;
      }
      assert h[4] == 5.0 && ExtUp(x, 4) == 5.0;
      assert UpTaps(x, h, 6, 0, 2, 5) == 40.0;
      assert h[2] == 3.0 && ExtUp(x, 5) == 6.0;
      assert UpTaps(x, h, 6, 0, 1, 5) == 58.0;
      assert h[0] == 1.0 && ExtUp(x, 6) == -1.0;
      assert UpTaps(x, h, 6, 0, 0, 5) == 57.0;
    }
  }

  lemma MirrorUpFixture3Output14(x: seq<real>, h: seq<real>)
    requires x == UpX3 && h == UpH3
    ensures UpAt(x, h, 14) == UpR3[14]
  {
    assert UpAt(x, h, 14) == 50.0 by {
      assert h[7] == 2.0 && ExtUp(x, 3) == 4.0;
      assert UpTaps(x, h, 6, 1, 3, 4) == 8.0;
      assert h[5] == 4.0 && ExtUp(x, 4) == 5.0;
      assert UpTaps(x, h, 6, 1, 2, 4) == 28.0;
      assert h[3] == 4.0 && ExtUp(x, 5) == 6.0;
      assert UpTaps(x, h, 6, 1, 1, 4) == 52.0;
      assert h[1] == 2.0 && ExtUp(x, 6) == -1.0;
      assert UpTaps(x, h, 6, 1, 0, 4) == 50.0;
    }
  }

  lemma MirrorUpFixture3Output15(x: seq<real>, h: seq<real>)
    requires x == UpX3 && h == UpH3
    ensures UpAt(x, h, 15) == UpR3[15]
  {
    assert UpAt(x, h, 15) == 44.0 by {
      assert UpTaps(x, h, 7, 0, 3, 5) == 19.0 by {
        assert h[8] == 1.0 && ExtUp(x, 3) == 4.0;
        assert UpTaps(x, h, 7, 0, 4, 5) == 4.0;
        assert h[6] == 3.0 && ExtUp(x, 4) == 5.0;
      }
      assert h[4] == 5.0 && ExtUp(x, 5) == 6.0;
      assert UpTaps(x, h, 7, 0, 2, 5) == 49.0;
      assert h[2] == 3.0 && ExtUp(x, 6) == -1.0;
      assert UpTaps(x, h, 7, 0, 1, 5) == 46.0;
      assert h[0] == 1.0 && ExtUp(x, 7) == -2.0;
      assert UpTaps(x, h, 7, 0, 0, 5) == 44.0;
    }
  }

  lemma MirrorUpFixture3Output16(x: seq<real>, h: seq<real>)
    requires x == UpX3 && h == UpH3
    ensures UpAt(x, h, 16) == UpR3[16]
  {
    assert UpAt(x, h, 16) == 26.0 by {
      assert h[7] == 2.0 && ExtUp(x, 4) == 5.0;
      assert UpTaps(x, h, 7, 1, 3, 4) == 10.0;
      assert h[5] == 4.0 && ExtUp(x, 5) == 6.0;
      assert UpTaps(x, h, 7, 1, 2, 4) == 34.0;
      assert h[3] == 4.0 && ExtUp(x, 6) == -1.0;
      assert UpTaps(x, h, 7, 1, 1, 4) == 30.0;
      assert h[1] == 2.0 && ExtUp(x, 7) == -2.0;
      assert UpTaps(x, h, 7, 1, 0, 4) == 26.0;
    }
  }

  lemma MirrorUpFixture3Output17(x: seq<real>, h: seq<real>)
    requires x == UpX3 && h == UpH3
    ensures UpAt(x, h, 17) == UpR3[17]
  {
    assert UpAt(x, h, 17) == 9.0 by {
      assert UpTaps(x, h, 8, 0, 3, 5) == 23.0 by {
        assert h[8] == 1.0 && ExtUp(x, 4) == 5.0;
        assert UpTaps(x, h, 8, 0, 4, 5) == 5.0;
        assert h[6] == 3.0 && ExtUp(x, 5) == 6.0;
      }
      assert h[4] == 5.0 && ExtUp(x, 6) == -1.0;
      assert UpTaps(x, h, 8, 0, 2, 5) == 18.0;
      assert h[2] == 3.0 && ExtUp(x, 7) == -2.0;
      assert UpTaps(x, h, 8, 0, 1, 5) == 12.0;
      assert h[0] == 1.0 && ExtUp(x, 8) == -3.0;
      assert UpTaps(x, h, 8, 0, 0, 5) == 9.0;
    }
  }

  lemma MirrorUpFixture3Output18(x: seq<real>, h: seq<real>)
    requires x == UpX3 && h == UpH3
    ensures UpAt(x, h, 18) == UpR3[18]
  {
    assert UpAt(x, h, 18) == -6.0 by {
      assert h[7] == 2.0 && ExtUp(x, 5) == 6.0;
      assert UpTaps(x, h, 8, 1, 3, 4) == 12.0;
      assert h[5] == 4.0 && ExtUp(x, 6) == -1.0;
      assert UpTaps(x, h, 8, 1, 2, 4) == 8.0;
      assert h[3] == 4.0 && ExtUp(x, 7) == -2.0;
      assert UpTaps(x, h, 8, 1, 1, 4) == 0.0;
      assert h[1] == 2.0 && ExtUp(x, 8) == -3.0;
      assert UpTaps(x, h, 8, 1, 0, 4) == -6.0;
    }
  }

  lemma MirrorUpFixture3Output19(x: seq<real>, h: seq<real>)
    requires x == UpX3 && h == UpH3
    ensures UpAt(x, h, 19) == UpR3[19]
  {
    assert UpAt(x, h, 19) == -20.0 by {
      assert UpTaps(x, h, 9, 0, 3, 5) == 3.0 by {
        assert h[8] == 1.0 && ExtUp(x, 5) == 6.0;
        assert UpTaps(x, h, 9, 0, 4, 5) == 6.0;
        assert h[6] == 3.0 && ExtUp(x, 6) == -1.0;
      }
      assert h[4] == 5.0 && ExtUp(x, 7) == -2.0;
      assert UpTaps(x, h, 9, 0, 2, 5) == -7.0;
      assert h[2] == 3.0 && ExtUp(x, 8) == -3.0;
      assert UpTaps(x, h, 9, 0, 1, 5) == -16.0;
      assert h[0] == 1.0 && ExtUp(x, 9) == -4.0;
      assert UpTaps(x, h, 9, 0, 0, 5) == -20.0;
    }
  }

  lemma MirrorUpFixture3Output20(x: seq<real>, h: seq<real>)
    requires x == UpX3 && h == UpH3
    ensures UpAt(x, h, 20) == UpR3[20]
  {
    assert UpAt(x, h, 20) == -30.0 by {
      assert h[7] == 2.0 && ExtUp(x, 6) == -1.0;
      assert UpTaps(x, h, 9, 1, 3, 4) == -2.0;
      assert h[5] == 4.0 && ExtUp(x, 7) == -2.0;
      assert UpTaps(x, h, 9, 1, 2, 4) == -10.0;
      assert h[3] == 4.0 && ExtUp(x, 8) == -3.0;
      assert UpTaps(x, h, 9, 1, 1, 4) == -22.0;
      assert h[1] == 2.0 && ExtUp(x, 9) == -4.0;
      assert UpTaps(x, h, 9, 1, 0, 4) == -30.0;
    }
  }

  lemma MirrorUpFixture3Output21(x: seq<real>, h: seq<real>)
    requires x == UpX3 && h == UpH3
    ensures UpAt(x, h, 21) == UpR3[21]
  {
    assert UpAt(x, h, 21) == -39.0 by {
      assert UpTaps(x, h, 10, 0, 3, 5) == -7.0 by {
        assert h[8] == 1.0 && ExtUp(x, 6) == -1.0;
        assert UpTaps(x, h, 10, 0, 4, 5) == -1.0;
        assert h[6] == 3.0 && ExtUp(x, 7) == -2.0;
      }
      assert h[4] == 5.0 && ExtUp(x, 8) == -3.0;
      assert UpTaps(x, h, 10, 0, 2, 5) == -22.0;
      assert h[2] == 3.0 && ExtUp(x, 9) == -4.0;
      assert UpTaps(x, h, 10, 0, 1, 5) == -34.0;
      assert h[0] == 1.0 && ExtUp(x, 10) == -5.0;
      assert UpTaps(x, h, 10, 0, 0, 5) == -39.0;
    }
  }

  lemma MirrorUpFixture3Output22(x: seq<real>, h: seq<real>)
    requires x == UpX3 && h == UpH3
    ensures UpAt(x, h, 22) == UpR3[22]
  {
    assert UpAt(x, h, 22) == -42.0 by {
      assert h[7] == 2.0 && ExtUp(x, 7) == -2.0;
      assert UpTaps(x, h, 10, 1, 3, 4) == -4.0;
      assert h[5] == 4.0 && ExtUp(x, 8) == -3.0;
      assert UpTaps(x, h, 10, 1, 2, 4) == -16.0;
      assert h[3] == 4.0 && ExtUp(x, 9) == -4.0;
      assert UpTaps(x, h, 10, 1, 1, 4) == -32.0;
      assert h[1] == 2.0 && ExtUp(x, 10) == -5.0;
      assert UpTaps(x, h, 10, 1, 0, 4) == -42.0;
    }
  }

  lemma MirrorUpFixture3Output23(x: seq<real>, h: seq<real>)
    requires x == UpX3 && h == UpH3
    ensures UpAt(x, h, 23) == UpR3[23]
  {
    assert UpAt(x, h, 23) == -40.0 by {
      assert UpTaps(x, h, 11, 0, 3, 5) == -11.0 by {
        assert h[8] == 1.0 && ExtUp(x, 7) == -2.0;
        assert UpTaps(x, h, 11, 0, 4, 5) == -2.0;
        assert h[6] == 3.0 && ExtUp(x, 8) == -3.0;
      }
      assert h[4] == 5.0 && ExtUp(x, 9) == -4.0;
      assert UpTaps(x, h, 11, 0, 2, 5) == -31.0;
      assert h[2] == 3.0 && ExtUp(x, 10) == -5.0;
      assert UpTaps(x, h, 11, 0, 1, 5) == -46.0;
      assert h[0] == 1.0 && ExtUp(x, 11) == 6.0;
      assert UpTaps(x, h, 11, 0, 0, 5) == -40.0;
    }
  }

  lemma MirrorUpFixture3Output24(x: seq<real>, h: seq<real>)
    requires x == UpX3 && h == UpH3
    ensures UpAt(x, h, 24) == UpR3[24]
  {
    assert UpAt(x, h, 24) == -30.0 by {
      assert h[7] == 2.0 && ExtUp(x, 8) == -3.0;
      assert UpTaps(x, h, 11, 1, 3, 4) == -6.0;
      assert h[5] == 4.0 && ExtUp(x, 9) == -4.0;
      assert UpTaps(x, h, 11, 1, 2, 4) == -22.0;
      assert h[3] == 4.0 && ExtUp(x, 10) == -5.0;
      assert UpTaps(x, h, 11, 1, 1, 4) == -42.0;
      assert h[1] == 2.0 && ExtUp(x, 11) == 6.0;
      assert UpTaps(x, h, 11, 1, 0, 4) == -30.0;
    }
  }

  lemma MirrorUpFixture3Output25(x: seq<real>, h: seq<real>)
    requires x == UpX3 && h == UpH3
    ensures UpAt(x, h, 25) == UpR3[25]
  {
    assert UpAt(x, h, 25) == -17.0 by {
      assert UpTaps(x, h, 12, 0, 3, 5) == -15.0 by {
        assert h[8] == 1.0 && ExtUp(x, 8) == -3.0;
        assert UpTaps(x, h, 12, 0, 4, 5) == -3.0;
        assert h[6] == 3.0 && ExtUp(x, 9) == -4.0;
      }
      assert h[4] == 5.0 && ExtUp(x, 10) == -5.0;
      assert UpTaps(x, h, 12, 0, 2, 5) == -40.0;
      assert h[2] == 3.0 && ExtUp(x, 11) == 6.0;
      assert UpTaps(x, h, 12, 0, 1, 5) == -22.0;
      assert h[0] == 1.0 && ExtUp(x, 12) == 5.0;
      assert UpTaps(x, h, 12, 0, 0, 5) == -17.0;
    }
  }

  lemma MirrorUpFixture3Output26(x: seq<real>, h: seq<real>)
    requires x == UpX3 && h == UpH3
    ensures UpAt(x, h, 26) == UpR3[26]
  {
    assert UpAt(x, h, 26) == 6.0 by {
      assert h[7] == 2.0 && ExtUp(x, 9) == -4.0;
      assert UpTaps(x, h, 12, 1, 3, 4) == -8.0;
      assert h[5] == 4.0 && ExtUp(x, 10) == -5.0;
      assert UpTaps(x, h, 12, 1, 2, 4) == -28.0;
      assert h[3] == 4.0 && ExtUp(x, 11) == 6.0;
      assert UpTaps(x, h, 12, 1, 1, 4) == -4.0;
      assert h[1] == 2.0 && ExtUp(x, 12) == 5.0;
      assert UpTaps(x, h, 12, 1, 0, 4) == 6.0;
    }
  }

  lemma MirrorUpFixture3Output27(x: seq<real>, h: seq<real>)
    requires x == UpX3 && h == UpH3
    ensures UpAt(x, h, 27) == UpR3[27]
  {
    assert UpAt(x, h, 27) == 30.0 by {
      assert UpTaps(x, h, 13, 0, 3, 5) == -19.0 by {
        assert h[8] == 1.0 && ExtUp(x, 9) == -4.0;
        assert UpTaps(x, h, 13, 0, 4, 5) == -4.0;
        assert h[6] == 3.0 && ExtUp(x, 10) == -5.0;
      }
      assert h[4] == 5.0 && ExtUp(x, 11) == 6.0;
      assert UpTaps(x, h, 13, 0, 2, 5) == 11.0;
      assert h[2] == 3.0 && ExtUp(x, 12) == 5.0;
      assert UpTaps(x, h, 13, 0, 1, 5) == 26.0;
      assert h[0] == 1.0 && ExtUp(x, 13) == 4.0;
      assert UpTaps(x, h, 13, 0, 0, 5) == 30.0;
    }
  }

  lemma MirrorUpFixture3Output28(x: seq<real>, h: seq<real>)
    requires x == UpX3 && h == UpH3
    ensures UpAt(x, h, 28) == UpR3[28]
  {
    assert UpAt(x, h, 28) == 42.0 by {
      assert h[7] == 2.0 && ExtUp(x, 10) == -5.0;
      assert UpTaps(x, h, 13, 1, 3, 4) == -10.0;
      assert h[5] == 4.0 && ExtUp(x, 11) == 6.0;
      assert UpTaps(x, h, 13, 1, 2, 4) == 14.0;
      assert h[3] == 4.0 && ExtUp(x, 12) == 5.0;
      assert UpTaps(x, h, 13, 1, 1, 4) == 34.0;
      assert h[1] == 2.0 && ExtUp(x, 13) == 4.0;
      assert UpTaps(x, h, 13, 1, 0, 4) == 42.0;
    }
  }

  lemma MirrorUpFixture3Output29(x: seq<real>, h: seq<real>)
    requires x == UpX3 && h == UpH3
    ensures UpAt(x, h, 29) == UpR3[29]
  {
    assert UpAt(x, h, 29) == 53.0 by {
      assert UpTaps(x, h, 14, 0, 3, 5) == 13.0 by {
        assert h[8] == 1.0 && ExtUp(x, 10) == -5.0;
        assert UpTaps(x, h, 14, 0, 4, 5) == -5.0;
        assert h[6] == 3.0 && ExtUp(x, 11) == 6.0;
      }
      assert h[4] == 5.0 && ExtUp(x, 12) == 5.0;
      assert UpTaps(x, h, 14, 0, 2, 5) == 38.0;
      assert h[2] == 3.0 && ExtUp(x, 13) == 4.0;
      assert UpTaps(x, h, 14, 0, 1, 5) == 50.0;
      assert h[0] == 1.0 && ExtUp(x, 14) == 3.0;
      assert UpTaps(x, h, 14, 0, 0, 5) == 53.0;
    }
  }

  lemma MirrorUpFixture3Output30(x: seq<real>, h: seq<real>)
    requires x == UpX3 && h == UpH3
    ensures UpAt(x, h, 30) == UpR3[30]
  {
    assert UpAt(x, h, 30) == 54.0 by {
      assert h[7] == 2.0 && ExtUp(x, 11) == 6.0;
      assert UpTaps(x, h, 14, 1, 3, 4) == 12.0;
      assert h[5] == 4.0 && ExtUp(x, 12) == 5.0;
      assert UpTaps(x, h, 14, 1, 2, 4) == 32.0;
      assert h[3] == 4.0 && ExtUp(x, 13) == 4.0;
      assert UpTaps(x, h, 14, 1, 1, 4) == 48.0;
      assert h[1] == 2.0 && ExtUp(x, 14) == 3.0;
      assert UpTaps(x, h, 14, 1, 0, 4) == 54.0;
    }
  }

  lemma MirrorUpFixture3Output31(x: seq<real>, h: seq<real>)
    requires x == UpX3 && h == UpH3
    ensures UpAt(x, h, 31) == UpR3[31]
  {
    assert UpAt(x, h, 31) == 52.0 by {
      assert UpTaps(x, h, 15, 0, 3, 5) == 21.0 by {
        assert h[8] == 1.0 && ExtUp(x, 11) == 6.0;
        assert UpTaps(x, h, 15, 0, 4, 5) == 6.0;
        assert h[6] == 3.0 && ExtUp(x, 12) == 5.0;
      }
      assert h[4] == 5.0 && ExtUp(x, 13) == 4.0;
      assert UpTaps(x, h, 15, 0, 2, 5) == 41.0;
      assert h[2] == 3.0 && ExtUp(x, 14) == 3.0;
      assert UpTaps(x, h, 15, 0, 1, 5) == 50.0;
      assert h[0] == 1.0 && ExtUp(x, 15) == 2.0;
      assert UpTaps(x, h, 15, 0, 0, 5) == 52.0;
    }
  }

  lemma MirrorUpFixture3Output32(x: seq<real>, h: seq<real>)
    requires x == UpX3 && h == UpH3
    ensures UpAt(x, h, 32) == UpR3[32]
  {
    assert UpAt(x, h, 32) == 42.0 by {
      assert h[7] == 2.0 && ExtUp(x, 12) == 5.0;
      assert UpTaps(x, h, 15, 1, 3, 4) == 10.0;
      assert h[5] == 4.0 && ExtUp(x, 13) == 4.0;
      assert UpTaps(x, h, 15, 1, 2, 4) == 26.0;
      assert h[3] == 4.0 && ExtUp(x, 14) == 3.0;
      assert UpTaps(x, h, 15, 1, 1, 4) == 38.0;
      assert h[1] == 2.0 && ExtUp(x, 15) == 2.0;
      assert UpTaps(x, h, 15, 1, 0, 4) == 42.0;
    }
  }

  lemma MirrorUpFixture3Output33(x: seq<real>, h: seq<real>)
    requires x == UpX3 && h == UpH3
    ensures UpAt(x, h, 33) == UpR3[33]
  {
    assert UpAt(x, h, 33) == 39.0 by {
      assert UpTaps(x, h, 16, 0, 3, 5) == 17.0 by {
        assert h[8] == 1.0 && ExtUp(x, 12) == 5.0;
        assert UpTaps(x, h, 16, 0, 4, 5) == 5.0;
        assert h[6] == 3.0 && ExtUp(x, 13) == 4.0;
      }
      assert h[4] == 5.0 && ExtUp(x, 14) == 3.0;
      assert UpTaps(x, h, 16, 0, 2, 5) == 32.0;
      assert h[2] == 3.0 && ExtUp(x, 15) == 2.0;
      assert UpTaps(x, h, 16, 0, 1, 5) == 38.0;
      assert h[0] == 1.0 && ExtUp(x, 16) == 1.0;
      assert UpTaps(x, h, 16, 0, 0, 5) == 39.0;
    }
  }

  lemma MirrorUpFixture3Output34(x: seq<real>, h: seq<real>)
    requires x == UpX3 && h == UpH3
    ensures UpAt(x, h, 34) == UpR3[34]
  {
    assert UpAt(x, h, 34) == 30.0 by {
      assert h[7] == 2.0 && ExtUp(x, 13) == 4.0;
      assert UpTaps(x, h, 16, 1, 3, 4) == 8.0;
      assert h[5] == 4.0 && ExtUp(x, 14) == 3.0;
      assert UpTaps(x, h, 16, 1, 2, 4) == 20.0;
      assert h[3] == 4.0 && ExtUp(x, 15) == 2.0;
      assert UpTaps(x, h, 16, 1, 1, 4) == 28.0;
      assert h[1] == 2.0 && ExtUp(x, 16) == 1.0;
      assert UpTaps(x, h, 16, 1, 0, 4) == 30.0;
    }
  }

  lemma MirrorUpFixture3Output35(x: seq<real>, h: seq<real>)
    requires x == UpX3 && h == UpH3
    ensures UpAt(x, h, 35) == UpR3[35]
  {
    assert UpAt(x, h, 35) == 28.0 by {
      assert UpTaps(x, h, 17, 0, 3, 5) == 13.0 by {
        assert h[8] == 1.0 && ExtUp(x, 13) == 4.0;
        assert UpTaps(x, h, 17, 0, 4, 5) == 4.0;
        assert h[6] == 3.0 && ExtUp(x, 14) == 3.0;
      }
      assert h[4] == 5.0 && ExtUp(x, 15) == 2.0;
      assert UpTaps(x, h, 17, 0, 2, 5) == 23.0;
      assert h[2] == 3.0 && ExtUp(x, 16) == 1.0;
      assert UpTaps(x, h, 17, 0, 1, 5) == 26.0;
      assert h[0] == 1.0 && ExtUp(x, 17) == 2.0;
      assert UpTaps(x, h, 17, 0, 0, 5) == 28.0;
    }
  }

  lemma MirrorUpFixture3Output36(x: seq<real>, h: seq<real>)
    requires x == UpX3 && h == UpH3
    ensures UpAt(x, h, 36) == UpR3[36]
  {
    assert UpAt(x, h, 36) == 22.0 by {
      assert h[7] == 2.0 && ExtUp(x, 14) == 3.0;
      assert UpTaps(x, h, 17, 1, 3, 4) == 6.0;
      assert h[5] == 4.0 && ExtUp(x, 15) == 2.0;
      assert UpTaps(x, h, 17, 1, 2, 4) == 14.0;
      assert h[3] == 4.0 && ExtUp(x, 16) == 1.0;
      assert UpTaps(x, h, 17, 1, 1, 4) == 18.0;
      assert h[1] == 2.0 && ExtUp(x, 17) == 2.0;
      assert UpTaps(x, h, 17, 1, 0, 4) == 22.0;
    }
  }

  lemma MirrorUpFixture3Output37(x: seq<real>, h: seq<real>)
    requires x == UpX3 && h == UpH3
    ensures UpAt(x, h, 37) == UpR3[37]
  {
    assert UpAt(x, h, 37) == 23.0 by {
      assert UpTaps(x, h, 18, 0, 3, 5) == 9.0 by {
        assert h[8] == 1.0 && ExtUp(x, 14) == 3.0;
        assert UpTaps(x, h, 18, 0, 4, 5) == 3.0;
        assert h[6] == 3.0 && ExtUp(x, 15) == 2.0;
      }
      assert h[4] == 5.0 && ExtUp(x, 16) == 1.0;
      assert UpTaps(x, h, 18, 0, 2, 5) == 14.0;
      assert h[2] == 3.0 && ExtUp(x, 17) == 2.0;
      assert UpTaps(x, h, 18, 0, 1, 5) == 20.0;
      assert h[0] == 1.0 && ExtUp(x, 18) == 3.0;
      assert UpTaps(x, h, 18, 0, 0, 5) == 23.0;
    }
  }

  lemma MirrorUpFixture3Output38(x: seq<real>, h: seq<real>)
    requires x == UpX3 && h == UpH3
    ensures UpAt(x, h, 38) == UpR3[38]
  {
    assert UpAt(x, h, 38) == 22.0 by {
      assert h[7] == 2.0 && ExtUp(x, 15) == 2.0;
      assert UpTaps(x, h, 18, 1, 3, 4) == 4.0;
      assert h[5] == 4.0 && ExtUp(x, 16) == 1.0;
      assert UpTaps(x, h, 18, 1, 2, 4) == 8.0;
      assert h[3] == 4.0 && ExtUp(x, 17) == 2.0;
      assert UpTaps(x, h, 18, 1, 1, 4) == 16.0;
      assert h[1] == 2.0 && ExtUp(x, 18) == 3.0;
      assert UpTaps(x, h, 18, 1, 0, 4) == 22.0;
    }
  }

  lemma MirrorUpFixture3Output39(x: seq<real>, h: seq<real>)
    requires x == UpX3 && h == UpH3
    ensures UpAt(x, h, 39) == UpR3[39]
  {
    assert UpAt(x, h, 39) == 28.0 by {
      assert UpTaps(x, h, 19, 0, 3, 5) == 5.0 by {
        assert h[8] == 1.0 && ExtUp(x, 15) == 2.0;
        assert UpTaps(x, h, 19, 0, 4, 5) == 2.0;
        assert h[6] == 3.0 && ExtUp(x, 16) == 1.0;
      }
      assert h[4] == 5.0 && ExtUp(x, 17) == 2.0;
      assert UpTaps(x, h, 19, 0, 2, 5) == 15.0;
      assert h[2] == 3.0 && ExtUp(x, 18) == 3.0;
      assert UpTaps(x, h, 19, 0, 1, 5) == 24.0;
      assert h[0] == 1.0 && ExtUp(x, 19) == 4.0;
      assert UpTaps(x, h, 19, 0, 0, 5) == 28.0;
    }
  }

  lemma MirrorUpFixture3Output40(x: seq<real>, h: seq<real>)
    requires x == UpX3 && h == UpH3
    ensures UpAt(x, h, 40) == UpR3[40]
  {
    assert UpAt(x, h, 40) == 30.0 by {
      assert h[7] == 2.0 && ExtUp(x, 16) == 1.0;
      assert UpTaps(x, h, 19, 1, 3, 4) == 2.0;
      assert h[5] == 4.0 && ExtUp(x, 17) == 2.0;
      assert UpTaps(x, h, 19, 1, 2, 4) == 10.0;
      assert h[3] == 4.0 && ExtUp(x, 18) == 3.0;
      assert UpTaps(x, h, 19, 1, 1, 4) == 22.0;
      assert h[1] == 2.0 && ExtUp(x, 19) == 4.0;
      assert UpTaps(x, h, 19, 1, 0, 4) == 30.0;
    }
  }

  lemma MirrorUpFixture3Output41(x: seq<real>, h: seq<real>)
    requires x == UpX3 && h == UpH3
    ensures UpAt(x, h, 41) == UpR3[41]
  {
    assert UpAt(x, h, 41) == 39.0 by {
      assert UpTaps(x, h, 20, 0, 3, 5) == 7.0 by {
        assert h[8] == 1.0 && ExtUp(x, 16) == 1.0;
        assert UpTaps(x, h, 20, 0, 4, 5) == 1.0;
        assert h[6] == 3.0 && ExtUp(x, 17) == 2.0;
      }
      assert h[4] == 5.0 && ExtUp(x, 18) == 3.0;
      assert UpTaps(x, h, 20, 0, 2, 5) == 22.0;
      assert h[2] == 3.0 && ExtUp(x, 19) == 4.0;
      assert UpTaps(x, h, 20, 0, 1, 5) == 34.0;
      assert h[0] == 1.0 && ExtUp(x, 20) == 5.0;
      assert UpTaps(x, h, 20, 0, 0, 5) == 39.0;
    }
  }

  /** conv_mirrorUp (odd-length filter) on test vector 3: exactly 42 outputs, each one as expected. */
  lemma MirrorUpFixture3(x: seq<real>, h: seq<real>)
    requires x == UpX3 && h == UpH3
    ensures UpRef(x, h) == UpR3
  {
    forall k | 0 <= k < 42
      ensures UpRef(x, h)[k] == UpR3[k]
    {
      if k == 0 { MirrorUpFixture3Output0(x, h); }
      else if k == 1 { MirrorUpFixture3Output1(x, h); }
      else if k == 2 { MirrorUpFixture3Output2(x, h); }
      else if k == 3 { MirrorUpFixture3Output3(x, h); }
      else if k == 4 { MirrorUpFixture3Output4(x, h); }
      else if k == 5 { MirrorUpFixture3Output5(x, h); }
      else if k == 6 { MirrorUpFixture3Output6(x, h); }
      else if k == 7 { MirrorUpFixture3Output7(x, h); }
      else if k == 8 { MirrorUpFixture3Output8(x, h); }
      else if k == 9 { MirrorUpFixture3Output9(x, h); }
      else if k == 10 { MirrorUpFixture3Output10(x, h); }
      else if k == 11 { MirrorUpFixture3Output11(x, h); }
      else if k == 12 { MirrorUpFixture3Output12(x, h); }
      else if k == 13 { MirrorUpFixture3Output13(x, h); }
      else if k == 14 { MirrorUpFixture3Output14(x, h); }
      else if k == 15 { MirrorUpFixture3Output15(x, h); }
      else if k == 16 { MirrorUpFixture3Output16(x, h); }
      else if k == 17 { MirrorUpFixture3Output17(x, h); }
      else if k == 18 { MirrorUpFixture3Output18(x, h); }
      else if k == 19 { MirrorUpFixture3Output19(x, h); }
      else if k == 20 { MirrorUpFixture3Output20(x, h); }
      else if k == 21 { MirrorUpFixture3Output21(x, h); }
      else if k == 22 { MirrorUpFixture3Output22(x, h); }
      else if k == 23 { MirrorUpFixture3Output23(x, h); }
      else if k == 24 { MirrorUpFixture3Output24(x, h); }
      else if k == 25 { MirrorUpFixture3Output25(x, h); }
      else if k == 26 { MirrorUpFixture3Output26(x, h); }
      else if k == 27 { MirrorUpFixture3Output27(x, h); }
      else if k == 28 { MirrorUpFixture3Output28(x, h); }
      else if k == 29 { MirrorUpFixture3Output29(x, h); }
      else if k == 30 { MirrorUpFixture3Output30(x, h); }
      else if k == 31 { MirrorUpFixture3Output31(x, h); }
      else if k == 32 { MirrorUpFixture3Output32(x, h); }
      else if k == 33 { MirrorUpFixture3Output33(x, h); }
      else if k == 34 { MirrorUpFixture3Output34(x, h); }
      else if k == 35 { MirrorUpFixture3Output35(x, h); }
      else if k == 36 { MirrorUpFixture3Output36(x, h); }
      else if k == 37 { MirrorUpFixture3Output37(x, h); }
      else if k == 38 { MirrorUpFixture3Output38(x, h); }
      else if k == 39 { MirrorUpFixture3Output39(x, h); }
      else if k == 40 { MirrorUpFixture3Output40(x, h); }
      else if k == 41 { MirrorUpFixture3Output41(x, h); }
    }
  }

}

=== FILE: edf.dfy ===
/** The EDF file operations of src/xltek/edf.c: reading a file into
    memory, saving it back, converting the samples between the digital
    (short) and the physical (float, double) domains, and the difference
    of two channels.

    Floating-point parsing and printing are parameters: `atof` reads an
    8-character header field, `printf8` is what snprintf("%f") leaves in
    one, and `toFloat` is the rounding of a double to a float. */
module Edf {
  import opened Options
  import opened Matrices
  import opened EdfLayout

  /** The values of edf_numtype_t, plus any other value an enum parameter
      may carry. */
  datatype NumType = EdfInt | EdfFloat | EdfDouble | OtherType

  /** An EDF file in memory: the fixed 256-character header, the counts
      read from it, the per-signal fields, the storage order and the three
      sample arrays (only the short one always exists). */
  datatype EdfFile = EdfFile(
    top: string,
    numSignals: nat,
    numSamples: nat,
    fields: seq<seq<string>>,
    major: Major,
    iSamples: seq<int>,
    fSamples: Option<seq<real>>,
    dSamples: Option<seq<real>>)
  {
    predicate Valid()
    {
      |top| == TopSize && WellShaped(fields, numSignals)
      && |iSamples| == numSignals * numSamples
      && (fSamples.Some? ==> |fSamples.value| == numSignals * numSamples)
      && (dSamples.Some? ==> |dSamples.value| == numSignals * numSamples)
    }
  }

  /** The fixed header: version 8, patient 80, recording 80, start date 8,
      start time 8, header bytes 8, reserved 44, records 8, duration 8,
      number of signals 4. */
  const TopSize: nat := 256
  const NumSignalsAt: nat := 252

  // ---------------------------------------------------------------------------
  // edf_readFile and edf_saveToFile
  // ---------------------------------------------------------------------------

  /** The signal count: atoi of the last four characters of the fixed
      header. */
  function NumSignalsOf(top: string): int
    requires |top| == TopSize
  {
    Atoi(top[NumSignalsAt..TopSize])
  }

  /** The sample count: atoi at signal 0's samples-per-record field, which
      reads on through the rest of the block while it sees digits. */
  function NumSamplesOf(bottom: string, n: nat): int
    requires 1 <= n && |bottom| == n * BottomSize
  {
    FieldInside(SamplesField, n, 0);
    TimesIsProduct(n, BottomSize);
    Atoi(bottom[FieldStart(SamplesField, n, 0)..])
  }

  /** What edf_readFile needs of the file: at least one signal (it reads
      signal 0's sample count), a whole per-signal block, a non-negative
      sample count and the samples of one record. */
  predicate Readable(top: string, bottom: string, data: seq<int>)
  {
    |top| == TopSize && NumSignalsOf(top) >= 1
    && |bottom| == NumSignalsOf(top) * BottomSize
    && NumSamplesOf(bottom, NumSignalsOf(top)) >= 0
    && NumSignalsOf(top) * NumSamplesOf(bottom, NumSignalsOf(top)) <= |data|
  }

  /** edf_readFile: None when the file cannot be opened; otherwise the
      header, the field slices, and the first record's samples stored in
      the requested order; no physical samples yet. */
  function ReadFile(canOpen: bool, top: string, bottom: string, data: seq<int>, major: Major): (r: Option<EdfFile>)
    requires Readable(top, bottom, data)
    ensures r.Some? <==> canOpen
    ensures r.Some? ==> r.value.Valid() && r.value.top == top && r.value.major == major
    ensures r.Some? ==> r.value.numSignals == NumSignalsOf(top)
    ensures r.Some? ==> r.value.numSamples == NumSamplesOf(bottom, NumSignalsOf(top))
    ensures r.Some? ==> r.value.fields == ReadBottom(bottom, r.value.numSignals)
    ensures r.Some? ==> r.value.fSamples.None? && r.value.dSamples.None?
    ensures r.Some? ==> forall i, j :: 0 <= i < r.value.numSignals && 0 <= j < r.value.numSamples ==>
      Offset(r.value.numSamples, j, i) < |data|
      && r.value.iSamples[Index(major, r.value.numSignals, r.value.numSamples, i, j)]
         == data[Offset(r.value.numSamples, j, i)]
  {
    if !canOpen then None
    else
      var n: nat := NumSignalsOf(top);
      var ns: nat := NumSamplesOf(bottom, n);
      Some(EdfFile(top, n, ns, ReadBottom(bottom, n), major, ReadSamples(data, n, ns, major), None, None))
  }

  /** edf_saveToFile: 0 when the file cannot be created; otherwise 1, the
      header as written (fixed part, then each field for all signals) and
      the samples in file order. */
  function SaveFile(canOpen: bool, f: EdfFile): (r: (int, string, seq<int>))
    requires f.Valid()
    ensures !canOpen ==> r.0 == 0 && r.1 == [] && r.2 == []
    ensures canOpen ==> r.0 == 1 && |r.2| == f.numSignals * f.numSamples
    ensures canOpen ==> r.1 == f.top + WriteBottom(f.fields, f.numSignals, 10)
  {
    if !canOpen then (0, [], [])
    else (1, f.top + WriteBottom(f.fields, f.numSignals, 10), SaveSamples(f.iSamples, f.numSignals, f.numSamples, f.major))
  }

  /** Saving a file just read writes back its header and the samples of
      the record read, whatever the storage order. */
  lemma SaveAfterRead(top: string, bottom: string, data: seq<int>, major: Major)
    requires Readable(top, bottom, data)
    ensures var f := ReadFile(true, top, bottom, data, major).value;
      SaveFile(true, f) == (1, top + bottom, data[..f.numSignals * f.numSamples])
  {
    var f := ReadFile(true, top, bottom, data, major).value;
    BottomRoundTrip(bottom, f.numSignals);
    SamplesRoundTrip(data, f.numSignals, f.numSamples, major);
  }

  // ---------------------------------------------------------------------------
  // edf_convert
  // ---------------------------------------------------------------------------

  /** A value of the physical range as the loop computes it: it starts at
      +INFINITY (minimum) or -INFINITY (maximum). */
  datatype Extended = NegInf | Finite(value: real) | PosInf

  /** The running minimum over the first m samples of signal i. */
  function RunMin(src: seq<real>, n: nat, ns: nat, major: Major, i: nat, m: nat): (e: Extended)
    requires |src| == n * ns && i < n && m <= ns
    ensures m == 0 <==> e == PosInf
    ensures e != NegInf
  {
    if m == 0 then PosInf
    else
      var p := RunMin(src, n, ns, major, i, m - 1);
      var v := src[Index(major, n, ns, i, m - 1)];
      if p.PosInf? || v < p.value then Finite(v) else p
  }

  /** The running maximum over the first m samples of signal i. */
  function RunMax(src: seq<real>, n: nat, ns: nat, major: Major, i: nat, m: nat): (e: Extended)
    requires |src| == n * ns && i < n && m <= ns
    ensures m == 0 <==> e == NegInf
    ensures e != PosInf
  {
    if m == 0 then NegInf
    else
      var p := RunMax(src, n, ns, major, i, m - 1);
      var v := src[Index(major, n, ns, i, m - 1)];
      if p.NegInf? || v > p.value then Finite(v) else p
  }

  /** With at least one sample, the running minimum and maximum are the
      least and the greatest sample of the signal. */
  lemma {:induction false} RunRange(src: seq<real>, n: nat, ns: nat, major: Major, i: nat, m: nat)
    requires |src| == n * ns && i < n && 1 <= m <= ns
    ensures RunMin(src, n, ns, major, i, m).Finite? && RunMax(src, n, ns, major, i, m).Finite?
    ensures forall j :: 0 <= j < m ==>
      RunMin(src, n, ns, major, i, m).value <= src[Index(major, n, ns, i, j)] <= RunMax(src, n, ns, major, i, m).value
    ensures exists j :: 0 <= j < m && RunMin(src, n, ns, major, i, m).value == src[Index(major, n, ns, i, j)]
    ensures exists j :: 0 <= j < m && RunMax(src, n, ns, major, i, m).value == src[Index(major, n, ns, i, j)]
  {
    if m > 1 {
      RunRange(src, n, ns, major, i, m - 1);
      var lo := RunMin(src, n, ns, major, i, m - 1).value;
      var hi := RunMax(src, n, ns, major, i, m - 1).value;
      var j0 :| 0 <= j0 < m - 1 && lo == src[Index(major, n, ns, i, j0)];
      var j1 :| 0 <= j1 < m - 1 && hi == src[Index(major, n, ns, i, j1)];
      var v := src[Index(major, n, ns, i, m - 1)];
      if v < lo {
        assert RunMin(src, n, ns, major, i, m).value == src[Index(major, n, ns, i, m - 1)];
      } else {
        assert RunMin(src, n, ns, major, i, m).value == src[Index(major, n, ns, i, j0)];
      }
      if v > hi {
        assert RunMax(src, n, ns, major, i, m).value == src[Index(major, n, ns, i, m - 1)];
      } else {
        assert RunMax(src, n, ns, major, i, m).value == src[Index(major, n, ns, i, j1)];
      }
    } else {
      assert RunMin(src, n, ns, major, i, m).value == src[Index(major, n, ns, i, 0)];
      assert RunMax(src, n, ns, major, i, m).value == src[Index(major, n, ns, i, 0)];
    }
  }

  /** The map from one domain to the other: value * slope + intercept. */
  datatype Affine = Affine(slope: real, intercept: real)

  function Apply(a: Affine, x: real): real
  {
    a.slope * x + a.intercept
  }

  /** The digital-to-physical map of a signal: the line through
      (dmin, pmin) and (dmax, pmax). */
  function ToPhysical(dmin: int, dmax: int, pmin: real, pmax: real): (a: Affine)
    requires dmin != dmax
    ensures Apply(a, dmin as real) == pmin && Apply(a, dmax as real) == pmax
  {
    var slope := (pmax - pmin) / (dmax - dmin) as real;
    var a := Affine(slope, pmax - slope * dmax as real);
    assert slope * (dmax - dmin) as real == pmax - pmin;
    a
  }

  /** The physical-to-digital map: the line through (pmin, dmin) and
      (pmax, dmax). */
  function ToDigital(dmin: int, dmax: int, pmin: real, pmax: real): (a: Affine)
    requires pmin != pmax
    ensures Apply(a, pmin) == dmin as real && Apply(a, pmax) == dmax as real
  {
    var slope := (dmax - dmin) as real / (pmax - pmin);
    var a := Affine(slope, dmax as real - slope * pmax);
    assert slope * (pmax - pmin) == (dmax - dmin) as real;
    a
  }

  /** With the same header values the two maps undo each other. */
  lemma DigitalPhysicalInverse(dmin: int, dmax: int, pmin: real, pmax: real, x: real)
    requires dmin != dmax && pmin != pmax
    ensures Apply(ToDigital(dmin, dmax, pmin, pmax), Apply(ToPhysical(dmin, dmax, pmin, pmax), x)) == x
    ensures Apply(ToPhysical(dmin, dmax, pmin, pmax), Apply(ToDigital(dmin, dmax, pmin, pmax), x)) == x
  {
    var s := (pmax - pmin) / (dmax - dmin) as real;
    var t := (dmax - dmin) as real / (pmax - pmin);
    assert s * t == 1.0;
    var d := dmax as real;
    calc {
      Apply(ToDigital(dmin, dmax, pmin, pmax), Apply(ToPhysical(dmin, dmax, pmin, pmax), x));
      t * (s * x + (pmax - s * d)) + (d - t * pmax);
      (s * t) * x + t * pmax - (s * t) * d + d - t * pmax;
      x;
    }
    calc {
      Apply(ToPhysical(dmin, dmax, pmin, pmax), Apply(ToDigital(dmin, dmax, pmin, pmax), x));
      s * (t * x + (d - t * pmax)) + (pmax - s * d);
      (s * t) * x + s * d - (s * t) * pmax + pmax - s * d;
      x;
    }
  }

  /** The map edf_convert uses for a signal with the given header values:
      between the two physical types the identity, otherwise the line
      through the extremes. */
  function MapFor(from: NumType, to: NumType, dmin: int, dmax: int, pmin: real, pmax: real): Affine
    requires from == EdfInt ==> dmin != dmax
    requires from != EdfInt && to == EdfInt ==> pmin != pmax
  {
    if from == EdfInt then ToPhysical(dmin, dmax, pmin, pmax)
    else if to == EdfInt then ToDigital(dmin, dmax, pmin, pmax)
    else Affine(1.0, 0.0)
  }

  /** The 8 characters of a header field, as strncpy copies them. */
  function Field8(f: EdfFile, k: nat, i: nat): string
    requires f.Valid() && k < 10 && i < f.numSignals
  {
    f.fields[k][i][..Widths[k]]
  }

  /** The samples of a type, as doubles; None when they do not exist. */
  function Source(f: EdfFile, t: NumType): (s: Option<seq<real>>)
    requires f.Valid()
    ensures s.Some? ==> |s.value| == f.numSignals * f.numSamples
  {
    match t
    case EdfInt => Some(seq(|f.iSamples|, k requires 0 <= k < |f.iSamples| => f.iSamples[k] as real))
    case EdfFloat => f.fSamples
    case EdfDouble => f.dSamples
    case OtherType => None
  }

  /** The first pass of edf_convert from a physical type: each signal's
      extremes, printed into its physical minimum and maximum fields. */
  function Rerange(f: EdfFile, src: seq<real>, printf8: Extended -> string): (g: EdfFile)
    requires f.Valid() && |src| == f.numSignals * f.numSamples
    requires forall e :: |printf8(e)| == 8
    ensures g.Valid() && g == f.(fields := g.fields)
    ensures forall k :: 0 <= k < 10 && k != PhysMinField && k != PhysMaxField ==> g.fields[k] == f.fields[k]
    ensures forall i :: 0 <= i < f.numSignals ==>
      Field8(g, PhysMinField, i) == printf8(RunMin(src, f.numSignals, f.numSamples, f.major, i, f.numSamples))
      && Field8(g, PhysMaxField, i) == printf8(RunMax(src, f.numSignals, f.numSamples, f.major, i, f.numSamples))
  {
    var n := f.numSignals;
    var ns := f.numSamples;
    var mins := seq(n, i requires 0 <= i < n => printf8(RunMin(src, n, ns, f.major, i, ns)));
    var maxs := seq(n, i requires 0 <= i < n => printf8(RunMax(src, n, ns, f.major, i, ns)));
    assert Widths[PhysMinField] == 8 && Widths[PhysMaxField] == 8;
    forall i | 0 <= i < n
      ensures |mins[i]| == 8 && |maxs[i]| == 8
    {
      assert mins[i] == printf8(RunMin(src, n, ns, f.major, i, ns));
      assert maxs[i] == printf8(RunMax(src, n, ns, f.major, i, ns));
    }
    ReplaceField(f.fields, n, PhysMinField, mins);
    ReplaceField(f.fields[PhysMinField := mins], n, PhysMaxField, maxs);
    var g := f.(fields := f.fields[PhysMinField := mins][PhysMaxField := maxs]);
    assert forall i :: 0 <= i < n ==> Field8(g, PhysMinField, i) == mins[i] && Field8(g, PhysMaxField, i) == maxs[i];
    g
  }

  /** Replacing one field of every signal with strings at least as wide
      keeps the fields well shaped. */
  lemma ReplaceField(fields: seq<seq<string>>, n: nat, k: nat, col: seq<string>)
    requires WellShaped(fields, n) && k < 10 && |col| == n
    requires forall i :: 0 <= i < n ==> Widths[k] <= |col[i]|
    ensures WellShaped(fields[k := col], n)
  {
  }

  /** The header values of signal i the second pass reads. */
  function Extremes(f: EdfFile, atof: string -> real, i: nat): (int, int, real, real)
    requires f.Valid() && i < f.numSignals
  {
    (Atoi(Field8(f, DigMinField, i)), Atoi(Field8(f, DigMaxField, i)),
     atof(Field8(f, PhysMinField, i)), atof(Field8(f, PhysMaxField, i)))
  }

  /** No map edf_convert builds divides by zero. */
  predicate Nondegenerate(f: EdfFile, from: NumType, to: NumType, atof: string -> real)
    requires f.Valid()
  {
    forall i :: 0 <= i < f.numSignals ==>
      (from == EdfInt ==> Extremes(f, atof, i).0 != Extremes(f, atof, i).1)
      && (from != EdfInt && to == EdfInt ==> Extremes(f, atof, i).2 != Extremes(f, atof, i).3)
  }

  /** The map of signal i. */
  function SignalMap(f: EdfFile, from: NumType, to: NumType, atof: string -> real, i: nat): Affine
    requires f.Valid() && i < f.numSignals && Nondegenerate(f, from, to, atof)
  {
    var e := Extremes(f, atof, i);
    MapFor(from, to, e.0, e.1, e.2, e.3)
  }

  /** (short) of a double: truncation toward zero. */
  function Trunc(x: real): (t: int)
    ensures x >= 0.0 ==> t as real <= x < t as real + 1.0
    ensures x < 0.0 ==> t as real - 1.0 < x <= t as real
  {
    if x >= 0.0 then x.Floor else -((-x).Floor)
  }

  /** The file the convert pass is applied to: ranges recomputed first
      when converting from a physical type. */
  function Prepared(f: EdfFile, from: NumType, src: seq<real>, printf8: Extended -> string): (g: EdfFile)
    requires f.Valid() && |src| == f.numSignals * f.numSamples
    requires forall e :: |printf8(e)| == 8
    ensures g.Valid() && g.numSignals == f.numSignals && g.numSamples == f.numSamples && g.major == f.major
  {
    if from == EdfInt then f else Rerange(f, src, printf8)
  }

  /** Whether edf_convert does anything: both types valid, the source
      samples present and the types different. */
  predicate Converts(f: EdfFile, from: NumType, to: NumType)
    requires f.Valid()
  {
    from != OtherType && to != OtherType && Source(f, from).Some? && from != to
  }

  /** edf_convert: nothing happens for an invalid type, missing source
      samples or equal types. Otherwise the target array is replaced by
      the source mapped signal by signal through the map of its header
      values (after the physical ranges are recomputed when converting
      from a physical type), cast to the target type. */
  function Convert(f: EdfFile, from: NumType, to: NumType,
                   atof: string -> real, printf8: Extended -> string, toFloat: real -> real): (r: EdfFile)
    requires f.Valid() && forall e :: |printf8(e)| == 8
    requires Converts(f, from, to) ==>
      Nondegenerate(Prepared(f, from, Source(f, from).value, printf8), from, to, atof)
    ensures r.Valid()
    ensures !Converts(f, from, to) ==> r == f
    ensures Converts(f, from, to) ==> r.top == f.top && r.major == f.major
    ensures Converts(f, from, to) ==> r.numSignals == f.numSignals && r.numSamples == f.numSamples
    ensures Converts(f, from, to) && from == EdfInt ==> r.fields == f.fields
    ensures Converts(f, from, to) ==>
      (to != EdfInt ==> r.iSamples == f.iSamples)
      && (to != EdfFloat ==> r.fSamples == f.fSamples)
      && (to != EdfDouble ==> r.dSamples == f.dSamples)
    ensures Converts(f, from, to) ==>
      var g := Prepared(f, from, Source(f, from).value, printf8);
      forall i, j :: 0 <= i < f.numSignals && 0 <= j < f.numSamples ==>
        var k := Index(f.major, f.numSignals, f.numSamples, i, j);
        var v := Apply(SignalMap(g, from, to, atof, i), Source(f, from).value[k]);
        (to == EdfInt ==> r.iSamples[k] == Trunc(v))
        && (to == EdfFloat ==> r.fSamples.Some? && r.fSamples.value[k] == toFloat(v))
        && (to == EdfDouble ==> r.dSamples.Some? && r.dSamples.value[k] == v)
  {
    if !Converts(f, from, to) then f
    else
      var src := Source(f, from).value;
      var g := Prepared(f, from, src, printf8);
      var n := f.numSignals;
      var ns := f.numSamples;
      var vals := seq(n * ns, k requires 0 <= k < n * ns =>
        Apply(SignalMap(g, from, to, atof, SignalOf(f.major, n, ns, k)), src[k]));
      var r :=
        if to == EdfInt then g.(iSamples := seq(n * ns, k requires 0 <= k < n * ns => Trunc(vals[k])))
        else if to == EdfFloat then g.(fSamples := Some(seq(n * ns, k requires 0 <= k < n * ns => toFloat(vals[k]))))
        else g.(dSamples := Some(vals));
      forall i, j | 0 <= i < n && 0 <= j < ns
        ensures vals[Index(f.major, n, ns, i, j)] == Apply(SignalMap(g, from, to, atof, i), src[Index(f.major, n, ns, i, j)])
      {
        IndexEncode(f.major, n, ns, i, j);
      }
      r
  }

  /** Converting digital samples to doubles puts each signal's digital
      minimum and maximum on its physical minimum and maximum. */
  lemma ConvertHitsRange(f: EdfFile, atof: string -> real, printf8: Extended -> string, toFloat: real -> real,
                         i: nat, j: nat)
    requires f.Valid() && forall e :: |printf8(e)| == 8
    requires f.dSamples.None? && Nondegenerate(f, EdfInt, EdfDouble, atof)
    requires i < f.numSignals && j < f.numSamples
    ensures var k := Index(f.major, f.numSignals, f.numSamples, i, j);
      var e := Extremes(f, atof, i);
      var r := Convert(f, EdfInt, EdfDouble, atof, printf8, toFloat);
      (f.iSamples[k] == e.0 ==> r.dSamples.value[k] == e.2)
      && (f.iSamples[k] == e.1 ==> r.dSamples.value[k] == e.3)
  {
  }

  // ---------------------------------------------------------------------------
  // edf_diffChannels
  // ---------------------------------------------------------------------------

  /** strncmp(s, label, |s|) == 0: the label starts with s. */
  predicate HasPrefix(name: string, s: string)
  {
    |s| <= |name| && name[..|s|] == s
  }

  /** The search loop from signal i on, with the channels found so far
      (-1 for none): a label matching `left` sets the left channel, one
      matching `right` but not `left` the right channel, and the loop
      stops once both are set. */
  function FindFrom(labels: seq<string>, left: string, right: string, i: nat, l: int, r: int): (p: (int, int))
    requires i <= |labels| && -1 <= l < i && -1 <= r < i
    ensures -1 <= p.0 < |labels| && -1 <= p.1 < |labels|
    decreases |labels| - i
  {
    if i == |labels| then (l, r)
    else
      var l' := if HasPrefix(labels[i], left) then i else l;
      var r' := if !HasPrefix(labels[i], left) && HasPrefix(labels[i], right) then i else r;
      if l' != -1 && r' != -1 then (l', r') else FindFrom(labels, left, right, i + 1, l', r')
  }

  predicate MatchesLeft(labels: seq<string>, left: string, i: int)
  {
    0 <= i < |labels| && HasPrefix(labels[i], left)
  }

  predicate MatchesRight(labels: seq<string>, left: string, right: string, i: int)
  {
    0 <= i < |labels| && !HasPrefix(labels[i], left) && HasPrefix(labels[i], right)
  }

  /** What the search returns: each channel found matches, and a channel
      stays unfound only when no label from there on matches it. */
  lemma {:induction false} FindFromFacts(labels: seq<string>, left: string, right: string, i: nat, l: int, r: int)
    requires i <= |labels| && -1 <= l < i && -1 <= r < i
    requires l != -1 ==> MatchesLeft(labels, left, l)
    requires r != -1 ==> MatchesRight(labels, left, right, r)
    requires !(l != -1 && r != -1)
    ensures var p := FindFrom(labels, left, right, i, l, r);
      (p.0 != -1 ==> MatchesLeft(labels, left, p.0))
      && (p.1 != -1 ==> MatchesRight(labels, left, right, p.1))
      && (p.0 == -1 <==> l == -1 && forall m :: i <= m < |labels| ==> !MatchesLeft(labels, left, m))
      && (p.1 == -1 <==> r == -1 && forall m :: i <= m < |labels| ==> !MatchesRight(labels, left, right, m))
    decreases |labels| - i
  {
    if i < |labels| {
      var l' := if HasPrefix(labels[i], left) then i else l;
      var r' := if !HasPrefix(labels[i], left) && HasPrefix(labels[i], right) then i else r;
      if !(l' != -1 && r' != -1) {
        FindFromFacts(labels, left, right, i + 1, l', r');
        assert (forall m :: i <= m < |labels| ==> !MatchesLeft(labels, left, m))
          <==> !MatchesLeft(labels, left, i) && forall m :: i + 1 <= m < |labels| ==> !MatchesLeft(labels, left, m);
        assert (forall m :: i <= m < |labels| ==> !MatchesRight(labels, left, right, m))
          <==> !MatchesRight(labels, left, right, i) && forall m :: i + 1 <= m < |labels| ==> !MatchesRight(labels, left, right, m);
      } else {
        if l == -1 {
          assert MatchesLeft(labels, left, i);
        }
        if r == -1 {
          assert MatchesRight(labels, left, right, i);
        }
      }
    }
  }

  /** Both channels are found iff some label matches `left` and some
      label matches `right` without matching `left`; the two differ. */
  lemma FindChannels(labels: seq<string>, left: string, right: string)
    ensures var p := FindFrom(labels, left, right, 0, -1, -1);
      (p.0 != -1 && p.1 != -1 <==>
        (exists m :: MatchesLeft(labels, left, m)) && (exists m :: MatchesRight(labels, left, right, m)))
      && (p.0 != -1 ==> MatchesLeft(labels, left, p.0))
      && (p.1 != -1 ==> MatchesRight(labels, left, right, p.1))
      && (p.0 != -1 && p.1 != -1 ==> p.0 != p.1)
  {
    FindFromFacts(labels, left, right, 0, -1, -1);
  }

  /** The difference array, typed as the diff pointer is read. */
  datatype Diff = NoDiff | IntDiff(shorts: seq<int>) | FloatDiff(floats: seq<real>) | DoubleDiff(doubles: seq<real>)

  /** An int stored into a short: the low 16 bits, read as signed. */
  function Wrap16(x: int): (s: int)
    ensures -0x8000 <= s < 0x8000 && (s - x) % 0x1_0000 == 0
  {
    var m := x % 0x1_0000;
    if m < 0x8000 then m else m - 0x1_0000
  }

  /** edf_diffChannels converts only when the requested float or double
      samples are missing. */
  predicate NeedsConvert(f: EdfFile, t: NumType)
  {
    (t == EdfDouble && f.dSamples.None?) || (t == EdfFloat && f.fSamples.None?)
  }

  /** The file after the conversion edf_diffChannels may start: float or
      double samples are computed from the shorts when they are missing. */
  function Ready(f: EdfFile, t: NumType, atof: string -> real, printf8: Extended -> string, toFloat: real -> real): (g: EdfFile)
    requires f.Valid() && forall e :: |printf8(e)| == 8
    requires NeedsConvert(f, t) ==> Nondegenerate(f, EdfInt, t, atof)
    ensures g.Valid() && g.numSignals == f.numSignals && g.numSamples == f.numSamples && g.major == f.major
    ensures g.iSamples == f.iSamples && g.fields == f.fields
    ensures t == EdfFloat ==> g.fSamples.Some?
    ensures t == EdfDouble ==> g.dSamples.Some?
    ensures !NeedsConvert(f, t) ==> g == f
  {
    if NeedsConvert(f, t) then
      Convert(f, EdfInt, t, atof, printf8, toFloat)
    else f
  }

  /** Both names have 1 to 8 characters and both channels are found. */
  predicate Finds(f: EdfFile, left: string, right: string)
    requires f.Valid()
  {
    1 <= |left| <= 8 && 1 <= |right| <= 8
    && FindFrom(f.fields[LabelField], left, right, 0, -1, -1).0 != -1
    && FindFrom(f.fields[LabelField], left, right, 0, -1, -1).1 != -1
  }

  /** left minus right for every sample of channels a and b, in type t:
      shorts wrap, floats are rounded, doubles are exact. */
  function DiffOf(g: EdfFile, t: NumType, a: nat, b: nat, toFloat: real -> real): (d: Diff)
    requires g.Valid() && a < g.numSignals && b < g.numSignals
    requires t == EdfFloat ==> g.fSamples.Some?
    requires t == EdfDouble ==> g.dSamples.Some?
    ensures t == OtherType <==> d == NoDiff
    ensures forall i :: 0 <= i < g.numSamples ==>
      var ai := Index(g.major, g.numSignals, g.numSamples, a, i);
      var bi := Index(g.major, g.numSignals, g.numSamples, b, i);
      (t == EdfInt ==> d.IntDiff? && |d.shorts| == g.numSamples && d.shorts[i] == Wrap16(g.iSamples[ai] - g.iSamples[bi]))
      && (t == EdfFloat ==> (d.FloatDiff? && |d.floats| == g.numSamples
                              && d.floats[i] == toFloat(g.fSamples.value[ai] - g.fSamples.value[bi])))
      && (t == EdfDouble ==> (d.DoubleDiff? && |d.doubles| == g.numSamples
                               && d.doubles[i] == g.dSamples.value[ai] - g.dSamples.value[bi]))
  {
    var n := g.numSignals;
    var ns := g.numSamples;
    match t
    case EdfInt => IntDiff(seq(ns, i requires 0 <= i < ns =>
        Wrap16(g.iSamples[Index(g.major, n, ns, a, i)] - g.iSamples[Index(g.major, n, ns, b, i)])))
    case EdfFloat => FloatDiff(seq(ns, i requires 0 <= i < ns =>
        toFloat(g.fSamples.value[Index(g.major, n, ns, a, i)] - g.fSamples.value[Index(g.major, n, ns, b, i)])))
    case EdfDouble => DoubleDiff(seq(ns, i requires 0 <= i < ns =>
        g.dSamples.value[Index(g.major, n, ns, a, i)] - g.dSamples.value[Index(g.major, n, ns, b, i)]))
    case OtherType => NoDiff
  }

  /** edf_diffChannels: 0 when a name is empty or longer than 8
      characters or when either channel is not found; otherwise 1, two
      different channels, and their difference in the requested type
      (nothing is written for a type outside the enum) over the file as
      converted for that type. The conversion, the only division, runs
      only when both channels are found and the samples of that type are
      missing, so only then are the extremes required to differ. */
  function DiffChannels(f: EdfFile, left: string, right: string, t: NumType,
                        atof: string -> real, printf8: Extended -> string, toFloat: real -> real): (r: (int, Diff, EdfFile))
    requires f.Valid() && forall e :: |printf8(e)| == 8
    requires Finds(f, left, right) && NeedsConvert(f, t) ==> Nondegenerate(f, EdfInt, t, atof)
    ensures r.0 == 0 <==> (!(1 <= |left| <= 8 && 1 <= |right| <= 8)
                          || FindFrom(f.fields[LabelField], left, right, 0, -1, -1).0 == -1
                          || FindFrom(f.fields[LabelField], left, right, 0, -1, -1).1 == -1)
    ensures r.0 != 0 && !NeedsConvert(f, t) ==> r.2 == f
    ensures r.0 == 0 ==> r.1 == NoDiff && r.2 == f
    ensures r.0 != 0 ==> r.0 == 1 && r.2 == Ready(f, t, atof, printf8, toFloat)
    ensures r.0 != 0 ==>
      var p := FindFrom(f.fields[LabelField], left, right, 0, -1, -1);
      0 <= p.0 < f.numSignals && 0 <= p.1 < f.numSignals && p.0 != p.1
      && r.1 == DiffOf(r.2, t, p.0, p.1, toFloat)
  {
    if !(1 <= |left| <= 8 && 1 <= |right| <= 8) then (0, NoDiff, f)
    else
      var labels := f.fields[LabelField];
      var p := FindFrom(labels, left, right, 0, -1, -1);
      if p.0 == -1 || p.1 == -1 then (0, NoDiff, f)
      else
        FindChannels(labels, left, right);
        var g := Ready(f, t, atof, printf8, toFloat);
        (1, DiffOf(g, t, p.0, p.1, toFloat), g)
  }
}

=== FILE: edf_layout.dfy ===
/** Where things live in an EDF file and in memory (src/xltek/edf.c): the
    per-signal part of the header, the order of the sample data, and the
    atoi the reader applies to the header's ASCII numbers.

    The per-signal header is ten fields, each stored for all n signals
    before the next field starts: n labels of 16 characters, then n
    transducer names of 80, and so on. The sample data of one record is
    signal after signal, each with the same number of samples. */
module EdfLayout {
  import opened Matrices

  // ---------------------------------------------------------------------------
  // The per-signal header block
  // ---------------------------------------------------------------------------

  /** Character widths of the ten per-signal fields, in file order: label,
      transducer, physical dimension, physical minimum, physical maximum,
      digital minimum, digital maximum, prefilter, samples per record,
      reserved. */
  const Widths: seq<nat> := [16, 80, 8, 8, 8, 8, 8, 80, 8, 32]

  const LabelField: nat := 0
  const PhysMinField: nat := 3
  const PhysMaxField: nat := 4
  const DigMinField: nat := 5
  const DigMaxField: nat := 6
  const SamplesField: nat := 8

  /** Characters of one signal's fields before field k. */
  function Base(k: nat): (b: nat)
    requires k <= 10
  {
    if k == 0 then 0 else Base(k - 1) + Widths[k - 1]
  }

  /** The block holds 256 characters per signal, as the reader's
      bottom_size says. */
  const BottomSize: nat := 256

  /** The multipliers of num_signals in the reader's pointer arithmetic are
      the widths of the fields before each one, and the block ends at
      BottomSize per signal. */
  lemma BaseValues()
    ensures Base(0) == 0 && Base(1) == 16 && Base(2) == 96 && Base(3) == 104 && Base(4) == 112
    ensures Base(5) == 120 && Base(6) == 128 && Base(7) == 136 && Base(8) == 216 && Base(9) == 224
    ensures Base(10) == BottomSize
  {
  }

  /** a copies of w laid end to end: a * w, written so that the layout
      proofs below stay within linear arithmetic. */
  function Times(a: nat, w: nat): nat
  {
    if a == 0 then 0 else Times(a - 1, w) + w
  }

  lemma {:induction false} TimesIsProduct(a: nat, w: nat)
    ensures Times(a, w) == a * w
  {
    if a > 0 {
      TimesIsProduct(a - 1, w);
    }
  }

  lemma {:induction false} TimesZero(n: nat)
    ensures Times(n, 0) == 0
  {
    if n > 0 {
      TimesZero(n - 1);
    }
  }

  lemma {:induction false} TimesMonotone(a: nat, b: nat, w: nat)
    requires a <= b
    ensures Times(a, w) <= Times(b, w)
    decreases b - a
  {
    if a < b {
      TimesMonotone(a, b - 1, w);
    }
  }

  /** n copies of u + v are n copies of u and n copies of v. */
  lemma {:induction false} TimesAdd(n: nat, u: nat, v: nat)
    ensures Times(n, u + v) == Times(n, u) + Times(n, v)
  {
    if n > 0 {
      TimesAdd(n - 1, u, v);
    }
  }

  /** Where field k of signal i starts in the block: i * width + n * base,
      the expression edf_readFile assigns to the field's pointer. */
  function FieldStart(k: nat, n: nat, i: nat): (p: nat)
    requires k < 10
    ensures p == i * Widths[k] + n * Base(k)
  {
    TimesIsProduct(i, Widths[k]);
    TimesIsProduct(n, Base(k));
    Times(i, Widths[k]) + Times(n, Base(k))
  }

  /** Field k fills n * Base(k) up to n * Base(k + 1), and the last field
      ends at the end of the block. */
  lemma StretchInside(k: nat, n: nat)
    requires k < 10
    ensures Times(n, Base(k)) + Times(n, Widths[k]) == Times(n, Base(k + 1)) <= Times(n, BottomSize)
  {
    TimesAdd(n, Base(k), Widths[k]);
    BaseMonotone(k + 1, 10);
    TimesMonotone2(n, Base(k + 1), Base(10));
  }

  lemma {:induction false} TimesMonotone2(n: nat, u: nat, v: nat)
    requires u <= v
    ensures Times(n, u) <= Times(n, v)
  {
    if n > 0 {
      TimesMonotone2(n - 1, u, v);
    }
  }

  /** Field k of signal i lies in the stretch of field k, inside the block. */
  lemma FieldInside(k: nat, n: nat, i: nat)
    requires k < 10 && i < n
    ensures Times(n, Base(k)) <= FieldStart(k, n, i)
    ensures FieldStart(k, n, i) + Widths[k] <= Times(n, Base(k + 1)) <= Times(n, BottomSize)
  {
    TimesMonotone(i + 1, n, Widths[k]);
    StretchInside(k, n);
  }

  lemma {:induction false} BaseMonotone(k: nat, l: nat)
    requires k <= l <= 10
    ensures Base(k) <= Base(l)
    decreases l - k
  {
    if k < l {
      BaseMonotone(k, l - 1);
    }
  }

  /** The field pointers edf_readFile sets up: field k of signal i is the
      slice of the block at FieldStart. */
  function ReadBottom(bottom: seq<char>, n: nat): (fields: seq<seq<string>>)
    requires |bottom| == n * BottomSize
    ensures WellShaped(fields, n)
    ensures forall k, i :: 0 <= k < 10 && 0 <= i < n ==> |fields[k][i]| == Widths[k]
    ensures SlicesOf(fields, bottom, n)
  {
    TimesIsProduct(n, BottomSize);
    var fields := seq(10, k requires 0 <= k < 10 =>
      seq(n, i requires 0 <= i < n =>
        FieldInside(k, n, i);
        bottom[FieldStart(k, n, i)..FieldStart(k, n, i) + Widths[k]]));
    forall k, i | 0 <= k < 10 && 0 <= i < n
      ensures FieldStart(k, n, i) + Widths[k] <= |bottom|
      ensures |fields[k][i]| == Widths[k]
      ensures fields[k][i][..Widths[k]] == bottom[FieldStart(k, n, i)..FieldStart(k, n, i) + Widths[k]]
    {
      FieldInside(k, n, i);
    }
    fields
  }

  /** Every field has the width the header format gives it. */
  predicate WellShaped(fields: seq<seq<string>>, n: nat)
  {
    |fields| == 10
    && (forall k :: 0 <= k < 10 ==> |fields[k]| == n)
    && (forall k, i :: 0 <= k < 10 && 0 <= i < n ==> Widths[k] <= |fields[k][i]|)
  }

  /** The fields are the slices of the block that edf_readFile points
      them at. */
  predicate SlicesOf(fields: seq<seq<string>>, bottom: seq<char>, n: nat)
    requires WellShaped(fields, n)
  {
    forall k, i :: 0 <= k < 10 && 0 <= i < n ==>
      FieldStart(k, n, i) + Widths[k] <= |bottom|
      && fields[k][i][..Widths[k]] == bottom[FieldStart(k, n, i)..FieldStart(k, n, i) + Widths[k]]
  }

  /** What the WRITE loop of edf_saveToFile emits for field k: width
      characters from each of the first m signals' pointers. */
  function WriteField(fields: seq<seq<string>>, n: nat, k: nat, m: nat): (s: seq<char>)
    requires WellShaped(fields, n) && k < 10 && m <= n
    ensures |s| == Times(m, Widths[k])
  {
    if m == 0 then [] else WriteField(fields, n, k, m - 1) + fields[k][m - 1][..Widths[k]]
  }

  /** The first k WRITE loops of edf_saveToFile, one field after another. */
  function WriteBottom(fields: seq<seq<string>>, n: nat, k: nat): (s: seq<char>)
    requires WellShaped(fields, n) && k <= 10
    ensures |s| == Times(n, Base(k))
  {
    if k == 0 then TimesZero(n); []
    else
      TimesAdd(n, Base(k - 1), Widths[k - 1]);
      WriteBottom(fields, n, k - 1) + WriteField(fields, n, k - 1, n)
  }

  lemma SliceSplit(b: seq<char>, lo: nat, mid: nat, hi: nat)
    requires lo <= mid <= hi <= |b|
    ensures b[lo..hi] == b[lo..mid] + b[mid..hi]
  {
  }

  /** Writing field k of the first m signals reproduces that stretch of
      the block they were read from. */
  lemma {:induction false} WriteFieldOfSlices(fields: seq<seq<string>>, bottom: seq<char>, n: nat, k: nat, m: nat)
    requires WellShaped(fields, n) && SlicesOf(fields, bottom, n) && Times(n, BottomSize) == |bottom|
    requires k < 10 && m <= n
    ensures Times(n, Base(k)) + Times(m, Widths[k]) <= |bottom|
    ensures WriteField(fields, n, k, m) == bottom[Times(n, Base(k))..Times(n, Base(k)) + Times(m, Widths[k])]
  {
    var s := Times(n, Base(k));
    StretchInside(k, n);
    TimesMonotone(m, n, Widths[k]);
    if m > 0 {
      WriteFieldOfSlices(fields, bottom, n, k, m - 1);
      var mid := s + Times(m - 1, Widths[k]);
      assert FieldStart(k, n, m - 1) == mid;
      SliceSplit(bottom, s, mid, mid + Widths[k]);
    }
  }

  /** The first k fields written, from slices of the block, are the block's
      first n * Base(k) characters. */
  lemma {:induction false} WriteBottomOfSlices(fields: seq<seq<string>>, bottom: seq<char>, n: nat, k: nat)
    requires WellShaped(fields, n) && SlicesOf(fields, bottom, n) && Times(n, BottomSize) == |bottom|
    requires k <= 10
    ensures Times(n, Base(k)) <= |bottom|
    ensures WriteBottom(fields, n, k) == bottom[..Times(n, Base(k))]
  {
    if k == 0 {
      TimesZero(n);
    } else {
      StretchInside(k - 1, n);
      BaseMonotone(k, 10);
      TimesMonotone2(n, Base(k), Base(10));
      WriteBottomOfSlices(fields, bottom, n, k - 1);
      WriteFieldOfSlices(fields, bottom, n, k - 1, n);
      SliceSplit(bottom, 0, Times(n, Base(k - 1)), Times(n, Base(k)));
    }
  }

  /** edf_saveToFile writes the per-signal block back exactly as
      edf_readFile read it. */
  lemma BottomRoundTrip(bottom: seq<char>, n: nat)
    requires |bottom| == n * BottomSize
    ensures WellShaped(ReadBottom(bottom, n), n)
    ensures WriteBottom(ReadBottom(bottom, n), n, 10) == bottom
  {
    TimesIsProduct(n, BottomSize);
    WriteBottomOfSlices(ReadBottom(bottom, n), bottom, n, 10);
  }

  // ---------------------------------------------------------------------------
  // Storage order of the samples
  // ---------------------------------------------------------------------------

  /** How the samples are laid out in memory: row major keeps each
      signal's samples together (the file's own order), column major keeps
      each instant's samples of all signals together. */
  datatype Major = RowMajor | ColMajor

  /** Where sample j of signal i lives in memory: i * ns + j in row major,
      j * nsig + i in column major. */
  function Index(major: Major, nsig: nat, ns: nat, i: nat, j: nat): (k: nat)
    requires i < nsig && j < ns
    ensures k < nsig * ns
  {
    match major
    case RowMajor => OffsetBelow(ns, nsig, j, i); Offset(ns, j, i)
    case ColMajor => OffsetBelow(nsig, ns, i, j); assert ns * nsig == nsig * ns; Offset(nsig, i, j)
  }

  /** The signal stored at memory position k. */
  function SignalOf(major: Major, nsig: nat, ns: nat, k: nat): (i: nat)
    requires k < nsig * ns
    ensures i < nsig
  {
    match major
    case RowMajor => DivBelow(k, nsig, ns); k / ns
    case ColMajor => k % nsig
  }

  /** The sample stored at memory position k. */
  function SampleOf(major: Major, nsig: nat, ns: nat, k: nat): (j: nat)
    requires k < nsig * ns
    ensures j < ns
  {
    match major
    case RowMajor => k % ns
    case ColMajor => assert k < ns * nsig; DivBelow(k, ns, nsig); k / nsig
  }

  /** k < a * b gives k / b < a (and b > 0). */
  lemma DivBelow(k: nat, a: nat, b: nat)
    requires k < a * b
    ensures b > 0 && k / b < a
  {
    if b == 0 {
      assert false;
    } else if k / b >= a {
      MulLeq(a, k / b, b);
      assert false;
    }
  }

  /** Index and (SignalOf, SampleOf) are inverse: each (signal, sample)
      pair has one memory position and each position one pair. */
  lemma IndexDecode(major: Major, nsig: nat, ns: nat, k: nat)
    requires k < nsig * ns
    ensures Index(major, nsig, ns, SignalOf(major, nsig, ns, k), SampleOf(major, nsig, ns, k)) == k
  {
    match major
    case RowMajor =>
      DivBelow(k, nsig, ns);
    case ColMajor =>
      assert k < ns * nsig;
      DivBelow(k, ns, nsig);
  }

  lemma IndexEncode(major: Major, nsig: nat, ns: nat, i: nat, j: nat)
    requires i < nsig && j < ns
    ensures SignalOf(major, nsig, ns, Index(major, nsig, ns, i, j)) == i
    ensures SampleOf(major, nsig, ns, Index(major, nsig, ns, i, j)) == j
  {
  }

  /** The sample reads of edf_readFile: the file gives sample j of signal
      i at position i * ns + j, and it goes to Index(i, j). Row major is a
      plain copy; column major scatters one sample at a time. */
  function ReadSamples(data: seq<int>, nsig: nat, ns: nat, major: Major): (mem: seq<int>)
    requires nsig * ns <= |data|
    ensures |mem| == nsig * ns
    ensures forall i, j :: 0 <= i < nsig && 0 <= j < ns ==>
      Offset(ns, j, i) < |data| && mem[Index(major, nsig, ns, i, j)] == data[Offset(ns, j, i)]
  {
    var mem := seq(nsig * ns, k requires 0 <= k < nsig * ns =>
      var i := SignalOf(major, nsig, ns, k);
      var j := SampleOf(major, nsig, ns, k);
      OffsetBelow(ns, nsig, j, i);
      data[Offset(ns, j, i)]);
    forall i, j | 0 <= i < nsig && 0 <= j < ns
      ensures Offset(ns, j, i) < |data| && mem[Index(major, nsig, ns, i, j)] == data[Offset(ns, j, i)]
    {
      OffsetBelow(ns, nsig, j, i);
      IndexEncode(major, nsig, ns, i, j);
    }
    mem
  }

  /** The sample writes of edf_saveToFile: the t-th sample written is
      sample t % ns of signal t / ns, taken from its memory position. */
  function SaveSamples(mem: seq<int>, nsig: nat, ns: nat, major: Major): (data: seq<int>)
    requires |mem| == nsig * ns
    ensures |data| == nsig * ns
  {
    seq(nsig * ns, t requires 0 <= t < nsig * ns =>
      DivBelow(t, nsig, ns);
      mem[Index(major, nsig, ns, t / ns, t % ns)])
  }

  /** Saving what was read gives back the file's samples. */
  lemma SamplesRoundTrip(data: seq<int>, nsig: nat, ns: nat, major: Major)
    requires nsig * ns <= |data|
    ensures SaveSamples(ReadSamples(data, nsig, ns, major), nsig, ns, major) == data[..nsig * ns]
  {
    var out := SaveSamples(ReadSamples(data, nsig, ns, major), nsig, ns, major);
    forall t | 0 <= t < nsig * ns
      ensures out[t] == data[t]
    {
      SampleRoundTrip(data, nsig, ns, major, t);
    }
  }

  /** Position t of the saved file is position t of the file read. */
  lemma SampleRoundTrip(data: seq<int>, nsig: nat, ns: nat, major: Major, t: nat)
    requires nsig * ns <= |data| && t < nsig * ns
    ensures SaveSamples(ReadSamples(data, nsig, ns, major), nsig, ns, major)[t] == data[t]
  {
    DivBelow(t, nsig, ns);
    var i, j := t / ns, t % ns;
    assert Offset(ns, j, i) == t;
    assert ReadSamples(data, nsig, ns, major)[Index(major, nsig, ns, i, j)] == data[Offset(ns, j, i)];
  }

  /** Reading what was saved gives back the memory, whichever the order. */
  lemma SamplesRoundTripBack(mem: seq<int>, nsig: nat, ns: nat, major: Major)
    requires |mem| == nsig * ns
    ensures ReadSamples(SaveSamples(mem, nsig, ns, major), nsig, ns, major) == mem
  {
    var back := ReadSamples(SaveSamples(mem, nsig, ns, major), nsig, ns, major);
    forall k | 0 <= k < nsig * ns
      ensures back[k] == mem[k]
    {
      var i := SignalOf(major, nsig, ns, k);
      var j := SampleOf(major, nsig, ns, k);
      IndexDecode(major, nsig, ns, k);
      OffsetBelow(ns, nsig, j, i);
    }
  }

  // ---------------------------------------------------------------------------
  // atoi on a header field
  // ---------------------------------------------------------------------------

  /** The characters isspace accepts in the C locale. */
  predicate IsSpace(c: char)
  {
    c == ' ' || '\t' <= c <= '\r'
  }

  predicate IsDigit(c: char)
  {
    '0' <= c <= '9'
  }

  /** Folds the leading digits of s into acc, stopping at the first other
      character. */
  function Digits(s: string, acc: int): int
  {
    if |s| == 0 || !IsDigit(s[0]) then acc
    else Digits(s[1..], 10 * acc + (s[0] as int - '0' as int))
  }

  /** atoi: skips leading white space, takes one optional sign, then the
      decimal digits that follow; 0 when there are none. */
  function Atoi(s: string): int
  {
    if |s| > 0 && IsSpace(s[0]) then Atoi(s[1..])
    else if |s| > 0 && s[0] == '-' then -Digits(s[1..], 0)
    else if |s| > 0 && s[0] == '+' then Digits(s[1..], 0)
    else Digits(s, 0)
  }

  /** The decimal digits of v, as an EDF writer puts a count in a field. */
  function Decimal(v: nat): (s: string)
    ensures |s| > 0 && forall c :: c in s ==> IsDigit(c)
  {
    if v < 10 then [('0' as int + v) as char]
    else Decimal(v / 10) + [('0' as int + v % 10) as char]
  }

  /** Reading stops at the first character that is not a digit. */
  lemma {:induction false} DigitsStop(d: string, rest: string, acc: int)
    requires forall c :: c in d ==> IsDigit(c)
    requires |rest| == 0 || !IsDigit(rest[0])
    ensures Digits(d + rest, acc) == Digits(d, acc)
    decreases |d|
  {
    if |d| == 0 {
      assert d + rest == rest;
    } else {
      assert (d + rest)[1..] == d[1..] + rest;
      DigitsStop(d[1..], rest, 10 * acc + (d[0] as int - '0' as int));
    }
  }

  /** One more digit at the end multiplies by ten and adds it. */
  lemma {:induction false} DigitsSnoc(d: string, c: char, acc: int)
    requires forall x :: x in d ==> IsDigit(x)
    requires IsDigit(c)
    ensures Digits(d + [c], acc) == 10 * Digits(d, acc) + (c as int - '0' as int)
    decreases |d|
  {
    if |d| == 0 {
      assert d + [c] == [c];
      assert [c][1..] == [];
    } else {
      assert (d + [c])[1..] == d[1..] + [c];
      DigitsSnoc(d[1..], c, 10 * acc + (d[0] as int - '0' as int));
    }
  }

  lemma {:induction false} DigitsOfDecimal(v: nat)
    ensures Digits(Decimal(v), 0) == v
    decreases v
  {
    if v < 10 {
      assert Decimal(v)[1..] == [];
    } else {
      DigitsOfDecimal(v / 10);
      DigitsSnoc(Decimal(v / 10), ('0' as int + v % 10) as char, 0);
    }
  }

  /** A count written left-aligned and padded with spaces, as EDF header
      fields hold it, reads back as itself. */
  lemma AtoiOfDecimal(v: nat, pad: string)
    requires |pad| == 0 || !IsDigit(pad[0])
    ensures Atoi(Decimal(v) + pad) == v
  {
    var d := Decimal(v);
    assert d[0] in d;
    assert (d + pad)[0] == d[0];
    AtoiOfDigits(d, pad);
    DigitsOfDecimal(v);
  }

  /** With a minus sign in front, it reads back as its negation. */
  lemma AtoiOfNegative(v: nat, pad: string)
    requires |pad| == 0 || !IsDigit(pad[0])
    ensures Atoi(['-'] + Decimal(v) + pad) == -(v as int)
  {
    AtoiOfNegativeDigits(Decimal(v), pad);
    DigitsOfDecimal(v);
  }

  /** A leading minus negates the digits that follow. */
  lemma AtoiOfNegativeDigits(d: string, pad: string)
    requires forall c :: c in d ==> IsDigit(c)
    requires |pad| == 0 || !IsDigit(pad[0])
    ensures Atoi(['-'] + d + pad) == -Digits(d, 0)
  {
    var t := d + pad;
    assert ['-'] + d + pad == ['-'] + t;
    assert (['-'] + t)[1..] == t;
    DigitsStop(d, pad, 0);
  }

  /** atoi of text that starts with a digit is the value of its leading
      digits. */
  lemma AtoiOfDigits(d: string, pad: string)
    requires |d| > 0 && forall c :: c in d ==> IsDigit(c)
    requires |pad| == 0 || !IsDigit(pad[0])
    ensures Atoi(d + pad) == Digits(d, 0)
  {
    assert d[0] in d;
    assert (d + pad)[0] == d[0];
    DigitsStop(d, pad, 0);
  }
}

=== FILE: envelope.dfy ===
/** The upper envelope that findPossibleBlinks draws over each rebuilt
    detail level: the absolute value of the signal, with straight lines
    drawn between its turning points. The C routine works in place; here
    the input is a sequence and the result a new one. */
module Envelope {
  import opened BlinkAux
  import opened Signals

  /** The absolute value of every sample (fabs). */
  function AbsAll(x: seq<real>): (a: seq<real>)
    ensures |a| == |x|
    ensures forall i :: 0 <= i < |x| ==> a[i] == AbsVal(x[i])
  {
    seq(|x|, i requires 0 <= i < |x| => AbsVal(x[i]))
  }

  /** Sample j is a turning point of a: the slope into j is positive and
      the slope out of it is not. */
  predicate Turning(a: seq<real>, j: nat)
    requires 1 <= j < |a| - 1
  {
    a[j] - a[j - 1] > 0.0 && a[j + 1] - a[j] <= 0.0
  }

  /** Sample 0 followed by the turning points below `upto`, in order. */
  function TurningPoints(a: seq<real>, upto: nat): (tp: seq<nat>)
    requires upto <= |a| - 1
    ensures |tp| >= 1 && tp[0] == 0
    ensures forall k :: 1 <= k < |tp| ==> 1 <= tp[k] < upto && Turning(a, tp[k])
    ensures forall k :: 0 < k < |tp| ==> tp[k - 1] < tp[k]
    ensures forall j :: 1 <= j < upto && Turning(a, j) ==> j in tp
    decreases upto
  {
    if upto <= 1 then [0]
    else
      var front := TurningPoints(a, upto - 1);
      if Turning(a, upto - 1) then front + [upto - 1] else front
  }

  /** One more sample adds its predecessor when that one turns. */
  lemma TurningStep(a: seq<real>, i: nat)
    requires 2 <= i <= |a| - 1
    ensures TurningPoints(a, i) == if Turning(a, i - 1) then TurningPoints(a, i - 1) + [i - 1] else TurningPoints(a, i - 1)
  {
  }

  /** The knots of the interpolation: the turning points, then the last sample. */
  function Knots(a: seq<real>): (k: seq<nat>)
    requires 2 <= |a|
    ensures 2 <= |k| && k[0] == 0 && k[|k| - 1] == |a| - 1
    ensures forall i :: 0 < i < |k| ==> k[i - 1] < k[i]
  {
    TurningPoints(a, |a| - 1) + [|a| - 1]
  }

  function Slope(rise: real, run: real): real
    requires run != 0.0
  {
    rise / run
  }

  /** The line through (p, ap) and (q, aq), evaluated at j, computed as
      envelope computes it: slope first, then the intercept at q. */
  function Line(ap: real, aq: real, p: nat, q: nat, j: int): real
    requires p < q
  {
    var slope := Slope(aq - ap, (q - p) as real);
    slope * j as real + (aq - slope * q as real)
  }

  /** The envelope as a specification: with no turning point the absolute
      values themselves; otherwise every sample from one knot up to (not
      including) the next lies on the line through the two knots, and the
      last sample on the last line. */
  predicate IsEnvelope(x: seq<real>, y: seq<real>)
    requires 2 <= |x|
  {
    var a := AbsAll(x);
    var k := Knots(a);
    |y| == |x|
    && (|k| == 2 ==> y == a)
    && (|k| > 2 ==>
          (forall i, j :: 0 <= i < |k| - 1 && k[i] <= j < k[i + 1] ==> y[j] == Line(a[k[i]], a[k[i + 1]], k[i], k[i + 1], j))
          && y[|y| - 1] == Line(a[k[|k| - 2]], a[|a| - 1], k[|k| - 2], |a| - 1, |a| - 1))
  }

  /** The first loop of envelope: absolute values in place, and the
      turning points collected as they pass. */
  method AbsTurning(x: seq<real>) returns (y: seq<real>, tp: seq<nat>)
    requires 2 <= |x|
    ensures y == AbsAll(x) && tp == TurningPoints(AbsAll(x), |x| - 1)
  {
    ghost var a := AbsAll(x);
    y := x[0 := AbsVal(x[0])][1 := AbsVal(x[1])];
    tp := [0];
    var i := 2;
    while i < |x|
      invariant 2 <= i <= |x| && |y| == |x|
      invariant forall j :: 0 <= j < i ==> y[j] == a[j]
      invariant forall j :: i <= j < |x| ==> y[j] == x[j]
      invariant tp == TurningPoints(a, i - 1)
    {
      var prev2, prev1, cur := y[i - 2], y[i - 1], AbsVal(y[i]);
      assert prev2 == a[i - 2] && prev1 == a[i - 1] && cur == a[i];
      y := y[i := cur];
      TurningStep(a, i);
      if prev1 - prev2 > 0.0 && cur - prev1 <= 0.0 {
        tp := tp + [i - 1];
      }
      i := i + 1;
    }
  }

  /** One interpolation loop: samples p up to (not including) `stop` are
      overwritten with the line through knots p and q; the rest is kept. */
  method FillLine(y: seq<real>, p: nat, q: nat, stop: nat) returns (z: seq<real>)
    requires p < q < |y| && p <= stop <= |y|
    ensures |z| == |y|
    ensures forall j :: p <= j < stop ==> z[j] == Line(y[p], y[q], p, q, j)
    ensures forall j :: 0 <= j < |y| && !(p <= j < stop) ==> z[j] == y[j]
  {
    var ap, aq := y[p], y[q];
    z := y;
    var j := p;
    while j < stop
      invariant p <= j <= stop && |z| == |y|
      invariant forall j' :: p <= j' < j ==> z[j'] == Line(ap, aq, p, q, j')
      invariant forall j' :: 0 <= j' < |y| && !(p <= j' < j) ==> z[j'] == y[j']
    {
      z := z[j := Line(ap, aq, p, q, j)];
      j := j + 1;
    }
  }

  /** Samples before knot tp[n] lie on the lines between the knots before it. */
  ghost predicate LinedUpTo(a: seq<real>, tp: seq<nat>, y: seq<real>, n: nat)
    requires n < |tp| && |y| == |a|
    requires forall m :: 0 <= m < |tp| ==> tp[m] < |a|
    requires Increasing(tp)
  {
    forall m, j :: 0 <= m < n && tp[m] <= j < tp[m + 1] ==> y[j] == Line(a[tp[m]], a[tp[m + 1]], tp[m], tp[m + 1], j)
  }

  /** Filling the stretch from knot n - 1 to knot n extends the lined
      prefix by one stretch; it does not touch the stretches before it. */
  lemma LinedStep(a: seq<real>, k: seq<nat>, y: seq<real>, z: seq<real>, n: nat)
    requires 1 <= n < |k| && |y| == |z| == |a|
    requires forall m :: 0 <= m < |k| ==> k[m] < |a|
    requires Increasing(k)
    requires LinedUpTo(a, k, y, n - 1)
    requires forall j :: 0 <= j < k[n - 1] ==> z[j] == y[j]
    requires forall j :: k[n - 1] <= j < k[n] ==> z[j] == Line(a[k[n - 1]], a[k[n]], k[n - 1], k[n], j)
    ensures LinedUpTo(a, k, z, n)
  {
    forall m, j | 0 <= m < n - 1 && k[m] <= j < k[m + 1]
      ensures z[j] == Line(a[k[m]], a[k[m + 1]], k[m], k[m + 1], j)
    {
      if m + 1 < n - 1 {
        IncreasingLess(k, m + 1, n - 1);
      }
    }
  }

  /** The interpolation loops of envelope over the absolute values `a`
      with knots k (the turning points, then the last sample): each stretch
      between consecutive turning points, and the last stretch up to and
      including the final sample, is overwritten with its line. The knot
      values read are still absolute values, since each stretch stops
      short of the knot that ends it. */
  method Interpolate(a: seq<real>, k: seq<nat>) returns (y: seq<real>)
    requires 2 <= |a| && 3 <= |k| && k[|k| - 1] == |a| - 1 && Increasing(k)
    requires forall m :: 0 <= m < |k| ==> k[m] < |a|
    ensures |y| == |a| && LinedUpTo(a, k, y, |k| - 1)
    ensures y[|y| - 1] == Line(a[k[|k| - 2]], a[|a| - 1], k[|k| - 2], |a| - 1, |a| - 1)
  {
    y := a;
    var tp := k[..|k| - 1];
    var n := 1;
    while n < |tp|
      invariant 1 <= n <= |tp| && |y| == |a|
      invariant LinedUpTo(a, k, y, n - 1)
      invariant y[tp[n - 1]..] == a[tp[n - 1]..]
    {
      var p, q := tp[n - 1], tp[n];
      ghost var before := y;
      assert before[p] == a[p] && before[q] == a[q] by {
        assert before[p..][0] == a[p..][0];
        assert before[p..][q - p] == a[p..][q - p];
      }
      y := FillLine(y, p, q, q);
      LinedStep(a, k, before, y, n);
      assert y[q..] == a[q..] by {
        forall j | q <= j < |a|
          ensures y[j] == a[j]
        {
          assert before[p..][j - p] == a[p..][j - p];
        }
      }
      n := n + 1;
    }
    var p, last := tp[|tp| - 1], |a| - 1;
    ghost var before := y;
    assert before[p] == a[p] && before[last] == a[last] by {
      assert before[p..][0] == a[p..][0];
      assert before[p..][last - p] == a[p..][last - p];
    }
    y := FillLine(y, p, last, |a|);
    LinedStep(a, k, before, y, |k| - 1);
  }

  /** envelope: absolute values and turning points in one pass; with no
      turning point the absolute values are the result, otherwise the
      stretches between knots are interpolated. */
  method Envelope(x: seq<real>) returns (y: seq<real>)
    requires 2 <= |x|
    ensures IsEnvelope(x, y) && y == EnvelopeOf(x)
  {
    var a, tp := AbsTurning(x);
    if |tp| == 1 {
      EnvelopeFlat(x);
      return a;
    }
    assert tp + [|x| - 1] == Knots(a);
    y := Lines(x, a, tp + [|x| - 1]);
  }

  /** The interpolating branch of envelope. */
  method Lines(x: seq<real>, a: seq<real>, k: seq<nat>) returns (y: seq<real>)
    requires 2 <= |x| && a == AbsAll(x) && k == Knots(a) && 3 <= |k|
    ensures IsEnvelope(x, y) && y == EnvelopeOf(x)
  {
    KnotsInside(a, k);
    y := Interpolate(a, k);
    EnvelopeFrom(x, y);
    EnvelopeUnique(x, y);
  }

  /** Without a turning point the absolute values are the envelope. */
  lemma EnvelopeFlat(x: seq<real>)
    requires 2 <= |x| && |Knots(AbsAll(x))| == 2
    ensures IsEnvelope(x, AbsAll(x)) && AbsAll(x) == EnvelopeOf(x)
  {
  }

  /** The knots are increasing sample indices ending at the last sample. */
  lemma KnotsInside(a: seq<real>, k: seq<nat>)
    requires 2 <= |a| && k == Knots(a)
    ensures k[|k| - 1] == |a| - 1 && Increasing(k)
    ensures forall m :: 0 <= m < |k| ==> k[m] < |a|
  {
    forall m | 0 <= m < |k|
      ensures k[m] < |a|
    {
      if m < |k| - 1 {
        IncreasingLess(k, m, |k| - 1);
      }
    }
  }

  /** The lined stretches and the last sample make the envelope. */
  lemma EnvelopeFrom(x: seq<real>, y: seq<real>)
    requires 2 <= |x| && |y| == |x|
    requires var a := AbsAll(x); var k := Knots(a);
      |k| > 2 && LinedUpTo(a, k, y, |k| - 1)
      && y[|y| - 1] == Line(a[k[|k| - 2]], a[|a| - 1], k[|k| - 2], |a| - 1, |a| - 1)
    ensures IsEnvelope(x, y)
  {
  }

  lemma SlopeRun(rise: real, run: real)
    requires run != 0.0
    ensures Slope(rise, run) * run == rise
  {
  }

  /** The line passes through both of its knots. */
  lemma LineThroughKnots(ap: real, aq: real, p: nat, q: nat)
    requires p < q
    ensures Line(ap, aq, p, q, p) == ap && Line(ap, aq, p, q, q) == aq
  {
    var run := (q - p) as real;
    var slope := Slope(aq - ap, run);
    SlopeRun(aq - ap, run);
    assert slope * q as real - slope * p as real == slope * run;
  }

  /** The envelope touches the absolute signal at every knot: at sample 0,
      at each turning point and at the last sample. */
  lemma EnvelopeAtKnots(x: seq<real>, y: seq<real>)
    requires 2 <= |x| && IsEnvelope(x, y)
    ensures forall m :: 0 <= m < |Knots(AbsAll(x))| ==> y[Knots(AbsAll(x))[m]] == AbsVal(x[Knots(AbsAll(x))[m]])
  {
    var a := AbsAll(x);
    var k := Knots(a);
    if |k| > 2 {
      forall m | 0 <= m < |k|
        ensures y[k[m]] == a[k[m]]
      {
        KnotSample(x, y, a, k, m);
      }
    } else {
      EnvelopeFlatAt(x, y);
    }
  }
  lemma KnotSample(x: seq<real>, y: seq<real>, a: seq<real>, k: seq<nat>, m: nat)
    requires 2 <= |x| && IsEnvelope(x, y) && a == AbsAll(x) && k == Knots(a) && |k| > 2 && m < |k|
    ensures k[m] < |y| && y[k[m]] == a[k[m]]
  {
    if m < |k| - 1 {
      StretchSample(x, y, a, k, m, k[m]);
      LineThroughKnots(a[k[m]], a[k[m + 1]], k[m], k[m + 1]);
    } else {
      LastSample(x, y, a, k);
      LineThroughKnots(a[k[m - 1]], a[k[m]], k[m - 1], k[m]);
    }
  }

  lemma EnvelopeFlatAt(x: seq<real>, y: seq<real>)
    requires 2 <= |x| && IsEnvelope(x, y) && |Knots(AbsAll(x))| == 2
    ensures y == AbsAll(x)
  {
  }

  /** The stretch holding sample j: the last knot index i <= top with
      k[i] <= j. */
  function StretchIndex(k: seq<nat>, j: nat, top: nat): (i: nat)
    requires top < |k| && k[0] <= j
    ensures i <= top && k[i] <= j
    ensures i < top ==> j < k[i + 1]
    decreases top
  {
    if k[top] <= j then top else StretchIndex(k, j, top - 1)
  }

  /** The envelope as a function: with no turning point the absolute values,
      otherwise each sample on the line of the stretch that holds it (the
      last sample on the last line). */
  function EnvelopeOf(x: seq<real>): (y: seq<real>)
    requires 2 <= |x|
    ensures |y| == |x|
  {
    var a := AbsAll(x);
    var k := Knots(a);
    if |k| == 2 then a
    else seq(|x|, j requires 0 <= j < |x| => StretchLine(a, k, j))
  }

  function StretchLine(a: seq<real>, k: seq<nat>, j: nat): real
    requires 2 <= |a| && k == Knots(a) && j < |a|
  {
    var i := StretchIndex(k, j, |k| - 2);
    Line(a[k[i]], a[k[i + 1]], k[i], k[i + 1], j)
  }

  /** IsEnvelope admits one output only: the one EnvelopeOf describes. */
  lemma EnvelopeUnique(x: seq<real>, y: seq<real>)
    requires 2 <= |x| && IsEnvelope(x, y)
    ensures y == EnvelopeOf(x)
  {
    var a := AbsAll(x);
    var k := Knots(a);
    var e := EnvelopeOf(x);
    if |k| > 2 {
      forall j | 0 <= j < |y|
        ensures y[j] == e[j]
      {
        EnvelopeSampleUnique(x, y, a, k, j);
      }
    }
  }

  /** Sample j of an envelope is the line of the stretch that holds it. */
  lemma EnvelopeSampleUnique(x: seq<real>, y: seq<real>, a: seq<real>, k: seq<nat>, j: nat)
    requires 2 <= |x| && IsEnvelope(x, y) && a == AbsAll(x) && k == Knots(a) && |k| > 2 && j < |x|
    ensures y[j] == StretchLine(a, k, j)
  {
    var i := StretchIndex(k, j, |k| - 2);
    if j < |a| - 1 {
      StretchSample(x, y, a, k, i, j);
    } else {
      LastStretch(k, j);
      LastSample(x, y, a, k);
    }
    StretchLineIs(a, k, j, i);
  }

  /** Sample j is read off the line of stretch i. */
  lemma StretchLineIs(a: seq<real>, k: seq<nat>, j: nat, i: nat)
    requires 2 <= |a| && k == Knots(a) && j < |a| && i == StretchIndex(k, j, |k| - 2)
    ensures StretchLine(a, k, j) == Line(a[k[i]], a[k[i + 1]], k[i], k[i + 1], j)
  {
  }

  /** The last sample falls in the last stretch. */
  lemma LastStretch(k: seq<nat>, j: nat)
    requires 2 <= |k| && k[|k| - 1] == j && k[0] <= j && k[|k| - 2] < k[|k| - 1]
    ensures StretchIndex(k, j, |k| - 2) == |k| - 2
  {
  }

  /** The last sample lies on the last line. */
  lemma LastSample(x: seq<real>, y: seq<real>, a: seq<real>, k: seq<nat>)
    requires 2 <= |x| && IsEnvelope(x, y) && a == AbsAll(x) && k == Knots(a) && |k| > 2
    ensures y[|x| - 1] == Line(a[k[|k| - 2]], a[k[|k| - 1]], k[|k| - 2], k[|k| - 1], |x| - 1)
  {
  }

  /** A sample before the last lies on the line of its stretch. */
  lemma StretchSample(x: seq<real>, y: seq<real>, a: seq<real>, k: seq<nat>, i: nat, j: nat)
    requires 2 <= |x| && IsEnvelope(x, y) && a == AbsAll(x) && k == Knots(a) && |k| > 2
    requires i < |k| - 1 && k[i] <= j < k[i + 1]
    ensures y[j] == Line(a[k[i]], a[k[i + 1]], k[i], k[i + 1], j)
  {
  }
}

=== FILE: erd.dfy ===
/** The schema-independent face of the raw-data readers
    (src/xltek/erd/erd.c): opening dispatches on the schema of the generic
    header, and the accessors dispatch on the schema of the open file.

    A NULL file is None. The readers of schemas 6, 7 and 8 are not part of
    this model; what they return enters as the parameters `openOther` and
    `labelsOther`. The GUID of raw-data files is defined in guids.c, which
    is not part of this model either, so it is the parameter `erdGuid`. */
module Erd {
  import opened Options
  import opened Bytes
  import opened Uuid
  import opened ErdCommon
  import ErdS5
  import ErdS9

  /** The schemas the readers accept. */
  predicate KnownSchema(s: nat)
  {
    5 <= s <= 9
  }

  /** xltek_openErdFile: None when the file cannot be read (gen is None),
      when its GUID is not the raw-data GUID or when its schema is not 5 to
      9; otherwise the file the schema's reader opens, which re-reads the
      same generic header. */
  method OpenErdFile(gen: Option<GenericHeader>, erdGuid: seq<byte>, head: ErdHeader, prev0: seq<int>, junk: ErdFile,
                     openOther: nat -> Option<ErdFile>)
    returns (r: Option<ErdFile>)
    requires IsUuid(erdGuid) && (gen.Some? ==> IsUuid(gen.value.guid))
    requires head.Covers() && |prev0| == head.numChannels
    ensures gen.None? || gen.value.guid != erdGuid || !KnownSchema(gen.value.schema) ==> r.None?
    ensures gen.Some? && gen.value.guid == erdGuid && gen.value.schema == 5 ==>
      r == ErdS5.OpenS5(gen, erdGuid, head, junk) && r.Some?
    ensures gen.Some? && gen.value.guid == erdGuid && gen.value.schema == 9 ==>
      r.Some? && r.value.schema == 9 && r.value.head == head && r.value.prevSamples == prev0
      && r.value.numShorted == |ErdS9.ShortedChannels(head)| && (r.value.freqFactor == 1 <==> ErdS9.AnyOtherRate(head))
    ensures gen.Some? && gen.value.guid == erdGuid && 6 <= gen.value.schema <= 8 ==>
      r == openOther(gen.value.schema)
  {
    if gen.None? || UuidEqual(gen.value.guid, erdGuid) == 0 {
      return None;
    }
    var s := gen.value.schema;
    if s == 5 {
      r := ErdS5.OpenS5(gen, erdGuid, head, junk);
    } else if 6 <= s <= 8 {
      r := openOther(s);
    } else if s == 9 {
      r := ErdS9.OpenS9(gen, erdGuid, head, prev0);
    } else {
      r := None;
    }
  }

  /** A file is usable by the accessors: not NULL and of a known schema. */
  predicate Valid(file: Option<ErdFile>)
  {
    file.Some? && KnownSchema(file.value.schema)
  }

  /** The unsigned channel count returned as a C int: counts of 2^31 or
      more come back negative. */
  function AsInt(u: nat): (v: int)
    requires u < 0x1_0000_0000
    ensures -0x8000_0000 <= v < 0x8000_0000
    ensures v % 0x1_0000_0000 == u
  {
    if u < 0x8000_0000 then u else u - 0x1_0000_0000
  }

  /** xltek_getErdNumChannels: 0 for an invalid file, else the header's
      channel count as an int. */
  function GetErdNumChannels(file: Option<ErdFile>): (r: int)
    requires file.Some? ==> file.value.head.numChannels < 0x1_0000_0000
    ensures !Valid(file) ==> r == 0
    ensures Valid(file) && file.value.head.numChannels < 0x8000_0000 ==> r == file.value.head.numChannels
    ensures Valid(file) ==> r % 0x1_0000_0000 == file.value.head.numChannels
  {
    if !Valid(file) then 0 else AsInt(file.value.head.numChannels)
  }

  /** xltek_getErdSampleFreq: 0.0 for an invalid file, else the header's
      sample frequency. */
  function GetErdSampleFreq(file: Option<ErdFile>): (r: real)
    ensures !Valid(file) ==> r == 0.0
    ensures Valid(file) ==> r == file.value.head.sampleFreq
  {
    if !Valid(file) then 0.0 else file.value.head.sampleFreq
  }

  /** xltek_getErdLabels: None for an invalid file, else what the schema's
      reader returns. */
  function GetErdLabels(file: Option<ErdFile>, labelsOther: ErdFile -> Option<LabelArray>): (r: Option<LabelArray>)
    requires file.Some? ==> file.value.head.Covers()
    ensures !Valid(file) ==> r.None?
    ensures Valid(file) && file.value.schema == 5 ==> r == ErdS5.LabelsS5(file.value)
    ensures Valid(file) && file.value.schema == 9 ==> r == ErdS9.LabelsS9(file.value)
    ensures Valid(file) && 6 <= file.value.schema <= 8 ==> r == labelsOther(file.value)
  {
    if !Valid(file) then None
    else if file.value.schema == 5 then ErdS5.LabelsS5(file.value)
    else if file.value.schema == 9 then ErdS9.LabelsS9(file.value)
    else labelsOther(file.value)
  }

  /** xltek_getNextSamples: only schema 9 files are decoded; for any other
      file, 0 and nothing changes. */
  method GetNextSamples(file: Option<ErdFile>, bytes: seq<byte>, samples0: seq<real>)
    returns (status: int, samples: seq<real>, g: Option<ErdFile>, consumed: nat)
    requires file.Some? ==> file.value.head.Covers() && |file.value.prevSamples| == file.value.head.numChannels
    requires file.Some? ==> |samples0| == file.value.head.numChannels
    requires file.Some? ==> |bytes| == 0 || ErdS9.Complete(bytes, file.value.head.numChannels, file.value.freqFactor)
    ensures file.None? || file.value.schema != 9 ==> status == 0 && samples == samples0 && g == file && consumed == 0
    ensures file.Some? && file.value.schema == 9 ==> g.Some?
    ensures file.Some? && file.value.schema == 9 && |bytes| == 0 ==>
      status == 0 && g == file && consumed == 0 && samples == seq(file.value.head.numChannels, i => 0.0)
    ensures file.Some? && file.value.schema == 9 && |bytes| > 0 ==>
      status == 1 && g.Some? && consumed == ErdS9.PacketLength(bytes, file.value.head.numChannels, file.value.freqFactor)
      && ErdS9.Decoded(file.value, bytes, g.value, samples)
  {
    if file.None? || file.value.schema != 9 {
      return 0, samples0, file, 0;
    }
    var f;
    status, samples, f, consumed := ErdS9.NextSamplesS9(file.value, bytes, samples0);
    g := Some(f);
  }
}

=== FILE: erd_common.dfy ===
/** What the Xltek raw-data (ERD) readers share (src/xltek/erd/erd.c and the
    schema readers s5.c and s9.c): the header fields they read, the
    conversion of a raw sample to a physical value, and the label tables.

    The label tables themselves are constant data; a label is named here by
    its table and its index, which is all the readers compute. The version
    string of a headbox enters as the number atof makes of it. */
module ErdCommon {
  import opened Options
  import opened Bytes

  /** The fields of the generic Xltek header the ERD code looks at. */
  datatype GenericHeader = GenericHeader(guid: seq<byte>, schema: nat)

  /** The fields of a schema-specific ERD header the readers look at. The
      per-channel arrays hold 1024 entries in schema 9 and 32 in schema 5;
      `version` is atof of headbox 0's software version string. */
  datatype ErdHeader = ErdHeader(
    sampleFreq: real,
    numChannels: nat,
    physChan: seq<nat>,
    headboxType: nat,
    version: real,
    discardBits: nat,
    shorted: seq<nat>,
    frequencyFactor: seq<nat>)
  {
    /** The per-channel arrays cover every channel the header announces. */
    predicate Covers()
    {
      numChannels <= |physChan| && numChannels <= |shorted| && numChannels <= |frequencyFactor|
    }
  }

  /** An open ERD file: its schema, its header, the flags computed at open
      time and the running sample values of the delta decoder. */
  datatype ErdFile = ErdFile(
    schema: nat,
    head: ErdHeader,
    freqFactor: nat,
    numShorted: nat,
    prevSamples: seq<int>)

  // ---------------------------------------------------------------------------
  // xltek_convertSample
  // ---------------------------------------------------------------------------

  /** The conversion constants of xltek_convertSample. */
  const Conv8711: real := 8711.0 / (2097152.0 - 0.5)
  const Conv5e7: real := (5000000.0 / (1024.0 - 0.5)) / 64.0
  const Conv2neg6: real := 1.0 / 64.0
  const ConvHyppo: real := (8711.0 / (2097152.0 - 0.5)) / (159.8 / 249.5)
  const Conv1e8: real := (10000000.0 / (1024.0 - 0.5)) / 64.0
  const Conv2e8: real := 20000000.0 / 65536.0
  const Conv108e6: real := (10800000.0 / 65536.0) / 64.0

  /** The headbox types xltek_convertSample has a case for. */
  predicate KnownHeadbox(h: int)
  {
    h == 1 || h == 3 || h == 4 || h == 5 || h == 6 || h == 8 || h == 9 || h == 14
      || h == 15 || h == 17 || h == 19 || h == 21 || h == 22 || h == 23
  }

  /** The factor the switch of xltek_convertSample picks for a channel of a
      headbox; 0.0 for an unknown headbox. */
  function Factor(h: int, channel: int, version: real): real
  {
    if h == 1 || h == 3 || h == 19 then Conv8711
    else if h == 4 then (if channel <= 23 then Conv8711 else Conv5e7)
    else if h == 5 then
      (if channel <= 25 then Conv8711
       else if channel <= 31 then ConvHyppo
       else if channel <= 39 && version < 3.4 then Conv1e8
       else if channel <= 39 && version != 0.0 then Conv2e8
       else Conv2neg6)
    else if h == 6 then (if channel <= 31 then Conv8711 else Conv5e7)
    else if h == 8 then (if channel <= 24 then Conv8711 else Conv2neg6)
    else if h == 9 then (if channel <= 32 then Conv8711 else Conv2neg6)
    else if h == 14 then
      (if channel <= 37 then Conv8711 else if channel <= 47 then Conv108e6 else Conv2neg6)
    else if h == 15 then
      (if channel <= 27 then Conv8711 else if channel <= 31 then Conv1e8 else Conv2neg6)
    else if h == 17 then
      (if channel <= 39 then Conv8711 else if channel <= 43 then Conv108e6 else Conv2neg6)
    else if h == 21 then (if channel <= 127 then Conv8711 else Conv2neg6)
    else if h == 22 then
      (if channel <= 31 then Conv8711 else if channel <= 39 then Conv108e6
       else if channel <= 41 then Conv2neg6 else Conv108e6)
    else if h == 23 then
      (if channel <= 31 then Conv8711 else if channel <= 35 then Conv108e6
       else if channel <= 37 then Conv2neg6 else Conv108e6)
    else 0.0
  }

  /** 2^n for a count n >= 0. */
  function Pow2(n: nat): (p: real)
    ensures p >= 1.0 && (n > 0 ==> p >= 2.0)
  {
    if n == 0 then 1.0 else 2.0 * Pow2(n - 1)
  }

  /** pow(2.0, discard_bits) for the int count of discarded bits: 2^d from
      0 up, 1 / 2^-d below. It is at least 1 exactly for a count that is
      not negative. */
  function TwoPower(d: int): (p: real)
    ensures p > 0.0 && (p >= 1.0 <==> d >= 0)
  {
    if d >= 0 then Pow2(d) else 1.0 / Pow2(-d)
  }

  /** The law of pow(2.0, .) across all ints: one more discarded bit
      doubles the power, also through 0. */
  lemma TwoPowerStep(d: int)
    ensures TwoPower(d + 1) == 2.0 * TwoPower(d)
  {
    if d < -1 {
      var q := Pow2(-d - 1);
      assert Pow2(-d) == 2.0 * q;
      assert 1.0 / q == 2.0 * (1.0 / (2.0 * q));
    }
  }

  /** pow(2.0, -d) is the reciprocal of pow(2.0, d). */
  lemma TwoPowerInverse(d: int)
    ensures TwoPower(d) * TwoPower(-d) == 1.0
  {
    if d < 0 {
      assert TwoPower(d) == 1.0 / Pow2(-d);
    } else if d > 0 {
      assert TwoPower(-d) == 1.0 / Pow2(d);
    }
  }

  /** Unsigned header fields reach xltek_convertSample as ints: the largest
      unsigned value is -1 there, which headbox 9 counts among its first 33
      channels and which halves the sample instead of doubling it. */
  lemma UnsignedFieldsExample()
    ensures Wrap32(0xFFFF_FFFF) == -1
    ensures Factor(9, Wrap32(0xFFFF_FFFF), 0.0) == Conv8711
    ensures Factor(9, 0xFFFF_FFFF, 0.0) == Conv2neg6
    ensures TwoPower(Wrap32(0xFFFF_FFFF)) == 0.5
  {
    assert Pow2(1) == 2.0;
  }

  /** xltek_convertSample: the raw sample times the headbox's factor for the
      channel times 2 to the number of discarded bits; 0.0 for a headbox
      type it does not know. A known headbox keeps the sample's sign. All
      four are C ints. */
  function ConvertSample(sample: int, h: int, channel: int, discardBits: int, version: real): (r: real)
    ensures !KnownHeadbox(h) ==> r == 0.0
    ensures KnownHeadbox(h) ==> (r > 0.0 <==> sample > 0) && (r < 0.0 <==> sample < 0)
  {
    var scale := Factor(h, channel, version) * TwoPower(discardBits);
    FactorPositive(h, channel, version);
    SignOfScaled(sample, scale);
    sample as real * scale
  }

  /** Every known headbox has a positive factor on every channel. */
  lemma FactorPositive(h: int, channel: int, version: real)
    ensures KnownHeadbox(h) <==> Factor(h, channel, version) > 0.0
    ensures !KnownHeadbox(h) ==> Factor(h, channel, version) == 0.0
  {
  }

  lemma SignOfScaled(sample: int, scale: real)
    ensures scale > 0.0 ==> (sample as real * scale > 0.0 <==> sample > 0)
    ensures scale > 0.0 ==> (sample as real * scale < 0.0 <==> sample < 0)
    ensures scale == 0.0 ==> sample as real * scale == 0.0
  {
  }

  /** Conversion is linear in the raw sample, so a decoded running sum of
      deltas converts to the running sum of converted deltas. */
  lemma ConvertAdditive(a: int, b: int, h: int, channel: int, discardBits: int, version: real)
    ensures ConvertSample(a + b, h, channel, discardBits, version)
         == ConvertSample(a, h, channel, discardBits, version) + ConvertSample(b, h, channel, discardBits, version)
  {
    var scale := Factor(h, channel, version) * TwoPower(discardBits);
    assert (a + b) as real * scale == a as real * scale + b as real * scale;
  }

  /** Distinct raw samples of a known headbox convert to distinct values. */
  lemma ConvertInjective(a: int, b: int, h: int, channel: int, discardBits: int, version: real)
    requires KnownHeadbox(h)
    requires ConvertSample(a, h, channel, discardBits, version) == ConvertSample(b, h, channel, discardBits, version)
    ensures a == b
  {
    ConvertAdditive(a, -b, h, channel, discardBits, version);
    ConvertAdditive(b, -b, h, channel, discardBits, version);
  }

  /** Headbox types 1 (EEG32), 3 (EEG128) and 19 (EEG32U) use the 8711
      factor on every channel. */
  lemma UniformHeadboxes(h: int, channel: int, version: real)
    requires h == 1 || h == 3 || h == 19
    ensures Factor(h, channel, version) == Conv8711
  {
  }

  /** For HYPPO channels 32 to 39 the version alone decides: below 3.4 the
      1e8 factor, otherwise the 2e8 factor. The source's second test, that
      atof of the version is non-zero, never decides anything, since a
      version of 3.4 or more is non-zero. */
  lemma HyppoVersionSplit(channel: int, version: real)
    requires 32 <= channel <= 39
    ensures Factor(5, channel, version) == (if version < 3.4 then Conv1e8 else Conv2e8)
  {
  }

  // ---------------------------------------------------------------------------
  // Channel label tables
  // ---------------------------------------------------------------------------

  /** The channel label tables, one per headbox type with labels. */
  datatype LabelTable =
    | Eeg32 | Eeg128 | Amb28 | Hyppo | Emu36 | Mobee24 | Mobee32
    | Connex | Trex | Emu40 | Eeg32u | Neurolink | Netlink | Traveler

  /** Number of entries in each table. */
  function TableSize(t: LabelTable): nat
  {
    match t
    case Eeg32 => 32
    case Eeg128 => 128
    case Amb28 => 28
    case Hyppo => 42
    case Emu36 => 36
    case Mobee24 => 25
    case Mobee32 => 33
    case Connex => 50
    case Trex => 34
    case Emu40 => 46
    case Eeg32u => 32
    case Neurolink => 130
    case Netlink => 43
    case Traveler => 39
  }

  /** A label: entry `index` of table `table`. */
  datatype Label = Label(table: LabelTable, index: nat)

  /** Size of a pointer on the LP64 targets the program is built for. */
  const PointerSize: nat := 8

  /** One past the last byte written by the store of label pointer i. */
  function StoreEnd(i: nat): nat
  {
    (i + 1) * PointerSize
  }

  /** Bytes of an array of n label pointers, as s9.c allocates it: every
      store labels[i] with i < n lands inside. */
  function LabelBytes(n: nat): (b: nat)
    ensures forall i :: 0 <= i < n ==> StoreEnd(i) <= b
  {
    n * PointerSize
  }

  /** A label array as the readers return it: the bytes allocated for it
      and the labels stored in it. */
  datatype LabelArray = LabelArray(bytes: nat, labels: seq<Label>)

  /** n labels, each stored inside the allocation. */
  predicate Fits(a: LabelArray, n: nat)
  {
    |a.labels| == n && forall i :: 0 <= i < n ==> StoreEnd(i) <= a.bytes
  }

  /** Looks up each channel's physical channel in one table: None as soon as
      one index is past the table's end. The buffer size is that of an
      array of n pointers. */
  function LabelsFrom(t: LabelTable, phys: seq<nat>, n: nat): (r: Option<seq<Label>>)
    requires n <= |phys|
    ensures r.Some? <==> forall i :: 0 <= i < n ==> phys[i] < TableSize(t)
    ensures r.Some? ==> |r.value| == n
    ensures r.Some? ==> forall i :: 0 <= i < n ==> r.value[i] == Label(t, phys[i])
  {
    if n == 0 then Some([])
    else
      match LabelsFrom(t, phys, n - 1)
      case None => None
      case Some(front) =>
        if phys[n - 1] < TableSize(t) then Some(front + [Label(t, phys[n - 1])]) else None
  }
}

=== FILE: fastica.dfy ===
/** The control of the FastICA implementation (src/ica/fastica/fastica.c):
    the contrast chosen at initialisation, the iteration loop and the two
    buffers it alternates between, the convergence measure, and the
    eigenvalue factors of the symmetric orthogonalisation.

    The contrast functions themselves (contrast.c), the matrix products
    and the eigendecomposition are not part of this model; an iteration's
    convergence measure enters as a parameter. */
module FastIca {
  import opened Matrices
  import opened Signals
  import opened IcaAux

  /** The nonlinearities of ContrastType: NONLIN_TANH = 0, NONLIN_CUBE = 1,
      NONLIN_GAUSS = 2. */
  datatype Contrast = NegentTanh | NegentCube | NegentGauss

  /** fastica_init's switch: any value that is not CUBE or GAUSS selects
      tanh. */
  function ContrastFor(code: int): (c: Contrast)
    ensures c == NegentCube <==> code == 1
    ensures c == NegentGauss <==> code == 2
    ensures c == NegentTanh <==> code != 1 && code != 2
  {
    if code == 1 then NegentCube else if code == 2 then NegentGauss else NegentTanh
  }

  /** The settings fastica_init keeps: the convergence epsilon, the
      iteration limit as an int, the contrast, and the sizes of the
      workspace. */
  datatype FastIcaConfig = FastIcaConfig(epsilon: real, maxIter: int, contrast: Contrast, numVar: nat, numObs: nat)

  /** unsigned int stored into int: values from 2^31 on turn negative. */
  function ToInt(u: nat): (v: int)
    requires u < 0x1_0000_0000
    ensures -0x8000_0000 <= v < 0x8000_0000 && (v - u) % 0x1_0000_0000 == 0
    ensures u < 0x8000_0000 ==> v == u
  {
    if u < 0x8000_0000 then u else u - 0x1_0000_0000
  }

  /** fastica_init. */
  function FastIcaInit(epsilon: real, contrast: int, maxIter: nat, numVar: nat, numObs: nat): (g: FastIcaConfig)
    requires maxIter < 0x1_0000_0000
    ensures g.epsilon == epsilon && g.contrast == ContrastFor(contrast)
    ensures g.numVar == numVar && g.numObs == numObs
    ensures maxIter < 0x8000_0000 ==> g.maxIter == maxIter
    ensures maxIter >= 0x8000_0000 ==> g.maxIter < 0
  {
    FastIcaConfig(epsilon, ToInt(maxIter), ContrastFor(contrast), numVar, numObs)
  }

  /** fastica's first guess at the unmixing matrix W (square, num_var x
      num_var): its rows * cols elements zeroed, then 1.0 at i + i * rows.
      Elements past those are kept. With leading dimension rows, as
      fastica_init lays out its own matrices, W is the identity. */
  method InitialGuess(w0: Matrix) returns (w: Matrix)
    requires w0.Valid() && w0.rows == w0.cols
    ensures w == w0.(elem := w.elem) && w.Valid() && w0.rows * w0.cols <= |w.elem| == |w0.elem|
    ensures w.elem[..w0.rows * w0.cols] == Identity(w0.rows).elem
    ensures w.elem[w0.rows * w0.cols..] == w0.elem[w0.rows * w0.cols..]
    ensures w0.ld == w0.rows ==>
      forall r, c :: 0 <= r < w0.rows && 0 <= c < w0.cols ==> w.At(r, c) == if r == c then 1.0 else 0.0
  {
    var n := w0.rows;
    SquareFits(w0);
    var e := SetIdentity(w0.elem, n);
    w := w0.(elem := e);
    if w0.ld == n {
      IdentityBlock(w);
    }
  }

  // ---------------------------------------------------------------------------
  // The convergence measure
  // ---------------------------------------------------------------------------

  /** The measure fastica computes from the diagonal of W_new * W_prev'
      (the cosines between new and previous rows): the least magnitude,
      starting from 1.0. */
  method ConvergenceMin(diag: seq<real>) returns (m: real)
    ensures m <= 1.0
    ensures forall i :: 0 <= i < |diag| ==> m <= AbsVal(diag[i])
    ensures m == 1.0 || exists i :: 0 <= i < |diag| && m == AbsVal(diag[i])
  {
    m := 1.0;
    var i := 0;
    while i < |diag|
      invariant i <= |diag| && m <= 1.0
      invariant forall k :: 0 <= k < i ==> m <= AbsVal(diag[k])
      invariant m == 1.0 || exists k :: 0 <= k < i && m == AbsVal(diag[k])
    {
      if m > AbsVal(diag[i]) {
        m := AbsVal(diag[i]);
      }
      i := i + 1;
    }
  }

  /** The measure is within epsilon of 1 exactly when every cosine is
      within epsilon of +1 or -1. */
  lemma ConvergedIff(diag: seq<real>, m: real, epsilon: real)
    requires 0.0 <= epsilon
    requires m <= 1.0 && forall i :: 0 <= i < |diag| ==> m <= AbsVal(diag[i])
    requires m == 1.0 || exists i :: 0 <= i < |diag| && m == AbsVal(diag[i])
    ensures 1.0 - m <= epsilon <==> forall i :: 0 <= i < |diag| ==> 1.0 - epsilon <= AbsVal(diag[i])
  {
    if 1.0 - m > epsilon {
      var i :| 0 <= i < |diag| && m == AbsVal(diag[i]);
      assert AbsVal(diag[i]) < 1.0 - epsilon;
    }
  }

  // ---------------------------------------------------------------------------
  // The iteration loop
  // ---------------------------------------------------------------------------

  /** The workspace index of iteration k's new guess and of the previous
      guess it reads: (k + 1) & 1 and k & 1 for k iterations done. */
  function Parity(k: nat): (b: nat)
    ensures b < 2 && (k + b) % 2 == 2 * b % 2
  {
    k % 2
  }

  /** fastica's do-while: iteration k (from 1) reads the guess in buffer
      (k - 1) & 1, writes the new one into buffer k & 1 and measures the
      change, `measure(k)`; the loop goes on while 1 - measure exceeds
      epsilon and fewer than maxIter iterations were made. `held[b]` is
      the iteration whose guess buffer b holds (0 is the identity, -1
      nothing yet), and `readFrom[k - 1]` the guess iteration k read. After
      the loop the newest guess is copied into buffer 1 when it is in
      buffer 0, the one that is W itself. */
  method Iterate(maxIter: int, epsilon: real, measure: nat -> real)
      returns (numIter: nat, readFrom: seq<int>, held: seq<int>)
    ensures 1 <= numIter && (numIter == 1 || numIter <= maxIter)
    ensures forall k :: 1 <= k < numIter ==> 1.0 - measure(k) > epsilon
    ensures numIter >= maxIter || 1.0 - measure(numIter) <= epsilon
    ensures |readFrom| == numIter && forall k :: 0 <= k < numIter ==> readFrom[k] == k
    ensures |held| == 2 && held[1] == numIter
  {
    numIter := 0;
    readFrom := [];
    held := [0, -1];
    var newI := 0;
    while true
      invariant |held| == 2 && |readFrom| == numIter
      invariant forall k :: 0 <= k < numIter ==> readFrom[k] == k
      invariant forall k :: 1 <= k <= numIter ==> 1.0 - measure(k) > epsilon && k < maxIter
      invariant held[Parity(numIter)] == numIter
      invariant numIter > 0 ==> held[Parity(numIter + 1)] == numIter - 1
      invariant newI == Parity(numIter)
      invariant numIter > 0 ==> numIter < maxIter
      decreases if maxIter > numIter then maxIter - numIter else 0
    {
      newI := Parity(numIter + 1);
      var prevI := Parity(numIter);
      numIter := numIter + 1;
      readFrom := readFrom + [held[prevI]];
      held := held[newI := numIter];
      if !(1.0 - measure(numIter) > epsilon && numIter < maxIter) {
        break;
      }
    }
    if newI == 0 {
      held := held[1 := held[0]];
    }
  }

  // ---------------------------------------------------------------------------
  // The symmetric orthogonalisation's eigenvalue factors
  // ---------------------------------------------------------------------------

  /** 1 / sqrt(|d|) for each eigenvalue: the magnitude guards against
      eigenvalues that rounding made negative. */
  function InverseRoots(d: seq<real>, roots: seq<real>): (f: seq<real>)
    requires RootsOf(roots, Magnitudes(d)) && forall i :: 0 <= i < |d| ==> d[i] != 0.0
    ensures |f| == |d|
    ensures forall i :: 0 <= i < |d| ==> 0.0 < f[i] && f[i] * f[i] * AbsVal(d[i]) == 1.0
  {
    var f := seq(|d|, i requires 0 <= i < |d| => 1.0 / roots[i]);
    forall i | 0 <= i < |d|
      ensures 0.0 < f[i] && f[i] * f[i] * AbsVal(d[i]) == 1.0
    {
      InverseRootAt(d[i], roots[i], Magnitudes(d)[i]);
    }
    f
  }

  lemma InverseRootAt(d: real, r: real, m: real)
    requires d != 0.0 && 0.0 <= r && r * r == m && (m == d || m == -d) && 0.0 <= m
    ensures 0.0 < 1.0 / r && (1.0 / r) * (1.0 / r) * AbsVal(d) == 1.0
  {
    assert r != 0.0;
    assert AbsVal(d) == m;
    calc {
      (1.0 / r) * (1.0 / r) * AbsVal(d);
      (1.0 / r) * (1.0 / r) * (r * r);
      ((1.0 / r) * r) * ((1.0 / r) * r);
      1.0;
    }
  }

  /** A = D^(-1/2) * E': entry (row, col) of A is f[row] times entry
      (col, row) of the eigenvector matrix; both are stored with the
      leading dimension W->rows. */
  function ScaledTranspose(a0: Matrix, f: seq<real>, e: Matrix): (a: Matrix)
    requires a0.Valid() && e.Valid() && a0.rows == a0.cols == e.rows == e.cols == a0.ld == e.ld
    requires |f| == e.cols
    ensures a.Valid() && a.rows == a0.rows && a.cols == a0.cols && a.ld == a0.ld
  {
    a0.(elem := seq(|a0.elem|, i requires 0 <= i < |a0.elem| => ScaledTransposeEntry(a0, f, e, i)))
  }

  function ScaledTransposeEntry(a0: Matrix, f: seq<real>, e: Matrix, i: nat): real
    requires a0.Valid() && e.Valid() && a0.rows == a0.cols == e.rows == e.cols == a0.ld == e.ld
    requires |f| == e.cols && i < |a0.elem|
  {
    var n := e.cols;
    if 0 < n && i / n < n then Prod(f[i % n], e.At(i / n, i % n)) else a0.elem[i]
  }

  /** D^(-1/2) * E' is the transpose of E * D^(-1/2), the scaling of E's
      columns that the dewhitening matrix uses. */
  lemma ScaledTransposeIsTranspose(a0: Matrix, f: seq<real>, e: Matrix, r: nat, c: nat)
    requires a0.Valid() && e.Valid() && a0.rows == a0.cols == e.rows == e.cols == a0.ld == e.ld
    requires |f| == e.cols && r < e.cols && c < e.cols
    ensures ScaledTranspose(a0, f, e).At(r, c) == Dewhitening(e, f).At(c, r)
  {
    var n := e.cols;
    OffsetBelow(n, n, r, c);
    DewhiteningAt(e, f, c, r);
  }
}

=== FILE: ica_aux.dfy ===
/** The preprocessing of src/ica/aux.c: removing the row means of the
    observations and whitening them through the eigenpairs of their
    covariance. Rows of X are channels, columns are observations. sqrt is
    not modelled: the square roots of the eigenvalues are inputs related to
    the eigenvalues by a predicate. */
module IcaAux {
  import opened Matrices

  // ---------------------------------------------------------------------------
  // remmean and remmeanTranspose
  // ---------------------------------------------------------------------------

  /** The mean of every row (a zero-column X divides by zero). */
  function Means(x: Matrix): (means: seq<real>)
    requires x.Valid() && 1 <= x.cols
    ensures |means| == x.rows
  {
    seq(x.rows, r requires 0 <= r < x.rows => RowSum(x, r, x.cols) / x.cols as real)
  }

  /** Element (r, c) with its row's mean removed. */
  function Centered(x: Matrix, r: nat, c: nat): real
    requires x.Valid() && 1 <= x.cols && r < x.rows && c < x.cols
  {
    x.At(r, c) - Means(x)[r]
  }

  /** The loops accumulating the means: column by column, each column's
      elements added into their row's running sum, then each sum divided
      by the number of columns. Shared by remmean and remmeanTranspose,
      which repeat the same code. */
  method RowMeans(x: Matrix) returns (means: seq<real>)
    requires x.Valid() && 1 <= x.cols
    ensures means == Means(x)
  {
    means := seq(x.rows, _ => 0.0);
    var col := 0;
    while col < x.cols
      invariant 0 <= col <= x.cols && |means| == x.rows
      invariant forall r :: 0 <= r < x.rows ==> means[r] == RowSum(x, r, col)
    {
      var row := 0;
      while row < x.rows
        invariant 0 <= row <= x.rows && |means| == x.rows
        invariant forall r :: 0 <= r < row ==> means[r] == RowSum(x, r, col + 1)
        invariant forall r :: row <= r < x.rows ==> means[r] == RowSum(x, r, col)
      {
        OffsetBelow(x.ld, x.cols, row, col);
        means := means[row := means[row] + x.elem[col * x.ld + row]];
        row := row + 1;
      }
      col := col + 1;
    }
    var row := 0;
    while row < x.rows
      invariant 0 <= row <= x.rows && |means| == x.rows
      invariant forall r :: 0 <= r < row ==> means[r] == Means(x)[r]
      invariant forall r :: row <= r < x.rows ==> means[r] == RowSum(x, r, x.cols)
    {
      means := means[row := means[row] / x.cols as real];
      row := row + 1;
    }
  }

  /** (r, c) comes before (row, col) in the column-outer, row-inner order
      of the loops. */
  predicate Before(r: nat, c: nat, row: nat, col: nat)
  {
    c < col || (c == col && r < row)
  }

  /** Slot i of Z after remmean has visited every (r, c) before
      (row, col): within the block read through X's ld, X's slot less its
      row's mean; elsewhere Z's old value. */
  function RemmeanSlot(x: Matrix, means: seq<real>, z0: seq<real>, i: nat, row: nat, col: nat): real
    requires |means| == x.rows && i < |z0|
  {
    if 0 < x.ld && i % x.ld < x.rows && i / x.ld < x.cols && Before(i % x.ld, i / x.ld, row, col) && i < |x.elem|
    then x.elem[i] - means[i % x.ld] else z0[i]
  }

  /** Every slot of z is as RemmeanSlot says after (row, col). */
  predicate RemmeanAt(x: Matrix, means: seq<real>, z0: seq<real>, z: seq<real>, row: nat, col: nat)
    requires |means| == x.rows
  {
    |z| == |z0| && forall i :: 0 <= i < |z| ==> z[i] == RemmeanSlot(x, means, z0, i, row, col)
  }

  /** remmean: the means, and Z[r, c] = X[r, c] - means[r] stored at
      c * X.ld + r (X's leading dimension, for Z as well); the rest of Z's
      storage is left alone. */
  method Remmean(x: Matrix, z0: seq<real>) returns (means: seq<real>, z: seq<real>)
    requires x.Valid() && 1 <= x.cols && x.cols * x.ld <= |z0|
    ensures means == Means(x) && |z| == |z0|
    ensures forall r, c :: 0 <= r < x.rows && 0 <= c < x.cols ==>
      Offset(x.ld, r, c) < |z| && z[Offset(x.ld, r, c)] == x.At(r, c) - means[r]
    ensures forall i :: 0 <= i < |z| && !(0 < x.ld && i % x.ld < x.rows && i / x.ld < x.cols) ==> z[i] == z0[i]
  {
    means := RowMeans(x);
    z := z0;
    var col := 0;
    while col < x.cols
      invariant 0 <= col <= x.cols && RemmeanAt(x, means, z0, z, 0, col)
    {
      var row := 0;
      while row < x.rows
        invariant 0 <= row <= x.rows && RemmeanAt(x, means, z0, z, row, col)
      {
        OffsetBelow(x.ld, x.cols, row, col);
        var z1 := z[col * x.ld + row := x.elem[col * x.ld + row] - means[row]];
        RemmeanStep(x, means, z0, z, z1, row, col);
        z := z1;
        row := row + 1;
      }
      RemmeanNextColumn(x, means, z0, z, col);
      col := col + 1;
    }
    RemmeanDone(x, means, z0, z);
    RemmeanOutside(x, means, z0, z);
  }

  lemma RemmeanStep(x: Matrix, means: seq<real>, z0: seq<real>, z: seq<real>, z1: seq<real>, row: nat, col: nat)
    requires x.Valid() && |means| == x.rows && row < x.rows && col < x.cols && x.cols * x.ld <= |z0|
    requires RemmeanAt(x, means, z0, z, row, col)
    requires col * x.ld + row < |z| && col * x.ld + row < |x.elem|
    requires z1 == z[col * x.ld + row := x.elem[col * x.ld + row] - means[row]]
    ensures RemmeanAt(x, means, z0, z1, row + 1, col)
  {
    var k := col * x.ld + row;
    OffsetDecode(x.ld, row, col);
    forall i | 0 <= i < |z1|
      ensures z1[i] == RemmeanSlot(x, means, z0, i, row + 1, col)
    {
      if i != k {
        SlotOther(x.ld, i, row, col);
        assert z1[i] == RemmeanSlot(x, means, z0, i, row, col);
      }
    }
  }

  lemma RemmeanNextColumn(x: Matrix, means: seq<real>, z0: seq<real>, z: seq<real>, col: nat)
    requires |means| == x.rows && col < x.cols
    requires RemmeanAt(x, means, z0, z, x.rows, col)
    ensures RemmeanAt(x, means, z0, z, 0, col + 1)
  {
    forall i | 0 <= i < |z|
      ensures z[i] == RemmeanSlot(x, means, z0, i, 0, col + 1)
    {
      assert z[i] == RemmeanSlot(x, means, z0, i, x.rows, col);
    }
  }

  lemma RemmeanDone(x: Matrix, means: seq<real>, z0: seq<real>, z: seq<real>)
    requires x.Valid() && |means| == x.rows && x.cols * x.ld <= |z0|
    requires RemmeanAt(x, means, z0, z, 0, x.cols)
    ensures forall r, c :: 0 <= r < x.rows && 0 <= c < x.cols ==>
      Offset(x.ld, r, c) < |z| && z[Offset(x.ld, r, c)] == x.At(r, c) - means[r]
  {
    forall r, c | 0 <= r < x.rows && 0 <= c < x.cols
      ensures Offset(x.ld, r, c) < |z| && z[Offset(x.ld, r, c)] == x.At(r, c) - means[r]
    {
      RemmeanDoneAt(x, means, z0, z, r, c);
    }
  }

  lemma RemmeanDoneAt(x: Matrix, means: seq<real>, z0: seq<real>, z: seq<real>, r: nat, c: nat)
    requires x.Valid() && |means| == x.rows && x.cols * x.ld <= |z0| && r < x.rows && c < x.cols
    requires RemmeanAt(x, means, z0, z, 0, x.cols)
    ensures Offset(x.ld, r, c) < |z| && z[Offset(x.ld, r, c)] == x.At(r, c) - means[r]
  {
    OffsetBelow(x.ld, x.cols, r, c);
    OffsetDecode(x.ld, r, c);
    assert z[c * x.ld + r] == RemmeanSlot(x, means, z0, c * x.ld + r, 0, x.cols);
  }

  lemma RemmeanOutside(x: Matrix, means: seq<real>, z0: seq<real>, z: seq<real>)
    requires |means| == x.rows && RemmeanAt(x, means, z0, z, 0, x.cols)
    ensures forall i :: 0 <= i < |z| && !(0 < x.ld && i % x.ld < x.rows && i / x.ld < x.cols) ==> z[i] == z0[i]
  {
    forall i | 0 <= i < |z| && !(0 < x.ld && i % x.ld < x.rows && i / x.ld < x.cols)
      ensures z[i] == z0[i]
    {
      assert z[i] == RemmeanSlot(x, means, z0, i, 0, x.cols);
    }
  }

  /** A slot other than c * ld + r decodes to a pair other than (r, c). */
  lemma SlotOther(ld: nat, i: nat, r: nat, c: nat)
    requires 0 < ld && r < ld && i != c * ld + r
    ensures i % ld != r || i / ld != c
  {
  }

  /** Slot i of Z after remmeanTranspose has visited every (r, c) before
      (row, col): at r * Z.ld + c, X[r, c] less row r's mean; elsewhere Z's
      old value. */
  function TransposeSlot(x: Matrix, means: seq<real>, zld: nat, z0: seq<real>, i: nat, row: nat, col: nat): real
    requires |means| == x.rows && i < |z0|
  {
    if 0 < zld && i / zld < x.rows && i % zld < x.cols && Before(i / zld, i % zld, row, col)
       && (i % zld) * x.ld + i / zld < |x.elem|
    then x.elem[(i % zld) * x.ld + i / zld] - means[i / zld] else z0[i]
  }

  predicate TransposeAt(x: Matrix, means: seq<real>, zld: nat, z0: seq<real>, z: seq<real>, row: nat, col: nat)
    requires |means| == x.rows
  {
    |z| == |z0| && forall i :: 0 <= i < |z| ==> z[i] == TransposeSlot(x, means, zld, z0, i, row, col)
  }

  /** remmeanTranspose: the same means, and the centered data stored
      transposed in Z (rows x cols becomes cols x rows, at Z's ld). */
  method RemmeanTranspose(x: Matrix, zld: nat, z0: seq<real>) returns (means: seq<real>, z: seq<real>)
    requires x.Valid() && 1 <= x.cols && x.cols <= zld && x.rows * zld <= |z0|
    ensures means == Means(x) && |z| == |z0|
    ensures forall r, c :: 0 <= r < x.rows && 0 <= c < x.cols ==>
      Offset(zld, c, r) < |z| && z[Offset(zld, c, r)] == x.At(r, c) - means[r]
    ensures forall i :: 0 <= i < |z| && !(i / zld < x.rows && i % zld < x.cols) ==> z[i] == z0[i]
  {
    means := RowMeans(x);
    z := z0;
    var col := 0;
    while col < x.cols
      invariant 0 <= col <= x.cols && TransposeAt(x, means, zld, z0, z, 0, col)
    {
      var row := 0;
      while row < x.rows
        invariant 0 <= row <= x.rows && TransposeAt(x, means, zld, z0, z, row, col)
      {
        OffsetBelow(x.ld, x.cols, row, col);
        OffsetBelow(zld, x.rows, col, row);
        var z1 := z[row * zld + col := x.elem[col * x.ld + row] - means[row]];
        TransposeStep(x, means, zld, z0, z, z1, row, col);
        z := z1;
        row := row + 1;
      }
      TransposeNextColumn(x, means, zld, z0, z, col);
      col := col + 1;
    }
    TransposeDone(x, means, zld, z0, z);
    TransposeOutside(x, means, zld, z0, z);
  }

  /** One store of the remmeanTranspose loops. */
  lemma TransposeStep(x: Matrix, means: seq<real>, zld: nat, z0: seq<real>, z: seq<real>, z1: seq<real>, row: nat, col: nat)
    requires x.Valid() && |means| == x.rows && x.cols <= zld && row < x.rows && col < x.cols
    requires x.rows * zld <= |z0| && TransposeAt(x, means, zld, z0, z, row, col)
    requires row * zld + col < |z| && col * x.ld + row < |x.elem|
    requires z1 == z[row * zld + col := x.elem[col * x.ld + row] - means[row]]
    ensures TransposeAt(x, means, zld, z0, z1, row + 1, col)
  {
    var k := row * zld + col;
    OffsetDecode(zld, col, row);
    forall i | 0 <= i < |z1|
      ensures z1[i] == TransposeSlot(x, means, zld, z0, i, row + 1, col)
    {
      if i != k {
        SlotOther(zld, i, col, row);
        assert z1[i] == TransposeSlot(x, means, zld, z0, i, row, col);
      }
    }
  }

  lemma TransposeNextColumn(x: Matrix, means: seq<real>, zld: nat, z0: seq<real>, z: seq<real>, col: nat)
    requires |means| == x.rows && col < x.cols
    requires TransposeAt(x, means, zld, z0, z, x.rows, col)
    ensures TransposeAt(x, means, zld, z0, z, 0, col + 1)
  {
    forall i | 0 <= i < |z|
      ensures z[i] == TransposeSlot(x, means, zld, z0, i, 0, col + 1)
    {
      assert z[i] == TransposeSlot(x, means, zld, z0, i, x.rows, col);
    }
  }

  lemma TransposeDone(x: Matrix, means: seq<real>, zld: nat, z0: seq<real>, z: seq<real>)
    requires x.Valid() && |means| == x.rows && x.cols <= zld && x.rows * zld <= |z0|
    requires TransposeAt(x, means, zld, z0, z, 0, x.cols)
    ensures forall r, c :: 0 <= r < x.rows && 0 <= c < x.cols ==>
      Offset(zld, c, r) < |z| && z[Offset(zld, c, r)] == x.At(r, c) - means[r]
  {
    forall r, c | 0 <= r < x.rows && 0 <= c < x.cols
      ensures Offset(zld, c, r) < |z| && z[Offset(zld, c, r)] == x.At(r, c) - means[r]
    {
      TransposeDoneAt(x, means, zld, z0, z, r, c);
    }
  }

  lemma TransposeDoneAt(x: Matrix, means: seq<real>, zld: nat, z0: seq<real>, z: seq<real>, r: nat, c: nat)
    requires x.Valid() && |means| == x.rows && x.cols <= zld && x.rows * zld <= |z0| && r < x.rows && c < x.cols
    requires TransposeAt(x, means, zld, z0, z, 0, x.cols)
    ensures Offset(zld, c, r) < |z| && z[Offset(zld, c, r)] == x.At(r, c) - means[r]
  {
    OffsetBelow(zld, x.rows, c, r);
    OffsetDecode(zld, c, r);
    OffsetBelow(x.ld, x.cols, r, c);
    assert z[r * zld + c] == TransposeSlot(x, means, zld, z0, r * zld + c, 0, x.cols);
  }

  lemma TransposeOutside(x: Matrix, means: seq<real>, zld: nat, z0: seq<real>, z: seq<real>)
    requires |means| == x.rows && 0 < zld && TransposeAt(x, means, zld, z0, z, 0, x.cols)
    ensures forall i :: 0 <= i < |z| && !(i / zld < x.rows && i % zld < x.cols) ==> z[i] == z0[i]
  {
    forall i | 0 <= i < |z| && !(i / zld < x.rows && i % zld < x.cols)
      ensures z[i] == z0[i]
    {
      assert z[i] == TransposeSlot(x, means, zld, z0, i, 0, x.cols);
    }
  }

  /** Removing a constant m from every element of a row removes k * m
      from its first k elements' sum. */
  lemma {:induction false} RowSumShift(x: Matrix, z: Matrix, r: nat, m: real, k: nat)
    requires x.Valid() && z.Valid() && r < x.rows && r < z.rows && k <= x.cols && k <= z.cols
    requires forall c :: 0 <= c < k ==> z.At(r, c) == x.At(r, c) - m
    ensures RowSum(z, r, k) == RowSum(x, r, k) - k as real * m
  {
    if k > 0 {
      RowSumShift(x, z, r, m, k - 1);
    }
  }

  /** Every row of the centered data sums to zero. */
  lemma CenteredRowsSumToZero(x: Matrix, z: Matrix, r: nat)
    requires x.Valid() && 1 <= x.cols && z.Valid() && z.rows == x.rows && z.cols == x.cols && r < x.rows
    requires forall c :: 0 <= c < x.cols ==> z.At(r, c) == x.At(r, c) - Means(x)[r]
    ensures RowSum(z, r, z.cols) == 0.0
  {
    RowSumShift(x, z, r, Means(x)[r], x.cols);
  }

  // ---------------------------------------------------------------------------
  // computeWhiten and whiten
  // ---------------------------------------------------------------------------

  /** Each root is the non-negative square root of its eigenvalue, as sqrt
      returns it. */
  predicate RootsOf(roots: seq<real>, d: seq<real>)
  {
    |roots| == |d| && forall c :: 0 <= c < |d| ==> 0.0 <= roots[c] && roots[c] * roots[c] == d[c]
  }

  /** The whitening matrix D^(-1/2) * E': slot r * W.ld + c receives
      E[r, c] / sqrt(d[c]), i.e. W[c, r]. */
  function Whitening(w0: Matrix, e: Matrix, roots: seq<real>): (w: Matrix)
    requires e.Valid() && w0.Valid() && w0.rows == w0.cols == e.rows == e.cols && |roots| >= e.cols
    requires forall c :: 0 <= c < e.cols ==> roots[c] != 0.0
    ensures w.Valid() && w.rows == w0.rows && w.cols == w0.cols && w.ld == w0.ld
  {
    w0.(elem := seq(|w0.elem|, i requires 0 <= i < |w0.elem| => WhiteningEntry(w0, e, roots, i)))
  }

  function WhiteningEntry(w0: Matrix, e: Matrix, roots: seq<real>, i: nat): real
    requires e.Valid() && w0.Valid() && w0.rows == w0.cols == e.rows == e.cols && |roots| >= e.cols
    requires forall c :: 0 <= c < e.cols ==> roots[c] != 0.0
    requires i < |w0.elem|
  {
    var n := e.cols;
    if 0 < w0.ld && i % w0.ld < n && i / w0.ld < n then Prod(1.0 / roots[i % w0.ld], e.At(i / w0.ld, i % w0.ld)) else w0.elem[i]
  }

  /** The dewhitening matrix E * D^(1/2): column c of E scaled by sqrt(d[c])
      in place. */
  function Dewhitening(e: Matrix, roots: seq<real>): (dw: Matrix)
    requires e.Valid() && e.rows == e.cols && |roots| >= e.cols
    ensures dw.Valid() && dw.rows == e.rows && dw.cols == e.cols && dw.ld == e.ld
  {
    e.(elem := seq(|e.elem|, i requires 0 <= i < |e.elem| => DewhiteningEntry(e, roots, i)))
  }

  function DewhiteningEntry(e: Matrix, roots: seq<real>, i: nat): real
    requires e.Valid() && e.rows == e.cols && |roots| >= e.cols && i < |e.elem|
  {
    var n := e.cols;
    if 0 < e.ld && i % e.ld < n && i / e.ld < n then Prod(roots[i / e.ld], e.elem[i]) else e.elem[i]
  }

  lemma WhiteningAt(w0: Matrix, e: Matrix, roots: seq<real>, c: nat, r: nat)
    requires e.Valid() && w0.Valid() && w0.rows == w0.cols == e.rows == e.cols && |roots| >= e.cols
    requires forall c :: 0 <= c < e.cols ==> roots[c] != 0.0
    requires c < e.cols && r < e.cols
    ensures Whitening(w0, e, roots).At(c, r) == Prod(1.0 / roots[c], e.At(r, c))
  {
    var i := Offset(w0.ld, c, r);
    OffsetBelow(w0.ld, w0.cols, c, r);
  }

  lemma DewhiteningAt(e: Matrix, roots: seq<real>, r: nat, c: nat)
    requires e.Valid() && e.rows == e.cols && |roots| >= e.cols
    requires r < e.cols && c < e.cols
    ensures Dewhitening(e, roots).At(r, c) == Prod(roots[c], e.At(r, c))
  {
    var i := Offset(e.ld, r, c);
    OffsetBelow(e.ld, e.cols, r, c);
  }

  /** The sum over s < k of u[s] * v[s]. */
  function Inner(u: seq<real>, v: seq<real>, k: nat): real
    requires k <= |u| && k <= |v|
  {
    if k == 0 then 0.0 else Inner(u, v, k - 1) + Prod(u[k - 1], v[k - 1])
  }

  /** Row r of op(M) and column c of op(M) as sequences. */
  function OpRow(m: Matrix, t: bool, r: nat): (u: seq<real>)
    requires m.Valid() && r < OpRows(m, t)
    ensures |u| == OpCols(m, t) && forall s :: 0 <= s < |u| ==> u[s] == OpAt(m, t, r, s)
  {
    seq(OpCols(m, t), s requires 0 <= s < OpCols(m, t) => OpAt(m, t, r, s))
  }

  function OpCol(m: Matrix, t: bool, c: nat): (v: seq<real>)
    requires m.Valid() && c < OpCols(m, t)
    ensures |v| == OpRows(m, t) && forall s :: 0 <= s < |v| ==> v[s] == OpAt(m, t, s, c)
  {
    seq(OpRows(m, t), s requires 0 <= s < OpRows(m, t) => OpAt(m, t, s, c))
  }

  /** A product entry is the inner product of a row and a column. */
  lemma {:induction false} DotIsInner(a: Matrix, ta: bool, b: Matrix, tb: bool, r: nat, c: nat, k: nat)
    requires a.Valid() && b.Valid()
    requires r < OpRows(a, ta) && c < OpCols(b, tb) && k <= OpCols(a, ta) && k <= OpRows(b, tb)
    ensures Dot(a, ta, b, tb, r, c, k) == Inner(OpRow(a, ta, r), OpCol(b, tb, c), k)
  {
    if k > 0 {
      DotIsInner(a, ta, b, tb, r, c, k - 1);
      DotLast(a, ta, b, tb, r, c, k);
    }
  }

  /** Scaling every u[s] by p and every v[s] by q scales the inner product
      by p * q. */
  lemma {:induction false} InnerScaled(u: seq<real>, v: seq<real>, x: seq<real>, y: seq<real>, p: real, q: real, k: nat)
    requires k <= |u| && k <= |v| && k <= |x| && k <= |y|
    requires forall s :: 0 <= s < k ==> x[s] == Prod(p, u[s]) && y[s] == Prod(q, v[s])
    ensures Inner(x, y, k) == Prod(Prod(p, q), Inner(u, v, k))
  {
    if k > 0 {
      InnerScaled(u, v, x, y, p, q, k - 1);
      var s := k - 1;
      ProductOfScaled(x[s], y[s], p, u[s], q, v[s]);
      ScaledSum(Inner(x, y, s), Inner(u, v, s), Prod(x[s], y[s]), Prod(u[s], v[s]), Prod(p, q));
    }
  }

  lemma ProductOfScaled(u: real, v: real, p: real, a: real, q: real, b: real)
    requires u == Prod(p, a) && v == Prod(q, b)
    ensures Prod(u, v) == Prod(Prod(p, q), Prod(a, b))
  {
  }

  lemma ScaledSum(pw: real, pe: real, tw: real, te: real, f: real)
    requires pw == Prod(f, pe) && tw == Prod(f, te)
    ensures pw + tw == Prod(f, pe + te)
  {
  }

  /** Scaling row i of op(A) by p and column j of op(B) by q scales the
      (i, j) entry of the product by p * q. */
  lemma DotScaled(a: Matrix, ta: bool, b: Matrix, tb: bool, c: Matrix, tc: bool, d: Matrix, td: bool,
                  i: nat, j: nat, n: nat, p: real, q: real)
    requires a.Valid() && b.Valid() && c.Valid() && d.Valid()
    requires i < OpRows(a, ta) && j < OpCols(b, tb) && n <= OpCols(a, ta) && n <= OpRows(b, tb)
    requires i < OpRows(c, tc) && j < OpCols(d, td) && n <= OpCols(c, tc) && n <= OpRows(d, td)
    requires forall s :: 0 <= s < n ==> OpAt(a, ta, i, s) == Prod(p, OpAt(c, tc, i, s))
    requires forall s :: 0 <= s < n ==> OpAt(b, tb, s, j) == Prod(q, OpAt(d, td, s, j))
    ensures Dot(a, ta, b, tb, i, j, n) == Prod(Prod(p, q), Dot(c, tc, d, td, i, j, n))
  {
    InnerScaled(OpRow(c, tc, i), OpCol(d, td, j), OpRow(a, ta, i), OpCol(b, tb, j), p, q, n);
    DotIsInner(a, ta, b, tb, i, j, n);
    DotIsInner(c, tc, d, td, i, j, n);
  }

  /** (W * Dw)[i, j] is sqrt(d[j]) / sqrt(d[i]) times (E' * E)[i, j]. */
  lemma WhitenDewhitenScaled(w0: Matrix, e: Matrix, roots: seq<real>, i: nat, j: nat)
    requires e.Valid() && w0.Valid() && w0.rows == w0.cols == e.rows == e.cols && |roots| >= e.cols
    requires forall c :: 0 <= c < e.cols ==> roots[c] != 0.0
    requires i < e.cols && j < e.cols
    ensures Dot(Whitening(w0, e, roots), false, Dewhitening(e, roots), false, i, j, e.cols)
         == Prod(Prod(1.0 / roots[i], roots[j]), Dot(e, true, e, false, i, j, e.cols))
  {
    var w, dw := Whitening(w0, e, roots), Dewhitening(e, roots);
    forall s | 0 <= s < e.cols
      ensures OpAt(w, false, i, s) == Prod(1.0 / roots[i], OpAt(e, true, i, s))
    {
      WhiteningAt(w0, e, roots, i, s);
    }
    forall s | 0 <= s < e.cols
      ensures OpAt(dw, false, s, j) == Prod(roots[j], OpAt(e, false, s, j))
    {
      DewhiteningAt(e, roots, s, j);
    }
    DotScaled(w, false, dw, false, e, true, e, false, i, j, e.cols, 1.0 / roots[i], roots[j]);
  }

  /** With orthonormal eigenvectors and non-zero roots, the whitening
      matrix inverts the dewhitening matrix: W * Dw = I. */
  lemma WhitenInvertsDewhiten(w0: Matrix, e: Matrix, roots: seq<real>, i: nat, j: nat)
    requires e.Valid() && w0.Valid() && w0.rows == w0.cols == e.rows == e.cols && |roots| >= e.cols
    requires forall c :: 0 <= c < e.cols ==> roots[c] != 0.0
    requires Orthonormal(e) && i < e.cols && j < e.cols
    ensures Dot(Whitening(w0, e, roots), false, Dewhitening(e, roots), false, i, j, e.cols) == if i == j then 1.0 else 0.0
  {
    WhitenDewhitenScaled(w0, e, roots, i, j);
    assert Dot(e, true, e, false, i, j, e.rows) == if i == j then 1.0 else 0.0;
  }

  /** The covariance computeWhiten decomposes: Z * Z' / (cols - 1), or
      Z' * Z / (rows - 1) when Z holds observations in its rows. */
  function CovarianceOf(c0: Matrix, z: Matrix, transpose: bool): (cov: Matrix)
    requires Conformable(c0, z, transpose, z, !transpose)
    requires if transpose then 2 <= z.rows else 2 <= z.cols
  {
    if transpose then CovarianceT(c0, z) else Covariance(c0, z)
  }

  /** computeWhiten: the covariance goes into the dewhitening storage, SYEV
      turns it into eigenvectors E with eigenvalues d (an input satisfying
      SYEV's postcondition), and the loops produce W = D^(-1/2) E' and
      Dw = E D^(1/2). With positive eigenvalues, W inverts Dw. */
  method ComputeWhiten(w0: Matrix, c0: Matrix, z: Matrix, transpose: bool, e: Matrix, d: seq<real>, roots: seq<real>)
      returns (w: Matrix, dw: Matrix)
    requires Conformable(c0, z, transpose, z, !transpose)
    requires if transpose then 2 <= z.rows else 2 <= z.cols
    requires Syev(CovarianceOf(c0, z, transpose), e, d) && e.ld == c0.ld
    requires w0.Valid() && w0.rows == w0.cols == e.cols
    requires RootsOf(roots, d[..e.cols]) && forall c :: 0 <= c < e.cols ==> 0.0 < d[c]
    ensures w.Valid() && dw.Valid() && w.rows == w.cols == dw.rows == dw.cols == e.cols
    ensures forall c, r :: 0 <= c < e.cols && 0 <= r < e.cols ==> w.At(c, r) == Prod(1.0 / roots[c], e.At(r, c))
    ensures forall r, c :: 0 <= r < e.cols && 0 <= c < e.cols ==> dw.At(r, c) == Prod(roots[c], e.At(r, c))
    ensures forall i, j :: 0 <= i < e.cols && 0 <= j < e.cols ==>
      Dot(w, false, dw, false, i, j, e.cols) == if i == j then 1.0 else 0.0
  {
    forall c | 0 <= c < e.cols
      ensures roots[c] != 0.0
    {
      assert d[..e.cols][c] == d[c];
    }
    w := Whitening(w0, e, roots);
    dw := Dewhitening(e, roots);
    forall c, r | 0 <= c < e.cols && 0 <= r < e.cols
      ensures w.At(c, r) == Prod(1.0 / roots[c], e.At(r, c)) && dw.At(r, c) == Prod(roots[c], e.At(r, c))
    {
      WhiteningAt(w0, e, roots, c, r);
      DewhiteningAt(e, roots, r, c);
    }
    forall i, j | 0 <= i < e.cols && 0 <= j < e.cols
      ensures Dot(w, false, dw, false, i, j, e.cols) == if i == j then 1.0 else 0.0
    {
      WhitenInvertsDewhiten(w0, e, roots, i, j);
    }
  }

  /** whiten: after computeWhiten, the whitened data W * Z, or W * Z' when
      the observations are in Z's rows. */
  method Whiten(y0: Matrix, w0: Matrix, c0: Matrix, z: Matrix, transpose: bool, e: Matrix, d: seq<real>, roots: seq<real>)
      returns (y: Matrix, w: Matrix, dw: Matrix)
    requires Conformable(c0, z, transpose, z, !transpose)
    requires if transpose then 2 <= z.rows else 2 <= z.cols
    requires Syev(CovarianceOf(c0, z, transpose), e, d) && e.ld == c0.ld
    requires w0.Valid() && w0.rows == w0.cols == e.cols
    requires RootsOf(roots, d[..e.cols]) && forall c :: 0 <= c < e.cols ==> 0.0 < d[c]
    requires Conformable(y0, Whitening(w0, e, roots), false, z, transpose)
    ensures w.Valid() && w.rows == w.cols == e.cols
    ensures forall r, c :: 0 <= r < e.cols && 0 <= c < OpCols(z, transpose) ==>
      Offset(y0.ld, r, c) < |y.elem| && y.elem[Offset(y0.ld, r, c)] == Dot(w, false, z, transpose, r, c, e.cols)
  {
    w, dw := ComputeWhiten(w0, c0, z, transpose, e, d, roots);
    y := Gemm(y0, w, false, z, transpose, 1.0);
    forall r, c | 0 <= r < e.cols && 0 <= c < OpCols(z, transpose)
      ensures Offset(y0.ld, r, c) < |y.elem| && y.elem[Offset(y0.ld, r, c)] == Dot(w, false, z, transpose, r, c, e.cols)
    {
      GemmAt(y0, w, false, z, transpose, 1.0, r, c);
    }
  }

  // ---------------------------------------------------------------------------
  // The square root of a raw eigenvalue
  // ---------------------------------------------------------------------------

  /** computeWhiten takes sqrt of each eigenvalue as SYEV returned it. A
      covariance matrix has no negative eigenvalue over the reals, but a
      rounded one can (a direction of zero variance comes back as, say,
      -1e-17); such an eigenvalue has no real square root, so no roots
      exist and the whitening of the source is undefined (NaN in C). */
  lemma RootsNeedNonNegative(roots: seq<real>, d: seq<real>)
    requires RootsOf(roots, d)
    ensures forall c :: 0 <= c < |d| ==> 0.0 <= d[c]
  {
    forall c | 0 <= c < |d|
      ensures 0.0 <= d[c]
    {
      SquareNonNegative(roots[c]);
    }
  }

  lemma SquareNonNegative(v: real)
    ensures 0.0 <= v * v
  {
  }

  /** The eigenvalue magnitudes fastica takes before sqrt. */
  function Magnitudes(d: seq<real>): (m: seq<real>)
    ensures |m| == |d| && forall c :: 0 <= c < |d| ==> 0.0 <= m[c] && (m[c] == d[c] || m[c] == -d[c])
  {
    seq(|d|, c requires 0 <= c < |d| => if d[c] < 0.0 then -d[c] else d[c])
  }

  /** The corrected whitening roots: sqrt(|d|), as fastica.c computes its
      eigenvalue factors. Roots of the magnitudes exist whatever the signs,
      and every non-zero eigenvalue, negative ones included, gives
      W * Dw = I. */
  method ComputeWhitenMagnitudes(w0: Matrix, c0: Matrix, z: Matrix, transpose: bool, e: Matrix, d: seq<real>, roots: seq<real>)
      returns (w: Matrix, dw: Matrix)
    requires Conformable(c0, z, transpose, z, !transpose)
    requires if transpose then 2 <= z.rows else 2 <= z.cols
    requires Syev(CovarianceOf(c0, z, transpose), e, d) && e.ld == c0.ld
    requires w0.Valid() && w0.rows == w0.cols == e.cols
    requires RootsOf(roots, Magnitudes(d[..e.cols])) && forall c :: 0 <= c < e.cols ==> d[c] != 0.0
    ensures w.Valid() && dw.Valid() && w.rows == w.cols == dw.rows == dw.cols == e.cols
    ensures forall c, r :: 0 <= c < e.cols && 0 <= r < e.cols ==> w.At(c, r) == Prod(1.0 / roots[c], e.At(r, c))
    ensures forall i, j :: 0 <= i < e.cols && 0 <= j < e.cols ==>
      Dot(w, false, dw, false, i, j, e.cols) == if i == j then 1.0 else 0.0
  {
    forall c | 0 <= c < e.cols
      ensures roots[c] != 0.0
    {
      assert d[..e.cols][c] == d[c];
      assert roots[c] * roots[c] == Magnitudes(d[..e.cols])[c];
    }
    w := Whitening(w0, e, roots);
    dw := Dewhitening(e, roots);
    forall c, r | 0 <= c < e.cols && 0 <= r < e.cols
      ensures w.At(c, r) == Prod(1.0 / roots[c], e.At(r, c))
    {
      WhiteningAt(w0, e, roots, c, r);
    }
    forall i, j | 0 <= i < e.cols && 0 <= j < e.cols
      ensures Dot(w, false, dw, false, i, j, e.cols) == if i == j then 1.0 else 0.0
    {
      WhitenInvertsDewhiten(w0, e, roots, i, j);
    }
  }
}

=== FILE: ica_session.dfy ===
/** The ICA library's session (src/ica/ica.cpp): ica_init keeps a copy of
    the parameters and starts the chosen implementation, re-initialising
    only when the parameters change; ica_shutdown stops it; ica starts the
    library with default or resized parameters when needed and runs the
    chosen implementation.

    The GPU implementations are compiled only with ENABLE_GPU, which this
    model leaves undefined: a request for one leaves the library
    uninitialised and ica returns 0. */
module IcaSession {
  import FastIca
  import Jade

  const UintModulus: nat := 0x1_0000_0000

  /** ICA_TYPE: ICA_FASTICA = 0, ICA_JADE = 1. */
  const IcaFastIca: int := 0
  const IcaJade: int := 1

  /** The ICAParams struct, with enums and flags as the ints they are. */
  datatype IcaParams = IcaParams(implem: int, epsilon: real, contrast: int, maxIter: nat,
                                 numVar: nat, numObs: nat, gpuDevice: int, useGpu: int)
  {
    /** The unsigned fields fit an unsigned int. */
    predicate Unsigned()
    {
      maxIter < UintModulus && numVar < UintModulus && numObs < UintModulus
    }
  }

  /** The defaults ica uses when nothing was initialised: FastICA,
      epsilon 0.0001, tanh, 400 iterations, the sizes of X, device 1, no
      GPU. */
  function DefaultParams(rows: nat, cols: nat): (p: IcaParams)
    ensures p.numVar == rows && p.numObs == cols && p.useGpu == 0
  {
    IcaParams(IcaFastIca, 0.0001, 0, 400, rows, cols, 1, 0)
  }

  /** The state of the running implementation. */
  datatype Library = NoLibrary | FastIcaLib(config: FastIca.FastIcaConfig) | JadeLib(sizes: Jade.JadeSizes)

  /** The static state of ica.cpp: the parameters copy and the
      initialised flag, with the implementation's state. */
  datatype Session = Session(params: IcaParams, initialized: bool, lib: Library)

  /** The library a CPU initialisation starts: JADE for ICA_JADE,
      FastICA for every other value. `root` stands for the C library's
      sqrt, which jade_init calls; it is a parameter of everything below
      that states which library runs. */
  function Startup(p: IcaParams, root: real -> real): (l: Library)
    requires p.Unsigned()
    ensures l.JadeLib? <==> p.implem == IcaJade
    ensures l.FastIcaLib? <==> p.implem != IcaJade
    ensures l.JadeLib? ==> l.sizes.numVar == p.numVar
    ensures l.FastIcaLib? ==> l.config.numVar == p.numVar && l.config.numObs == p.numObs
  {
    if p.implem == IcaJade then JadeLib(Jade.JadeInit(p.numVar, p.numObs, root))
    else FastIcaLib(FastIca.FastIcaInit(p.epsilon, p.contrast, p.maxIter, p.numVar, p.numObs))
  }

  /** The kept parameters fit their C types and the flag is set exactly
      when an implementation runs. */
  predicate Wellformed(s: Session)
  {
    s.params.Unsigned() && (s.initialized <==> s.lib != NoLibrary)
  }

  /** What every reachable session satisfies: it is well formed, and the
      implementation running was started from the parameters kept. */
  predicate Consistent(s: Session, root: real -> real)
  {
    Wellformed(s) && (s.initialized ==> s.params.useGpu == 0 && s.lib == Startup(s.params, root))
  }

  /** The state before any call: zeroed statics. */
  function Fresh(): (s: Session)
    ensures Wellformed(s) && !s.initialized
  {
    Session(IcaParams(0, 0.0, 0, 0, 0, 0, 0, 0), false, NoLibrary)
  }

  /** ica_shutdown: stops the running implementation; the parameters copy
      stays. */
  function Shutdown(s: Session): (t: Session)
    requires Wellformed(s)
    ensures Wellformed(t) && !t.initialized && t.params == s.params
    ensures !s.initialized ==> t == s
  {
    if s.initialized then s.(initialized := false, lib := NoLibrary) else s
  }

  /** ica_init: with the same parameters as the running implementation,
      nothing changes and 1 is returned; otherwise the running one is
      shut down, the parameters are kept and the chosen implementation is
      started, which succeeds (1) on the CPU and does nothing (0) for the
      GPU. */
  function Init(s: Session, p: IcaParams, root: real -> real): (r: (Session, int))
    requires Consistent(s, root) && p.Unsigned()
    ensures Consistent(r.0, root) && r.0.params == p
    ensures r.1 == 1 <==> r.0.initialized
    ensures r.0.initialized <==> p.useGpu == 0
    ensures s.initialized && s.params == p ==> r == (s, 1)
    ensures p.useGpu == 0 ==> r.0.lib == Startup(p, root)
  {
    if s.initialized && s.params == p then (s, 1)
    else
      var s1 := Shutdown(s);
      if p.useGpu != 0 then (s1.(params := p), 0)
      else (Session(p, true, Startup(p, root)), 1)
  }

  /** Initialising twice with the same parameters is initialising once. */
  lemma InitIdempotent(s: Session, p: IcaParams, root: real -> real)
    requires Consistent(s, root) && p.Unsigned()
    ensures Init(Init(s, p, root).0, p, root) == Init(s, p, root)
  {
  }

  /** After a shutdown, initialising starts the implementation afresh:
      the session is the one a first initialisation gives. */
  lemma InitAfterShutdown(s: Session, p: IcaParams, root: real -> real)
    requires Consistent(s, root) && p.Unsigned()
    ensures Init(Shutdown(s), p, root).1 == Init(Fresh(), p, root).1
    ensures Init(Shutdown(s), p, root).0.(lib := NoLibrary) == Init(Fresh(), p, root).0.(lib := NoLibrary)
    ensures p.useGpu == 0 ==> Init(Shutdown(s), p, root) == Init(Fresh(), p, root)
  {
  }

  /** What ica ran. */
  datatype Run = RanFastIca | RanJade | RanNothing

  /** The session ica runs in: started with the defaults when nothing was
      initialised, then re-initialised with X's sizes when the kept ones
      differ. */
  function Prepare(s: Session, rows: nat, cols: nat, root: real -> real): (t: Session)
    requires Consistent(s, root) && rows < UintModulus && cols < UintModulus
    ensures Consistent(t, root) && t.params.numVar == rows && t.params.numObs == cols
    ensures !s.initialized ==> t == Init(s, DefaultParams(rows, cols), root).0
    ensures s.initialized && s.params.numVar == rows && s.params.numObs == cols ==> t == s
  {
    var s1 := if !s.initialized then Init(s, DefaultParams(rows, cols), root).0 else s;
    if s1.params.numVar != rows || s1.params.numObs != cols then
      Init(s1, s1.params.(numVar := rows, numObs := cols), root).0
    else s1
  }

  /** ica: prepares the session, then runs JADE for ICA_JADE and FastICA
      for any other value, on the CPU; a GPU request runs nothing and
      returns 0. The implementation run was started for X's sizes, and
      the count returned is its sweeps or iterations. `rotated` and
      `measure` stand for the floating-point work of the sweeps and
      iterations, and `root` for sqrt. */
  method Ica(s: Session, rows: nat, cols: nat, rotated: nat -> bool, measure: nat -> real, root: real -> real)
      returns (t: Session, count: nat, ran: Run)
    requires Consistent(s, root) && rows < UintModulus && cols < UintModulus
    ensures t == Prepare(s, rows, cols, root)
    ensures ran == RanNothing <==> t.params.useGpu != 0
    ensures ran == RanNothing ==> count == 0
    ensures ran != RanNothing ==> t.initialized && t.lib == Startup(t.params, root)
    ensures ran == RanJade <==> ran != RanNothing && t.params.implem == IcaJade
    ensures ran == RanJade ==> t.lib.sizes.numVar == rows && 1 <= count <= Jade.MaxSweeps
    ensures ran == RanFastIca ==> t.lib.config.numVar == rows && t.lib.config.numObs == cols
    ensures ran == RanFastIca ==> 1 <= count && (count == 1 || count <= t.lib.config.maxIter)
    ensures !s.initialized ==> ran == RanFastIca && t.lib.config.maxIter == 400
  {
    t := Prepare(s, rows, cols, root);
    if t.params.useGpu != 0 {
      return t, 0, RanNothing;
    }
    if t.params.implem == IcaJade {
      count := Jade.Sweeps(rotated);
      ran := RanJade;
    } else {
      var readFrom, held;
      count, readFrom, held := FastIca.Iterate(t.lib.config.maxIter, t.lib.config.epsilon, measure);
      ran := RanFastIca;
    }
  }
}

=== FILE: jade.dfy ===
/** The bookkeeping of the JADE implementation (src/ica/jade/jade.c): the
    sizes jade_init derives from the number of variables, the order in
    which the cumulant matrices are formed and the correction each one
    receives, the pairs a Jacobi sweep visits, the entries a Givens
    rotation updates, what those rotations keep, and the sweep counter.

    The floating-point matrix products, atan2, sin and cos are not part
    of this model: a rotation enters as its cosine and sine. */
module Jade {
  import opened Options
  import opened Matrices

  /** unsigned int arithmetic wraps modulo 2^32. */
  const UintModulus: nat := 0x1_0000_0000

  /** The most sweeps jade performs. */
  const MaxSweeps: nat := 100

  // ---------------------------------------------------------------------------
  // jade_init
  // ---------------------------------------------------------------------------

  /** What jade_init stores: the number of cumulant matrices n (n + 1) / 2
      and of elements in each n^2, both in unsigned arithmetic, the bytes
      of one matrix, the scale 1/T applied to the cumulant sums and the
      rotation threshold 1/(100 sqrt T) for T observations. A scale or
      threshold that is a division by zero (an infinity in C) is None. */
  datatype JadeSizes = JadeSizes(numVar: nat, numCm: nat, numElem: nat, matSize: nat,
                                 scale: Option<real>, threshold: Option<real>)

  /** The triangular number 0 + 1 + ... + n. */
  function Tri(n: nat): nat
  {
    if n == 0 then 0 else Tri(n - 1) + n
  }

  lemma {:induction false} TriClosed(n: nat)
    ensures 2 * Tri(n) == n * (n + 1)
  {
    if n > 0 {
      TriClosed(n - 1);
      assert n * (n + 1) == (n - 1) * n + 2 * n;
    }
  }

  /** jade_init: the counts, where the product n (n + 1) is taken modulo
      2^32 before halving, and the scale and threshold for numObs
      observations. `root` stands for the C library's sqrt. */
  function JadeInit(numVar: nat, numObs: nat, root: real -> real): (s: JadeSizes)
    requires numVar < UintModulus
    ensures s.numVar == numVar && s.numCm < UintModulus && s.numElem < UintModulus
    ensures s.matSize == 8 * s.numElem
    ensures 2 * s.numCm <= (numVar * (numVar + 1)) % UintModulus
    ensures s.scale.None? <==> numObs == 0
    ensures s.scale.Some? ==> s.scale.value * numObs as real == 1.0
    ensures s.threshold.None? <==> root(numObs as real) == 0.0
    ensures s.threshold.Some? ==> s.threshold.value * root(numObs as real) * 100.0 == 1.0
  {
    var prod := (numVar * (numVar + 1)) % UintModulus;
    var elems := (numVar * numVar) % UintModulus;
    var t := numObs as real;
    var scale := if t == 0.0 then None else Some(1.0 / t);
    var threshold := if root(t) == 0.0 then None else Some((1.0 / root(t)) / 100.0);
    JadeSizes(numVar, prod / 2, elems, 8 * elems, scale, threshold)
  }

  /** Up to 65535 variables nothing wraps: there is one cumulant matrix
      per pair j <= i < n and n^2 elements in each. */
  lemma JadeInitCounts(numVar: nat, numObs: nat, root: real -> real)
    requires numVar <= 0xFFFF
    ensures JadeInit(numVar, numObs, root).numCm == Tri(numVar) == |CumulantOrder(numVar)|
    ensures JadeInit(numVar, numObs, root).numElem == numVar * numVar
  {
    var prod := numVar * (numVar + 1);
    var square := numVar * numVar;
    ProductsBelow(numVar, prod, square);
    assert prod % UintModulus == prod;
    assert square % UintModulus == square;
    TriClosed(numVar);
    CumulantOrderLength(numVar);
  }

  lemma ProductsBelow(n: nat, prod: nat, square: nat)
    requires n <= 0xFFFF && prod == n * (n + 1) && square == n * n
    ensures prod < UintModulus && square < UintModulus
  {
    MulLeq(n, 0xFFFF, n + 1);
    MulLeq(n + 1, 0x1_0000, 0xFFFF);
    MulLeq(n, 0xFFFF, n);
  }

  /** At 65536 variables the product wraps and the count collapses. */
  lemma JadeInitWraps(numObs: nat, root: real -> real)
    ensures JadeInit(0x1_0000, numObs, root).numCm == 0x8000
    ensures JadeInit(0x1_0000, numObs, root).numElem == 0
    ensures Tri(0x1_0000) == 0x8000_8000
  {
    TriClosed(0x1_0000);
  }

  /** jade's start for the rotation V: its n^2 elements zeroed, then 1.0 at
      i n + i for each variable i. Laid out n x n with leading dimension
      n, V is the identity. */
  method RotationStart(n: nat, v0: seq<real>) returns (v: Matrix)
    requires |v0| == n * n
    ensures v == Identity(n)
  {
    var e := SetIdentity(v0, n);
    assert e == e[..n * n];
    v := Matrix(e, n, n, n, n);
  }

  // ---------------------------------------------------------------------------
  // The cumulant matrices
  // ---------------------------------------------------------------------------

  /** The matrices formed for variable i: Q_iikl first, then Q_ijkl for
      each j < i. */
  function CumulantBlock(i: nat): (b: seq<(nat, nat)>)
    ensures |b| == i + 1
  {
    [(i, i)] + seq(i, j requires 0 <= j < i => (i, j as nat))
  }

  /** The pairs (i, j) of the cumulant matrices, in the order the loop
      stores them. */
  function CumulantOrder(n: nat): seq<(nat, nat)>
  {
    if n == 0 then [] else CumulantOrder(n - 1) + CumulantBlock(n - 1)
  }

  /** Where the matrix of pair (i, j), j <= i, is stored. */
  function CumulantPosition(i: nat, j: nat): nat
    requires j <= i
  {
    Tri(i) + (if j == i then 0 else j + 1)
  }

  lemma {:induction false} CumulantOrderLength(n: nat)
    ensures |CumulantOrder(n)| == Tri(n)
  {
    if n > 0 {
      CumulantOrderLength(n - 1);
    }
  }

  /** The matrix of every pair j <= i < n is at its position. */
  lemma {:induction false} CumulantOrderAt(n: nat, i: nat, j: nat)
    requires j <= i < n
    ensures CumulantPosition(i, j) < |CumulantOrder(n)| && CumulantOrder(n)[CumulantPosition(i, j)] == (i, j)
  {
    CumulantOrderLength(n - 1);
    if i < n - 1 {
      CumulantOrderAt(n - 1, i, j);
      TriMonotone(i + 1, n - 1);
    }
  }

  /** Every stored matrix belongs to a pair j <= i < n, and it is that
      pair's position: the order is a bijection between the positions
      and the pairs. */
  lemma {:induction false} CumulantOrderPairs(n: nat, k: nat)
    requires k < |CumulantOrder(n)|
    ensures var (i, j) := CumulantOrder(n)[k]; j <= i < n && CumulantPosition(i, j) == k
  {
    CumulantOrderLength(n - 1);
    if k < Tri(n - 1) {
      CumulantOrderPairs(n - 1, k);
    }
  }

  lemma {:induction false} TriMonotone(a: nat, b: nat)
    requires a <= b
    ensures Tri(a) <= Tri(b)
    decreases b
  {
    if a < b {
      TriMonotone(a, b - 1);
    }
  }

  function Delta(a: nat, b: nat): real
  {
    if a == b then 1.0 else 0.0
  }

  /** The fourth moment of a white Gaussian vector, which a fourth-order
      cumulant subtracts from the moment E[z_i z_j z_k z_l]. */
  function GaussianMoment(i: nat, j: nat, k: nat, l: nat): real
  {
    Delta(i, j) * Delta(k, l) + Delta(i, k) * Delta(j, l) + Delta(i, l) * Delta(j, k)
  }

  /** Entry (k, l) of an n x n column-major matrix. */
  function Entry(m: seq<real>, n: nat, k: nat, l: nat): real
    requires |m| == n * n && k < n && l < n
  {
    OffsetBelow(n, n, k, l);
    m[Offset(n, k, l)]
  }

  predicate SubtractedBelow(m0: seq<real>, m: seq<real>, n: nat, i: nat, j: nat, t: nat)
    requires |m0| == |m| == n * n && j <= i < n && t <= n
  {
    forall k, l :: 0 <= k < n && 0 <= l < n ==>
      Entry(m, n, k, l) == Entry(m0, n, k, l) - (if i == j && k == l && t <= k then 0.0 else GaussianMoment(i, j, k, l))
  }

  /** The correction jade applies to the moment matrix of pair (i, j):
      for i == j, 3 off the diagonal entry (i, i) and 1 off every other
      diagonal entry; for j < i, 1 off entries (j, i) and (i, j). That is
      the Gaussian moment at every entry. */
  method SubtractGaussian(m0: seq<real>, n: nat, i: nat, j: nat) returns (m: seq<real>)
    requires |m0| == n * n && j <= i < n
    ensures |m| == n * n
    ensures forall k, l :: 0 <= k < n && 0 <= l < n ==>
      Entry(m, n, k, l) == Entry(m0, n, k, l) - GaussianMoment(i, j, k, l)
  {
    m := m0;
    if i == j {
      var t := 0;
      while t < n
        invariant t <= n && |m| == n * n
        invariant SubtractedBelow(m0, m, n, i, j, t)
      {
        OffsetBelow(n, n, t, t);
        var at := Offset(n, t, t);
        var m1 := m[at := m[at] - (if t == i then 3.0 else 1.0)];
        SubtractStep(m0, m, m1, n, i, t);
        m, t := m1, t + 1;
      }
    } else {
      OffsetBelow(n, n, j, i);
      OffsetBelow(n, n, i, j);
      var a := Offset(n, j, i);
      var b := Offset(n, i, j);
      m := m[a := m[a] - 1.0];
      m := m[b := m[b] - 1.0];
      forall k, l | 0 <= k < n && 0 <= l < n
        ensures Entry(m, n, k, l) == Entry(m0, n, k, l) - GaussianMoment(i, j, k, l)
      {
        OffsetBelow(n, n, k, l);
        if (k, l) != (j, i) && (k, l) != (i, j) {
          OffsetInjective(n, k, l, j, i);
          OffsetInjective(n, k, l, i, j);
        }
      }
    }
  }

  lemma SubtractStep(m0: seq<real>, m: seq<real>, m1: seq<real>, n: nat, i: nat, t: nat)
    requires |m0| == |m| == n * n && i < n && t < n
    requires SubtractedBelow(m0, m, n, i, i, t)
    requires Offset(n, t, t) < n * n
    requires m1 == m[Offset(n, t, t) := m[Offset(n, t, t)] - (if t == i then 3.0 else 1.0)]
    ensures SubtractedBelow(m0, m1, n, i, i, t + 1)
  {
    forall k, l | 0 <= k < n && 0 <= l < n
      ensures Entry(m1, n, k, l) == Entry(m0, n, k, l)
              - (if k == l && t + 1 <= k then 0.0 else GaussianMoment(i, i, k, l))
    {
      OffsetBelow(n, n, k, l);
      if (k, l) != (t, t) {
        OffsetInjective(n, k, l, t, t);
      }
    }
  }

  // ---------------------------------------------------------------------------
  // Jacobi sweeps
  // ---------------------------------------------------------------------------

  /** The pairs the inner loop visits for one p: (p, q) for q from p + 1
      up to (not including) n. */
  function PairRow(n: nat, p: nat): (r: seq<(nat, nat)>)
    ensures |r| == if p + 1 <= n then n - (p + 1) else 0
    ensures forall t :: 0 <= t < |r| ==> r[t] == (p, p + 1 + t)
  {
    seq(if p + 1 <= n then n - (p + 1) else 0, t requires 0 <= t => (p, p + 1 + t as nat))
  }

  /** The pairs p < q a sweep visits, for p from `p` up to (not including)
      `bound`, in loop order. The bound is n - 1 in unsigned arithmetic,
      so it is 2^32 - 1 when there are no variables. */
  function SweepPairsFrom(n: nat, p: nat, bound: nat): seq<(nat, nat)>
    decreases bound - p
  {
    if p >= bound then []
    else PairRow(n, p) + SweepPairsFrom(n, p + 1, bound)
  }

  function SweepBound(n: nat): nat
  {
    if n == 0 then UintModulus - 1 else n - 1
  }

  function SweepPairs(n: nat): seq<(nat, nat)>
  {
    SweepPairsFrom(n, 0, SweepBound(n))
  }

  /** The lexicographic order of the pairs. */
  predicate LexLess(a: (nat, nat), b: (nat, nat))
  {
    a.0 < b.0 || (a.0 == b.0 && a.1 < b.1)
  }

  /** Every pair a sweep visits from `p` on is a pair p <= x < y < n. */
  lemma {:induction false} SweepPairsBounded(n: nat, p: nat, bound: nat)
    ensures forall t :: 0 <= t < |SweepPairsFrom(n, p, bound)| ==>
      p <= SweepPairsFrom(n, p, bound)[t].0 < SweepPairsFrom(n, p, bound)[t].1 < n
    decreases bound - p
  {
    if p < bound {
      SweepPairsBounded(n, p + 1, bound);
      var head, rest := PairRow(n, p), SweepPairsFrom(n, p + 1, bound);
      var all := head + rest;
      assert SweepPairsFrom(n, p, bound) == all;
      forall t | 0 <= t < |all|
        ensures p <= all[t].0 < all[t].1 < n
      {
        if t >= |head| {
          assert all[t] == rest[t - |head|];
        }
      }
    }
  }

  /** A sweep visits its pairs in lexicographic order. */
  lemma {:induction false} SweepPairsSorted(n: nat, p: nat, bound: nat)
    ensures forall a, b :: 0 <= a < b < |SweepPairsFrom(n, p, bound)| ==>
      LexLess(SweepPairsFrom(n, p, bound)[a], SweepPairsFrom(n, p, bound)[b])
    decreases bound - p
  {
    if p < bound {
      SweepPairsSorted(n, p + 1, bound);
      SweepPairsBounded(n, p + 1, bound);
      var head, rest := PairRow(n, p), SweepPairsFrom(n, p + 1, bound);
      var all := head + rest;
      assert SweepPairsFrom(n, p, bound) == all;
      forall a, b | 0 <= a < b < |all|
        ensures LexLess(all[a], all[b])
      {
        if b < |head| {
          assert all[a] == head[a] && all[b] == head[b];
        } else if a < |head| {
          assert all[a] == head[a] && all[b] == rest[b - |head|];
        } else {
          assert all[a] == rest[a - |head|] && all[b] == rest[b - |head|];
        }
      }
    }
  }

  /** With the bound n - 1 (or no variables), a sweep from `p` visits
      every pair p <= x < y < n. */
  lemma {:induction false} SweepPairsCover(n: nat, p: nat, bound: nat)
    requires n == 0 || bound == n - 1
    ensures forall x, y :: p <= x < y < n ==> (x, y) in SweepPairsFrom(n, p, bound)
    decreases bound - p
  {
    if p < bound {
      SweepPairsCover(n, p + 1, bound);
      var head, rest := PairRow(n, p), SweepPairsFrom(n, p + 1, bound);
      assert SweepPairsFrom(n, p, bound) == head + rest;
      forall x, y | p <= x < y < n
        ensures (x, y) in SweepPairsFrom(n, p, bound)
      {
        if x == p {
          assert head[y - p - 1] == (x, y);
        } else {
          assert (x, y) in rest;
        }
      }
    }
  }

  /** What a sweep visits: exactly the pairs p < q < n, each once, with
      p ascending and q ascending within p; with no variables, nothing. */
  lemma SweepPairsFromFacts(n: nat, p: nat, bound: nat)
    requires n == 0 || bound == n - 1
    ensures forall t :: 0 <= t < |SweepPairsFrom(n, p, bound)| ==>
      p <= SweepPairsFrom(n, p, bound)[t].0 < SweepPairsFrom(n, p, bound)[t].1 < n
    ensures forall a, b :: 0 <= a < b < |SweepPairsFrom(n, p, bound)| ==>
      LexLess(SweepPairsFrom(n, p, bound)[a], SweepPairsFrom(n, p, bound)[b])
    ensures forall x, y :: p <= x < y < n ==> (x, y) in SweepPairsFrom(n, p, bound)
  {
    SweepPairsBounded(n, p, bound);
    SweepPairsSorted(n, p, bound);
    SweepPairsCover(n, p, bound);
  }

  // ---------------------------------------------------------------------------
  // The Givens rotation of the pair (p, q)
  // ---------------------------------------------------------------------------

  /** The upper-triangle entries (row, column) one rotation of the pair
      (p, q) updates in each cumulant matrix, in loop order: (p, q), (p, p),
      (q, q), then column p and q above row p, then row p and column q
      between them, then rows p and q to the right of column q. */
  function Touched(n: nat, p: nat, q: nat): (s: seq<(nat, nat)>)
    requires p < q < n
  {
    [(p, q), (p, p), (q, q)]
    + seq(2 * p, t requires 0 <= t < 2 * p => if t % 2 == 0 then (t / 2, p) else (t / 2, q))
    + seq(2 * (q - p - 1), t requires 0 <= t < 2 * (q - p - 1) =>
        if t % 2 == 0 then (p, p + 1 + t / 2) else (p + 1 + t / 2, q))
    + seq(2 * (n - q - 1), t requires 0 <= t < 2 * (n - q - 1) =>
        if t % 2 == 0 then (p, q + 1 + t / 2) else (q, q + 1 + t / 2))
  }

  /** An upper-triangle entry in a row or column of p or q. */
  predicate InCross(n: nat, p: nat, q: nat, e: (nat, nat))
  {
    e.0 <= e.1 < n && (e.0 == p || e.0 == q || e.1 == p || e.1 == q)
  }

  /** The rotation updates exactly the upper-triangle entries in the rows
      and columns of p and q, 2n - 1 of them, each once. */
  lemma TouchedFacts(n: nat, p: nat, q: nat)
    requires p < q < n
    ensures |Touched(n, p, q)| == 2 * n - 1
    ensures forall t :: 0 <= t < |Touched(n, p, q)| ==> InCross(n, p, q, Touched(n, p, q)[t])
    ensures forall e :: InCross(n, p, q, e) ==> e in Touched(n, p, q)
    ensures forall a, b :: 0 <= a < b < |Touched(n, p, q)| ==> Touched(n, p, q)[a] != Touched(n, p, q)[b]
  {
    var s := Touched(n, p, q);
    forall e | InCross(n, p, q, e)
      ensures e in s
    {
      TouchedCovers(n, p, q, e);
    }
    forall t | 0 <= t < |s|
      ensures InCross(n, p, q, s[t])
    {
      TouchedRegion(n, p, q, t);
    }
    forall a, b | 0 <= a < b < |s|
      ensures s[a] != s[b]
    {
      TouchedRegion(n, p, q, a);
      TouchedRegion(n, p, q, b);
    }
  }

  /** Each entry of the cross is found at its Region. */
  lemma TouchedCovers(n: nat, p: nat, q: nat, e: (nat, nat))
    requires p < q < n && InCross(n, p, q, e)
    ensures Region(e, p, q) < |Touched(n, p, q)| && Touched(n, p, q)[Region(e, p, q)] == e
  {
  }

  /** Where the entry at position t of the loop order lies. */
  function Region(e: (nat, nat), p: nat, q: nat): nat
  {
    if e == (p, q) then 0 else if e == (p, p) then 1 else if e == (q, q) then 2
    else if e.0 < p then 3 + 2 * e.0 + (if e.1 == p then 0 else 1)
    else if e.0 == p && e.1 < q then 3 + 2 * p + 2 * (e.1 - p - 1)
    else if e.1 == q then 3 + 2 * p + 2 * (e.0 - p - 1) + 1
    else if e.0 == p then 3 + 2 * (q - 1) + 2 * (e.1 - q - 1)
    else 3 + 2 * (q - 1) + 2 * (e.1 - q - 1) + 1
  }

  /** Each entry can be told from its position: Region reads it back. */
  lemma TouchedRegion(n: nat, p: nat, q: nat, t: nat)
    requires p < q < n && t < |Touched(n, p, q)|
    ensures InCross(n, p, q, Touched(n, p, q)[t]) && Region(Touched(n, p, q)[t], p, q) == t
  {
  }

  /** One rotation of a pair of entries (x, y) by the angle with the given
      cosine and sine, as the loops over rows and columns and the update of
      V apply it. */
  function Rotate(c: real, s: real, x: real, y: real): (real, real)
  {
    (c * x + s * y, c * y - s * x)
  }

  /** A rotation keeps the sum of squares of the pair. */
  lemma RotateKeepsNorm(c: real, s: real, x: real, y: real)
    requires c * c + s * s == 1.0
    ensures var (x', y') := Rotate(c, s, x, y); x' * x' + y' * y' == x * x + y * y
  {
    calc {
      (c * x + s * y) * (c * x + s * y) + (c * y - s * x) * (c * y - s * x);
      (c * c + s * s) * (x * x) + (c * c + s * s) * (y * y);
      x * x + y * y;
    }
  }

  /** The new entries (p, p), (q, q) and (p, q) from a = (p, p), b = (q, q)
      and m = (p, q). */
  function RotateBlock(c: real, s: real, a: real, b: real, m: real): (real, real, real)
  {
    var cc := c * c;
    var ss := s * s;
    var t2 := 2.0 * c * s * m;
    (cc * a + ss * b + t2, ss * a + cc * b - t2, (cc - ss) * m + c * s * (b - a))
  }

  /** A rotation keeps the trace of the 2 x 2 block. */
  lemma RotateBlockKeepsTrace(c: real, s: real, a: real, b: real, m: real)
    requires c * c + s * s == 1.0
    ensures var (a', b', _) := RotateBlock(c, s, a, b, m); a' + b' == a + b
  {
    calc {
      (c * c * a + s * s * b + 2.0 * c * s * m) + (s * s * a + c * c * b - 2.0 * c * s * m);
      (c * c + s * s) * a + (c * c + s * s) * b;
      a + b;
    }
  }

  /** The sweep counter: sweeps go on while the previous one rotated and
      fewer than 100 were made. `rotated(k)` says whether sweep k (from 1)
      performed a rotation; at least one sweep is always made. */
  method Sweeps(rotated: nat -> bool) returns (sweeps: nat)
    ensures 1 <= sweeps <= MaxSweeps
    ensures forall k :: 1 <= k < sweeps ==> rotated(k)
    ensures sweeps < MaxSweeps ==> !rotated(sweeps)
  {
    sweeps := 0;
    var modified := true;
    while sweeps < MaxSweeps && modified
      invariant sweeps <= MaxSweeps
      invariant sweeps == 0 <==> modified && sweeps == 0
      invariant forall k :: 1 <= k < sweeps ==> rotated(k)
      invariant sweeps > 0 ==> modified == rotated(sweeps)
    {
      sweeps := sweeps + 1;
      modified := rotated(sweeps);
    }
  }

  /** The contract of Sweeps pins the count down. */
  lemma SweepsUnique(rotated: nat -> bool, a: nat, b: nat)
    requires 1 <= a <= MaxSweeps && (forall k :: 1 <= k < a ==> rotated(k)) && (a < MaxSweeps ==> !rotated(a))
    requires 1 <= b <= MaxSweeps && (forall k :: 1 <= k < b ==> rotated(k)) && (b < MaxSweeps ==> !rotated(b))
    ensures a == b
  {
  }
}

=== FILE: matrix.dfy ===
/** The Matrix struct of include/matrix.h and the meaning of its BLAS and
    LAPACK macros. A matrix is stored column-major behind a leading
    dimension: element (r, c) lives at elem[c * ld + r]. The macros are
    given as pure functions of their operands; the routines behind them
    (xGEMM, xGEMV, xSYEV) are not modelled, SYEV only through the
    predicate its result satisfies. */
module Matrices {

  /** `lag` is the number of allocated columns (kept for the GPU code). */
  datatype Matrix = Matrix(elem: seq<real>, rows: nat, cols: nat, ld: nat, lag: nat)
  {
    /** The rows x cols block, read through ld, lies inside the storage. */
    predicate Valid()
    {
      rows <= ld && cols * ld <= |elem|
    }

    function At(r: nat, c: nat): real
      requires Valid() && r < rows && c < cols
    {
      OffsetBelow(ld, cols, r, c);
      elem[Offset(ld, r, c)]
    }
  }

  /** Position of element (r, c) in a column-major array with leading
      dimension ld; the pair can be read back from the position. */
  function Offset(ld: nat, r: nat, c: nat): (i: nat)
    requires r < ld
    ensures i / ld == c && i % ld == r
  {
    OffsetDecode(ld, r, c);
    c * ld + r
  }

  lemma OffsetDecode(ld: nat, r: nat, c: nat)
    requires r < ld
    ensures (c * ld + r) / ld == c && (c * ld + r) % ld == r
  {
    var i := c * ld + r;
    var q := i / ld;
    if q < c {
      MulLeq(q + 1, c, ld);
      assert false;
    } else if q > c {
      MulLeq(c + 1, q, ld);
      assert false;
    }
  }

  lemma MulLeq(a: nat, b: nat, k: nat)
    requires a <= b
    ensures a * k <= b * k
  {
  }

  /** Every element of a rows x cols block (rows <= ld) lies below cols * ld. */
  lemma OffsetBelow(ld: nat, cols: nat, r: nat, c: nat)
    requires r < ld && c < cols
    ensures c * ld + r < cols * ld
  {
    MulLeq(c + 1, cols, ld);
  }

  /** Distinct elements of a block have distinct positions. */
  lemma OffsetInjective(ld: nat, r1: nat, c1: nat, r2: nat, c2: nat)
    requires r1 < ld && r2 < ld
    ensures Offset(ld, r1, c1) == Offset(ld, r2, c2) <==> r1 == r2 && c1 == c2
  {
  }

  /** The store `elem[c * ld + r] = v`. */
  function Put(m: Matrix, r: nat, c: nat, v: real): (p: Matrix)
    requires m.Valid() && r < m.rows && c < m.cols
    ensures p.Valid() && p.rows == m.rows && p.cols == m.cols && p.ld == m.ld && p.lag == m.lag
    ensures |p.elem| == |m.elem|
  {
    OffsetBelow(m.ld, m.cols, r, c);
    m.(elem := m.elem[Offset(m.ld, r, c) := v])
  }

  /** A store changes element (r, c) and no other storage slot. */
  lemma PutAt(m: Matrix, r: nat, c: nat, v: real)
    requires m.Valid() && r < m.rows && c < m.cols
    ensures Put(m, r, c, v).At(r, c) == v
    ensures forall r2: nat, c2: nat | r2 < m.rows && c2 < m.cols && (r2 != r || c2 != c) ::
      Put(m, r, c, v).At(r2, c2) == m.At(r2, c2)
    ensures forall k :: 0 <= k < |m.elem| && (k % m.ld != r || k / m.ld != c) ==> Put(m, r, c, v).elem[k] == m.elem[k]
  {
    OffsetBelow(m.ld, m.cols, r, c);
    assert Put(m, r, c, v).elem[Offset(m.ld, r, c)] == v;
    forall r2: nat, c2: nat | r2 < m.rows && c2 < m.cols && (r2 != r || c2 != c)
      ensures Put(m, r, c, v).At(r2, c2) == m.At(r2, c2)
    {
      OffsetInjective(m.ld, r, c, r2, c2);
      OffsetBelow(m.ld, m.cols, r2, c2);
      var j := Offset(m.ld, r2, c2);
      assert j != Offset(m.ld, r, c);
      assert Put(m, r, c, v).elem[j] == m.elem[j];
    }
  }

  // ---------------------------------------------------------------------------
  // GEMM and its variants
  // ---------------------------------------------------------------------------

  /** Shape of op(m), where op is the identity or (t) the transpose. */
  function OpRows(m: Matrix, t: bool): nat { if t then m.cols else m.rows }

  function OpCols(m: Matrix, t: bool): nat { if t then m.rows else m.cols }

  function OpAt(m: Matrix, t: bool, r: nat, c: nat): real
    requires m.Valid() && r < OpRows(m, t) && c < OpCols(m, t)
  {
    if t then m.At(c, r) else m.At(r, c)
  }

  /** The sum over s < k of op(a)[r, s] * op(b)[s, c]. */
  function Dot(a: Matrix, ta: bool, b: Matrix, tb: bool, r: nat, c: nat, k: nat): real
    requires a.Valid() && b.Valid()
    requires r < OpRows(a, ta) && c < OpCols(b, tb) && k <= OpCols(a, ta) && k <= OpRows(b, tb)
  {
    if k == 0 then 0.0
    else Dot(a, ta, b, tb, r, c, k - 1) + Prod(OpAt(a, ta, r, k - 1), OpAt(b, tb, k - 1, c))
  }

  /** x * y, kept as a function so that a product of equal factors is
      recognised by congruence rather than by non-linear arithmetic. */
  function Prod(x: real, y: real): real
  {
    x * y
  }

  /** The last term of a k-term product, split off. */
  lemma DotLast(a: Matrix, ta: bool, b: Matrix, tb: bool, r: nat, c: nat, k: nat)
    requires a.Valid() && b.Valid()
    requires r < OpRows(a, ta) && c < OpCols(b, tb) && 0 < k <= OpCols(a, ta) && k <= OpRows(b, tb)
    ensures Dot(a, ta, b, tb, r, c, k) == Dot(a, ta, b, tb, r, c, k - 1) + Prod(OpAt(a, ta, r, k - 1), OpAt(b, tb, k - 1, c))
  {
  }

  /** The sum of the first k elements of row r (the row sums that remmean
      and the contrast rules accumulate). */
  function RowSum(x: Matrix, r: nat, k: nat): real
    requires x.Valid() && r < x.rows && k <= x.cols
  {
    if k == 0 then 0.0 else RowSum(x, r, k - 1) + x.At(r, k - 1)
  }

  /** What xGEMM demands of its operands: inner dimensions agree and the
      m x n result block fits in C's storage at C's leading dimension. */
  predicate Conformable(c0: Matrix, a: Matrix, ta: bool, b: Matrix, tb: bool)
  {
    a.Valid() && b.Valid() && OpCols(a, ta) == OpRows(b, tb)
    && 0 < c0.ld && OpRows(a, ta) <= c0.ld && OpCols(b, tb) * c0.ld <= |c0.elem|
  }

  /** xGEMM(ta, tb, m, n, k, alpha, A, B, beta = 0, C) with m = rows of
      op(A), n = columns of op(B), k = columns of op(A): the m x n block of C
      becomes alpha * op(A) * op(B); C's fields and the rest of its storage
      are left as they were. */
  function Gemm(c0: Matrix, a: Matrix, ta: bool, b: Matrix, tb: bool, alpha: real): (r: Matrix)
    requires Conformable(c0, a, ta, b, tb)
    ensures r.rows == c0.rows && r.cols == c0.cols && r.ld == c0.ld && r.lag == c0.lag
    ensures |r.elem| == |c0.elem|
  {
    c0.(elem := seq(|c0.elem|, i requires 0 <= i < |c0.elem| => GemmEntry(c0, a, ta, b, tb, alpha, i)))
  }

  /** Storage slot i of C after xGEMM. */
  function GemmEntry(c0: Matrix, a: Matrix, ta: bool, b: Matrix, tb: bool, alpha: real, i: nat): real
    requires Conformable(c0, a, ta, b, tb) && i < |c0.elem|
  {
    if i % c0.ld < OpRows(a, ta) && i / c0.ld < OpCols(b, tb)
    then alpha * Dot(a, ta, b, tb, i % c0.ld, i / c0.ld, OpCols(a, ta))
    else c0.elem[i]
  }

  /** Element (r, c) of the result block is alpha times the dot product of
      row r of op(A) with column c of op(B). */
  lemma GemmAt(c0: Matrix, a: Matrix, ta: bool, b: Matrix, tb: bool, alpha: real, r: nat, c: nat)
    requires Conformable(c0, a, ta, b, tb)
    requires r < OpRows(a, ta) && c < OpCols(b, tb)
    ensures Offset(c0.ld, r, c) < |c0.elem|
    ensures Gemm(c0, a, ta, b, tb, alpha).elem[Offset(c0.ld, r, c)]
         == alpha * Dot(a, ta, b, tb, r, c, OpCols(a, ta))
  {
    var i := Offset(c0.ld, r, c);
    OffsetBelow(c0.ld, OpCols(b, tb), r, c);
    GemmEntryAt(c0, a, ta, b, tb, alpha, i, r, c);
    assert Gemm(c0, a, ta, b, tb, alpha).elem[i] == GemmEntry(c0, a, ta, b, tb, alpha, i);
  }

  lemma GemmEntryAt(c0: Matrix, a: Matrix, ta: bool, b: Matrix, tb: bool, alpha: real, i: nat, r: nat, c: nat)
    requires Conformable(c0, a, ta, b, tb) && i < |c0.elem|
    requires r < OpRows(a, ta) && c < OpCols(b, tb) && i % c0.ld == r && i / c0.ld == c
    ensures GemmEntry(c0, a, ta, b, tb, alpha, i) == alpha * Dot(a, ta, b, tb, r, c, OpCols(a, ta))
  {
  }

  /** Storage outside the result block keeps its value. */
  lemma GemmOutside(c0: Matrix, a: Matrix, ta: bool, b: Matrix, tb: bool, alpha: real, i: nat)
    requires Conformable(c0, a, ta, b, tb) && i < |c0.elem|
    requires i % c0.ld >= OpRows(a, ta) || i / c0.ld >= OpCols(b, tb)
    ensures Gemm(c0, a, ta, b, tb, alpha).elem[i] == c0.elem[i]
  {
  }

  /** GEMM: C = A * B (include/matrix.h, the 'N','N' call). */
  function GemmNN(c0: Matrix, a: Matrix, b: Matrix): (r: Matrix)
    requires Conformable(c0, a, false, b, false)
    ensures |r.elem| == |c0.elem|
  {
    Gemm(c0, a, false, b, false, 1.0)
  }

  /** GEMM_NT: C = A * B' (n = B.rows). */
  function GemmNT(c0: Matrix, a: Matrix, b: Matrix): (r: Matrix)
    requires Conformable(c0, a, false, b, true)
    ensures |r.elem| == |c0.elem|
  {
    Gemm(c0, a, false, b, true, 1.0)
  }

  /** GEMM_TN: C = A' * B (m = A.cols, k = A.rows). */
  function GemmTN(c0: Matrix, a: Matrix, b: Matrix): (r: Matrix)
    requires Conformable(c0, a, true, b, false)
    ensures |r.elem| == |c0.elem|
  {
    Gemm(c0, a, true, b, false, 1.0)
  }

  /** COVARIANCE: C = Z * Z' / (Z.cols - 1) for a zero-mean Z whose rows
      are variables and whose columns are observations. */
  function Covariance(c0: Matrix, z: Matrix): (r: Matrix)
    requires 2 <= z.cols && Conformable(c0, z, false, z, true)
    ensures |r.elem| == |c0.elem|
  {
    Gemm(c0, z, false, z, true, 1.0 / (z.cols - 1) as real)
  }

  /** COVARIANCE_T: C = Z' * Z / (Z.rows - 1). */
  function CovarianceT(c0: Matrix, z: Matrix): (r: Matrix)
    requires 2 <= z.rows && Conformable(c0, z, true, z, false)
    ensures |r.elem| == |c0.elem|
  {
    Gemm(c0, z, true, z, false, 1.0 / (z.rows - 1) as real)
  }

  /** Transposing a product swaps and transposes its factors:
      (op(A) op(B))[r, c] = (op(B)' op(A)')[c, r]. */
  lemma {:induction false} DotTranspose(a: Matrix, ta: bool, b: Matrix, tb: bool, r: nat, c: nat, k: nat)
    requires a.Valid() && b.Valid()
    requires r < OpRows(a, ta) && c < OpCols(b, tb) && k <= OpCols(a, ta) && k <= OpRows(b, tb)
    ensures Dot(a, ta, b, tb, r, c, k) == Dot(b, !tb, a, !ta, c, r, k)
  {
    if k > 0 {
      DotTranspose(a, ta, b, tb, r, c, k - 1);
      var u, v := OpAt(a, ta, r, k - 1), OpAt(b, tb, k - 1, c);
      assert u == OpAt(a, !ta, k - 1, r) && v == OpAt(b, !tb, c, k - 1);
      DotStep(a, ta, b, tb, r, c, k, u, v);
    }
  }

  lemma DotStep(a: Matrix, ta: bool, b: Matrix, tb: bool, r: nat, c: nat, k: nat, u: real, v: real)
    requires a.Valid() && b.Valid()
    requires r < OpRows(a, ta) && c < OpCols(b, tb) && 0 < k <= OpCols(a, ta) && k <= OpRows(b, tb)
    requires u == OpAt(a, ta, r, k - 1) == OpAt(a, !ta, k - 1, r) && v == OpAt(b, tb, k - 1, c) == OpAt(b, !tb, c, k - 1)
    requires Dot(a, ta, b, tb, r, c, k - 1) == Dot(b, !tb, a, !ta, c, r, k - 1)
    ensures Dot(a, ta, b, tb, r, c, k) == Dot(b, !tb, a, !ta, c, r, k)
  {
    assert u * v == v * u;
  }

  /** COVARIANCE yields a symmetric block. */
  lemma CovarianceSymmetric(c0: Matrix, z: Matrix, i: nat, j: nat)
    requires 2 <= z.cols && Conformable(c0, z, false, z, true)
    requires i < z.rows && j < z.rows
    ensures Offset(c0.ld, i, j) < |c0.elem| && Offset(c0.ld, j, i) < |c0.elem|
    ensures Covariance(c0, z).elem[Offset(c0.ld, i, j)] == Covariance(c0, z).elem[Offset(c0.ld, j, i)]
  {
    var alpha := 1.0 / (z.cols - 1) as real;
    GemmAt(c0, z, false, z, true, alpha, i, j);
    GemmAt(c0, z, false, z, true, alpha, j, i);
    DotTranspose(z, false, z, true, i, j, z.cols);
  }

  /** GEMV: y = A * x, one entry per row of A. */
  function Gemv(a: Matrix, x: seq<real>): (y: seq<real>)
    requires a.Valid() && a.cols <= |x|
    ensures |y| == a.rows
  {
    seq(a.rows, r requires 0 <= r < a.rows => RowDot(a, r, x, a.cols))
  }

  /** The sum over s < k of A[r, s] * x[s]. */
  function RowDot(a: Matrix, r: nat, x: seq<real>, k: nat): real
    requires a.Valid() && r < a.rows && k <= a.cols && k <= |x|
  {
    if k == 0 then 0.0 else RowDot(a, r, x, k - 1) + a.At(r, k - 1) * x[k - 1]
  }

  /** GEMV agrees with GEMM against the one-column matrix holding x. */
  lemma {:induction false} RowDotIsDot(a: Matrix, r: nat, x: seq<real>, k: nat)
    requires a.Valid() && r < a.rows && k <= a.cols && k <= |x|
    ensures Dot(a, false, Column(x), false, r, 0, k) == RowDot(a, r, x, k)
  {
    if k > 0 {
      RowDotIsDot(a, r, x, k - 1);
      assert Column(x).At(k - 1, 0) == x[k - 1];
    }
  }

  /** A vector as an n x 1 matrix. */
  function Column(x: seq<real>): (m: Matrix)
    ensures m.Valid() && m.rows == |x| && m.cols == 1
  {
    Matrix(x, |x|, 1, |x|, 1)
  }

  // ---------------------------------------------------------------------------
  // Identity and the SYEV postcondition
  // ---------------------------------------------------------------------------

  /** The n x n identity with ld = n. */
  function Identity(n: nat): (m: Matrix)
    ensures m.Valid() && m.rows == n && m.cols == n && m.ld == n
  {
    Matrix(seq(n * n, i requires 0 <= i < n * n => IdentityEntry(n, i)), n, n, n, n)
  }

  function IdentityEntry(n: nat, i: nat): real
    requires 0 < n
  {
    if i % n == i / n then 1.0 else 0.0
  }

  lemma IdentityAt(n: nat, r: nat, c: nat)
    requires r < n && c < n
    ensures Identity(n).At(r, c) == if r == c then 1.0 else 0.0
  {
    var i := Offset(n, r, c);
    OffsetBelow(n, n, r, c);
    assert Identity(n).elem[i] == IdentityEntry(n, i);
  }

  /** Position i + i * n is the only one on the diagonal with column i. */
  lemma DiagonalAt(n: nat, i: nat)
    requires i < n
    ensures forall k :: 0 <= k && k % n == k / n == i ==> k == i * n + i
  {
    forall k | 0 <= k && k % n == k / n == i
      ensures k == i * n + i
    {
      assert k == (k / n) * n + k % n;
    }
  }

  lemma QuotientBelow(n: nat, k: nat)
    requires k < n * n
    ensures k / n < n
  {
    if k / n >= n {
      MulLeq(n, k / n, n);
      assert false;
    }
  }

  /** The two loops both ICA routines use to start from the identity: zero
      the first n * n elements, then store 1.0 at i + i * n for each i < n.
      Elements past n * n are not touched. */
  method SetIdentity(elem: seq<real>, n: nat) returns (e: seq<real>)
    requires n * n <= |elem|
    ensures |e| == |elem| && e[n * n..] == elem[n * n..]
    ensures e[..n * n] == Identity(n).elem
  {
    e := elem;
    var i := 0;
    while i < n * n
      invariant i <= n * n && |e| == |elem| && e[n * n..] == elem[n * n..]
      invariant forall k :: 0 <= k < i ==> e[k] == 0.0
    {
      e := e[i := 0.0];
      i := i + 1;
    }
    i := 0;
    while i < n
      invariant i <= n && |e| == |elem| && e[n * n..] == elem[n * n..]
      invariant forall k :: 0 <= k < n * n ==> e[k] == if k % n == k / n && k / n < i then 1.0 else 0.0
    {
      OffsetBelow(n, n, i, i);
      var d := Offset(n, i, i);
      DiagonalAt(n, i);
      e := e[d := 1.0];
      i := i + 1;
    }
    forall k | 0 <= k < n * n
      ensures e[k] == Identity(n).elem[k]
    {
      QuotientBelow(n, k);
    }
  }

  /** The elements of a valid square matrix hold its rows * rows block. */
  lemma SquareFits(m: Matrix)
    requires m.Valid() && m.rows == m.cols
    ensures m.rows * m.cols <= |m.elem|
  {
    MulLeq(m.rows, m.ld, m.cols);
  }

  /** A square block with ld = n whose first n * n elements are the
      identity's is the identity. */
  lemma IdentityBlock(m: Matrix)
    requires m.Valid() && m.rows == m.cols == m.ld
    requires m.elem[..m.rows * m.rows] == Identity(m.rows).elem
    ensures forall r, c :: 0 <= r < m.rows && 0 <= c < m.cols ==> m.At(r, c) == if r == c then 1.0 else 0.0
  {
    var n := m.rows;
    forall r, c | 0 <= r < n && 0 <= c < n
      ensures m.At(r, c) == if r == c then 1.0 else 0.0
    {
      OffsetBelow(n, n, r, c);
      assert m.elem[Offset(n, r, c)] == m.elem[..n * n][Offset(n, r, c)];
      IdentityAt(n, r, c);
    }
  }

  /** The first k terms of a product with the identity on the left pick out
      row r of op(B) when r < k. */
  lemma {:induction false} DotIdentityPrefix(n: nat, b: Matrix, tb: bool, r: nat, c: nat, k: nat)
    requires b.Valid() && OpRows(b, tb) == n && r < n && c < OpCols(b, tb) && k <= n
    ensures Dot(Identity(n), false, b, tb, r, c, k) == if r < k then OpAt(b, tb, r, c) else 0.0
  {
    if k > 0 {
      DotIdentityPrefix(n, b, tb, r, c, k - 1);
      IdentityAt(n, r, k - 1);
    }
  }

  /** I * op(B) = op(B), entry by entry. */
  lemma DotIdentity(n: nat, b: Matrix, tb: bool, r: nat, c: nat)
    requires b.Valid() && OpRows(b, tb) == n && r < n && c < OpCols(b, tb)
    ensures Dot(Identity(n), false, b, tb, r, c, n) == OpAt(b, tb, r, c)
  {
    DotIdentityPrefix(n, b, tb, r, c, n);
  }

  /** The columns of a square E are orthonormal: E' * E = I. */
  predicate Orthonormal(e: Matrix)
    requires e.Valid() && e.rows == e.cols
  {
    forall i: nat, j: nat | i < e.cols && j < e.cols ::
      Dot(e, true, e, false, i, j, e.rows) == if i == j then 1.0 else 0.0
  }

  /** What SYEV(E, d) promises for a square symmetric input S: E now holds
      orthonormal eigenvectors and d the matching eigenvalues, S * E = E * diag(d). */
  predicate Syev(s: Matrix, e: Matrix, d: seq<real>)
  {
    s.Valid() && e.Valid() && s.rows == s.cols && e.rows == s.rows && e.cols == s.cols
    && |d| >= s.rows && Orthonormal(e)
    && forall r: nat, c: nat | r < s.rows && c < s.cols ::
         Dot(s, false, e, false, r, c, s.cols) == d[c] * e.At(r, c)
  }

  /** The matrix is square and equal to its transpose (SYEV's precondition). */
  predicate Symmetric(s: Matrix)
  {
    s.Valid() && s.rows == s.cols
    && forall r: nat, c: nat | r < s.rows && c < s.cols :: s.At(r, c) == s.At(c, r)
  }
}

=== FILE: matrix_file.dfy ===
/** The matrix file routines of src/matrix.c: reading a comma-separated file
    (one line per column), freeing, comparing within a tolerance, and
    printing in column- or row-major order.

    A file is seen after tokenising: None when it cannot be opened,
    otherwise its lines, each the sequence of values its comma-separated
    tokens convert to (atof is not modelled; a token is its value). */
module MatrixFile {
  import opened Options
  import opened Matrices
  import opened Signals

  /** The C struct with its pointer: elem is None for NULL. */
  datatype Held = Held(elem: Option<seq<real>>, rows: int, cols: int, ld: int, lag: int)

  /** Allocation is rounded up to a multiple of this many columns. */
  const Block: nat := 256

  // ---------------------------------------------------------------------------
  // mat_newFromFile
  // ---------------------------------------------------------------------------

  /** Every line holds w values. */
  predicate Rectangular(lines: seq<seq<real>>, w: nat)
  {
    forall i :: 0 <= i < |lines| ==> |lines[i]| == w
  }

  /** What the reader needs of a file: at least one line, a first line
      with at least one token, and every line as long as the first. */
  predicate WellFormed(lines: seq<seq<real>>)
  {
    1 <= |lines| && 1 <= |lines[0]| && Rectangular(lines, |lines[0]|)
  }

  /** The values of the lines, one line after the other. */
  function Concat(lines: seq<seq<real>>): seq<real>
  {
    if |lines| == 0 then [] else Concat(lines[..|lines| - 1]) + lines[|lines| - 1]
  }

  /** The padding columns: 256 - cols % 256, or none when that is 256. */
  function ColPad(cols: nat): (d: nat)
  {
    var diff := Block - cols % Block;
    if diff == Block then 0 else diff
  }

  predicate MultipleOfBlock(n: nat)
  {
    n % Block == 0
  }

  /** cols + ColPad(cols) is the least multiple of 256 at or above cols. */
  lemma ColPadLeast(cols: nat)
    ensures MultipleOfBlock(cols + ColPad(cols)) && ColPad(cols) < Block
    ensures forall n :: cols <= n < cols + ColPad(cols) ==> !MultipleOfBlock(n)
  {
    var d := ColPad(cols);
    var q := cols / Block;
    assert cols == q * Block + cols % Block;
    if cols % Block != 0 {
      assert cols + d == (q + 1) * Block;
      forall n | cols <= n < cols + d
        ensures !MultipleOfBlock(n)
      {
        assert n == q * Block + (cols % Block + (n - cols));
        assert 0 < cols % Block + (n - cols) < Block;
      }
    }
  }

  /** The reader's result as a matrix. */
  function Reread(h: Held): (m: Matrix)
    requires h.elem.Some? && 0 <= h.rows && 0 <= h.cols && 0 <= h.ld && 0 <= h.lag
    ensures m.elem == h.elem.value && m.rows == h.rows && m.cols == h.cols && m.ld == h.ld && m.lag == h.lag
  {
    Matrix(h.elem.value, h.rows, h.cols, h.ld, h.lag)
  }

  /** The matrix read from a well-formed file: rows = tokens of the first
      line, cols = lines, ld = rows, storage padded with zero columns up
      to lag. */
  function Loaded(lines: seq<seq<real>>): (h: Held)
    requires WellFormed(lines)
  {
    var rows := |lines[0]|;
    var cols := |lines|;
    var pad := ColPad(cols);
    Held(Some(Concat(lines) + seq(rows * pad, _ => 0.0)), rows, cols, rows, cols + pad)
  }

  lemma {:induction false} ConcatLength(lines: seq<seq<real>>, w: nat)
    requires Rectangular(lines, w)
    ensures |Concat(lines)| == |lines| * w
  {
    if |lines| > 0 {
      ConcatLength(lines[..|lines| - 1], w);
    }
  }

  /** Value r of line c is at c * w + r. */
  lemma {:induction false} ConcatAt(lines: seq<seq<real>>, w: nat, c: nat, r: nat)
    requires Rectangular(lines, w) && c < |lines| && r < w
    ensures c * w + r < |Concat(lines)| && Concat(lines)[c * w + r] == lines[c][r]
  {
    var n := |lines| - 1;
    ConcatLength(lines[..n], w);
    if c < n {
      ConcatAt(lines[..n], w, c, r);
    }
  }

  /** The storage holds rows * lag values, the lag being the least
      multiple of 256 at or above the number of lines. */
  lemma LoadedSize(lines: seq<seq<real>>)
    requires WellFormed(lines)
    ensures var h := Loaded(lines);
      h.elem.Some? && h.rows == |lines[0]| && h.cols == |lines| && h.ld == h.rows
      && MultipleOfBlock(h.lag) && h.cols <= h.lag < h.cols + Block
      && (forall n :: h.cols <= n < h.lag ==> !MultipleOfBlock(n))
      && |h.elem.value| == h.rows * h.lag
      && Reread(h).Valid()
  {
    var w, k := |lines[0]|, |lines|;
    var pad := ColPad(k);
    ConcatLength(lines, w);
    ColPadLeast(k);
    assert w * (k + pad) == k * w + w * pad;
    MulLeq(k, k + pad, w);
  }

  /** Column c of the matrix read is line c of the file. */
  lemma LoadedAt(lines: seq<seq<real>>, r: nat, c: nat)
    requires WellFormed(lines) && r < |lines[0]| && c < |lines|
    ensures Reread(Loaded(lines)).Valid() && Reread(Loaded(lines)).At(r, c) == lines[c][r]
  {
    LoadedSize(lines);
    ConcatAt(lines, |lines[0]|, c, r);
  }

  /** The padding columns hold zeros. */
  lemma LoadedPadding(lines: seq<seq<real>>, i: nat)
    requires WellFormed(lines) && |lines[0]| * |lines| <= i < |Loaded(lines).elem.value|
    ensures Loaded(lines).elem.value[i] == 0.0
  {
    ConcatLength(lines, |lines[0]|);
  }

  /** The reader's loops: the first value, the rest of the first line,
      then every further line token by token, all at a running index. */
  method ReadValues(lines: seq<seq<real>>) returns (elem: seq<real>)
    requires WellFormed(lines)
    ensures elem == Concat(lines)
  {
    elem := [];
    var c := 0;
    while c < |lines|
      invariant 0 <= c <= |lines| && elem == Concat(lines[..c])
    {
      var line := lines[c];
      ghost var before := elem;
      var t := 0;
      while t < |line|
        invariant 0 <= t <= |line| && elem == before + line[..t]
      {
        assert line[..t + 1] == line[..t] + [line[t]];
        elem := elem + [line[t]];
        t := t + 1;
      }
      assert line[..t] == line;
      assert lines[..c + 1][..c] == lines[..c];
      c := c + 1;
    }
    assert lines[..c] == lines;
  }

  /** mat_newFromFile: 0 with a NULL, empty matrix (ld and lag as they
      were) when the file cannot be opened, otherwise 1 and the matrix. */
  method NewFromFile(file: Option<seq<seq<real>>>, prev: Held) returns (status: int, h: Held)
    requires file.Some? ==> WellFormed(file.value)
    ensures file.None? ==> status == 0 && h == prev.(elem := None, rows := 0, cols := 0)
    ensures file.Some? ==> status == 1 && h == Loaded(file.value)
  {
    if file.None? {
      return 0, prev.(elem := None, rows := 0, cols := 0);
    }
    var lines := file.value;
    var elem := ReadValues(lines);
    var rows := |lines[0]|;
    var cols := |lines|;
    var colDiff := Block - cols % Block;
    if colDiff == Block {
      colDiff := 0;
      assert elem + seq(rows * colDiff, _ => 0.0) == elem;
    } else {
      elem := elem + seq(rows * colDiff, _ => 0.0);
    }
    status := 1;
    h := Held(Some(elem), rows, cols, rows, cols + colDiff);
  }

  // ---------------------------------------------------------------------------
  // mat_freeMatrix
  // ---------------------------------------------------------------------------

  /** mat_freeMatrix: with storage, drop it and zero the dimensions;
      without, nothing happens. */
  function Free(h: Held): (f: Held)
    ensures f.elem.None? && f.ld == h.ld && f.lag == h.lag
    ensures h.elem.Some? ==> f.rows == 0 && f.cols == 0
    ensures h.elem.None? ==> f == h
  {
    if h.elem.Some? then h.(elem := None, rows := 0, cols := 0) else h
  }

  /** Freeing twice is freeing once. */
  lemma FreeIdempotent(h: Held)
    ensures Free(Free(h)) == Free(h)
  {
  }

  // ---------------------------------------------------------------------------
  // mat_similar
  // ---------------------------------------------------------------------------

  /** The first rows * cols storage slots (read without the leading
      dimension) agree within eps. */
  predicate Close(a: seq<real>, b: seq<real>, n: nat, eps: real)
    requires n <= |a| && n <= |b|
  {
    forall i :: 0 <= i < n ==> AbsVal(a[i] - b[i]) <= eps
  }

  /** What mat_similar reads: with equal dimensions, rows * cols slots of
      each. */
  predicate Comparable(m1: Matrix, m2: Matrix)
  {
    m1.rows == m2.rows && m1.cols == m2.cols ==>
      m1.rows * m1.cols <= |m1.elem| && m1.rows * m1.cols <= |m2.elem|
  }

  /** mat_similar: 0 on a dimension mismatch, otherwise 1 exactly when the
      first rows * cols slots agree within eps. */
  method Similar(m1: Matrix, m2: Matrix, eps: real) returns (same: int)
    requires Comparable(m1, m2)
    ensures same == 1 <==> m1.rows == m2.rows && m1.cols == m2.cols && Close(m1.elem, m2.elem, m1.rows * m1.cols, eps)
    ensures same == 0 || same == 1
  {
    if m1.rows != m2.rows || m1.cols != m2.cols {
      return 0;
    }
    var n := m1.rows * m1.cols;
    var i := 0;
    while i < n
      invariant 0 <= i <= n
      invariant forall j :: 0 <= j < i ==> AbsVal(m1.elem[j] - m2.elem[j]) <= eps
    {
      if AbsVal(m1.elem[i] - m2.elem[i]) > eps {
        return 0;
      }
      i := i + 1;
    }
    return 1;
  }

  /** Storage with equal contents is similar for any eps >= 0. */
  lemma CloseReflexive(a: seq<real>, b: seq<real>, n: nat, eps: real)
    requires n <= |a| && a == b && 0.0 <= eps
    ensures Close(a, b, n, eps)
  {
    forall i | 0 <= i < n
      ensures AbsVal(a[i] - b[i]) <= eps
    {
      assert a[i] - b[i] == 0.0;
    }
  }

  /** Similarity does not depend on the order of the arguments. */
  lemma CloseSymmetric(a: seq<real>, b: seq<real>, n: nat, eps: real)
    requires n <= |a| && n <= |b|
    ensures Close(a, b, n, eps) <==> Close(b, a, n, eps)
  {
    forall i | 0 <= i < n
      ensures AbsVal(a[i] - b[i]) == AbsVal(b[i] - a[i])
    {
    }
  }

  /** Slot i of a compact (ld == rows) block is element (i % rows, i / rows). */
  lemma CompactSlot(m: Matrix, i: nat)
    requires m.Valid() && m.ld == m.rows && i < m.rows * m.cols
    ensures i % m.rows < m.rows && i / m.rows < m.cols && m.At(i % m.rows, i / m.rows) == m.elem[i]
  {
    var r, c := i % m.rows, i / m.rows;
    assert i == c * m.rows + r;
    if c >= m.cols {
      MulLeq(m.cols, c, m.rows);
      assert false;
    }
  }

  /** Every (r, c) within eps, read through ld. */
  predicate CloseElements(m1: Matrix, m2: Matrix, eps: real)
    requires m1.Valid() && m2.Valid() && m1.rows == m2.rows && m1.cols == m2.cols
  {
    forall r, c :: 0 <= r < m1.rows && 0 <= c < m1.cols ==> AbsVal(m1.At(r, c) - m2.At(r, c)) <= eps
  }

  /** With ld == rows (as every matrix the reader builds has) the slots
      compared are exactly the elements: similarity is closeness of every
      (r, c). */
  lemma CloseIsElementwise(m1: Matrix, m2: Matrix, eps: real)
    requires m1.Valid() && m2.Valid() && m1.ld == m1.rows && m2.ld == m2.rows
    requires m1.rows == m2.rows && m1.cols == m2.cols
    ensures m1.rows * m1.cols <= |m1.elem| && m1.rows * m1.cols <= |m2.elem|
    ensures Close(m1.elem, m2.elem, m1.rows * m1.cols, eps) <==> CloseElements(m1, m2, eps)
  {
    assert m1.rows * m1.cols == m1.cols * m1.ld;
    if Close(m1.elem, m2.elem, m1.rows * m1.cols, eps) {
      CloseGivesElements(m1, m2, eps);
    }
    if CloseElements(m1, m2, eps) {
      ElementsGiveClose(m1, m2, eps);
    }
  }

  lemma CloseGivesElements(m1: Matrix, m2: Matrix, eps: real)
    requires m1.Valid() && m2.Valid() && m1.ld == m1.rows && m2.ld == m2.rows
    requires m1.rows == m2.rows && m1.cols == m2.cols
    requires m1.rows * m1.cols <= |m1.elem| && m1.rows * m1.cols <= |m2.elem|
    requires Close(m1.elem, m2.elem, m1.rows * m1.cols, eps)
    ensures CloseElements(m1, m2, eps)
  {
    forall r, c | 0 <= r < m1.rows && 0 <= c < m1.cols
      ensures AbsVal(m1.At(r, c) - m2.At(r, c)) <= eps
    {
      OffsetBelow(m1.ld, m1.cols, r, c);
      var i := c * m1.ld + r;
      assert m1.At(r, c) == m1.elem[i] && m2.At(r, c) == m2.elem[i];
    }
  }

  lemma ElementsGiveClose(m1: Matrix, m2: Matrix, eps: real)
    requires m1.Valid() && m2.Valid() && m1.ld == m1.rows && m2.ld == m2.rows
    requires m1.rows == m2.rows && m1.cols == m2.cols
    requires m1.rows * m1.cols <= |m1.elem| && m1.rows * m1.cols <= |m2.elem|
    requires CloseElements(m1, m2, eps)
    ensures Close(m1.elem, m2.elem, m1.rows * m1.cols, eps)
  {
    forall i | 0 <= i < m1.rows * m1.cols
      ensures AbsVal(m1.elem[i] - m2.elem[i]) <= eps
    {
      CompactSlot(m1, i);
      CompactSlot(m2, i);
    }
  }

  // ---------------------------------------------------------------------------
  // mat_printToFile
  // ---------------------------------------------------------------------------

  datatype Major = ColMajor | RowMajor

  /** The lines mat_printToFile writes (the %.14g text of each value is
      not modelled): COL_MAJOR one line per column, ROW_MAJOR one line per
      row, each read through the leading dimension. */
  function Printed(m: Matrix, major: Major): (lines: seq<seq<real>>)
    requires m.Valid() && 1 <= m.rows && 1 <= m.cols
  {
    match major
    case ColMajor => seq(m.cols, c requires 0 <= c < m.cols => seq(m.rows, r requires 0 <= r < m.rows => m.At(r, c)))
    case RowMajor => seq(m.rows, r requires 0 <= r < m.rows => seq(m.cols, c requires 0 <= c < m.cols => m.At(r, c)))
  }

  /** mat_printToFile: 0 and nothing written when the output file cannot
      be opened, otherwise 1 and the lines of the chosen order. */
  method PrintToFile(m: Matrix, major: Major, writable: bool) returns (status: int, lines: seq<seq<real>>)
    requires m.Valid() && 1 <= m.rows && 1 <= m.cols
    ensures !writable ==> status == 0 && lines == []
    ensures writable ==> status == 1 && lines == Printed(m, major)
  {
    if !writable {
      return 0, [];
    }
    status := 1;
    if major == ColMajor {
      lines := PrintColumns(m);
    } else {
      lines := PrintRows(m);
    }
  }

  /** The COL_MAJOR loops: per column the first value, then ",value" for
      each further row. */
  method PrintColumns(m: Matrix) returns (lines: seq<seq<real>>)
    requires m.Valid() && 1 <= m.rows && 1 <= m.cols
    ensures lines == Printed(m, ColMajor)
  {
    lines := [];
    var col := 0;
    while col < m.cols
      invariant 0 <= col <= m.cols && |lines| == col
      invariant forall c :: 0 <= c < col ==> lines[c] == Printed(m, ColMajor)[c]
    {
      OffsetBelow(m.ld, m.cols, 0, col);
      var line := [m.elem[col * m.ld]];
      var row := 1;
      while row < m.rows
        invariant 1 <= row <= m.rows && |line| == row
        invariant forall r :: 0 <= r < row ==> line[r] == m.At(r, col)
      {
        OffsetBelow(m.ld, m.cols, row, col);
        line := line + [m.elem[col * m.ld + row]];
        row := row + 1;
      }
      assert line == Printed(m, ColMajor)[col];
      lines := lines + [line];
      col := col + 1;
    }
  }

  /** The ROW_MAJOR loops: per row the first value, then ",value" for
      each further column. */
  method PrintRows(m: Matrix) returns (lines: seq<seq<real>>)
    requires m.Valid() && 1 <= m.rows && 1 <= m.cols
    ensures lines == Printed(m, RowMajor)
  {
    lines := [];
    var row := 0;
    while row < m.rows
      invariant 0 <= row <= m.rows && |lines| == row
      invariant forall r :: 0 <= r < row ==> lines[r] == Printed(m, RowMajor)[r]
    {
      OffsetBelow(m.ld, m.cols, row, 0);
      var line := [m.elem[row]];
      var col := 1;
      while col < m.cols
        invariant 1 <= col <= m.cols && |line| == col
        invariant forall c :: 0 <= c < col ==> line[c] == m.At(row, c)
      {
        OffsetBelow(m.ld, m.cols, row, col);
        line := line + [m.elem[row + col * m.ld]];
        col := col + 1;
      }
      assert line == Printed(m, RowMajor)[row];
      lines := lines + [line];
      row := row + 1;
    }
  }

  // ---------------------------------------------------------------------------
  // The line buffer of mat_newFromFile
  // ---------------------------------------------------------------------------

  /** The size of the buffer fgets reads into: a line is read whole only
      when it and its newline take at most LineLength - 1 characters. */
  const LineLength: nat := 1000

  /** The longest text %.14g gives a double: a sign, 14 significant digits
      with their point, and a three-digit exponent (-1.2345678901234e-308). */
  const MaxWidth: nat := 21

  /** The characters of a printed line, `width(v)` being the length of the
      %.14g text of v: the values and the commas between them. */
  function TextLength(line: seq<real>, width: real -> nat): nat
  {
    if |line| == 0 then 0
    else if |line| == 1 then width(line[0])
    else TextLength(line[..|line| - 1], width) + 1 + width(line[|line| - 1])
  }

  /** fgets returns the line whole, newline included. */
  predicate FitsLine(line: seq<real>, width: real -> nat)
  {
    TextLength(line, width) + 1 <= LineLength - 1
  }

  predicate Fits(lines: seq<seq<real>>, width: real -> nat)
  {
    forall i :: 0 <= i < |lines| ==> FitsLine(lines[i], width)
  }

  /** Values no wider than MaxWidth take at most MaxWidth + 1 characters
      each with their separators. */
  lemma {:induction false} TextLengthBound(line: seq<real>, width: real -> nat)
    requires forall k :: 0 <= k < |line| ==> width(line[k]) <= MaxWidth
    ensures 0 < |line| ==> TextLength(line, width) + 1 <= |line| * (MaxWidth + 1)
    ensures |line| == 0 ==> TextLength(line, width) == 0
  {
    if |line| > 1 {
      var init := line[..|line| - 1];
      assert forall k :: 0 <= k < |init| ==> init[k] == line[k];
      TextLengthBound(init, width);
      assert |line| * (MaxWidth + 1) == |init| * (MaxWidth + 1) + MaxWidth + 1;
    }
  }

  /** With at most 45 values a line always fits, whatever the values:
      45 * 22 characters stay below the 999 fgets reads. */
  lemma ShortLinesFit(lines: seq<seq<real>>, width: real -> nat)
    requires forall i, k :: 0 <= i < |lines| && 0 <= k < |lines[i]| ==> width(lines[i][k]) <= MaxWidth
    requires forall i :: 0 <= i < |lines| ==> |lines[i]| <= 45
    ensures Fits(lines, width)
  {
    forall i | 0 <= i < |lines|
      ensures FitsLine(lines[i], width)
    {
      TextLengthBound(lines[i], width);
    }
  }

  /** 46 of the widest values overflow the buffer: fgets would cut such a
      line in two, and the reader would count the tail as one more line. */
  lemma LongLineOverflows(line: seq<real>, width: real -> nat)
    requires |line| == 46 && forall k :: 0 <= k < |line| ==> width(line[k]) == MaxWidth
    ensures !FitsLine(line, width)
  {
    TextLengthExact(line, width);
  }

  lemma {:induction false} TextLengthExact(line: seq<real>, width: real -> nat)
    requires 0 < |line| && forall k :: 0 <= k < |line| ==> width(line[k]) == MaxWidth
    ensures TextLength(line, width) == |line| * (MaxWidth + 1) - 1
  {
    if |line| > 1 {
      var init := line[..|line| - 1];
      assert forall k :: 0 <= k < |init| ==> init[k] == line[k];
      TextLengthExact(init, width);
      assert |line| * (MaxWidth + 1) == |init| * (MaxWidth + 1) + MaxWidth + 1;
    }
  }

  /** A COL_MAJOR print read back gives the same dimensions and every
      element, now with ld == rows, when every printed line fits the
      reader's buffer (ShortLinesFit: at most 45 rows always do). */
  lemma ColMajorRoundTrip(m: Matrix, width: real -> nat)
    requires m.Valid() && 1 <= m.rows && 1 <= m.cols
    requires Fits(Printed(m, ColMajor), width)
    ensures WellFormed(Printed(m, ColMajor))
    ensures var h := Loaded(Printed(m, ColMajor));
      h.elem.Some? && h.rows == m.rows && h.cols == m.cols && h.ld == m.rows
      && Reread(h).Valid()
      && forall r, c :: 0 <= r < m.rows && 0 <= c < m.cols ==> Reread(h).At(r, c) == m.At(r, c)
  {
    var lines := Printed(m, ColMajor);
    assert WellFormed(lines);
    LoadedSize(lines);
    forall r, c | 0 <= r < m.rows && 0 <= c < m.cols
      ensures Reread(Loaded(lines)).At(r, c) == m.At(r, c)
    {
      LoadedAt(lines, r, c);
    }
  }

  /** A ROW_MAJOR print read back gives the transpose, when every printed
      line fits the reader's buffer. */
  lemma RowMajorRoundTrip(m: Matrix, width: real -> nat)
    requires m.Valid() && 1 <= m.rows && 1 <= m.cols
    requires Fits(Printed(m, RowMajor), width)
    ensures WellFormed(Printed(m, RowMajor))
    ensures var h := Loaded(Printed(m, RowMajor));
      h.elem.Some? && h.rows == m.cols && h.cols == m.rows && h.ld == m.cols
      && Reread(h).Valid()
      && forall r, c :: 0 <= r < m.cols && 0 <= c < m.rows ==> Reread(h).At(r, c) == m.At(c, r)
  {
    var lines := Printed(m, RowMajor);
    assert WellFormed(lines);
    LoadedSize(lines);
    forall r, c | 0 <= r < m.cols && 0 <= c < m.rows
      ensures Reread(Loaded(lines)).At(r, c) == m.At(c, r)
    {
      LoadedAt(lines, r, c);
    }
  }
}

=== FILE: moving_average.dfy ===
/** movingAverage of src/blink/aux.c: the mean over a window of 512 samples,
    from 256 before each output sample to 255 after it, with the input
    mirrored (whole-sample symmetric, as in Convolution.Mirror) at both
    edges. Each sample is divided by 512 before it is added. */
module MovingAverage {
  import opened Convolution

  const Width: nat := 512
  const Half: nat := 256

  /** The input is longer than the window (the routine's stated precondition). */
  predicate Long(x: seq<real>) { |x| > Width }

  /** One mirrored sample, scaled. */
  function Term(x: seq<real>, m: int): real
    requires -|x| < m < 2 * |x| - 1
  {
    Mirror(x, m) / 512.0
  }

  /** The scaled mirrored samples m in [lo, hi). */
  function WindowSum(x: seq<real>, lo: int, hi: int): real
    requires lo <= hi && (lo < hi ==> -|x| < lo && hi - 1 < 2 * |x| - 1)
    decreases hi - lo
  {
    if lo == hi then 0.0 else Term(x, lo) + WindowSum(x, lo + 1, hi)
  }

  /** Output i of the moving average: the window [i - 256, i + 256). */
  function AverageAt(x: seq<real>, i: int): real
    requires Long(x) && 0 <= i < |x|
  {
    WindowSum(x, i - Half, i + Half)
  }

  /** The scaled samples x[lo .. hi), summed from the left as the loops do. */
  function PlainSum(x: seq<real>, lo: int, hi: int): real
    requires 0 <= lo <= hi <= |x|
    decreases hi - lo
  {
    if lo == hi then 0.0 else PlainSum(x, lo, hi - 1) + x[hi - 1] / 512.0
  }

  lemma {:induction false} PlainSumHead(x: seq<real>, lo: int, hi: int)
    requires 0 <= lo < hi <= |x|
    ensures PlainSum(x, lo, hi) == x[lo] / 512.0 + PlainSum(x, lo + 1, hi)
    decreases hi - lo
  {
    if lo + 1 < hi {
      PlainSumHead(x, lo, hi - 1);
    }
  }

  lemma {:induction false} WindowSplit(x: seq<real>, lo: int, mid: int, hi: int)
    requires lo <= mid <= hi && (lo < hi ==> -|x| < lo && hi - 1 < 2 * |x| - 1)
    ensures WindowSum(x, lo, hi) == WindowSum(x, lo, mid) + WindowSum(x, mid, hi)
    decreases mid - lo
  {
    if lo < mid {
      WindowSplit(x, lo + 1, mid, hi);
    }
  }

  /** Inside the signal the window reads the samples themselves. */
  lemma {:induction false} WindowInside(x: seq<real>, lo: int, hi: int)
    requires 0 <= lo <= hi <= |x|
    ensures WindowSum(x, lo, hi) == PlainSum(x, lo, hi)
    decreases hi - lo
  {
    if lo < hi {
      WindowInside(x, lo + 1, hi);
      PlainSumHead(x, lo, hi);
    }
  }

  /** Left of the signal, positions -c .. -1 read x[c] .. x[1]. */
  lemma {:induction false} WindowLeft(x: seq<real>, c: nat)
    requires c < |x|
    ensures WindowSum(x, -(c as int), 0) == PlainSum(x, 1, c + 1)
  {
    if c > 0 {
      WindowLeft(x, c - 1);
      WindowSplit(x, -(c as int), -(c as int) + 1, 0);
    }
  }

  /** Right of the signal, positions n .. n + k - 1 read x[n - 2] down to
      x[n - 1 - k]. */
  lemma {:induction false} WindowRight(x: seq<real>, k: nat)
    requires k < |x|
    ensures WindowSum(x, |x|, |x| + k) == PlainSum(x, |x| - 1 - k, |x| - 1)
  {
    var n := |x|;
    if k > 0 {
      WindowRight(x, k - 1);
      WindowSplit(x, n, n + k - 1, n + k);
      PlainSumHead(x, n - 1 - k, n - 1);
    }
  }

  /** The left-edge loops (i < 256): samples 0 .. i + 255, then the mirrored
      samples 1 .. 256 - i. */
  method LeftOutput(x: seq<real>, i: nat) returns (sum: real)
    requires Long(x) && i < Half
    ensures sum == AverageAt(x, i)
  {
    sum := 0.0;
    var j := 0;
    while j < i + Half
      invariant 0 <= j <= i + Half && sum == PlainSum(x, 0, j)
    {
      sum := sum + x[j] / 512.0;
      j := j + 1;
    }
    ghost var inside := sum;
    j := 1;
    while j <= Half - i
      invariant 1 <= j <= Half - i + 1 && sum == inside + PlainSum(x, 1, j)
    {
      sum := sum + x[j] / 512.0;
      j := j + 1;
    }
    WindowSplit(x, i - Half, 0, i + Half);
    WindowLeft(x, Half - i);
    WindowInside(x, 0, i + Half);
  }

  /** The interior loop (256 <= i <= n - 256): 512 samples of x itself. */
  method InteriorOutput(x: seq<real>, i: nat) returns (sum: real)
    requires Long(x) && Half <= i <= |x| - Half
    ensures sum == AverageAt(x, i)
  {
    sum := 0.0;
    var j := 0;
    while j < Width
      invariant 0 <= j <= Width && sum == PlainSum(x, i - Half, i - Half + j)
    {
      sum := sum + x[i - Half + j] / 512.0;
      j := j + 1;
    }
    WindowInside(x, i - Half, i + Half);
  }

  /** The right-edge loops as written (i > n - 256): samples i - 256 .. n - 1,
      then k - 1 mirrored samples x[n - k] .. x[n - 2], where
      k = 256 - n + i is the number of window positions past the end. The
      mirrored stretch needs k samples, x[n - 1 - k] .. x[n - 2], so the
      sum lacks x[n - 1 - k] = x[2n - 257 - i]. */
  method RightOutputAsWritten(x: seq<real>, i: nat) returns (sum: real)
    requires Long(x) && |x| - Half < i < |x|
    ensures sum == AverageAt(x, i) - x[2 * |x| - 257 - i] / 512.0
  {
    var n := |x|;
    sum := 0.0;
    var j := i - Half;
    while j < n
      invariant i - Half <= j <= n && sum == PlainSum(x, i - Half, j)
    {
      sum := sum + x[j] / 512.0;
      j := j + 1;
    }
    ghost var inside := sum;
    var k := Width - n + i - Half;
    j := n - k;
    while j < n - 1
      invariant n - k <= j <= n - 1 && sum == inside + PlainSum(x, n - k, j)
    {
      sum := sum + x[j] / 512.0;
      j := j + 1;
    }
    WindowSplit(x, i - Half, n, i + Half);
    WindowInside(x, i - Half, n);
    WindowRight(x, k);
    PlainSumHead(x, n - 1 - k, n - 1);
  }

  /** The right edge with the mirrored stretch starting one sample earlier,
      at x[n - 1 - k], so that it holds all k window positions past the end. */
  method RightOutput(x: seq<real>, i: nat) returns (sum: real)
    requires Long(x) && |x| - Half < i < |x|
    ensures sum == AverageAt(x, i)
  {
    var n := |x|;
    sum := 0.0;
    var j := i - Half;
    while j < n
      invariant i - Half <= j <= n && sum == PlainSum(x, i - Half, j)
    {
      sum := sum + x[j] / 512.0;
      j := j + 1;
    }
    ghost var inside := sum;
    var k := Width - n + i - Half;
    j := n - 1 - k;
    while j < n - 1
      invariant n - 1 - k <= j <= n - 1 && sum == inside + PlainSum(x, n - 1 - k, j)
    {
      sum := sum + x[j] / 512.0;
      j := j + 1;
    }
    WindowSplit(x, i - Half, n, i + Half);
    WindowInside(x, i - Half, n);
    WindowRight(x, k);
  }

  /** movingAverage as written: every output up to sample n - 256 is the
      window mean; each of the last 255 outputs misses one mirrored sample. */
  method MovingAverageAsWritten(x: seq<real>) returns (out: seq<real>)
    requires Long(x)
    ensures |out| == |x|
    ensures forall i :: 0 <= i <= |x| - Half ==> out[i] == AverageAt(x, i)
    ensures forall i :: |x| - Half < i < |x| ==> out[i] == AverageAt(x, i) - x[2 * |x| - 257 - i] / 512.0
  {
    out := [];
    var i := 0;
    while i < Half
      invariant 0 <= i <= Half && |out| == i
      invariant forall j :: 0 <= j < i ==> out[j] == AverageAt(x, j)
    {
      var v := LeftOutput(x, i);
      out := out + [v];
      i := i + 1;
    }
    while i < |x| - Half + 1
      invariant Half <= i <= |x| - Half + 1 && |out| == i
      invariant forall j :: 0 <= j < i ==> out[j] == AverageAt(x, j)
    {
      var v := InteriorOutput(x, i);
      out := out + [v];
      i := i + 1;
    }
    while i < |x|
      invariant |x| - Half + 1 <= i <= |x| && |out| == i
      invariant forall j :: 0 <= j <= |x| - Half ==> out[j] == AverageAt(x, j)
      invariant forall j :: |x| - Half < j < i ==> out[j] == AverageAt(x, j) - x[2 * |x| - 257 - j] / 512.0
    {
      var v := RightOutputAsWritten(x, i);
      out := out + [v];
      i := i + 1;
    }
  }

  /** movingAverage with the right edge corrected: every output is the mean
      of its mirrored window. */
  method MovingAverage(x: seq<real>) returns (out: seq<real>)
    requires Long(x)
    ensures |out| == |x|
    ensures forall i :: 0 <= i < |x| ==> out[i] == AverageAt(x, i)
  {
    out := [];
    var i := 0;
    while i < Half
      invariant 0 <= i <= Half && |out| == i
      invariant forall j :: 0 <= j < i ==> out[j] == AverageAt(x, j)
    {
      var v := LeftOutput(x, i);
      out := out + [v];
      i := i + 1;
    }
    while i < |x| - Half + 1
      invariant Half <= i <= |x| - Half + 1 && |out| == i
      invariant forall j :: 0 <= j < i ==> out[j] == AverageAt(x, j)
    {
      var v := InteriorOutput(x, i);
      out := out + [v];
      i := i + 1;
    }
    while i < |x|
      invariant |x| - Half + 1 <= i <= |x| && |out| == i
      invariant forall j :: 0 <= j < i ==> out[j] == AverageAt(x, j)
    {
      var v := RightOutput(x, i);
      out := out + [v];
      i := i + 1;
    }
  }

  /** Every sample of x equals c. */
  predicate Constant(x: seq<real>, c: real)
  {
    forall j :: 0 <= j < |x| ==> x[j] == c
  }

  /** Over a constant signal a window of w positions sums to w c / 512. */
  lemma {:induction false} WindowConstant(x: seq<real>, c: real, lo: int, hi: int)
    requires Constant(x, c)
    requires lo <= hi && (lo < hi ==> -|x| < lo && hi - 1 < 2 * |x| - 1)
    ensures WindowSum(x, lo, hi) == (hi - lo) as real * (c / 512.0)
    decreases hi - lo
  {
    if lo < hi {
      WindowConstant(x, c, lo + 1, hi);
    }
  }

  /** The moving average of a constant signal is that constant, at every
      sample, edges included. */
  lemma ConstantAverage(x: seq<real>, c: real, i: nat)
    requires Long(x) && Constant(x, c) && i < |x|
    ensures AverageAt(x, i) == c
  {
    WindowConstant(x, c, i - Half, i + Half);
  }

  /** A constant signal of 513 ones: the corrected average is 1 at the last
      sample, while the routine as written gives 511/512 there. */
  lemma MovingAverageEdgeExample()
    ensures var x := seq(513, _ => 1.0);
      AverageAt(x, 512) == 1.0
      && AverageAt(x, 512) - x[2 * 513 - 257 - 512] / 512.0 == 511.0 / 512.0
  {
    var x := seq(513, _ => 1.0);
    ConstantAverage(x, 1.0, 512);
  }
}

=== FILE: options.dfy ===
/** An optional value: a C pointer that may be NULL, a minimum that may still
    be INFINITY, a search that may find nothing. */
module Options {

  datatype Option<T> = None | Some(value: T)
}

=== FILE: s5.dfy ===
/** The schema 5 raw-data reader (src/xltek/erd/s5.c): the checks of
    opening and the label lookup. Schema 5 files have no sample decoder. */
module ErdS5 {
  import opened Options
  import opened Bytes
  import opened Uuid
  import opened ErdCommon

  // ---------------------------------------------------------------------------
  // xltek_openErdFileS5
  // ---------------------------------------------------------------------------

  /** xltek_openErdFileS5: None when the file cannot be opened (gen is
      None), is not a raw-data file or is not schema 5. Otherwise the file
      with its header. The open sets neither the frequency flag, nor the
      shorted count, nor the running samples, so those are whatever the
      allocation held (`junk`). */
  function OpenS5(gen: Option<GenericHeader>, erdGuid: seq<byte>, head: ErdHeader, junk: ErdFile): (r: Option<ErdFile>)
    requires IsUuid(erdGuid) && (gen.Some? ==> IsUuid(gen.value.guid))
    ensures r.Some? <==> gen.Some? && gen.value.guid == erdGuid && gen.value.schema == 5
    ensures r.Some? ==> r.value.schema == 5 && r.value.head == head
    ensures r.Some? ==> r.value.freqFactor == junk.freqFactor
    ensures r.Some? ==> r.value.numShorted == junk.numShorted && r.value.prevSamples == junk.prevSamples
  {
    if gen.None? || UuidEqual(gen.value.guid, erdGuid) == 0 || gen.value.schema != 5 then None
    else Some(junk.(schema := 5, head := head))
  }

  // ---------------------------------------------------------------------------
  // xltek_getErdLabelsS5
  // ---------------------------------------------------------------------------

  /** The label table of each headbox type schema 5 knows: a subset of the
      schema 9 types. */
  function TableS5(h: nat): (t: Option<LabelTable>)
    ensures t.Some? <==> h in {1, 3, 4, 5, 6, 8, 9}
  {
    if h == 1 then Some(Eeg32) else if h == 3 then Some(Eeg128)
    else if h == 4 then Some(Amb28) else if h == 5 then Some(Hyppo)
    else if h == 6 then Some(Emu36) else if h == 8 then Some(Mobee24)
    else if h == 9 then Some(Mobee32)
    else None
  }

  /** The lookup both versions below share: None for another schema; the
      empty list when there are no channels, since the loop is then never
      entered and the headbox type never looked at; otherwise entry
      phys_chan[i] of headbox 0's table for each channel, or None as soon
      as the type is unknown or an index is past the table's end. */
  function LookupS5(f: ErdFile): (r: Option<seq<Label>>)
    requires f.head.numChannels <= |f.head.physChan|
    ensures f.schema != 5 ==> r.None?
    ensures f.schema == 5 && f.head.numChannels == 0 ==> r == Some([])
    ensures f.schema == 5 && f.head.numChannels > 0 ==>
      (r.Some? <==> TableS5(f.head.headboxType).Some?
                    && forall i :: 0 <= i < f.head.numChannels ==> f.head.physChan[i] < TableSize(TableS5(f.head.headboxType).value))
    ensures r.Some? ==> |r.value| == f.head.numChannels
    ensures r.Some? && f.head.numChannels > 0 ==> forall i :: 0 <= i < f.head.numChannels ==>
      r.value[i] == Label(TableS5(f.head.headboxType).value, f.head.physChan[i])
  {
    var n := f.head.numChannels;
    if f.schema != 5 then None
    else if n == 0 then Some([])
    else match TableS5(f.head.headboxType)
      case None => None
      case Some(t) => LabelsFrom(t, f.head.physChan, n)
  }

  /** xltek_getErdLabelsS5 as written: the array of n label pointers is
      allocated with sizeof(char) * n bytes, one byte per pointer. */
  function LabelsS5AsWritten(f: ErdFile): (r: Option<LabelArray>)
    requires f.head.numChannels <= |f.head.physChan|
    ensures r.Some? <==> LookupS5(f).Some?
    ensures r.Some? ==> r.value.bytes == f.head.numChannels && r.value.labels == LookupS5(f).value
  {
    match LookupS5(f)
    case None => None
    case Some(ls) => Some(LabelArray(f.head.numChannels, ls))
  }

  /** Every successful lookup with a channel writes past the allocation:
      the last pointer stored ends at byte 8 n of an n-byte buffer. */
  lemma S5LabelsOverrun(f: ErdFile)
    requires f.head.numChannels <= |f.head.physChan|
    requires f.head.numChannels > 0 && LabelsS5AsWritten(f).Some?
    ensures !Fits(LabelsS5AsWritten(f).value, f.head.numChannels)
    ensures StoreEnd(f.head.numChannels - 1) == PointerSize * LabelsS5AsWritten(f).value.bytes
  {
    var n := f.head.numChannels;
    assert StoreEnd(n - 1) == 8 * n;
  }

  /** A concrete file that shows it: one EEG32 channel on physical channel
      0 gets a one-byte buffer for an eight-byte pointer. */
  lemma S5OverrunExample()
    ensures var f := ErdFile(5, ErdHeader(256.0, 1, [0], 1, 0.0, 0, [], []), 0, 0, []);
      LabelsS5AsWritten(f) == Some(LabelArray(1, [Label(Eeg32, 0)]))
      && StoreEnd(0) == 8
  {
    var f := ErdFile(5, ErdHeader(256.0, 1, [0], 1, 0.0, 0, [], []), 0, 0, []);
    assert LabelsFrom(Eeg32, [0], 0) == Some([]);
    assert [] + [Label(Eeg32, 0)] == [Label(Eeg32, 0)];
    assert LabelsFrom(Eeg32, [0], 1) == Some([Label(Eeg32, 0)]);
  }

  /** xltek_getErdLabelsS5 with the buffer sized for n pointers, as in
      s9.c: the same labels, and every store lands inside. */
  function LabelsS5(f: ErdFile): (r: Option<LabelArray>)
    requires f.head.numChannels <= |f.head.physChan|
    ensures r.Some? <==> LookupS5(f).Some?
    ensures r.Some? ==> Fits(r.value, f.head.numChannels) && r.value.labels == LookupS5(f).value
  {
    match LookupS5(f)
    case None => None
    case Some(ls) => Some(LabelArray(LabelBytes(f.head.numChannels), ls))
  }
}

=== FILE: s9.dfy ===
/** The schema 9 raw-data reader (src/xltek/erd/s9.c): the checks and flags
    of opening, the label lookup and the delta decoder that turns one
    sample packet into the next sample of every channel.

    The file contents after the headers are a byte sequence; reading starts
    at its front. */
module ErdS9 {
  import opened Options
  import opened Bytes
  import opened Uuid
  import opened ErdCommon

  // ---------------------------------------------------------------------------
  // xltek_openErdFileS9
  // ---------------------------------------------------------------------------

  /** Channels whose shorted flag is set. */
  function ShortedChannels(head: ErdHeader): set<nat>
    requires head.Covers()
  {
    set i: nat | i < head.numChannels && head.shorted[i] != 0
  }

  /** Some channel is sampled at another rate than the headbox's. */
  predicate AnyOtherRate(head: ErdHeader)
    requires head.Covers()
  {
    exists i :: 0 <= i < head.numChannels && head.frequencyFactor[i] != 0x7FFF
  }

  /** xltek_openErdFileS9: None when the file cannot be opened (gen is
      None), is not a raw-data file or is not schema 9. Otherwise the file,
      with freq_factor 1 iff some channel has a frequency factor other than
      0x7FFF and num_shorted the number of shorted channels. The running
      samples are whatever the allocation held (prev0). */
  method OpenS9(gen: Option<GenericHeader>, erdGuid: seq<byte>, head: ErdHeader, prev0: seq<int>)
    returns (r: Option<ErdFile>)
    requires IsUuid(erdGuid) && (gen.Some? ==> IsUuid(gen.value.guid))
    requires head.Covers() && |prev0| == head.numChannels
    ensures r.Some? <==> gen.Some? && gen.value.guid == erdGuid && gen.value.schema == 9
    ensures r.Some? ==> r.value.schema == 9 && r.value.head == head && r.value.prevSamples == prev0
    ensures r.Some? ==> r.value.freqFactor <= 1 && (r.value.freqFactor == 1 <==> AnyOtherRate(head))
    ensures r.Some? ==> r.value.numShorted == |ShortedChannels(head)|
  {
    if gen.None? || UuidEqual(gen.value.guid, erdGuid) == 0 || gen.value.schema != 9 {
      return None;
    }
    var freq, shorted := ScanChannels(head);
    r := Some(ErdFile(9, head, freq, shorted, prev0));
  }

  /** The loop of xltek_openErdFileS9 over the channels: sets the frequency
      flag and counts the shorted channels. */
  method ScanChannels(head: ErdHeader) returns (freq: nat, shorted: nat)
    requires head.Covers()
    ensures freq <= 1 && (freq == 1 <==> AnyOtherRate(head))
    ensures shorted == |ShortedChannels(head)|
  {
    freq := 0;
    shorted := 0;
    var i := 0;
    while i < head.numChannels
      invariant 0 <= i <= head.numChannels && freq <= 1
      invariant freq == 1 <==> exists j :: 0 <= j < i && head.frequencyFactor[j] != 0x7FFF
      invariant shorted == |ShortedBelow(head, i)|
    {
      if head.frequencyFactor[i] != 0x7FFF {
        freq := 1;
      }
      ShortedStep(head, i);
      if head.shorted[i] != 0 {
        shorted := shorted + 1;
      }
      i := i + 1;
    }
    assert ShortedBelow(head, i) == ShortedChannels(head);
  }

  /** Shorted channels below i. */
  function ShortedBelow(head: ErdHeader, i: nat): set<nat>
    requires head.Covers() && i <= head.numChannels
  {
    set j: nat | j < i && head.shorted[j] != 0
  }

  lemma ShortedStep(head: ErdHeader, i: nat)
    requires head.Covers() && i < head.numChannels
    ensures head.shorted[i] != 0 ==> ShortedBelow(head, i + 1) == ShortedBelow(head, i) + {i}
    ensures head.shorted[i] != 0 ==> i !in ShortedBelow(head, i)
    ensures head.shorted[i] == 0 ==> ShortedBelow(head, i + 1) == ShortedBelow(head, i)
  {
  }

  // ---------------------------------------------------------------------------
  // xltek_getErdLabelsS9
  // ---------------------------------------------------------------------------

  /** The label table of each headbox type schema 9 knows. */
  function TableS9(h: nat): Option<LabelTable>
  {
    if h == 1 then Some(Eeg32) else if h == 3 then Some(Eeg128)
    else if h == 4 then Some(Amb28) else if h == 5 then Some(Hyppo)
    else if h == 6 then Some(Emu36) else if h == 8 then Some(Mobee24)
    else if h == 9 then Some(Mobee32) else if h == 14 then Some(Connex)
    else if h == 15 then Some(Trex) else if h == 17 then Some(Emu40)
    else if h == 19 then Some(Eeg32u) else if h == 21 then Some(Neurolink)
    else if h == 22 then Some(Netlink) else if h == 23 then Some(Traveler)
    else None
  }

  /** xltek_getErdLabelsS9: None for a file of another schema. Otherwise
      label i is entry phys_chan[i] of headbox 0's table, and the lookup
      fails as a whole when the headbox type is unknown or one physical
      channel is past its table's end. With no channels the loop never
      looks at the headbox, so the (empty) array comes back whatever the
      type. */
  function LabelsS9(f: ErdFile): (r: Option<LabelArray>)
    requires f.head.Covers()
    ensures f.schema != 9 ==> r.None?
    ensures f.schema == 9 && f.head.numChannels == 0 ==> r == Some(LabelArray(0, []))
    ensures f.schema == 9 && f.head.numChannels > 0 ==>
      (r.Some? <==> TableS9(f.head.headboxType).Some?
                    && forall i :: 0 <= i < f.head.numChannels ==> f.head.physChan[i] < TableSize(TableS9(f.head.headboxType).value))
    ensures r.Some? ==> Fits(r.value, f.head.numChannels)
    ensures r.Some? ==> forall i :: 0 <= i < f.head.numChannels ==>
      r.value.labels[i] == Label(TableS9(f.head.headboxType).value, f.head.physChan[i])
  {
    var n := f.head.numChannels;
    if f.schema != 9 then None
    else if n == 0 then Some(LabelArray(0, []))
    else match TableS9(f.head.headboxType)
      case None => None
      case Some(t) =>
        match LabelsFrom(t, f.head.physChan, n)
        case None => None
        case Some(ls) => Some(LabelArray(LabelBytes(n), ls))
  }

  // ---------------------------------------------------------------------------
  // xltek_getNextSamplesS9: layout of a packet
  // ---------------------------------------------------------------------------

  /** The frequency byte is present iff the open found another rate. */
  function FreqBytes(freqFactor: nat): nat
  {
    if freqFactor != 0 then 1 else 0
  }

  /** Event byte, optional frequency byte, then one mask bit per channel. */
  function HeadLength(n: nat, freqFactor: nat): nat
  {
    1 + FreqBytes(freqFactor) + (n + 7) / 8
  }

  /** Bit k of a byte. */
  predicate Bit(b: byte, k: nat)
    requires k < 8
  {
    ((b as bv8) >> k) & 1 == 1
  }

  /** Channel i's delta is 16 bits wide: bit i mod 8 of mask byte i / 8. */
  predicate Wide(bytes: seq<byte>, n: nat, freqFactor: nat, i: nat)
    requires i < n && HeadLength(n, freqFactor) <= |bytes|
  {
    Bit(bytes[1 + FreqBytes(freqFactor) + i / 8], i % 8)
  }

  function Width(bytes: seq<byte>, n: nat, freqFactor: nat, i: nat): nat
    requires i < n && HeadLength(n, freqFactor) <= |bytes|
  {
    if Wide(bytes, n, freqFactor, i) then 2 else 1
  }

  /** Where channel i's delta starts: after the head and the deltas of the
      channels before it. */
  function DeltaStart(bytes: seq<byte>, n: nat, freqFactor: nat, i: nat): nat
    requires i <= n && HeadLength(n, freqFactor) <= |bytes|
  {
    if i == 0 then HeadLength(n, freqFactor)
    else DeltaStart(bytes, n, freqFactor, i - 1) + Width(bytes, n, freqFactor, i - 1)
  }

  lemma {:induction false} DeltaStartMonotone(bytes: seq<byte>, n: nat, freqFactor: nat, i: nat, j: nat)
    requires i <= j <= n && HeadLength(n, freqFactor) <= |bytes|
    ensures DeltaStart(bytes, n, freqFactor, i) <= DeltaStart(bytes, n, freqFactor, j)
    decreases j - i
  {
    if i < j {
      DeltaStartMonotone(bytes, n, freqFactor, i, j - 1);
    }
  }

  /** The deltas fit in the bytes. */
  predicate DeltasFit(bytes: seq<byte>, n: nat, freqFactor: nat)
  {
    HeadLength(n, freqFactor) <= |bytes| && DeltaStart(bytes, n, freqFactor, n) <= |bytes|
  }

  lemma DeltaInside(bytes: seq<byte>, n: nat, freqFactor: nat, i: nat)
    requires i < n && DeltasFit(bytes, n, freqFactor)
    ensures DeltaStart(bytes, n, freqFactor, i) + Width(bytes, n, freqFactor, i) <= |bytes|
  {
    DeltaStartMonotone(bytes, n, freqFactor, i + 1, n);
  }

  /** Channel i's delta is the escape 0xFFFF: its value follows as a 32-bit
      absolute sample after all deltas. */
  predicate Escaped(bytes: seq<byte>, n: nat, freqFactor: nat, i: nat)
    requires i < n && DeltasFit(bytes, n, freqFactor)
  {
    DeltaInside(bytes, n, freqFactor, i);
    Wide(bytes, n, freqFactor, i) && Uint16(bytes, DeltaStart(bytes, n, freqFactor, i)) == 0xFFFF
  }

  /** Escaped channels below i. */
  function EscapesBelow(bytes: seq<byte>, n: nat, freqFactor: nat, i: nat): nat
    requires i <= n && DeltasFit(bytes, n, freqFactor)
  {
    if i == 0 then 0
    else EscapesBelow(bytes, n, freqFactor, i - 1) + (if Escaped(bytes, n, freqFactor, i - 1) then 1 else 0)
  }

  /** Where channel i's absolute sample starts, when it has one: absolute
      samples follow the deltas in increasing channel order. */
  function AbsoluteStart(bytes: seq<byte>, n: nat, freqFactor: nat, i: nat): nat
    requires i <= n && DeltasFit(bytes, n, freqFactor)
  {
    DeltaStart(bytes, n, freqFactor, n) + 4 * EscapesBelow(bytes, n, freqFactor, i)
  }

  /** Bytes in the packet: 1 + the frequency byte + ceil(n / 8) mask bytes
      + one or two bytes per delta + four per absolute sample. */
  function PacketLength(bytes: seq<byte>, n: nat, freqFactor: nat): nat
    requires DeltasFit(bytes, n, freqFactor)
  {
    AbsoluteStart(bytes, n, freqFactor, n)
  }

  /** The bytes hold a whole packet. */
  predicate Complete(bytes: seq<byte>, n: nat, freqFactor: nat)
  {
    DeltasFit(bytes, n, freqFactor) && PacketLength(bytes, n, freqFactor) <= |bytes|
  }

  /** Channel i's delta: a signed 16-bit value when wide, else a signed
      8-bit value. */
  function Delta(bytes: seq<byte>, n: nat, freqFactor: nat, i: nat): int
    requires i < n && DeltasFit(bytes, n, freqFactor)
  {
    DeltaInside(bytes, n, freqFactor, i);
    var at := DeltaStart(bytes, n, freqFactor, i);
    if Wide(bytes, n, freqFactor, i) then Int16(bytes, at) else Int8(bytes[at])
  }

  lemma AbsoluteInside(bytes: seq<byte>, n: nat, freqFactor: nat, i: nat)
    requires i < n && Complete(bytes, n, freqFactor) && Escaped(bytes, n, freqFactor, i)
    ensures AbsoluteStart(bytes, n, freqFactor, i) + 4 <= |bytes|
  {
    EscapesMonotone(bytes, n, freqFactor, i + 1, n);
  }

  lemma {:induction false} EscapesMonotone(bytes: seq<byte>, n: nat, freqFactor: nat, i: nat, j: nat)
    requires i <= j <= n && DeltasFit(bytes, n, freqFactor)
    ensures EscapesBelow(bytes, n, freqFactor, i) <= EscapesBelow(bytes, n, freqFactor, j)
    decreases j - i
  {
    if i < j {
      EscapesMonotone(bytes, n, freqFactor, i, j - 1);
    }
  }

  /** Channel i's new running sample: the absolute sample when escaped,
      otherwise the old one plus the delta, wrapped to an int. */
  function Updated(bytes: seq<byte>, n: nat, freqFactor: nat, prev: seq<int>, i: nat): (v: int)
    requires i < n && |prev| == n && Complete(bytes, n, freqFactor)
    ensures InInt32(v)
  {
    if Escaped(bytes, n, freqFactor, i) then
      AbsoluteInside(bytes, n, freqFactor, i);
      Int32(bytes, AbsoluteStart(bytes, n, freqFactor, i))
    else Wrap32(prev[i] + Delta(bytes, n, freqFactor, i))
  }

  // ---------------------------------------------------------------------------
  // xltek_getNextSamplesS9
  // ---------------------------------------------------------------------------

  /** xltek_getNextSamplesS9 on the bytes after the file position:
      - a file of another schema: 0, samples untouched;
      - no byte left: 0, every sample 0.0, running samples kept;
      - otherwise 1: the packet is consumed, each running sample is updated
        from its delta or absolute value, and sample i is the converted
        running sample of channel i. Every running sample then fits an
        int, whatever the uninitialised values it started from. */
  method NextSamplesS9(f: ErdFile, bytes: seq<byte>, samples0: seq<real>)
    returns (status: int, samples: seq<real>, g: ErdFile, consumed: nat)
    requires f.head.Covers() && |f.prevSamples| == f.head.numChannels && |samples0| == f.head.numChannels
    requires |bytes| == 0 || Complete(bytes, f.head.numChannels, f.freqFactor)
    ensures f.schema != 9 ==> status == 0 && samples == samples0 && g == f && consumed == 0
    ensures f.schema == 9 && |bytes| == 0 ==>
      status == 0 && g == f && consumed == 0 && samples == seq(f.head.numChannels, i => 0.0)
    ensures f.schema == 9 && |bytes| > 0 ==>
      status == 1 && consumed == PacketLength(bytes, f.head.numChannels, f.freqFactor)
      && Decoded(f, bytes, g, samples)
    ensures f.schema == 9 && |bytes| > 0 ==> forall i :: 0 <= i < |g.prevSamples| ==> InInt32(g.prevSamples[i])
  {
    var n := f.head.numChannels;
    if f.schema != 9 {
      return 0, samples0, f, 0;
    }
    if |bytes| == 0 {
      return 0, seq(n, i => 0.0), f, 0;
    }
    var prev, pos := ApplyDeltas(bytes, n, f.freqFactor, f.prevSamples);
    prev, pos := ReadAbsolutes(bytes, n, f.freqFactor, f.prevSamples, prev, pos);
    g := f.(prevSamples := prev);
    samples := seq(n, i requires 0 <= i < n => ChannelSample(f, prev[i], i));
    status := 1;
    consumed := pos;
  }

  /** The file and samples after a packet: only the running samples change,
      each to its updated value, and each sample is its converted value. */
  ghost predicate Decoded(f: ErdFile, bytes: seq<byte>, g: ErdFile, samples: seq<real>)
    requires f.head.Covers() && |f.prevSamples| == f.head.numChannels
    requires Complete(bytes, f.head.numChannels, f.freqFactor)
  {
    var n := f.head.numChannels;
    g == f.(prevSamples := g.prevSamples) && |g.prevSamples| == n && |samples| == n
    && (forall i :: 0 <= i < n ==> g.prevSamples[i] == Updated(bytes, n, f.freqFactor, f.prevSamples, i))
    && (forall i :: 0 <= i < n ==>
          samples[i] == ChannelSample(f, g.prevSamples[i], i))
  }

  /** The call xltek_convertSample receives for channel i: the unsigned
      m_headbox_type[0], m_phys_chan[i] and m_discardbits pass as ints, so
      values from 2^31 up arrive negative; below 2^31 they arrive as they
      are. */
  function ChannelSample(f: ErdFile, v: int, i: nat): (r: real)
    requires i < |f.head.physChan|
    ensures f.head.headboxType < 0x8000_0000 && f.head.physChan[i] < 0x8000_0000 && f.head.discardBits < 0x8000_0000
      ==> r == ConvertSample(v, f.head.headboxType, f.head.physChan[i], f.head.discardBits, f.head.version)
  {
    ConvertSample(v, Wrap32(f.head.headboxType), Wrap32(f.head.physChan[i]), Wrap32(f.head.discardBits), f.head.version)
  }

  /** Channel j's running sample after the delta loop: unchanged when
      escaped, otherwise plus its delta, wrapped to an int. */
  function AfterDelta(bytes: seq<byte>, n: nat, freqFactor: nat, prev0: seq<int>, j: nat): int
    requires j < n && |prev0| == n && DeltasFit(bytes, n, freqFactor)
  {
    if Escaped(bytes, n, freqFactor, j) then prev0[j] else Wrap32(prev0[j] + Delta(bytes, n, freqFactor, j))
  }

  /** The running samples of the channels below i have had their deltas
      applied; the others are untouched. */
  ghost predicate AppliedBelow(bytes: seq<byte>, n: nat, freqFactor: nat, prev0: seq<int>, prev: seq<int>, i: nat)
    requires |prev0| == n && DeltasFit(bytes, n, freqFactor) && i <= n
  {
    |prev| == n
    && (forall j :: 0 <= j < i ==> prev[j] == AfterDelta(bytes, n, freqFactor, prev0, j))
    && (forall j :: i <= j < n ==> prev[j] == prev0[j])
  }

  lemma AppliedStep(bytes: seq<byte>, n: nat, freqFactor: nat, prev0: seq<int>, prev: seq<int>, i: nat, v: int)
    requires |prev0| == n && DeltasFit(bytes, n, freqFactor) && i < n
    requires AppliedBelow(bytes, n, freqFactor, prev0, prev, i)
    requires v == AfterDelta(bytes, n, freqFactor, prev0, i)
    ensures AppliedBelow(bytes, n, freqFactor, prev0, prev[i := v], i + 1)
  {
  }

  /** The first two loops of the decoder: skip the event and frequency
      bytes, read the mask, then each channel's delta, adding it to the
      running sample unless it is the escape. */
  method ApplyDeltas(bytes: seq<byte>, n: nat, freqFactor: nat, prev0: seq<int>)
    returns (prev: seq<int>, pos: nat)
    requires |prev0| == n && Complete(bytes, n, freqFactor)
    ensures |prev| == n && pos == DeltaStart(bytes, n, freqFactor, n)
    ensures forall j :: 0 <= j < n ==> prev[j] == AfterDelta(bytes, n, freqFactor, prev0, j)
  {
    pos := 1;
    if freqFactor != 0 {
      pos := pos + 1;
    }
    var maskBytes := (n + 7) / 8;
    var mask := bytes[pos..pos + maskBytes];
    pos := pos + maskBytes;
    prev := prev0;
    var i := 0;
    while i < n
      invariant 0 <= i <= n && pos == DeltaStart(bytes, n, freqFactor, i)
      invariant AppliedBelow(bytes, n, freqFactor, prev0, prev, i)
    {
      var v;
      v, pos := ApplyDelta(bytes, n, freqFactor, mask, prev0[i], i, pos);
      AppliedStep(bytes, n, freqFactor, prev0, prev, i, v);
      prev := prev[i := v];
      i := i + 1;
    }
  }

  /** One pass of the delta loop: channel i's delta read at pos. */
  method ApplyDelta(bytes: seq<byte>, n: nat, freqFactor: nat, mask: seq<byte>, before: int, i: nat, pos0: nat)
    returns (v: int, pos: nat)
    requires i < n && Complete(bytes, n, freqFactor) && pos0 == DeltaStart(bytes, n, freqFactor, i)
    requires mask == bytes[1 + FreqBytes(freqFactor)..HeadLength(n, freqFactor)]
    ensures pos == DeltaStart(bytes, n, freqFactor, i + 1)
    ensures v == (if Escaped(bytes, n, freqFactor, i) then before else Wrap32(before + Delta(bytes, n, freqFactor, i)))
    ensures !Escaped(bytes, n, freqFactor, i) && InInt32(before + Delta(bytes, n, freqFactor, i)) ==>
      v == before + Delta(bytes, n, freqFactor, i)
  {
    ChannelFacts(bytes, n, freqFactor, mask, i);
    v := before;
    pos := pos0;
    if Bit(mask[i / 8], i % 8) {
      var wide := Int16(bytes, pos);
      if wide != -1 {
        v := Wrap32(v + wide);
      }
      pos := pos + 2;
    } else {
      v := Wrap32(v + Int8(bytes[pos]));
      pos := pos + 1;
    }
  }

  /** What the delta loop reads for channel i: the mask bit says whether the
      delta is wide, a wide 0xFFFF (a signed -1) is the escape, and the next
      delta starts right after this one. */
  lemma ChannelFacts(bytes: seq<byte>, n: nat, freqFactor: nat, mask: seq<byte>, i: nat)
    requires i < n && Complete(bytes, n, freqFactor)
    requires mask == bytes[1 + FreqBytes(freqFactor)..HeadLength(n, freqFactor)]
    ensures i / 8 < |mask| && (Bit(mask[i / 8], i % 8) <==> Wide(bytes, n, freqFactor, i))
    ensures DeltaStart(bytes, n, freqFactor, i) + Width(bytes, n, freqFactor, i) <= |bytes|
    ensures DeltaStart(bytes, n, freqFactor, i + 1) == DeltaStart(bytes, n, freqFactor, i) + Width(bytes, n, freqFactor, i)
    ensures Wide(bytes, n, freqFactor, i) ==>
      (Escaped(bytes, n, freqFactor, i) <==> Int16(bytes, DeltaStart(bytes, n, freqFactor, i)) == -1)
      && Delta(bytes, n, freqFactor, i) == Int16(bytes, DeltaStart(bytes, n, freqFactor, i))
    ensures !Wide(bytes, n, freqFactor, i) ==>
      !Escaped(bytes, n, freqFactor, i) && Delta(bytes, n, freqFactor, i) == Int8(bytes[DeltaStart(bytes, n, freqFactor, i)])
  {
    DeltaInside(bytes, n, freqFactor, i);
    assert mask[i / 8] == bytes[1 + FreqBytes(freqFactor) + i / 8];
  }

  /** The third loop: each escaped channel's 32-bit absolute sample, in
      increasing channel order. */
  method ReadAbsolutes(bytes: seq<byte>, n: nat, freqFactor: nat, prev0: seq<int>, prev1: seq<int>, pos0: nat)
    returns (prev: seq<int>, pos: nat)
    requires |prev0| == n && |prev1| == n && Complete(bytes, n, freqFactor)
    requires pos0 == DeltaStart(bytes, n, freqFactor, n)
    requires forall j :: 0 <= j < n ==> prev1[j] == AfterDelta(bytes, n, freqFactor, prev0, j)
    ensures |prev| == n && pos == PacketLength(bytes, n, freqFactor)
    ensures forall j :: 0 <= j < n ==> prev[j] == Updated(bytes, n, freqFactor, prev0, j)
  {
    prev := prev1;
    pos := pos0;
    var i := 0;
    while i < n
      invariant 0 <= i <= n && pos == AbsoluteStart(bytes, n, freqFactor, i)
      invariant UpdatedBelow(bytes, n, freqFactor, prev0, prev1, prev, i)
    {
      var v;
      v, pos := ReadAbsolute(bytes, n, freqFactor, prev0, prev1[i], i, pos);
      UpdatedStep(bytes, n, freqFactor, prev0, prev1, prev, i, v);
      prev := prev[i := v];
      i := i + 1;
    }
  }

  /** Channels below i hold their new running sample, the others what the
      delta loop left. */
  ghost predicate UpdatedBelow(bytes: seq<byte>, n: nat, freqFactor: nat, prev0: seq<int>, prev1: seq<int>, prev: seq<int>, i: nat)
    requires |prev0| == n && |prev1| == n && Complete(bytes, n, freqFactor) && i <= n
  {
    |prev| == n
    && (forall j :: 0 <= j < i ==> prev[j] == Updated(bytes, n, freqFactor, prev0, j))
    && (forall j :: i <= j < n ==> prev[j] == prev1[j])
  }

  lemma UpdatedStep(bytes: seq<byte>, n: nat, freqFactor: nat, prev0: seq<int>, prev1: seq<int>, prev: seq<int>, i: nat, v: int)
    requires |prev0| == n && |prev1| == n && Complete(bytes, n, freqFactor) && i < n
    requires UpdatedBelow(bytes, n, freqFactor, prev0, prev1, prev, i)
    requires v == Updated(bytes, n, freqFactor, prev0, i)
    ensures UpdatedBelow(bytes, n, freqFactor, prev0, prev1, prev[i := v], i + 1)
  {
  }

  /** One pass of the absolute-sample loop: an escaped channel takes the
      32-bit sample at pos, any other keeps its delta-updated value. */
  method ReadAbsolute(bytes: seq<byte>, n: nat, freqFactor: nat, prev0: seq<int>, after: int, i: nat, pos0: nat)
    returns (v: int, pos: nat)
    requires |prev0| == n && i < n && Complete(bytes, n, freqFactor)
    requires pos0 == AbsoluteStart(bytes, n, freqFactor, i)
    requires after == AfterDelta(bytes, n, freqFactor, prev0, i)
    ensures v == Updated(bytes, n, freqFactor, prev0, i)
    ensures pos == AbsoluteStart(bytes, n, freqFactor, i + 1)
  {
    v := after;
    pos := pos0;
    if Escaped(bytes, n, freqFactor, i) {
      AbsoluteInside(bytes, n, freqFactor, i);
      v := Int32(bytes, pos);
      pos := pos + 4;
    }
  }
}

=== FILE: signals.dfy ===
/** Element-wise helpers shared by the signal-processing modules: sums of
    two signals, the all-zero signal and sums of length vectors. */
module Signals {

  /** Element-wise sum of two signals of equal length. */
  function Add(a: seq<real>, b: seq<real>): (r: seq<real>)
    requires |a| == |b|
    ensures |r| == |a|
  {
    seq(|a|, i requires 0 <= i < |a| => a[i] + b[i])
  }

  /** Sequence facts the solver does not find on its own in large contexts. */
  lemma ConcatAssoc<T>(a: seq<T>, b: seq<T>, c: seq<T>)
    ensures (a + b) + c == a + (b + c)
  {
  }

  lemma PrefixStep<T>(s: seq<T>, i: nat)
    requires i < |s|
    ensures s[..i + 1] == s[..i] + [s[i]]
  {
  }

  /** The signal of `n` zero samples (a memset to 0x00 of NUMTYPE values). */
  function Zeros(n: nat): (r: seq<real>)
    ensures |r| == n
  {
    seq(n, i => 0.0)
  }

  lemma AddZerosRight(a: seq<real>)
    ensures Add(a, Zeros(|a|)) == a
  {
  }

  lemma AddZerosLeft(a: seq<real>)
    ensures Add(Zeros(|a|), a) == a
  {
  }

  lemma AddCommutes(a: seq<real>, b: seq<real>)
    requires |a| == |b|
    ensures Add(a, b) == Add(b, a)
  {
  }

  lemma AddPrefix(a: seq<real>, b: seq<real>, k: nat)
    requires |a| == |b| && k <= |a|
    ensures Add(a, b)[..k] == Add(a[..k], b[..k])
  {
  }

  /** Sum of a vector of lengths. */
  function SumNat(s: seq<nat>): nat
  {
    if |s| == 0 then 0 else s[0] + SumNat(s[1..])
  }

  /** Extending a prefix by one entry adds that entry to its sum. */
  lemma {:induction false} SumNatPrefixStep(s: seq<nat>, k: nat)
    requires k < |s|
    ensures SumNat(s[..k + 1]) == SumNat(s[..k]) + s[k]
    decreases k
  {
    if k > 0 {
      SumNatPrefixStep(s[1..], k - 1);
      assert s[..k + 1][1..] == s[1..][..k];
      assert s[..k][1..] == s[1..][..k - 1];
    } else {
      assert s[..1][1..] == [];
      assert s[..0] == [];
    }
  }

  /** A prefix never sums to more than the whole vector. */
  lemma {:induction false} SumNatPrefixBound(s: seq<nat>, k: nat)
    requires k <= |s|
    ensures SumNat(s[..k]) <= SumNat(s)
    decreases |s| - k
  {
    if k < |s| {
      SumNatPrefixBound(s, k + 1);
      SumNatPrefixStep(s, k);
    } else {
      assert s[..k] == s;
    }
  }

  lemma SumNatConcat(a: seq<nat>, b: seq<nat>)
    ensures SumNat(a + b) == SumNat(a) + SumNat(b)
    decreases |a|
  {
    if |a| > 0 {
      SumNatConcat(a[1..], b);
      assert (a + b)[1..] == a[1..] + b;
    } else {
      assert a + b == b;
    }
  }

  /** fabs. */
  predicate Abs(v: real, r: real) { r == if v < 0.0 then -v else v }

  function AbsVal(v: real): (r: real)
    ensures r >= 0.0 && Abs(v, r)
  {
    if v < 0.0 then -v else v
  }
}

=== FILE: uuid.dfy ===
/** The 16-byte GUIDs that head every Xltek file (src/xltek/xltek.c):
    byte-wise equality and the 36-character text form, which is the
    8-4-4-4-12 form of section 3 of RFC 4122 with the first three fields
    byte-swapped as in Microsoft GUIDs. */
module Uuid {
  import opened Options
  import opened Bytes

  /** A GUID is 16 bytes. */
  predicate IsUuid(u: seq<byte>)
  {
    |u| == 16
  }

  // ---------------------------------------------------------------------------
  // xltek_uuidEqual
  // ---------------------------------------------------------------------------

  /** xltek_uuidEqual: 1 iff all 16 bytes agree, 0 at the first byte that
      differs. */
  function UuidEqual(u1: seq<byte>, u2: seq<byte>): (r: int)
    requires IsUuid(u1) && IsUuid(u2)
    ensures r == 0 || r == 1
    ensures r == 1 <==> u1 == u2
  {
    EqualFrom(u1, u2, 0)
  }

  /** The comparison loop from byte i on. */
  function EqualFrom(u1: seq<byte>, u2: seq<byte>, i: nat): (r: int)
    requires IsUuid(u1) && IsUuid(u2) && i <= 16
    ensures r == 0 || r == 1
    ensures r == 1 <==> u1[i..] == u2[i..]
    decreases 16 - i
  {
    if i == 16 then 1
    else if u1[i] != u2[i] then 0
    else
      var r := EqualFrom(u1, u2, i + 1);
      assert u1[i..] == [u1[i]] + u1[i + 1..] && u2[i..] == [u2[i]] + u2[i + 1..];
      r
  }

  // ---------------------------------------------------------------------------
  // xltek_uuidToString
  // ---------------------------------------------------------------------------

  /** Lower-case hexadecimal digit of a value below 16 (printf's %x). */
  function HexDigit(d: nat): (c: char)
    requires d < 16
    ensures IsHexDigit(c) && HexValue(c) == d
  {
    if d < 10 then (48 + d) as char else (87 + d) as char
  }

  predicate IsHexDigit(c: char)
  {
    '0' <= c <= '9' || 'a' <= c <= 'f'
  }

  /** The value of a lower-case hexadecimal digit. */
  function HexValue(c: char): (d: nat)
    requires IsHexDigit(c)
    ensures d < 16
  {
    if c <= '9' then c as int - 48 else c as int - 87
  }

  /** A byte as %02x: two lower-case digits, high nibble first. */
  function Hex2(b: byte): (s: string)
    ensures |s| == 2 && IsHexDigit(s[0]) && IsHexDigit(s[1])
    ensures 16 * HexValue(s[0]) + HexValue(s[1]) == b as int
  {
    [HexDigit(b as nat / 16), HexDigit(b as nat % 16)]
  }

  /** The byte printed j-th: bytes 3, 2, 1, 0, then 5, 4, then 7, 6, then
      8 to 15 in order. */
  function Printed(j: nat): (i: nat)
    requires j < 16
    ensures i < 16
  {
    if j < 4 then 3 - j
    else if j < 6 then 9 - j
    else if j < 8 then 13 - j
    else j
  }

  /** The order swaps within the first three groups only, so it is its own
      inverse. */
  lemma PrintedTwice(j: nat)
    requires j < 16
    ensures Printed(Printed(j)) == j
  {
  }

  /** Where the j-th printed byte's two digits start: two characters per
      byte plus the dashes before it. */
  function Column(j: nat): (k: nat)
    requires j < 16
    ensures k + 1 < 36
  {
    2 * j + (if j < 4 then 0 else if j < 6 then 1 else if j < 8 then 2 else if j < 10 then 3 else 4)
  }

  /** The positions of the four dashes between the 8-4-4-4-12 groups. */
  predicate IsDash(k: nat)
  {
    k == 8 || k == 13 || k == 18 || k == 23
  }

  /** The printed byte whose digits cover a non-dash position. */
  function ColumnOf(k: nat): (j: nat)
    requires k < 36 && !IsDash(k)
    ensures j < 16 && Column(j) <= k < Column(j) + 2
  {
    if k < 8 then k / 2
    else if k < 13 then (k - 1) / 2
    else if k < 18 then (k - 2) / 2
    else if k < 23 then (k - 3) / 2
    else (k - 4) / 2
  }

  /** Both digits of the j-th printed byte map back to j. */
  lemma ColumnOfColumn(j: nat)
    requires j < 16
    ensures !IsDash(Column(j)) && !IsDash(Column(j) + 1)
    ensures ColumnOf(Column(j)) == j && ColumnOf(Column(j) + 1) == j
  {
  }

  /** xltek_uuidToString: character k of the 36 is a dash between groups or
      a digit of the byte printed at that column, high nibble first. */
  function UuidToString(u: seq<byte>): (s: string)
    requires IsUuid(u)
    ensures |s| == 36
    ensures forall k :: 0 <= k < 36 && IsDash(k) ==> s[k] == '-'
    ensures forall k :: 0 <= k < 36 && !IsDash(k) ==> IsHexDigit(s[k])
    ensures forall j :: 0 <= j < 16 ==> s[Column(j)..Column(j) + 2] == Hex2(u[Printed(j)])
  {
    var s := seq(36, k requires 0 <= k < 36 =>
      if IsDash(k) then '-'
      else
        var j := ColumnOf(k);
        var b := u[Printed(j)] as nat;
        if k == Column(j) then HexDigit(b / 16) else HexDigit(b % 16));
    forall j | 0 <= j < 16
      ensures s[Column(j)..Column(j) + 2] == Hex2(u[Printed(j)])
    {
      ColumnOfColumn(j);
      assert s[Column(j)..Column(j) + 2] == [s[Column(j)], s[Column(j) + 1]];
    }
    s
  }

  /** The text has the layout xltek_uuidToString produces. */
  predicate UuidShaped(s: string)
  {
    |s| == 36 && (forall k :: 0 <= k < 36 && IsDash(k) ==> s[k] == '-')
      && (forall k :: 0 <= k < 36 && !IsDash(k) ==> IsHexDigit(s[k]))
  }

  /** Byte i of a GUID read from its text: the two digits at its column. */
  function ByteAt(s: string, i: nat): byte
    requires UuidShaped(s) && i < 16
  {
    var k := Column(Printed(i));
    ColumnOfColumn(Printed(i));
    (16 * HexValue(s[k]) + HexValue(s[k + 1])) as byte
  }

  /** Reads the text form back: None unless it has the layout above. */
  function ParseUuid(s: string): (u: Option<seq<byte>>)
    ensures u.Some? ==> IsUuid(u.value)
  {
    if UuidShaped(s) then Some(seq(16, i requires 0 <= i < 16 => ByteAt(s, i))) else None
  }

  lemma ByteAtPrinted(u: seq<byte>, i: nat)
    requires IsUuid(u) && i < 16
    ensures ByteAt(UuidToString(u), i) == u[i]
  {
    var s := UuidToString(u);
    var j := Printed(i);
    PrintedTwice(i);
    var h := Hex2(u[i]);
    assert s[Column(j)..Column(j) + 2] == h;
    assert s[Column(j)] == h[0] && s[Column(j) + 1] == h[1];
  }

  /** Parsing inverts formatting. */
  lemma UuidRoundTrip(u: seq<byte>)
    requires IsUuid(u)
    ensures ParseUuid(UuidToString(u)) == Some(u)
  {
    var s := UuidToString(u);
    assert UuidShaped(s);
    var p := seq(16, i requires 0 <= i < 16 => ByteAt(s, i));
    forall i | 0 <= i < 16
      ensures p[i] == u[i]
    {
      ByteAtPrinted(u, i);
    }
    assert p == u;
  }

  /** Every byte is printed, so two GUIDs with the same text are equal. */
  lemma UuidToStringInjective(u1: seq<byte>, u2: seq<byte>)
    requires IsUuid(u1) && IsUuid(u2) && UuidToString(u1) == UuidToString(u2)
    ensures u1 == u2
  {
    UuidRoundTrip(u1);
    UuidRoundTrip(u2);
  }
}

=== FILE: wavelets.dfy ===
/** The one-dimensional discrete wavelet transform of src/wavelet/wavelets.c:
    the level and length arithmetic, the multi-level decomposition
    (wavedec), the single-level inverse (idwt) and the single-branch
    reconstruction (wrcoef).

    Coefficient vectors follow the layout of the source:
      coefs   = cA_L ++ cD_L ++ cD_(L-1) ++ ... ++ cD_1
      lengths = [|cA_L|, |cD_L|, |cD_(L-1)|, ..., |cD_1|]
    Sizes are unsigned 32-bit values in the source; the conversion of
    floorLog2's -1 to an unsigned level is modelled, other sums are taken
    to stay below 2^32. */
module Wavelets {
  import opened Signals
  import opened Convolution

  const U32: int := 0x1_0000_0000

  /** Length of the coif3 filters the blink detector decomposes with. */
  const Coif3Length: nat := 18

  /** A wavelet: four filters of one common length
      (filter[LOW_DEC], filter[HIGH_DEC], filter[LOW_REC], filter[HIGH_REC]). */
  datatype Wavelet = Wavelet(lowDec: seq<real>, highDec: seq<real>, lowRec: seq<real>, highRec: seq<real>)
  {
    function Len(): nat { |lowDec| }

    predicate Valid()
    {
      2 <= |lowDec| < U32 && |highDec| == |lowDec| && |lowRec| == |lowDec| && |highRec| == |lowDec|
    }
  }

  /** Which branch wrcoef rebuilds. */
  datatype ReconType = ReconDetail | ReconApprox

  // ---------------------------------------------------------------------------
  // floorLog2 and the maximum decomposition level
  // ---------------------------------------------------------------------------

  function Pow2(k: nat): (r: nat)
    ensures r >= 1
  {
    if k == 0 then 1 else 2 * Pow2(k - 1)
  }

  lemma {:induction false} Pow2Add(a: nat, b: nat)
    ensures Pow2(a + b) == Pow2(a) * Pow2(b)
    decreases a
  {
    if a > 0 {
      Pow2Add(a - 1, b);
      assert Pow2(a + b) == 2 * Pow2(a - 1 + b);
    }
  }

  lemma {:induction false} Pow2Monotone(a: nat, b: nat)
    requires a <= b
    ensures Pow2(a) <= Pow2(b)
    decreases b
  {
    if a < b {
      Pow2Monotone(a, b - 1);
    }
  }

  /** The powers of two floorLog2 shifts by. */
  lemma Pow2Table()
    ensures Pow2(1) == 2 && Pow2(2) == 4 && Pow2(4) == 0x10 && Pow2(8) == 0x100
    ensures Pow2(16) == 0x1_0000 && Pow2(32) == U32
  {
    Pow2Add(1, 1);
    Pow2Add(2, 2);
    Pow2Add(4, 4);
    Pow2Add(8, 8);
    Pow2Add(16, 16);
  }

  lemma MulMonotone(a: nat, b: nat, c: nat)
    requires a <= b
    ensures a * c <= b * c
  {
  }

  lemma MulMonotoneLeft(c: nat, a: nat, b: nat)
    requires a <= b
    ensures c * a <= c * b
  {
  }

  lemma MulDouble(c: nat, p: nat)
    ensures c * (2 * p) == 2 * (c * p)
  {
  }

  lemma MulAssoc(a: nat, b: nat, c: nat)
    ensures a * (b * c) == (a * b) * c
  {
  }

  lemma MulSucc(a: nat, b: nat)
    ensures (a + 1) * b == a * b + b
  {
  }

  /** `num` lies in [n * 2^log, (n + 1) * 2^log): what floorLog2's shifts keep. */
  predicate Bracket(num: nat, n: nat, log: nat)
  {
    n * Pow2(log) <= num < (n + 1) * Pow2(log)
  }

  /** One conditional shift of floorLog2: if the remaining value is at least
      p = 2^s, shift it right by s bits and add s to the logarithm. */
  function Shift(st: (nat, nat), s: nat, p: nat): (nat, nat)
    requires 1 <= p
  {
    if st.0 >= p then (st.0 / p, st.1 + s) else st
  }

  lemma DivParts(n: nat, p: nat)
    requires 1 <= p
    ensures n == (n / p) * p + n % p && n % p < p
  {
  }

  lemma ShiftKeepsBracket(num: nat, st: (nat, nat), s: nat, p: nat)
    requires p == Pow2(s)
    requires Bracket(num, st.0, st.1) && st.0 < p * p
    requires st.0 >= 1 <==> num >= 1
    ensures Bracket(num, Shift(st, s, p).0, Shift(st, s, p).1)
    ensures Shift(st, s, p).0 < p && st.1 <= Shift(st, s, p).1 <= st.1 + s
    ensures Shift(st, s, p).0 >= 1 <==> num >= 1
  {
    var n, log := st.0, st.1;
    if n >= p {
      var q, rem := n / p, n % p;
      DivParts(n, p);
      assert q < p by {
        if q >= p {
          MulMonotone(p, q, p);
        }
      }
      assert 1 <= q;
      var pl := Pow2(log);
      Pow2Add(s, log);
      MulMonotone(q * p, n, pl);
      MulAssoc(q, p, pl);
      MulSucc(q, p);
      MulMonotone(n + 1, (q + 1) * p, pl);
      MulAssoc(q + 1, p, pl);
    }
  }

  /** floorLog2: five conditional shifts by 16, 8, 4, 2 and 1 bits;
      -1 for zero. */
  function FloorLog2(num: nat): (r: int)
    requires num < U32
    ensures r == -1 <==> num == 0
    ensures -1 <= r < 32
  {
    var s5 := Shift(Shift(Shift(Shift(Shift((num, 0), 16, 0x1_0000), 8, 0x100), 4, 0x10), 2, 4), 1, 2);
    if s5.0 == 0 then -1 else s5.1
  }

  /** floorLog2 of a positive number is its binary logarithm rounded down. */
  lemma FloorLog2Bracket(num: nat)
    requires 0 < num < U32
    ensures Pow2(FloorLog2(num)) <= num < Pow2(FloorLog2(num) + 1)
  {
    Pow2Table();
    var s0 := (num, 0);
    assert Bracket(num, num, 0);
    ShiftKeepsBracket(num, s0, 16, 0x1_0000);
    var s1 := Shift(s0, 16, 0x1_0000);
    ShiftKeepsBracket(num, s1, 8, 0x100);
    var s2 := Shift(s1, 8, 0x100);
    ShiftKeepsBracket(num, s2, 4, 0x10);
    var s3 := Shift(s2, 4, 0x10);
    ShiftKeepsBracket(num, s3, 2, 4);
    var s4 := Shift(s3, 2, 4);
    ShiftKeepsBracket(num, s4, 1, 2);
    var s5 := Shift(s4, 1, 2);
    BracketOne(num, s5);
  }

  lemma BracketOne(num: nat, st: (nat, nat))
    requires Bracket(num, st.0, st.1) && st.0 == 1
    ensures Pow2(st.1) <= num < Pow2(st.1 + 1)
  {
  }

  /** p <= n / m < 2p exactly when m * p <= n < m * 2p. */
  lemma DivBracket(n: nat, m: nat, p: nat)
    requires 1 <= m && p <= n / m < 2 * p
    ensures m * p <= n < m * (2 * p)
  {
    var q, rem := n / m, n % m;
    DivParts(n, m);
    MulMonotone(p, q, m);
    MulMonotone(q + 1, 2 * p, m);
    assert n < (q + 1) * m;
  }

  lemma DivZero(n: nat, m: nat)
    requires 1 <= m
    ensures n / m == 0 <==> n < m
  {
    DivParts(n, m);
    if n / m >= 1 {
      MulMonotone(1, n / m, m);
    }
  }

  /** wavedecMaxLevel: floorLog2 of the number of whole filters in the
      signal, returned as an unsigned int, so that -1 (fewer samples than
      filter taps) becomes 2^32 - 1. */
  function MaxLevel(lenSignal: nat, lenFilter: nat): (r: nat)
    requires 1 <= lenFilter && lenSignal < U32
    ensures lenSignal < lenFilter ==> r == U32 - 1
    ensures lenFilter <= lenSignal ==> r < 32
  {
    var f := FloorLog2(lenSignal / lenFilter);
    DivZero(lenSignal, lenFilter);
    if f >= 0 then f else f + U32
  }

  /** A signal of at least one filter holds the filter between 2^max and
      2^(max+1) times. */
  lemma MaxLevelBracket(lenSignal: nat, lenFilter: nat)
    requires 1 <= lenFilter <= lenSignal < U32
    ensures var r := MaxLevel(lenSignal, lenFilter);
      lenFilter * Pow2(r) <= lenSignal < lenFilter * Pow2(r + 1)
  {
    var f := FloorLog2(lenSignal / lenFilter);
    DivZero(lenSignal, lenFilter);
    FloorLog2Bracket(lenSignal / lenFilter);
    DivBracket(lenSignal, lenFilter, Pow2(f));
  }

  /** The level a request is clamped to by wavedec and wavedecResultLength. */
  function ClampLevel(level: nat, lenSignal: nat, lenFilter: nat): (r: nat)
    requires 1 <= lenFilter && lenSignal < U32
    ensures r <= level && r <= MaxLevel(lenSignal, lenFilter)
    ensures r == level || r == MaxLevel(lenSignal, lenFilter)
  {
    var maxLevel := MaxLevel(lenSignal, lenFilter);
    if level > maxLevel then maxLevel else level
  }

  /** The maximum level as the test program expects it. */
  lemma MaxLevelFixtures()
    ensures MaxLevel(5000, 18) == 8 && MaxLevel(10000, 18) == 9
    ensures MaxLevel(2303, 18) == 6 && MaxLevel(2304, 18) == 7
    ensures MaxLevel(2559, 40) == 5 && MaxLevel(2560, 40) == 6
  {
  }

  /** Any level up to the maximum fits: the filter fits into the signal
      2^level times, and no more than 2^(max+1) times. */
  lemma {:induction false} LevelFits(lenSignal: nat, lenFilter: nat, level: nat)
    requires 1 <= lenFilter <= lenSignal < U32
    ensures level <= MaxLevel(lenSignal, lenFilter) <==> lenFilter * Pow2(level) <= lenSignal
  {
    var m := MaxLevel(lenSignal, lenFilter);
    MaxLevelBracket(lenSignal, lenFilter);
    if level <= m {
      Pow2Monotone(level, m);
      MulMonotoneLeft(lenFilter, Pow2(level), Pow2(m));
    } else {
      Pow2Monotone(m + 1, level);
      MulMonotoneLeft(lenFilter, Pow2(m + 1), Pow2(level));
    }
  }

  /** The guard "at least seven levels" as written, using wavedecMaxLevel's
      unsigned result: a signal shorter than one filter passes it. */
  lemma MaxLevelWrapPassesGuard()
    ensures MaxLevel(10, Coif3Length) == U32 - 1
    ensures !(MaxLevel(10, Coif3Length) < 7)
    ensures 10 < Coif3Length * Pow2(7)
  {
  }

  /** wavedecMaxLevel with a signal shorter than the filter reported as
      level 0 rather than as the unsigned image of -1. */
  function MaxLevelChecked(lenSignal: nat, lenFilter: nat): (r: nat)
    requires 1 <= lenFilter && lenSignal < U32
    ensures r < 32
  {
    if lenSignal < lenFilter then 0 else MaxLevel(lenSignal, lenFilter)
  }

  /** With the checked maximum, "at least k levels" (k >= 1) holds exactly
      when the filter fits into the signal 2^k times; so the seven-level
      guard admits exactly the signals of at least 128 filter lengths. */
  lemma {:induction false} MaxLevelCheckedIff(lenSignal: nat, lenFilter: nat, k: nat)
    requires 1 <= lenFilter && lenSignal < U32 && 1 <= k
    ensures k <= MaxLevelChecked(lenSignal, lenFilter) <==> lenFilter * Pow2(k) <= lenSignal
  {
    if lenSignal < lenFilter {
      Pow2Monotone(1, k);
      assert lenFilter <= lenFilter * Pow2(k);
    } else {
      LevelFits(lenSignal, lenFilter, k);
    }
  }

  // ---------------------------------------------------------------------------
  // Coefficient lengths
  // ---------------------------------------------------------------------------

  /** Length of the level-i coefficient vectors of a signal of n samples:
      each level maps a length g to (g + M - 1) / 2. */
  function CoefLength(n: nat, lenFilter: nat, i: nat): (r: nat)
    requires 1 <= lenFilter
  {
    if i == 0 then n else DownLength(CoefLength(n, lenFilter, i - 1), lenFilter)
  }

  /** Every level up to i has an input at least as long as the filter. */
  predicate Decomposable(n: nat, lenFilter: nat, i: nat)
    requires 1 <= lenFilter
  {
    i == 0 || (Decomposable(n, lenFilter, i - 1) && lenFilter <= CoefLength(n, lenFilter, i - 1))
  }

  lemma {:induction false} DecomposableDown(n: nat, lenFilter: nat, i: nat, j: nat)
    requires 1 <= lenFilter && j <= i && Decomposable(n, lenFilter, i)
    ensures Decomposable(n, lenFilter, j)
    decreases i
  {
    if j < i {
      DecomposableDown(n, lenFilter, i - 1, j);
    }
  }

  /** If the filter fits 2^L times into the signal, the level-i vectors hold
      at least 2^(L-i) filter lengths. */
  lemma {:induction false} CoefLengthLower(n: nat, lenFilter: nat, L: nat, i: nat)
    requires 1 <= lenFilter && lenFilter * Pow2(L) <= n && i <= L
    ensures lenFilter * Pow2(L - i) <= CoefLength(n, lenFilter, i)
    decreases i
  {
    if i > 0 {
      CoefLengthLower(n, lenFilter, L, i - 1);
      var p := Pow2(L - i);
      assert Pow2(L - (i - 1)) == 2 * p;
      MulDouble(lenFilter, p);
    }
  }

  /** Coefficient lengths never grow from one level to the next. */
  lemma CoefLengthShrinks(n: nat, lenFilter: nat, i: nat)
    requires 1 <= lenFilter && lenFilter - 1 <= CoefLength(n, lenFilter, i)
    ensures CoefLength(n, lenFilter, i + 1) <= CoefLength(n, lenFilter, i)
  {
  }

  /** Each level's length is enough to rebuild the previous level's length
      from it: 2 g_(i+1) - M + 2 >= g_i. */
  lemma CoefLengthRebuilds(n: nat, lenFilter: nat, i: nat)
    requires 1 <= lenFilter
    ensures CoefLength(n, lenFilter, i) <= 2 * CoefLength(n, lenFilter, i + 1) + 2 - lenFilter
  {
  }

  /** A signal that holds the filter 2^L times decomposes to level L, and the
      level-L vectors are at least one filter long. */
  lemma {:induction false} DecomposableToLevel(n: nat, lenFilter: nat, L: nat, i: nat)
    requires 1 <= lenFilter && lenFilter * Pow2(L) <= n && i <= L
    ensures Decomposable(n, lenFilter, i)
    ensures lenFilter <= CoefLength(n, lenFilter, i)
    decreases i
  {
    CoefLengthLower(n, lenFilter, L, i);
    MulMonotoneLeft(lenFilter, 1, Pow2(L - i));
    if i > 0 {
      DecomposableToLevel(n, lenFilter, L, i - 1);
    }
  }

  /** The detail lengths [g_i, g_(i-1), ..., g_1], coarsest level first. */
  function LengthsDesc(n: nat, lenFilter: nat, i: nat): (r: seq<nat>)
    requires 1 <= lenFilter
    ensures |r| == i
    ensures forall k :: 0 <= k < i ==> r[k] == CoefLength(n, lenFilter, i - k)
  {
    if i == 0 then [] else [CoefLength(n, lenFilter, i)] + LengthsDesc(n, lenFilter, i - 1)
  }

  lemma LengthsDescStep(n: nat, lenFilter: nat, i: nat)
    requires 1 <= lenFilter
    ensures LengthsDesc(n, lenFilter, i + 1) == [CoefLength(n, lenFilter, i + 1)] + LengthsDesc(n, lenFilter, i)
  {
  }

  /** Entry |r| - i of the length vector is the level-i length. */
  lemma WavedecLengthsAt(n: nat, lenFilter: nat, L: nat, i: nat)
    requires 1 <= lenFilter && 1 <= i <= L
    ensures var r := WavedecLengths(n, lenFilter, L); r[|r| - i] == CoefLength(n, lenFilter, i)
  {
    var r := WavedecLengths(n, lenFilter, L);
    assert r[L + 1 - i] == CoefLength(n, lenFilter, L + 1 - (L + 1 - i));
  }

  /** The length vector wavedec writes for a level-L decomposition. */
  function WavedecLengths(n: nat, lenFilter: nat, L: nat): (r: seq<nat>)
    requires 1 <= lenFilter
    ensures |r| == L + 1 && r[0] == CoefLength(n, lenFilter, L)
    ensures forall j :: 1 <= j <= L ==> r[j] == CoefLength(n, lenFilter, L + 1 - j)
  {
    [CoefLength(n, lenFilter, L)] + LengthsDesc(n, lenFilter, L)
  }

  /** Total coefficient count of a level-L decomposition: the detail
      lengths plus the approximation length (level 0 counts as level 1). */
  function CoefTotalAt(n: nat, lenFilter: nat, L: nat): (r: nat)
    requires 1 <= lenFilter
  {
    var L1 := if L == 0 then 1 else L;
    SumNat(LengthsDesc(n, lenFilter, L1)) + CoefLength(n, lenFilter, L1)
  }

  /** Total coefficient count for a request of `level` levels. */
  function CoefTotal(n: nat, lenFilter: nat, level: nat): (r: nat)
    requires 1 <= lenFilter && n < U32
  {
    CoefTotalAt(n, lenFilter, ClampLevel(level, n, lenFilter))
  }

  /** wavedecResultLength: clamp the level, then add up the level lengths,
      counting the last one twice. */
  method WavedecResultLength(lenSignal: nat, lenFilter: nat, maxLevel: nat) returns (k: nat)
    requires 1 <= lenFilter && lenSignal < U32
    ensures k == CoefTotal(lenSignal, lenFilter, maxLevel)
  {
    var level := maxLevel;
    var i := MaxLevel(lenSignal, lenFilter);
    if level > i {
      level := i;
    }
    k := SumLevelLengths(lenSignal, lenFilter, level);
  }

  /** The loop of wavedecResultLength. */
  method SumLevelLengths(lenSignal: nat, lenFilter: nat, level: nat) returns (k: nat)
    requires 1 <= lenFilter
    ensures k == CoefTotalAt(lenSignal, lenFilter, level)
  {
    var g := (lenSignal + lenFilter - 1) / 2;
    k := g;
    var i := 1;
    while i < level
      invariant 1 <= i <= (if level == 0 then 1 else level)
      invariant g == CoefLength(lenSignal, lenFilter, i)
      invariant k == SumNat(LengthsDesc(lenSignal, lenFilter, i))
    {
      g := (g + lenFilter - 1) / 2;
      LengthsDescStep(lenSignal, lenFilter, i);
      i := i + 1;
      k := k + g;
    }
    k := k + g;
  }

  /** The coefficient total is the sum of the length vector wavedec writes
      for the clamped level. */
  lemma CoefTotalIsLengthSum(n: nat, lenFilter: nat, level: nat)
    requires 1 <= lenFilter && n < U32 && 1 <= ClampLevel(level, n, lenFilter)
    ensures CoefTotal(n, lenFilter, level) == SumNat(WavedecLengths(n, lenFilter, ClampLevel(level, n, lenFilter)))
  {
    var L := ClampLevel(level, n, lenFilter);
    SumNatConcat([CoefLength(n, lenFilter, L)], LengthsDesc(n, lenFilter, L));
  }

  // The coefficient totals the test program expects for
  // (signal length, filter length, requested level).

  lemma CoefTotalFixture1()
    ensures CoefTotal(5000, 18, 7) == 5113
  {
    var lens: seq<nat> := [55, 94, 172, 328, 639, 1262, 2508];
    assert Chain(5000, 18, lens[6..]);
    assert Chain(5000, 18, lens[5..]);
    assert Chain(5000, 18, lens[4..]);
    assert Chain(5000, 18, lens[3..]);
    assert Chain(5000, 18, lens[2..]);
    assert Chain(5000, 18, lens[1..]);
    assert Chain(5000, 18, lens[0..]);
    assert lens[0..] == lens;
    CoefTotalFixture(5000, 18, 7, 7, lens, 5113);
  }

  lemma CoefTotalFixture2()
    ensures CoefTotal(5000, 18, 8) == 5130
  {
    var lens: seq<nat> := [36, 55, 94, 172, 328, 639, 1262, 2508];
    assert Chain(5000, 18, lens[7..]);
    assert Chain(5000, 18, lens[6..]);
    assert Chain(5000, 18, lens[5..]);
    assert Chain(5000, 18, lens[4..]);
    assert Chain(5000, 18, lens[3..]);
    assert Chain(5000, 18, lens[2..]);
    assert Chain(5000, 18, lens[1..]);
    assert Chain(5000, 18, lens[0..]);
    assert lens[0..] == lens;
    CoefTotalFixture(5000, 18, 8, 8, lens, 5130);
  }

  lemma CoefTotalFixture3()
    ensures CoefTotal(2303, 18, 8) == 2401
  {
    var lens: seq<nat> := [52, 88, 159, 302, 588, 1160];
    assert Chain(2303, 18, lens[5..]);
    assert Chain(2303, 18, lens[4..]);
    assert Chain(2303, 18, lens[3..]);
    assert Chain(2303, 18, lens[2..]);
    assert Chain(2303, 18, lens[1..]);
    assert Chain(2303, 18, lens[0..]);
    assert lens[0..] == lens;
    CoefTotalFixture(2303, 18, 8, 6, lens, 2401);
  }

  lemma CoefTotalFixture4()
    ensures CoefTotal(2304, 18, 8) == 2417
  {
    var lens: seq<nat> := [34, 52, 88, 159, 302, 588, 1160];
    assert Chain(2304, 18, lens[6..]);
    assert Chain(2304, 18, lens[5..]);
    assert Chain(2304, 18, lens[4..]);
    assert Chain(2304, 18, lens[3..]);
    assert Chain(2304, 18, lens[2..]);
    assert Chain(2304, 18, lens[1..]);
    assert Chain(2304, 18, lens[0..]);
    assert lens[0..] == lens;
    CoefTotalFixture(2304, 18, 8, 7, lens, 2417);
  }

  lemma CoefTotalFixture5()
    ensures CoefTotal(2559, 40, 8) == 2752
  {
    var lens: seq<nat> := [117, 196, 354, 669, 1299];
    assert Chain(2559, 40, lens[4..]);
    assert Chain(2559, 40, lens[3..]);
    assert Chain(2559, 40, lens[2..]);
    assert Chain(2559, 40, lens[1..]);
    assert Chain(2559, 40, lens[0..]);
    assert lens[0..] == lens;
    CoefTotalFixture(2559, 40, 8, 5, lens, 2752);
  }

  lemma CoefTotalFixture6()
    ensures CoefTotal(2560, 40, 8) == 2791
  {
    var lens: seq<nat> := [78, 117, 196, 354, 669, 1299];
    assert Chain(2560, 40, lens[5..]);
    assert Chain(2560, 40, lens[4..]);
    assert Chain(2560, 40, lens[3..]);
    assert Chain(2560, 40, lens[2..]);
    assert Chain(2560, 40, lens[1..]);
    assert Chain(2560, 40, lens[0..]);
    assert lens[0..] == lens;
    CoefTotalFixture(2560, 40, 8, 6, lens, 2791);
  }

  /** The length vector of `n` samples and filter length `m` is `lens`,
      coarsest level first: each entry is the down-sampled length of the
      next one, and the last one that of the signal. */
  predicate Chain(n: nat, m: nat, lens: seq<nat>)
    requires 1 <= m
    decreases |lens|
  {
    |lens| == 0 || (DownLength(if |lens| == 1 then n else lens[1], m) == lens[0] && Chain(n, m, lens[1..]))
  }

  /** One coefficient-total fixture, given the clamped level and the lengths
      it produces. */
  lemma CoefTotalFixture(n: nat, m: nat, level: nat, L: nat, lens: seq<nat>, total: nat)
    requires 1 <= m && n < U32 && 1 <= L && |lens| == L
    requires ClampLevel(level, n, m) == L
    requires Chain(n, m, lens) && SumNat(lens) + lens[0] == total
    ensures CoefTotal(n, m, level) == total
  {
    LengthsMatch(n, m, lens);
  }

  lemma {:induction false} LengthsMatch(n: nat, m: nat, lens: seq<nat>)
    requires 1 <= m && Chain(n, m, lens)
    ensures LengthsDesc(n, m, |lens|) == lens
    decreases |lens|
  {
    if |lens| > 0 {
      LengthsMatch(n, m, lens[1..]);
      if |lens| > 1 {
        assert CoefLength(n, m, |lens| - 1) == LengthsDesc(n, m, |lens| - 1)[0] == lens[1];
      }
    }
  }

  // ---------------------------------------------------------------------------
  // wavedec
  // ---------------------------------------------------------------------------

  /** Approximation coefficients after i levels: the low-pass down-sampling
      convolution applied i times. */
  function Approx(w: Wavelet, x: seq<real>, i: nat): (r: seq<real>)
    requires w.Valid() && Decomposable(|x|, w.Len(), i)
    ensures |r| == CoefLength(|x|, w.Len(), i)
    decreases i
  {
    if i == 0 then x else DownRef(Approx(w, x, i - 1), w.lowDec)
  }

  /** Detail coefficients of level i >= 1: the high-pass down-sampling
      convolution of the level i-1 approximation. */
  function Detail(w: Wavelet, x: seq<real>, i: nat): (r: seq<real>)
    requires w.Valid() && 1 <= i && Decomposable(|x|, w.Len(), i)
    ensures |r| == CoefLength(|x|, w.Len(), i)
  {
    DownRef(Approx(w, x, i - 1), w.highDec)
  }

  /** The details of levels i, i-1, ..., 1 laid end to end. */
  function Details(w: Wavelet, x: seq<real>, i: nat): (r: seq<real>)
    requires w.Valid() && Decomposable(|x|, w.Len(), i)
    ensures |r| == SumNat(LengthsDesc(|x|, w.Len(), i))
    decreases i
  {
    if i == 0 then []
    else
      assert LengthsDesc(|x|, w.Len(), i)[1..] == LengthsDesc(|x|, w.Len(), i - 1);
      Detail(w, x, i) + Details(w, x, i - 1)
  }

  /** The level wavedec settles on is at least 1 and the signal holds the
      filter 2^level times, so every level has an input of at least one
      filter length. */
  lemma WavedecLevelFits(n: nat, lenFilter: nat, level: nat)
    requires 1 <= lenFilter && 2 * lenFilter <= n < U32 && 1 <= level
    ensures var L := ClampLevel(level, n, lenFilter);
      1 <= L && Decomposable(n, lenFilter, L) && lenFilter <= CoefLength(n, lenFilter, L)
  {
    var L := ClampLevel(level, n, lenFilter);
    LevelFits(n, lenFilter, 1);
    LevelFits(n, lenFilter, L);
    DecomposableToLevel(n, lenFilter, L, L);
  }

  /** One decomposition level: the low- and high-pass down-sampling
      convolutions of the same input. */
  method DecLevel(a: seq<real>, w: Wavelet) returns (approx: seq<real>, detail: seq<real>)
    requires w.Valid() && w.Len() <= |a|
    ensures approx == DownRef(a, w.lowDec) && detail == DownRef(a, w.highDec)
  {
    approx := MirrorDown(a, w.lowDec);
    detail := MirrorDown(a, w.highDec);
  }

  /** The level loop of wavedec: the first level from the signal, then each
      further level from the previous approximation, its details put in
      front of the finer ones at an offset that moves down by their length
      (the source alternates two scratch buffers for the approximations). */
  method DecomposeLevels(x: seq<real>, w: Wavelet, L: nat, lenCoef: int)
      returns (a: seq<real>, tail: seq<real>, lens: seq<nat>, iDetail: int)
    requires w.Valid() && 1 <= L && Decomposable(|x|, w.Len(), L)
    ensures a == Approx(w, x, L) && tail == Details(w, x, L)
    ensures lens == LengthsDesc(|x|, w.Len(), L) && iDetail + SumNat(lens) == lenCoef
  {
    var n, M := |x|, w.Len();
    var g: nat := n;
    a, tail, lens, iDetail := x, [], [], lenCoef;
    var i := 0;
    while i < L
      invariant 0 <= i <= L && Decomposable(n, M, i)
      invariant g == CoefLength(n, M, i) && a == Approx(w, x, i) && tail == Details(w, x, i)
      invariant lens == LengthsDesc(n, M, i)
      invariant iDetail + SumNat(lens) == lenCoef
    {
      DecomposableDown(n, M, L, i + 1);
      g := (g + M - 1) / 2;
      LengthsDescStep(n, M, i);
      lens := [g] + lens;
      iDetail := iDetail - g;
      var aa, dd := DecLevel(a, w);
      DecomposeStep(w, x, i, a, tail, aa, dd);
      tail := dd + tail;
      a := aa;
      i := i + 1;
    }
  }

  lemma DecomposeStep(w: Wavelet, x: seq<real>, i: nat, a: seq<real>, tail: seq<real>, aa: seq<real>, dd: seq<real>)
    requires w.Valid() && Decomposable(|x|, w.Len(), i + 1)
    requires a == Approx(w, x, i) && tail == Details(w, x, i)
    requires aa == DownRef(a, w.lowDec) && dd == DownRef(a, w.highDec)
    ensures aa == Approx(w, x, i + 1) && dd + tail == Details(w, x, i + 1)
  {
  }

  /** wavedec: clamp the level, size the coefficient vector, run the level
      loop, then put the last approximation in front and repeat the last
      detail length as the approximation length. */
  method Wavedec(x: seq<real>, w: Wavelet, level: nat) returns (coefs: seq<real>, lengths: seq<nat>)
    requires w.Valid() && |x| < U32
    requires 1 <= level && 2 * w.Len() <= |x|
    ensures var L := ClampLevel(level, |x|, w.Len());
      1 <= L && Decomposable(|x|, w.Len(), L)
      && lengths == WavedecLengths(|x|, w.Len(), L)
      && coefs == Approx(w, x, L) + Details(w, x, L)
  {
    var n, M := |x|, w.Len();
    var L := level;
    var maxL := MaxLevel(n, M);
    if L > maxL {
      L := maxL;
    }
    WavedecLevelFits(n, M, level);
    var lenCoef := WavedecResultLength(n, M, L);
    var a, tail, lens, iDetail := DecomposeLevels(x, w, L, lenCoef);
    lengths := [lens[0]] + lens;
    assert iDetail == |a|;
    coefs := a + tail;
  }

  // ---------------------------------------------------------------------------
  // idwt
  // ---------------------------------------------------------------------------

  /** idwtResultLength: the signal length one inverse level rebuilds from
      coefficient vectors of length lenCoef. */
  function IdwtResultLength(lenCoef: nat, lenFilter: nat): int
  {
    2 * lenCoef - lenFilter + 2
  }

  /** The result lengths the test program expects. */
  lemma IdwtResultLengthFixtures()
    ensures IdwtResultLength(78, 40) == 118 && IdwtResultLength(196, 40) == 354
    ensures IdwtResultLength(36, 18) == 56 && IdwtResultLength(55, 18) == 94
    ensures IdwtResultLength(56, 18) == 96 && IdwtResultLength(94, 18) == 172
  {
  }

  /** One level down and back up: the rebuilt length is the signal length,
      or one more when n + M - 1 is even. */
  lemma IdwtResultLengthAfterDown(n: nat, lenFilter: nat)
    requires 1 <= lenFilter
    ensures IdwtResultLength(DownLength(n, lenFilter), lenFilter) == if (n + lenFilter - 1) % 2 == 0 then n + 1 else n
  {
  }

  /** Output k of one inverse level: the high-pass up-sampling convolution
      of the details plus the low-pass one of the approximations, taken
      M-1 places into the full convolution. */
  function IdwtAt(w: Wavelet, cA: seq<real>, cD: seq<real>, k: int): real
    requires w.Valid() && |cA| == |cD| && w.Len() / 2 < |cA|
    requires 0 <= k < IdwtResultLength(|cA|, w.Len())
  {
    var M := w.Len();
    UpAt(cD, w.highRec, k + M - 1) + UpAt(cA, w.lowRec, k + M - 1)
  }

  /** One inverse level (idwt): its output has IdwtResultLength values, the
      sum of the two up-sampling convolutions without the first M-1. */
  function IdwtRef(w: Wavelet, cA: seq<real>, cD: seq<real>): (r: seq<real>)
    requires w.Valid() && |cA| == |cD| && w.Len() / 2 < |cA|
    ensures |r| == IdwtResultLength(|cA|, w.Len())
  {
    var n := IdwtResultLength(|cA|, w.Len());
    seq(n, k requires 0 <= k < n => IdwtAt(w, cA, cD, k))
  }

  lemma IdwtRefAt(w: Wavelet, cA: seq<real>, cD: seq<real>, k: nat)
    requires w.Valid() && |cA| == |cD| && w.Len() / 2 < |cA|
    requires k < IdwtResultLength(|cA|, w.Len())
    ensures IdwtRef(w, cA, cD)[k] == IdwtAt(w, cA, cD, k)
  {
  }

  /** idwt: two up-sampling convolutions, their sum, and the copy of the
      middle part into the result. */
  method Idwt(cA: seq<real>, cD: seq<real>, w: Wavelet) returns (result: seq<real>)
    requires w.Valid() && |cA| == |cD| && w.Len() / 2 < |cA|
    ensures result == IdwtRef(w, cA, cD)
  {
    var M := w.Len();
    var lenConv := 2 * |cA| + M - 1;
    var lenResult := IdwtResultLength(|cA|, M);
    var low := MirrorUp(cA, w.lowRec);
    var high := MirrorUp(cD, w.highRec);
    var sum: seq<real> := [];
    var i := 0;
    while i < lenConv
      invariant 0 <= i <= lenConv && |sum| == i
      invariant forall j :: 0 <= j < i ==> sum[j] == high[j] + low[j]
    {
      sum := sum + [high[i] + low[i]];
      i := i + 1;
    }
    result := sum[M - 1 .. M - 1 + lenResult];
    forall k | 0 <= k < lenResult
      ensures result[k] == IdwtRef(w, cA, cD)[k]
    {
      IdwtRefAt(w, cA, cD, k);
    }
  }

  /** One output of idwt is additive in the pair of inputs. */
  lemma IdwtAtAdd(w: Wavelet, a1: seq<real>, d1: seq<real>, a2: seq<real>, d2: seq<real>, k: nat)
    requires w.Valid() && |a1| == |d1| == |a2| == |d2| && w.Len() / 2 < |a1|
    requires k < IdwtResultLength(|a1|, w.Len())
    ensures IdwtAt(w, Add(a1, a2), Add(d1, d2), k) == IdwtAt(w, a1, d1, k) + IdwtAt(w, a2, d2, k)
  {
    UpAtAdd(a1, a2, w.lowRec, k + w.Len() - 1);
    UpAtAdd(d1, d2, w.highRec, k + w.Len() - 1);
  }

  /** idwt is additive in its pair of inputs. */
  lemma IdwtAdd(w: Wavelet, a1: seq<real>, d1: seq<real>, a2: seq<real>, d2: seq<real>)
    requires w.Valid() && |a1| == |d1| == |a2| == |d2| && w.Len() / 2 < |a1|
    ensures IdwtRef(w, Add(a1, a2), Add(d1, d2)) == Add(IdwtRef(w, a1, d1), IdwtRef(w, a2, d2))
  {
    forall k | 0 <= k < IdwtResultLength(|a1|, w.Len())
      ensures IdwtRef(w, Add(a1, a2), Add(d1, d2))[k] == IdwtRef(w, a1, d1)[k] + IdwtRef(w, a2, d2)[k]
    {
      IdwtAtAdd(w, a1, d1, a2, d2, k);
    }
  }

  /** One output of idwt is the sum of the outputs from the approximations
      alone and from the details alone. */
  lemma IdwtAtSplit(w: Wavelet, a: seq<real>, d: seq<real>, k: nat)
    requires w.Valid() && |a| == |d| && w.Len() / 2 < |a|
    requires k < IdwtResultLength(|a|, w.Len())
    ensures IdwtAt(w, a, d, k) == IdwtAt(w, a, Zeros(|a|), k) + IdwtAt(w, Zeros(|d|), d, k)
  {
    UpAtZeros(|a|, w.highRec, k + w.Len() - 1);
    UpAtZeros(|d|, w.lowRec, k + w.Len() - 1);
  }

  /** idwt of approximations and details is the idwt of the approximations
      alone plus that of the details alone. */
  lemma IdwtSplit(w: Wavelet, a: seq<real>, d: seq<real>)
    requires w.Valid() && |a| == |d| && w.Len() / 2 < |a|
    ensures IdwtRef(w, a, d) == Add(IdwtRef(w, a, Zeros(|a|)), IdwtRef(w, Zeros(|d|), d))
  {
    forall k | 0 <= k < IdwtResultLength(|a|, w.Len())
      ensures IdwtRef(w, a, d)[k] == IdwtRef(w, a, Zeros(|a|))[k] + IdwtRef(w, Zeros(|d|), d)[k]
    {
      IdwtAtSplit(w, a, d, k);
    }
  }

  /** idwt of all-zero inputs is all zero. */
  lemma IdwtZeros(w: Wavelet, n: nat)
    requires w.Valid() && w.Len() / 2 < n
    ensures IdwtRef(w, Zeros(n), Zeros(n)) == Zeros(IdwtResultLength(n, w.Len()))
  {
    var M := w.Len();
    forall k | 0 <= k < IdwtResultLength(n, M)
      ensures IdwtRef(w, Zeros(n), Zeros(n))[k] == 0.0
    {
      IdwtRefAt(w, Zeros(n), Zeros(n), k);
      UpAtZeros(n, w.highRec, k + M - 1);
      UpAtZeros(n, w.lowRec, k + M - 1);
    }
  }

  // ---------------------------------------------------------------------------
  // wrcoef
  // ---------------------------------------------------------------------------

  /** What wrcoef needs of a length vector with max level |lengths| - 1:
      at least one level, the approximation as long as the coarsest details,
      every level long enough for idwt, and each finer level no shorter than
      the coarser one and no longer than idwt rebuilds from it. */
  predicate CoefLayout(lengths: seq<nat>, lenFilter: nat)
  {
    2 <= |lengths| && lengths[0] == lengths[1] && forall j: nat | j < |lengths| :: LayoutAt(lengths, lenFilter, j)
  }

  /** The conditions of CoefLayout on entry j. */
  predicate LayoutAt(lengths: seq<nat>, lenFilter: nat, j: nat)
  {
    (1 <= j < |lengths| ==> lenFilter / 2 < lengths[j])
    && (1 <= j < |lengths| - 1 ==> lengths[j] <= lengths[j + 1] <= 2 * lengths[j] + 2 - lenFilter)
  }

  /** The layout conditions wrcoef relies on at level i: idwt accepts the
      level's vectors and its result holds the next finer level. */
  lemma LayoutFacts(lengths: seq<nat>, lenFilter: nat, i: nat)
    requires CoefLayout(lengths, lenFilter) && 1 <= i < |lengths|
    ensures lenFilter / 2 < lengths[|lengths| - i]
    ensures 1 < i ==> lengths[|lengths| - i] <= lengths[|lengths| - i + 1] <= 2 * lengths[|lengths| - i] + 2 - lenFilter
  {
    assert LayoutAt(lengths, lenFilter, |lengths| - i);
  }

  /** Where the level-i details start in the coefficient vector: the
      running sum lengths[0] + lengths[1] + ... + lengths[K-i-1] that wrcoef
      keeps while it walks down from the coarsest level. */
  function DetailOffset(lengths: seq<nat>, i: nat): nat
    requires 1 <= i < |lengths|
    decreases |lengths| - i
  {
    if i == |lengths| - 1 then lengths[0] else DetailOffset(lengths, i + 1) + lengths[|lengths| - i - 1]
  }

  /** One step of the running sum. */
  lemma DetailOffsetStep(lengths: seq<nat>, i: nat)
    requires 1 <= i < |lengths| - 1
    ensures DetailOffset(lengths, i) == DetailOffset(lengths, i + 1) + lengths[|lengths| - i - 1]
  {
  }

  /** The running sum is the sum of the lengths before level i's block. */
  lemma {:induction false} DetailOffsetSum(lengths: seq<nat>, i: nat)
    requires 1 <= i < |lengths|
    ensures DetailOffset(lengths, i) == SumNat(lengths[..|lengths| - i])
    decreases |lengths| - i
  {
    if i == |lengths| - 1 {
      SumNatPrefixStep(lengths, 0);
      assert lengths[..0] == [];
    } else {
      DetailOffsetSum(lengths, i + 1);
      SumNatPrefixStep(lengths, |lengths| - i - 1);
    }
  }

  /** Level i's block lies inside the stored coefficients. */
  lemma DetailOffsetBound(lengths: seq<nat>, i: nat)
    requires 1 <= i < |lengths|
    ensures DetailOffset(lengths, i) + lengths[|lengths| - i] <= SumNat(lengths)
  {
    DetailOffsetSum(lengths, i);
    SumNatPrefixStep(lengths, |lengths| - i);
    SumNatPrefixBound(lengths, |lengths| - i + 1);
  }

  /** The level-i detail coefficients of a coefficient vector. */
  function DetailBlock(coefs: seq<real>, lengths: seq<nat>, i: nat): (r: seq<real>)
    requires 1 <= i < |lengths| && SumNat(lengths) <= |coefs|
    ensures |r| == lengths[|lengths| - i]
  {
    DetailOffsetBound(lengths, i);
    var off := DetailOffset(lengths, i);
    coefs[off .. off + lengths[|lengths| - i]]
  }

  /** Requirements shared by the reconstruction functions. */
  predicate RecInput(w: Wavelet, lengths: seq<nat>, coefs: seq<real>)
  {
    w.Valid() && CoefLayout(lengths, w.Len()) && SumNat(lengths) <= |coefs|
  }

  /** The details idwt uses at level i: the stored ones when i lies in
      (lo, hi], zeros otherwise. */
  function LevelDetails(coefs: seq<real>, lengths: seq<nat>, i: nat, lo: nat, hi: nat): (r: seq<real>)
    requires 1 <= i < |lengths| && SumNat(lengths) <= |coefs|
    ensures |r| == lengths[|lengths| - i]
  {
    if lo < i <= hi then DetailBlock(coefs, lengths, i) else Zeros(lengths[|lengths| - i])
  }

  /** Splitting the range of levels splits the details into a sum. */
  lemma LevelDetailsSplit(coefs: seq<real>, lengths: seq<nat>, i: nat, lo: nat, mid: nat, hi: nat)
    requires 1 <= i < |lengths| && SumNat(lengths) <= |coefs| && lo <= mid <= hi
    ensures LevelDetails(coefs, lengths, i, lo, hi)
         == Add(LevelDetails(coefs, lengths, i, lo, mid), LevelDetails(coefs, lengths, i, mid, hi))
  {
    var z := Zeros(lengths[|lengths| - i]);
    if lo < i <= mid {
      AddZerosRight(DetailBlock(coefs, lengths, i));
    } else if mid < i <= hi {
      AddZerosLeft(DetailBlock(coefs, lengths, i));
    } else {
      AddZerosRight(z);
    }
  }

  /** One inverse level of wrcoef, cut to the length of the next finer
      level. */
  function LevelStep(w: Wavelet, lengths: seq<nat>, coefs: seq<real>, a: seq<real>, i: nat, lo: nat, hi: nat): (r: seq<real>)
    requires RecInput(w, lengths, coefs)
    requires 2 <= i < |lengths| && |a| == lengths[|lengths| - i]
    ensures |r| == lengths[|lengths| - i + 1]
  {
    LayoutFacts(lengths, w.Len(), i);
    IdwtRef(w, a, LevelDetails(coefs, lengths, i, lo, hi))[..lengths[|lengths| - i + 1]]
  }

  /** Inverse levels i, i-1, ..., 1 starting from approximations `a` of
      level i: each level takes the stored details when the level is in
      (lo, hi] and zeros otherwise, and keeps as many values of the result as
      the next finer level holds. */
  function Rebuild(w: Wavelet, lengths: seq<nat>, coefs: seq<real>, a: seq<real>, i: nat, lo: nat, hi: nat): (r: seq<real>)
    requires RecInput(w, lengths, coefs)
    requires 1 <= i < |lengths| && |a| == lengths[|lengths| - i]
    ensures |r| == IdwtResultLength(lengths[|lengths| - 1], w.Len())
    decreases i
  {
    LayoutFacts(lengths, w.Len(), i);
    if i == 1 then IdwtRef(w, a, LevelDetails(coefs, lengths, 1, lo, hi))
    else Rebuild(w, lengths, coefs, LevelStep(w, lengths, coefs, a, i, lo, hi), i - 1, lo, hi)
  }

  /** The clamp at the top of wrcoef: the level never exceeds the max level
      and a detail level of 0 means 1. */
  function WrcoefLevel(t: ReconType, level: nat, maxLevel: nat): (r: nat)
    requires 1 <= maxLevel
    ensures r <= maxLevel && (t == ReconDetail ==> 1 <= r)
    ensures (r == level) <==> (level <= maxLevel && (t.ReconApprox? || 1 <= level))
  {
    if level > maxLevel then maxLevel
    else if level == 0 && t == ReconDetail then 1
    else level
  }

  /** Approximations of level `lvl` carried back to the signal: start from
      the stored approximations and use the details of every level above
      `lvl`. */
  function ApproxRec(w: Wavelet, lengths: seq<nat>, coefs: seq<real>, lvl: nat): (r: seq<real>)
    requires RecInput(w, lengths, coefs) && lvl < |lengths|
    ensures |r| == IdwtResultLength(lengths[|lengths| - 1], w.Len())
  {
    Rebuild(w, lengths, coefs, coefs[..lengths[0]], |lengths| - 1, lvl, |lengths| - 1)
  }

  /** Details of level `lvl` carried back to the signal: zero
      approximations at level `lvl`, the stored details of `lvl` alone, and
      zero details all the way down. */
  function DetailRec(w: Wavelet, lengths: seq<nat>, coefs: seq<real>, lvl: nat): (r: seq<real>)
    requires RecInput(w, lengths, coefs) && 1 <= lvl < |lengths|
    ensures |r| == IdwtResultLength(lengths[|lengths| - 1], w.Len())
  {
    Rebuild(w, lengths, coefs, Zeros(lengths[|lengths| - lvl]), lvl, lvl - 1, lvl)
  }

  /** What wrcoef rebuilds for a branch and a requested level. */
  function WrcoefRef(w: Wavelet, coefs: seq<real>, lengths: seq<nat>, t: ReconType, level: nat): (r: seq<real>)
    requires RecInput(w, lengths, coefs)
    ensures |r| == IdwtResultLength(lengths[|lengths| - 1], w.Len())
  {
    var lvl := WrcoefLevel(t, level, |lengths| - 1);
    if t == ReconApprox then ApproxRec(w, lengths, coefs, lvl) else DetailRec(w, lengths, coefs, lvl)
  }

  lemma ZerosPrefix(n: nat, k: nat)
    requires k <= n
    ensures Zeros(n)[..k] == Zeros(k)
  {
  }

  /** Above level 1 a rebuild is one level step and a rebuild from the next
      finer level. */
  lemma RebuildUnfold(w: Wavelet, lengths: seq<nat>, coefs: seq<real>, a: seq<real>, i: nat, lo: nat, hi: nat)
    requires RecInput(w, lengths, coefs)
    requires 2 <= i < |lengths| && |a| == lengths[|lengths| - i]
    ensures Rebuild(w, lengths, coefs, a, i, lo, hi) == Rebuild(w, lengths, coefs, LevelStep(w, lengths, coefs, a, i, lo, hi), i - 1, lo, hi)
  {
  }

  /** A level step is additive when the detail range is split at mid. */
  lemma LevelStepAdd(w: Wavelet, lengths: seq<nat>, coefs: seq<real>, a1: seq<real>, a2: seq<real>,
                     i: nat, lo: nat, mid: nat, hi: nat)
    requires RecInput(w, lengths, coefs) && 1 <= i < |lengths|
    requires |a1| == lengths[|lengths| - i] && |a2| == |a1| && lo <= mid <= hi
    ensures w.Len() / 2 < |a1|
    ensures IdwtRef(w, Add(a1, a2), LevelDetails(coefs, lengths, i, lo, hi))
         == Add(IdwtRef(w, a1, LevelDetails(coefs, lengths, i, lo, mid)), IdwtRef(w, a2, LevelDetails(coefs, lengths, i, mid, hi)))
    ensures i >= 2 ==> (LevelStep(w, lengths, coefs, Add(a1, a2), i, lo, hi)
                        == Add(LevelStep(w, lengths, coefs, a1, i, lo, mid), LevelStep(w, lengths, coefs, a2, i, mid, hi)))
  {
    LayoutFacts(lengths, w.Len(), i);
    var d1 := LevelDetails(coefs, lengths, i, lo, mid);
    var d2 := LevelDetails(coefs, lengths, i, mid, hi);
    LevelDetailsSplit(coefs, lengths, i, lo, mid, hi);
    IdwtAdd(w, a1, d1, a2, d2);
    if i >= 2 {
      AddPrefix(IdwtRef(w, a1, d1), IdwtRef(w, a2, d2), lengths[|lengths| - i + 1]);
    }
  }

  /** Rebuild is linear: rebuilding a sum of approximations with the union
      of two adjacent ranges of detail levels is the sum of the two separate
      rebuilds. */
  lemma {:induction false} RebuildAdd(w: Wavelet, lengths: seq<nat>, coefs: seq<real>, a1: seq<real>, a2: seq<real>,
                                      i: nat, lo: nat, mid: nat, hi: nat)
    requires RecInput(w, lengths, coefs) && 1 <= i < |lengths|
    requires |a1| == lengths[|lengths| - i] && |a2| == |a1| && lo <= mid <= hi
    ensures Rebuild(w, lengths, coefs, Add(a1, a2), i, lo, hi)
         == Add(Rebuild(w, lengths, coefs, a1, i, lo, mid), Rebuild(w, lengths, coefs, a2, i, mid, hi))
    decreases i
  {
    LevelStepAdd(w, lengths, coefs, a1, a2, i, lo, mid, hi);
    if i > 1 {
      var s1 := LevelStep(w, lengths, coefs, a1, i, lo, mid);
      var s2 := LevelStep(w, lengths, coefs, a2, i, mid, hi);
      var r1 := Rebuild(w, lengths, coefs, s1, i - 1, lo, mid);
      var r2 := Rebuild(w, lengths, coefs, s2, i - 1, mid, hi);
      RebuildUnfold(w, lengths, coefs, a1, i, lo, mid);
      RebuildUnfold(w, lengths, coefs, a2, i, mid, hi);
      RebuildAdd(w, lengths, coefs, s1, s2, i - 1, lo, mid, hi);
      assert Rebuild(w, lengths, coefs, Add(s1, s2), i - 1, lo, hi) == Add(r1, r2);
      RebuildUnfold(w, lengths, coefs, Add(a1, a2), i, lo, hi);
      assert LevelStep(w, lengths, coefs, Add(a1, a2), i, lo, hi) == Add(s1, s2);
    }
  }

  /** Only the levels up to i matter to a rebuild from level i. */
  lemma {:induction false} RebuildBelow(w: Wavelet, lengths: seq<nat>, coefs: seq<real>, a: seq<real>,
                                        i: nat, lo: nat, hi: nat)
    requires RecInput(w, lengths, coefs) && 1 <= i < |lengths| && |a| == lengths[|lengths| - i]
    requires i <= lo
    ensures Rebuild(w, lengths, coefs, a, i, lo, hi) == Rebuild(w, lengths, coefs, a, i, 0, 0)
    decreases i
  {
    assert LevelDetails(coefs, lengths, i, lo, hi) == LevelDetails(coefs, lengths, i, 0, 0);
    if i > 1 {
      RebuildUnfold(w, lengths, coefs, a, i, lo, hi);
      RebuildUnfold(w, lengths, coefs, a, i, 0, 0);
      RebuildBelow(w, lengths, coefs, LevelStep(w, lengths, coefs, a, i, lo, hi), i - 1, lo, hi);
    }
  }

  /** A level without stored details turns zeros into zeros. */
  lemma LevelStepZeros(w: Wavelet, lengths: seq<nat>, coefs: seq<real>, i: nat, lo: nat, hi: nat)
    requires RecInput(w, lengths, coefs) && 2 <= i < |lengths| && !(lo < i <= hi)
    ensures LevelStep(w, lengths, coefs, Zeros(lengths[|lengths| - i]), i, lo, hi) == Zeros(lengths[|lengths| - i + 1])
  {
    var n := lengths[|lengths| - i];
    LayoutFacts(lengths, w.Len(), i);
    assert LevelDetails(coefs, lengths, i, lo, hi) == Zeros(n);
    IdwtZeros(w, n);
    ZerosPrefix(IdwtResultLength(n, w.Len()), lengths[|lengths| - i + 1]);
  }

  /** Rebuilding zeros from a level above `lvl` with only the details of
      `lvl` is what wrcoef's detail branch computes. */
  lemma {:induction false} RebuildZerosAbove(w: Wavelet, lengths: seq<nat>, coefs: seq<real>, i: nat, lvl: nat)
    requires RecInput(w, lengths, coefs) && 1 <= lvl <= i < |lengths|
    ensures Rebuild(w, lengths, coefs, Zeros(lengths[|lengths| - i]), i, lvl - 1, lvl) == DetailRec(w, lengths, coefs, lvl)
    decreases i
  {
    if i > lvl {
      var K := |lengths|;
      var z := Zeros(lengths[K - i]);
      var z' := Zeros(lengths[K - (i - 1)]);
      RebuildUnfold(w, lengths, coefs, z, i, lvl - 1, lvl);
      LevelStepZeros(w, lengths, coefs, i, lvl - 1, lvl);
      assert LevelStep(w, lengths, coefs, z, i, lvl - 1, lvl) == z';
      RebuildZerosAbove(w, lengths, coefs, i - 1, lvl);
    }
  }

  /** The level-lvl detail reconstruction, as a rebuild from the top level. */
  lemma DetailRecIsRebuild(w: Wavelet, lengths: seq<nat>, coefs: seq<real>, lvl: nat)
    requires RecInput(w, lengths, coefs) && 1 <= lvl < |lengths|
    ensures DetailRec(w, lengths, coefs, lvl)
         == Rebuild(w, lengths, coefs, Zeros(lengths[0]), |lengths| - 1, lvl - 1, lvl)
  {
    RebuildZerosAbove(w, lengths, coefs, |lengths| - 1, lvl);
  }

  /** Rebuilding the stored approximations with the details of (lvl, T]
      is the sum of two rebuilds: zeros with the details of lvl+1 alone, and
      the approximations with the details of (lvl+1, T]. */
  lemma ApproxRebuildSplit(w: Wavelet, lengths: seq<nat>, coefs: seq<real>, lvl: nat)
    requires RecInput(w, lengths, coefs) && lvl + 1 < |lengths|
    ensures Rebuild(w, lengths, coefs, coefs[..lengths[0]], |lengths| - 1, lvl, |lengths| - 1)
         == Add(Rebuild(w, lengths, coefs, Zeros(lengths[0]), |lengths| - 1, lvl, lvl + 1),
                Rebuild(w, lengths, coefs, coefs[..lengths[0]], |lengths| - 1, lvl + 1, |lengths| - 1))
  {
    var a := coefs[..lengths[0]];
    AddZerosLeft(a);
    RebuildAdd(w, lengths, coefs, Zeros(|a|), a, |lengths| - 1, lvl, lvl + 1, |lengths| - 1);
  }

  /** The approximation of one level is the approximation of the next
      coarser level plus the details of that coarser level, each carried
      back to the signal. */
  lemma WrcoefApproxSplit(w: Wavelet, lengths: seq<nat>, coefs: seq<real>, lvl: nat)
    requires RecInput(w, lengths, coefs) && lvl + 1 < |lengths|
    ensures ApproxRec(w, lengths, coefs, lvl)
         == Add(ApproxRec(w, lengths, coefs, lvl + 1), DetailRec(w, lengths, coefs, lvl + 1))
  {
    var T := |lengths| - 1;
    var rz := Rebuild(w, lengths, coefs, Zeros(lengths[0]), T, lvl, lvl + 1);
    var ra := Rebuild(w, lengths, coefs, coefs[..lengths[0]], T, lvl + 1, T);
    assert ApproxRec(w, lengths, coefs, lvl + 1) == ra;
    DetailRecIsRebuild(w, lengths, coefs, lvl + 1);
    ApproxRebuildSplit(w, lengths, coefs, lvl);
    AddCommutes(rz, ra);
  }

  /** The approximations wrcoef holds at level i when it starts from `a`
      at level `top`: each inverse level from `top` down to i+1, each cut
      to the length of the next finer level. */
  function Descent(w: Wavelet, lengths: seq<nat>, coefs: seq<real>, a: seq<real>, top: nat, lo: nat, hi: nat, i: nat): (r: seq<real>)
    requires RecInput(w, lengths, coefs)
    requires 1 <= i <= top < |lengths| && |a| == lengths[|lengths| - top]
    ensures |r| == lengths[|lengths| - i] && w.Len() / 2 < |r|
    decreases top - i
  {
    LayoutFacts(lengths, w.Len(), i);
    if i == top then a
    else LevelStep(w, lengths, coefs, Descent(w, lengths, coefs, a, top, lo, hi, i + 1), i + 1, lo, hi)
  }

  /** Rebuilding from any intermediate state of the descent gives the same
      result as rebuilding from its start. */
  lemma {:induction false} DescentRebuild(w: Wavelet, lengths: seq<nat>, coefs: seq<real>, a: seq<real>, top: nat, lo: nat, hi: nat, i: nat)
    requires RecInput(w, lengths, coefs)
    requires 1 <= i <= top < |lengths| && |a| == lengths[|lengths| - top]
    ensures Rebuild(w, lengths, coefs, Descent(w, lengths, coefs, a, top, lo, hi, i), i, lo, hi)
         == Rebuild(w, lengths, coefs, a, top, lo, hi)
    decreases top - i
  {
    if i < top {
      RebuildUnfold(w, lengths, coefs, Descent(w, lengths, coefs, a, top, lo, hi, i + 1), i + 1, lo, hi);
      DescentRebuild(w, lengths, coefs, a, top, lo, hi, i + 1);
    }
  }

  /** A rebuild ends with the idwt of the level-1 state of the descent. */
  lemma DescentEnd(w: Wavelet, lengths: seq<nat>, coefs: seq<real>, a: seq<real>, top: nat, lo: nat, hi: nat)
    requires RecInput(w, lengths, coefs)
    requires 1 <= top < |lengths| && |a| == lengths[|lengths| - top]
    ensures Rebuild(w, lengths, coefs, a, top, lo, hi)
         == IdwtRef(w, Descent(w, lengths, coefs, a, top, lo, hi, 1), LevelDetails(coefs, lengths, 1, lo, hi))
  {
    DescentRebuild(w, lengths, coefs, a, top, lo, hi, 1);
    LayoutFacts(lengths, w.Len(), 1);
  }

  /** The approximation branch ends with the rebuild of level `lvl`. */
  lemma ApproxFinish(w: Wavelet, lengths: seq<nat>, coefs: seq<real>, lvl: nat, cA: seq<real>, r: seq<real>)
    requires RecInput(w, lengths, coefs) && 1 <= lvl < |lengths|
    requires cA == Descent(w, lengths, coefs, coefs[..lengths[0]], |lengths| - 1, lvl, |lengths| - 1, lvl)
    requires r == IdwtRef(w, Descent(w, lengths, coefs, cA, lvl, 0, 0, 1), Zeros(lengths[|lengths| - 1]))
    ensures r == ApproxRec(w, lengths, coefs, lvl)
  {
    var T := |lengths| - 1;
    var a0 := coefs[..lengths[0]];
    var below := Rebuild(w, lengths, coefs, cA, lvl, 0, 0);
    var above := Rebuild(w, lengths, coefs, a0, T, lvl, T);
    assert ApproxRec(w, lengths, coefs, lvl) == above;
    DescentRebuild(w, lengths, coefs, a0, T, lvl, T, lvl);
    assert Rebuild(w, lengths, coefs, cA, lvl, lvl, T) == above;
    RebuildBelow(w, lengths, coefs, cA, lvl, lvl, T);
    assert below == above;
    DescentEnd(w, lengths, coefs, cA, lvl, 0, 0);
    assert LevelDetails(coefs, lengths, 1, 0, 0) == Zeros(lengths[|lengths| - 1]);
    assert r == below;
  }

  /** With no level left, the approximation branch is already complete. */
  lemma ApproxFinishTop(w: Wavelet, lengths: seq<nat>, coefs: seq<real>, r: seq<real>)
    requires RecInput(w, lengths, coefs)
    requires r == IdwtRef(w, Descent(w, lengths, coefs, coefs[..lengths[0]], |lengths| - 1, 0, |lengths| - 1, 1),
                          LevelDetails(coefs, lengths, 1, 0, |lengths| - 1))
    ensures r == ApproxRec(w, lengths, coefs, 0)
  {
    DescentEnd(w, lengths, coefs, coefs[..lengths[0]], |lengths| - 1, 0, |lengths| - 1);
  }

  /** The detail branch ends with the rebuild of the details of `lvl`. */
  lemma DetailFinish(w: Wavelet, lengths: seq<nat>, coefs: seq<real>, lvl: nat, cA: seq<real>, r: seq<real>)
    requires RecInput(w, lengths, coefs) && 2 <= lvl < |lengths|
    requires cA == LevelStep(w, lengths, coefs, Zeros(lengths[|lengths| - lvl]), lvl, lvl - 1, lvl)
    requires r == IdwtRef(w, Descent(w, lengths, coefs, cA, lvl - 1, 0, 0, 1), Zeros(lengths[|lengths| - 1]))
    ensures r == DetailRec(w, lengths, coefs, lvl)
  {
    RebuildUnfold(w, lengths, coefs, Zeros(lengths[|lengths| - lvl]), lvl, lvl - 1, lvl);
    RebuildBelow(w, lengths, coefs, cA, lvl - 1, lvl - 1, lvl);
    DescentEnd(w, lengths, coefs, cA, lvl - 1, 0, 0);
  }

  /** wrcoef: clamp the level, run the branch's inverse levels, then finish
      with zero details down to level 1. The result has the length idwt
      rebuilds from the level-1 coefficients. */
  method Wrcoef(coefs: seq<real>, lengths: seq<nat>, t: ReconType, w: Wavelet, level: nat) returns (result: seq<real>)
    requires RecInput(w, lengths, coefs)
    ensures result == WrcoefRef(w, coefs, lengths, t, level)
    ensures |result| == 2 * lengths[|lengths| - 1] - w.Len() + 2
  {
    var maxLevel := |lengths| - 1;
    var lvl := level;
    if lvl > maxLevel {
      lvl := maxLevel;
    } else if lvl == 0 && t == ReconDetail {
      lvl := 1;
    }
    assert lvl == WrcoefLevel(t, level, maxLevel);
    if t == ReconApprox {
      result := ApproxBranch(coefs, lengths, w, lvl);
    } else {
      result := DetailBranch(coefs, lengths, w, lvl);
    }
  }

  /** The approximation branch of wrcoef followed by its zero-detail levels. */
  method ApproxBranch(coefs: seq<real>, lengths: seq<nat>, w: Wavelet, lvl: nat) returns (result: seq<real>)
    requires RecInput(w, lengths, coefs) && lvl < |lengths|
    ensures result == ApproxRec(w, lengths, coefs, lvl)
  {
    var cA, i, r := ApproxLevels(coefs, lengths, w, lvl);
    result := ZeroLevels(coefs, lengths, w, cA, i, r);
    if lvl == 0 {
      ApproxFinishTop(w, lengths, coefs, result);
    } else {
      ApproxFinish(w, lengths, coefs, lvl, cA, result);
    }
  }

  /** The detail branch of wrcoef followed by its zero-detail levels. */
  method DetailBranch(coefs: seq<real>, lengths: seq<nat>, w: Wavelet, lvl: nat) returns (result: seq<real>)
    requires RecInput(w, lengths, coefs) && 1 <= lvl < |lengths|
    ensures result == DetailRec(w, lengths, coefs, lvl)
  {
    var cA, i, r := DetailLevel(coefs, lengths, w, lvl);
    result := ZeroLevels(coefs, lengths, w, cA, i, r);
    if lvl > 1 {
      DetailFinish(w, lengths, coefs, lvl, cA, result);
    }
  }

  /** The approximation branch of wrcoef: idwt with the stored details of
      every level above `lvl`, starting from the stored approximations. */
  method ApproxLevels(coefs: seq<real>, lengths: seq<nat>, w: Wavelet, lvl: nat)
      returns (cA: seq<real>, i: nat, result: seq<real>)
    requires RecInput(w, lengths, coefs) && lvl < |lengths|
    ensures i == lvl
    ensures 1 <= i ==> cA == Descent(w, lengths, coefs, coefs[..lengths[0]], |lengths| - 1, lvl, |lengths| - 1, i)
    ensures i == 0 ==> result == IdwtRef(w, Descent(w, lengths, coefs, coefs[..lengths[0]], |lengths| - 1, lvl, |lengths| - 1, 1),
                                         LevelDetails(coefs, lengths, 1, lvl, |lengths| - 1))
  {
    var T := |lengths| - 1;
    var a0 := coefs[..lengths[0]];
    cA := a0;
    var iCoefs := lengths[0];
    i := T;
    result := [];
    while i > lvl
      invariant lvl <= i <= T
      invariant 1 <= i ==> cA == Descent(w, lengths, coefs, a0, T, lvl, T, i) && iCoefs == DetailOffset(lengths, i)
      invariant i == 0 ==> result == IdwtRef(w, Descent(w, lengths, coefs, a0, T, lvl, T, 1), LevelDetails(coefs, lengths, 1, lvl, T))
    {
      result, cA, iCoefs := ApproxLevel(coefs, lengths, w, cA, iCoefs, i, lvl);
      i := i - 1;
    }
  }

  /** One round of the approximation loop of wrcoef: the level's details
      start at iCoefs, the offset moves past them, and one inverse level
      turns the approximations into those of the next finer level. */
  method ApproxLevel(coefs: seq<real>, lengths: seq<nat>, w: Wavelet, cA: seq<real>, iCoefs: nat, i: nat, lvl: nat)
      returns (result: seq<real>, next: seq<real>, iNext: nat)
    requires RecInput(w, lengths, coefs) && lvl < i < |lengths| && |cA| == lengths[|lengths| - i]
    requires iCoefs == DetailOffset(lengths, i)
    ensures w.Len() / 2 < |cA| && result == IdwtRef(w, cA, LevelDetails(coefs, lengths, i, lvl, |lengths| - 1))
    ensures i > 1 ==> lengths[|lengths| - i + 1] <= |result| && next == result[..lengths[|lengths| - i + 1]]
    ensures i > 1 ==> iNext == DetailOffset(lengths, i - 1)
  {
    var T := |lengths| - 1;
    DetailOffsetBound(lengths, i);
    var cD := coefs[iCoefs .. iCoefs + lengths[T + 1 - i]];
    assert cD == LevelDetails(coefs, lengths, i, lvl, T);
    result, next := InverseLevel(coefs, lengths, w, cA, cD, i);
    iNext := iCoefs + lengths[T + 1 - i];
  }

  /** The detail branch of wrcoef: find the level's details, then one idwt
      with zero approximations. */
  method DetailLevel(coefs: seq<real>, lengths: seq<nat>, w: Wavelet, lvl: nat)
      returns (cA: seq<real>, i: nat, result: seq<real>)
    requires RecInput(w, lengths, coefs) && 1 <= lvl < |lengths|
    ensures i == lvl - 1
    ensures 1 <= i ==> cA == LevelStep(w, lengths, coefs, Zeros(lengths[|lengths| - lvl]), lvl, lvl - 1, lvl)
    ensures i == 0 ==> result == DetailRec(w, lengths, coefs, lvl)
  {
    var K := |lengths|;
    var iCoefs := lengths[0];
    i := K - 1;
    while i > lvl
      invariant lvl <= i <= K - 1 && iCoefs == DetailOffset(lengths, i)
    {
      iCoefs := iCoefs + lengths[K - i];
      i := i - 1;
    }
    DetailOffsetBound(lengths, lvl);
    var cD := coefs[iCoefs .. iCoefs + lengths[K - lvl]];
    assert cD == LevelDetails(coefs, lengths, lvl, lvl - 1, lvl);
    result, cA := InverseLevel(coefs, lengths, w, Zeros(lengths[K - lvl]), cD, lvl);
    i := i - 1;
  }

  /** One inverse level of wrcoef: idwt of the level's approximations and
      details and, above level 1, the copy of as many values as the next
      finer level holds into the approximation buffer. */
  method InverseLevel(coefs: seq<real>, lengths: seq<nat>, w: Wavelet, cA: seq<real>, cD: seq<real>, i: nat)
      returns (result: seq<real>, next: seq<real>)
    requires RecInput(w, lengths, coefs) && 1 <= i < |lengths|
    requires |cA| == lengths[|lengths| - i] && |cD| == |cA|
    ensures w.Len() / 2 < |cA| && result == IdwtRef(w, cA, cD)
    ensures i > 1 ==> lengths[|lengths| - i + 1] <= |result| && next == result[..lengths[|lengths| - i + 1]]
  {
    LayoutFacts(lengths, w.Len(), i);
    result := Idwt(cA, cD, w);
    next := cA;
    if i != 1 {
      next := result[..lengths[|lengths| - i + 1]];
    }
  }

  /** The last loop of wrcoef: idwt with zero details from level i down to
      level 1; nothing is left to do when i is 0. */
  method ZeroLevels(coefs: seq<real>, lengths: seq<nat>, w: Wavelet, cA: seq<real>, i: nat, result0: seq<real>)
      returns (result: seq<real>)
    requires RecInput(w, lengths, coefs) && i < |lengths|
    requires 1 <= i ==> |cA| == lengths[|lengths| - i]
    ensures 1 <= i ==> result == IdwtRef(w, Descent(w, lengths, coefs, cA, i, 0, 0, 1), Zeros(lengths[|lengths| - 1]))
    ensures i == 0 ==> result == result0
  {
    result := result0;
    var j := i;
    var a := cA;
    while j > 0
      invariant 0 <= j <= i
      invariant 1 <= j ==> a == Descent(w, lengths, coefs, cA, i, 0, 0, j)
      invariant j == 0 && 1 <= i ==> result == IdwtRef(w, Descent(w, lengths, coefs, cA, i, 0, 0, 1), Zeros(lengths[|lengths| - 1]))
      invariant i == 0 ==> result == result0
    {
      result, a := InverseLevel(coefs, lengths, w, a, Zeros(|a|), j);
      j := j - 1;
    }
  }

  // ---------------------------------------------------------------------------
  // wavedec meets wrcoef
  // ---------------------------------------------------------------------------

  /** The length vector of a decomposition that fits satisfies everything
      wrcoef relies on. */
  lemma WavedecLayout(n: nat, lenFilter: nat, L: nat)
    requires 1 <= lenFilter && 1 <= L && lenFilter * Pow2(L) <= n
    ensures CoefLayout(WavedecLengths(n, lenFilter, L), lenFilter)
  {
    var lengths := WavedecLengths(n, lenFilter, L);
    forall j: nat | j < |lengths|
      ensures LayoutAt(lengths, lenFilter, j)
    {
      if 1 <= j {
        DecomposableToLevel(n, lenFilter, L, L + 1 - j);
      }
      if 1 <= j < L {
        DecomposableToLevel(n, lenFilter, L, L - j);
        CoefLengthShrinks(n, lenFilter, L - j);
        CoefLengthRebuilds(n, lenFilter, L - j);
      }
    }
  }

  /** Cutting a block off the front of a suffix. */
  lemma SuffixSplit(c: seq<real>, off: nat, d: seq<real>, rest: seq<real>)
    requires off <= |c| && c[off..] == d + rest
    ensures off + |d| <= |c| && c[off .. off + |d|] == d && c[off + |d|..] == rest
  {
    assert c[off .. off + |d|] == c[off..][..|d|];
    assert c[off + |d|..] == c[off..][|d|..];
  }

  lemma DetailsUnfold(w: Wavelet, x: seq<real>, i: nat)
    requires w.Valid() && 1 <= i && Decomposable(|x|, w.Len(), i)
    ensures Details(w, x, i) == Detail(w, x, i) + Details(w, x, i - 1)
  {
  }

  /** Total length of the details of levels L, ..., i+1. */
  function LevelsLength(n: nat, lenFilter: nat, L: nat, i: nat): nat
    requires 1 <= lenFilter && i <= L
    decreases L
  {
    if L == i then 0 else CoefLength(n, lenFilter, L) + LevelsLength(n, lenFilter, L - 1, i)
  }

  /** The same total, peeled at the finer end. */
  lemma {:induction false} LevelsLengthInner(n: nat, lenFilter: nat, L: nat, i: nat)
    requires 1 <= lenFilter && i < L
    ensures LevelsLength(n, lenFilter, L, i) == LevelsLength(n, lenFilter, L, i + 1) + CoefLength(n, lenFilter, i + 1)
    decreases L
  {
    if i + 1 < L {
      LevelsLengthInner(n, lenFilter, L - 1, i);
    }
  }

  /** The running offset of level i in wavedec's length vector is the
      approximation length plus the lengths of the coarser details. */
  lemma {:induction false} WavedecOffset(n: nat, lenFilter: nat, L: nat, i: nat)
    requires 1 <= lenFilter && 1 <= i <= L
    ensures DetailOffset(WavedecLengths(n, lenFilter, L), i) == CoefLength(n, lenFilter, L) + LevelsLength(n, lenFilter, L, i)
    decreases L - i
  {
    var lengths := WavedecLengths(n, lenFilter, L);
    if i < L {
      WavedecOffset(n, lenFilter, L, i + 1);
      DetailOffsetStep(lengths, i);
      assert lengths[L - i] == CoefLength(n, lenFilter, L + 1 - (L - i));
      LevelsLengthInner(n, lenFilter, L, i);
    }
  }

  /** The details of levels L, ..., i+1 laid end to end. */
  function DetailsBetween(w: Wavelet, x: seq<real>, L: nat, i: nat): (r: seq<real>)
    requires w.Valid() && i <= L && Decomposable(|x|, w.Len(), L)
    ensures |r| == LevelsLength(|x|, w.Len(), L, i)
    decreases L
  {
    if L == i then [] else Detail(w, x, L) + DetailsBetween(w, x, L - 1, i)
  }

  lemma ConcatAssoc(full: seq<real>, a: seq<real>, rest: seq<real>, b: seq<real>, c: seq<real>)
    requires full == a + rest && rest == b + c
    ensures full == (a + b) + c
  {
  }

  /** The details of levels L, ..., 1 are those of L, ..., i+1 followed by
      those of i, ..., 1. */
  lemma {:induction false} DetailsSuffix(w: Wavelet, x: seq<real>, L: nat, i: nat)
    requires w.Valid() && i <= L && Decomposable(|x|, w.Len(), L)
    ensures Decomposable(|x|, w.Len(), i)
    ensures Details(w, x, L) == DetailsBetween(w, x, L, i) + Details(w, x, i)
    decreases L
  {
    if i < L {
      DetailsSuffix(w, x, L - 1, i);
      DetailsUnfold(w, x, L);
      ConcatAssoc(Details(w, x, L), Detail(w, x, L), Details(w, x, L - 1), DetailsBetween(w, x, L - 1, i), Details(w, x, i));
    }
  }

  /** A block found after a known prefix. */
  lemma BlockAfter(full: seq<real>, p: seq<real>, mid: seq<real>, d: seq<real>, rest: seq<real>, off: nat)
    requires full == p + mid && mid == d + rest && off == |p|
    ensures off + |d| <= |full| && full[off .. off + |d|] == d
  {
    assert full[off .. off + |d|] == mid[..|d|];
  }

  /** The entry of wavedec's length vector for level i is the length of
      the level-i details. */
  lemma WavedecDetailLength(w: Wavelet, x: seq<real>, L: nat, lengths: seq<nat>, i: nat)
    requires w.Valid() && 1 <= i <= L && Decomposable(|x|, w.Len(), i)
    requires lengths == WavedecLengths(|x|, w.Len(), L)
    ensures |lengths| == L + 1 && lengths[|lengths| - i] == |Detail(w, x, i)|
  {
    WavedecLengthsAt(|x|, w.Len(), L, i);
  }

  /** wavedec's length vector adds up to the coefficient count and its
      first entry covers the level-L approximations. */
  lemma WavedecTotal(w: Wavelet, x: seq<real>, L: nat, lengths: seq<nat>, coefs: seq<real>)
    requires w.Valid() && 1 <= L && Decomposable(|x|, w.Len(), L)
    requires lengths == WavedecLengths(|x|, w.Len(), L) && coefs == Approx(w, x, L) + Details(w, x, L)
    ensures SumNat(lengths) == |coefs| && coefs[..lengths[0]] == Approx(w, x, L)
  {
    var a := Approx(w, x, L);
    SumNatConcat([CoefLength(|x|, w.Len(), L)], LengthsDesc(|x|, w.Len(), L));
    assert [CoefLength(|x|, w.Len(), L)] + LengthsDesc(|x|, w.Len(), L) == lengths;
    assert coefs[..|a|] == a;
  }

  /** wavedec tiles its output exactly as wrcoef reads it: the first
      lengths[0] values are the level-L approximations and the block wrcoef
      takes for level i holds the level-i details. */
  lemma WavedecBlocks(w: Wavelet, x: seq<real>, L: nat, lengths: seq<nat>, coefs: seq<real>, i: nat)
    requires w.Valid() && 1 <= i <= L && Decomposable(|x|, w.Len(), L)
    requires lengths == WavedecLengths(|x|, w.Len(), L) && coefs == Approx(w, x, L) + Details(w, x, L)
    ensures Decomposable(|x|, w.Len(), i)
    ensures SumNat(lengths) == |coefs| && coefs[..lengths[0]] == Approx(w, x, L)
    ensures DetailBlock(coefs, lengths, i) == Detail(w, x, i)
  {
    WavedecTotal(w, x, L, lengths, coefs);
    var a := Approx(w, x, L);
    DetailsSuffix(w, x, L, i);
    var front := DetailsBetween(w, x, L, i);
    ConcatAssoc(coefs, a, Details(w, x, L), front, Details(w, x, i));
    DetailsUnfold(w, x, i);
    var d := Detail(w, x, i);
    WavedecOffset(|x|, w.Len(), L, i);
    var off := DetailOffset(lengths, i);
    BlockAfter(coefs, a + front, Details(w, x, i), d, Details(w, x, i - 1), off);
    WavedecDetailLength(w, x, L, lengths, i);
    DetailBlockIs(coefs, lengths, i, d, off);
  }

  /** The level-i block is any slice of the right length at the level's
      offset. */
  lemma DetailBlockIs(coefs: seq<real>, lengths: seq<nat>, i: nat, d: seq<real>, off: nat)
    requires 1 <= i < |lengths| && SumNat(lengths) <= |coefs| && lengths[|lengths| - i] == |d|
    requires off == DetailOffset(lengths, i) && off + |d| <= |coefs| && coefs[off .. off + |d|] == d
    ensures DetailBlock(coefs, lengths, i) == d
  {
  }

  /** What wavedec returns is a valid input of wrcoef (WavedecBlocks says
      that wrcoef's reads of it are exactly wavedec's writes). */
  lemma WavedecFeedsWrcoef(w: Wavelet, x: seq<real>, L: nat, lengths: seq<nat>, coefs: seq<real>)
    requires w.Valid() && 1 <= L && w.Len() * Pow2(L) <= |x| && Decomposable(|x|, w.Len(), L)
    requires lengths == WavedecLengths(|x|, w.Len(), L) && coefs == Approx(w, x, L) + Details(w, x, L)
    ensures RecInput(w, lengths, coefs) && SumNat(lengths) == |coefs|
  {
    WavedecLayout(|x|, w.Len(), L);
    WavedecTotal(w, x, L, lengths, coefs);
  }

  // ---------------------------------------------------------------------------
  // The length of wrcoef's output against the channel it came from
  // ---------------------------------------------------------------------------

  /** wrcoef rebuilds 2 lengths[max] - M + 2 values from a decomposition of
      n samples: n + 1 of them when n + M - 1 is even. The blink detector
      hands wrcoef buffers of n values. */
  lemma WrcoefLengthAsWritten(n: nat, lenFilter: nat, L: nat)
    requires 1 <= lenFilter && 1 <= L
    ensures var lengths := WavedecLengths(n, lenFilter, L);
      IdwtResultLength(lengths[|lengths| - 1], lenFilter) == if (n + lenFilter - 1) % 2 == 0 then n + 1 else n
  {
    WavedecLengthsAt(n, lenFilter, L, 1);
    IdwtResultLengthAfterDown(n, lenFilter);
  }

  /** A channel of 2305 samples passes the seven-level guard, and the
      approximation rebuilt from its coif3 decomposition has 2306 values. */
  lemma WrcoefOverrunExample()
    ensures 7 <= MaxLevel(2305, Coif3Length)
    ensures IdwtResultLength(WavedecLengths(2305, Coif3Length, 7)[7], Coif3Length) == 2306
  {
    LevelFits(2305, Coif3Length, 7);
    Pow2Table();
    Pow2Add(4, 3);
    Pow2Add(2, 1);
    WrcoefLengthAsWritten(2305, Coif3Length, 7);
  }

  /** The rebuilt signal is never shorter than the channel. */
  lemma WrcoefCoversChannel(n: nat, lenFilter: nat, L: nat)
    requires 1 <= lenFilter && 1 <= L
    ensures var lengths := WavedecLengths(n, lenFilter, L);
      n <= IdwtResultLength(lengths[|lengths| - 1], lenFilter) <= n + 1
  {
    WrcoefLengthAsWritten(n, lenFilter, L);
  }

  /** wrcoef into a buffer of n values: the first n values of the
      reconstruction, so the channel-sized buffer is filled exactly. */
  method WrcoefChannel(coefs: seq<real>, lengths: seq<nat>, t: ReconType, w: Wavelet, level: nat, n: nat)
      returns (out: seq<real>)
    requires RecInput(w, lengths, coefs) && n <= IdwtResultLength(lengths[|lengths| - 1], w.Len())
    ensures |out| == n && out == WrcoefRef(w, coefs, lengths, t, level)[..n]
  {
    var full := Wrcoef(coefs, lengths, t, w, level);
    out := full[..n];
  }
}
